=== FILE: README.md ===
# js-ultimate in Dafny

A model of the core of js-ultimate, a TypeScript utility library, with proofs
of what its functions promise. The model covers:

- the path engine: `parsePath`, `hasDangerousKey` and the depth guards;
- the value classifiers `isObject` and `isPlainObjectCheck`, and `shallowClone`;
- the object functions `get`, `set`, `setImmutable`, `mergeDeep`, `cloneDeep`,
  `pick` and `omit`;
- the `lang` functions `isEqual`, `isEmpty` and `clamp`;
- the string functions `splitWords`, `kebabCase`, `snakeCase` and `camelCase`;
- the array functions `chunk`, `difference`, `intersection`, `uniq`,
  `flattenDeep` and `compact`;
- the collection functions `groupBy` and `keyBy`;
- the stateful wrappers `once` and `throttle`;
- the legacy modules `typed.ts`, `utils.ts`, `array.ts` and `string.ts`.
  These are modelled as functions of their own, next to the newer ones they
  differ from.

## How JavaScript is represented

- `JsValue` (js_value.dfy) holds the values.
  - Primitives are datatype cases.
  - A number is `NaN` or a finite real.
  - Every object is a reference into a `Store`: a map from addresses to
    objects, plus the next free address. This lets identity (`===` on
    objects), sharing, cycles and in-place mutation be stated.
  - An object is its kind plus its own enumerable string-keyed properties in
    enumeration order. The kinds are a plain object (with or without
    `Object.prototype`), array, Date, RegExp, Map, Set, other instance and
    function.
  - Array elements live in the kind. `Object.keys` of an array lists the
    index keys first, spelled in decimal (decimal.dfy).
- Functions that allocate take a store and return the new one. The lemmas
  then say which objects changed, which were created and which were left
  alone.
- Some recursions would overflow the stack on cyclic data in JavaScript:
  `isEqual` and the legacy `deepEqual`. They take a rank map that witnesses
  an acyclic store. `flattenDeep` works on a tree datatype of nested arrays,
  in which an array cannot contain itself.
- `cloneDeep` terminates by its `seen` set.
- `mergeDeep` terminates by its depth cap of 50.
- `once` and `throttle` are state records with transition functions.
  - The clock is passed in explicitly.
  - A timer firing is an event of its own.
  - The wrapped function is a function from its arguments to how it
    completed: a returned value or a thrown one.
- A call that throws in JavaScript returns an error value
  (`Wrappers.Result`) in the model.
- Helper modules hold notions shared across the model, and their members are
  not listed below:
  - `Chars`: ASCII `[A-Z]` and `\w`, and the JavaScript white-space set for `\s`;
  - `Strings`: single-character `split`, `join` and `replace`;
  - `Seqs`: order-keeping filtering and concatenation;
  - `Decimal`: index keys;
  - `Wrappers`.

## Model

| member | source | states |
|---|---|---|
| Path.ParsePath | src/_internal/path.ts:7-10 | an array is returned as is; a string gives one more key than it has dots, none of them holding a dot, and joining them with "." gives the string back |
| Path.EmptyPathIsOneEmptyKey | src/_internal/path.ts:9 | the empty string parses to one empty key |
| Path.ParseJoined | src/_internal/path.ts:9 | parsing the dotted join of dot-free keys gives the keys back |
| Path.DangerousIff | src/_internal/path.ts:1-17 | the scan reports exactly the paths holding `__proto__`, `constructor` or `prototype` |
| Path.HasDangerousKey | src/_internal/path.ts:15-17 | a path the scan passes holds none of `__proto__`, `constructor` and `prototype`; Path.DangerousIff characterises it as "some key is `__proto__`, `constructor` or `prototype`", and Path.DangerousConcat shows it distributes over concatenation |
| Path.DangerousConcat | src/_internal/path.ts:15-17 | a joined path is dangerous exactly when one of its parts is |
| Guards.ValidatePathDepth | src/_internal/guards.ts:3-17 | throws RangeError exactly when the path holds more than 100 keys, with the source's message |
| Guards.CheckRecursionDepth | src/_internal/guards.ts:4-28 | throws RangeError exactly when the depth exceeds 50, with the source's message |
| Guards.GuardBoundaries | src/_internal/guards.ts:3-23 | 100 keys and depth 50 pass; 101 keys and depth 51 throw |
| TypeChecks.IsObject | src/_internal/typeChecks.ts:4-6 | `isObject` accepts exactly the non-array, non-function objects |
| TypeChecks.IsPlainObjectCheck | src/_internal/typeChecks.ts:11-17 | `isPlainObjectCheck` accepts exactly the objects with prototype null or Object.prototype, and only what `isObject` accepts |
| ShallowClone.ShallowClone | src/_internal/clone.ts:4-10 | an array gives a fresh array holding the same elements; any other non-function object gives a fresh plain object with its own enumerable keys in order and their values; primitives and functions come back as they are; the store only grows |
| SplitWords.CollapseShape | src/_internal/splitWords.ts:27 | after the first replace every separator left is a single space, no two spaces are adjacent, and the result starts with a space exactly when the input starts with a separator |
| SplitWords.BreakBeforeCapitalShape | src/_internal/splitWords.ts:28 | after the second replace every capital is preceded by a space or by another capital |
| SplitWords.NoCapitalsUntouched | src/_internal/splitWords.ts:28-30 | a string without capitals passes the case-boundary replaces and the lowercasing unchanged |
| SplitWords.Split | src/_internal/splitWords.ts:20-34 | `splitWords` as written; every word is non-empty and holds no `_`, `-`, white space or capital |
| SplitWords.SplitSeparatorsOnly | src/_internal/splitWords.ts:27-33 | a string made of separators only, the empty string included, gives no words |
| SplitWords.SplitCamelPair | src/_internal/splitWords.ts:28-33 | a lower-to-upper boundary splits two words: `fooBar` gives `foo` and `bar` |
| SplitWords.SplitAcronymPair | src/_internal/splitWords.ts:29-33 | a run of capitals followed by a capitalised word splits before the run's last capital, and the acronym is lowercased |
| SplitWords.SplitExample | src/_internal/splitWords.ts:20-34 | `test123Case` gives `test123` and `case` |
| SplitWords.AcronymExample | src/_internal/splitWords.ts:20-34 | `HTMLParser` gives `html` and `parser` |
| SplitWords.SplitJoin | src/_internal/splitWords.ts:20-34 | words joined with any one separator character split back into the same words |
| SplitWords.SplitRoundTrip | src/_internal/splitWords.ts:20-34 | splitting the kebab-joined words of a string gives the same words again |
| ArrayChunk.NumAdd | src/array/chunk.ts:33 | `index += size` is NaN exactly when an operand is |
| ArrayChunk.ToInteger | src/array/chunk.ts:32 | the integer part `slice` takes of a non-negative number, and 0 for NaN |
| ArrayChunk.RelIndex | src/array/chunk.ts:32 | a `slice` bound is clipped to the length |
| ArrayChunk.Slice | src/array/chunk.ts:32 | a slice is never longer than the array |
| ArrayChunk.Chunk | src/array/chunk.ts:25-37 | a size below 1 or an empty array gives [] |
| ArrayChunk.ChunksFromStep | src/array/chunk.ts:31-34 | one turn of the loop pushes the slice from `index` to `index + size` and moves on by `size` |
| ArrayChunk.ChunksFromCover | src/array/chunk.ts:31-34 | the chunks from a position on concatenate to the rest of the array |
| ArrayChunk.ChunkConcat | src/array/chunk.ts:25-37 | for any size of at least 1, fractional sizes included, the chunks concatenate to the array |
| ArrayChunk.ChunksFromNonEmpty | src/array/chunk.ts:31-34 | every chunk is non-empty and shorter than size + 1 |
| ArrayChunk.ChunksFromCount | src/array/chunk.ts:31-34 | an integer size `m` gives the ceiling of (length - start) / m chunks |
| ArrayChunk.ChunksFromShape | src/array/chunk.ts:31-34 | with an integer size every chunk but the last has exactly `m` elements, and the last has 1 to `m` |
| ArrayChunk.ChunkIntegralSize | src/array/chunk.ts:25-37 | an integer size `m` gives ceil(length / m) chunks, all of size `m` but the last, which has 1 to `m` |
| ArrayChunk.ChunkNaNGivesEmptyChunk | src/array/chunk.ts:26-33 | a NaN size passes the `size < 1` test and gives one empty chunk |
| ArrayChunk.ChunkFixed | src/array/chunk.ts:26 | the corrected function returns [] for a NaN size too |
| ArrayChunk.ChunkFixedSpec | src/array/chunk.ts:25-37 | the corrected chunks are never empty, concatenate to the array for a size of at least 1, and agree with the original for every size that is a number |
| ArrayCompact.Compact | src/array/compact.ts:16-23 | keeps only truthy elements, keeps every truthy element, in order |
| ArrayCompact.FalsyRemoved | src/array/compact.ts:19 | false, null, undefined, 0, '' and NaN are all dropped |
| ArrayCompact.CompactKeepsRepeats | src/array/compact.ts:19 | each truthy value occurs in the result as often as in the input |
| ArrayCompact.AllTruthyIsCopy | src/array/compact.ts:19 | an array of truthy values comes back unchanged |
| ArrayCompact.CompactIdempotent | src/array/compact.ts:19 | compacting twice is compacting once |
| ArrayCompact.CompactExample | src/array/compact.ts:19 | `[0, 1, false, 2, '', 3]` gives `[1, 2, 3]` |
| ArrayDifference.Difference | src/array/difference.ts:25-46 | no exclusion lists gives a copy; otherwise the result is the input filtered by membership in the exclusion set, in order, holding no excluded value and every other element |
| ArrayDifference.DifferenceSpec | src/array/difference.ts:31-43 | the filtered sequence is a subsequence of the input, avoids every exclusion list and keeps every element none of them holds |
| ArrayDifference.DifferenceKeepsRepeats | src/array/difference.ts:39-43 | a value that is not excluded keeps all its repetitions |
| ArrayDifference.DifferenceWithItself | src/array/difference.ts:31-43 | an array minus itself is empty |
| ArrayFlattenDeep.FlattenDeep | src/array/flattenDeep.ts:24-38 | the result holds no arrays |
| ArrayFlattenDeep.FlattenDeepLeaves | src/array/flattenDeep.ts:27-35 | the result lists the non-array leaves in depth-first, left-to-right order |
| ArrayFlattenDeep.FlattenDeepAppend | src/array/flattenDeep.ts:27-35 | flattening a concatenation is concatenating the flattenings |
| ArrayFlattenDeep.FlatIsCopy | src/array/flattenDeep.ts:33 | an array without nested arrays comes back unchanged |
| ArrayFlattenDeep.FlattenDeepIdempotent | src/array/flattenDeep.ts:24-38 | flattening twice is flattening once |
| ArrayFlattenDeep.EmptyContributesNothing | src/array/flattenDeep.ts:28-31 | a nested part without leaves, however deep, contributes nothing |
| ArrayFlattenDeep.FlattenDeepExample | src/array/flattenDeep.ts:24-38 | `[1, [2, [3, [4]]]]` gives `[1, 2, 3, 4]` |
| ArrayIntersection.IncludedInAll | src/array/intersection.ts:35-41 | the inner loop answers true exactly when every other array includes the item |
| ArrayIntersection.Intersection | src/array/intersection.ts:24-50 | no arrays give []; otherwise the result is the `uniq` of the first array's elements found in all others: distinct, each in every array, every common element present, in first-occurrence order |
| ArrayIntersection.PushedIsUniqKeep | src/array/intersection.ts:32-47 | what the loop has pushed after `i` elements is the `uniq` of the kept prefix |
| ArrayIntersection.IntersectionSpec | src/array/intersection.ts:24-50 | the result is distinct, holds exactly the first array's elements that all others include, in first-occurrence order |
| ArrayIntersection.SingleArrayIsUniq | src/array/intersection.ts:36 | one array gives its `uniq` |
| ArrayIntersection.DisjointGivesNothing | src/array/intersection.ts:37-40 | two arrays with nothing in common give [] |
| ArrayIntersection.IntersectionMembers | src/array/intersection.ts:32-47 | an element is in the result exactly when the first array holds it and every other array includes it |
| ArrayUniq.Uniq | src/array/uniq.ts:24-26 | the result is duplicate-free, holds exactly the input's elements and is no longer than the input |
| ArrayUniq.UniqMembers | src/array/uniq.ts:25 | a value is in the result exactly when it is in the input |
| ArrayUniq.UniqOrder | src/array/uniq.ts:25 | elements come in the order of their first occurrences |
| ArrayUniq.UniqOfDistinct | src/array/uniq.ts:25 | a duplicate-free array comes back unchanged |
| ArrayUniq.UniqIdempotent | src/array/uniq.ts:25 | `uniq` twice is `uniq` once |
| ArrayUniq.UniqUnique | src/array/uniq.ts:25 | any duplicate-free sequence with the input's elements in first-occurrence order is the result: the specification determines it |
| ArrayUniq.UniqStep | src/array/uniq.ts:25 | a repeated last element adds nothing; a new one is appended |
| ArrayUniq.UniqKeep | src/array/uniq.ts:25 | filtering then deduplicating is deduplicating then filtering |
| ArrayUniq.NumberAndStringStayApart | src/array/uniq.ts:25 | `1` and `'1'` are different Set members |
| CollectionGroupBy.AddItem | src/collection/groupBy.ts:33-35 | one turn keeps the groups well formed, appends the item to its key's bucket (creating it when new) and leaves every other bucket alone |
| CollectionGroupBy.KeysOf | src/collection/groupBy.ts:33 | the key of each item, in input order |
| CollectionGroupBy.GroupBy | src/collection/groupBy.ts:22-39 | the result lists every key once and exactly the keys that have a bucket |
| CollectionGroupBy.GroupByBuckets | src/collection/groupBy.ts:32-36 | there is a bucket exactly for each key some item has, holding exactly the items with that key, in input order |
| CollectionGroupBy.GroupByOrder | src/collection/groupBy.ts:34 | keys are listed in the order they first come up |
| CollectionGroupBy.GroupByNoEmptyBucket | src/collection/groupBy.ts:34-35 | no bucket is empty |
| CollectionGroupBy.GroupBySizes | src/collection/groupBy.ts:32-36 | the bucket sizes add up to the number of items: each item lands in exactly one bucket |
| CollectionGroupBy.GroupByEmpty | src/collection/groupBy.ts:26 | no items give no keys |
| CollectionKeyBy.KeyByLast | src/collection/keyBy.ts:28-30 | the keys are exactly the items' keys, and each maps to the last item with that key |
| CollectionKeyBy.KeyBy | src/collection/keyBy.ts:18-32 | every value is an input item stored under its own key; KeyByLast gives its keys and values, and KeyByIsLastOfGroup relates it to groupBy |
| CollectionKeyBy.ValuesFromInput | src/collection/keyBy.ts:29 | every value is an item of the input |
| CollectionKeyBy.KeyByIsLastOfGroup | src/collection/keyBy.ts:18-33 | `keyBy` and `groupBy` have the same keys, and `keyBy` holds the last item of each `groupBy` bucket |
| CollectionKeyBy.KeyByEmpty | src/collection/keyBy.ts:22 | no items give `{}` |
| FunctionOnce.Create | src/function/once.ts:31-32 | a new wrapper is not called and has invoked nothing |
| FunctionOnce.Call | src/function/once.ts:34-40 | every call leaves `isCalled` true; a call on a called wrapper changes nothing and returns the cached result; the first call invokes `func` with its own arguments and returns what `func` gave |
| FunctionOnce.Run | src/function/once.ts:34-40 | each call of a sequence gets one reply |
| FunctionOnce.RunWhenCalled | src/function/once.ts:35-39 | once called, the wrapper never changes and every later call returns its result |
| FunctionOnce.OnceSpec | src/function/once.ts:34-46 | over any call sequence `func` runs once, with the first call's arguments, exactly when some call happened; the first call gets `func`'s outcome, every later one the cached value, whatever its arguments; `isCalled` is true exactly after a call |
| FunctionOnce.IsCalledMonotone | src/function/once.ts:42-46 | `isCalled` is false before the first call, true after it, and never goes back |
| FunctionOnce.FalsyResultCached | src/function/once.ts:35-39 | a falsy first result is cached like any other and `func` runs once |
| FunctionOnce.ThrowNotRetried | src/function/once.ts:35-37 | a first call that throws is not retried; later calls return undefined |
| FunctionThrottle.ReadOptions | src/function/throttle.ts:41 | an option is on unless it is passed as false |
| FunctionThrottle.ClampWait | src/function/throttle.ts:43 | a negative wait becomes 0, any other number is kept, and NaN stays NaN |
| FunctionThrottle.Throttle | src/function/throttle.ts:36-47 | a fresh throttled function has no last call, no leading call, no pending timer, and the clamped wait |
| FunctionThrottle.Call | src/function/throttle.ts:58-77 | a call invokes `func` at once exactly when leading is on and either there was no last call or at least `wait` has passed since it; it then records the call time; otherwise it can only schedule a timer with its own arguments, and only when trailing is on, none is pending and no leading call has happened |
| FunctionThrottle.Fire | src/function/throttle.ts:71-75 | a due timer clears the slot, sets the last call time to the firing time and invokes `func` with the arguments of the call that scheduled it; before that nothing happens |
| FunctionThrottle.Cancel | src/function/throttle.ts:49-56 | `cancel` leaves no pending timer, a last call time of 0 and no leading call |
| FunctionThrottle.NegativeWaitIsZero | src/function/throttle.ts:43 | a negative wait behaves exactly as a wait of 0 over any sequence of events |
| FunctionThrottle.FirstCallLeads | src/function/throttle.ts:49-67 | with leading on, the first call after creation or after `cancel` invokes at once |
| FunctionThrottle.LeadingBlocksTrailing | src/function/throttle.ts:65-70 | once a leading call has happened, until `cancel`, no new timer is scheduled |
| FunctionThrottle.LeadingNeverSchedules | src/function/throttle.ts:60-76 | with leading on (the default) no trailing timer is ever scheduled |
| FunctionThrottle.BothOffNeverInvokes | src/function/throttle.ts:61-70 | with leading and trailing both off, `func` is never invoked |
| FunctionThrottle.AtMostOncePerWait | src/function/throttle.ts:58-77 | over calls and timer firings in clock order without `cancel`, consecutive invocations of `func` are at least the clamped wait apart |
| FunctionThrottle.NaNWaitNeverLeads | src/function/throttle.ts:43-61 | with a NaN wait and leading on, even the first call does not invoke `func` |
| FunctionThrottle.FixedFirstCallLeads | src/function/throttle.ts:43-61 | with NaN clamped to 0 as well, the first call leads whatever the wait, and invocations stay at least the wait apart |
| LangClamp.Clamp | src/lang/clamp.ts:26-32 | NaN exactly when an argument is NaN; otherwise the result lies between the two bounds (in either order), is the number when it already does and the nearer bound when not |
| LangClamp.ClampSymmetric | src/lang/clamp.ts:27-29 | swapping the bounds changes nothing |
| LangClamp.ClampIdempotent | src/lang/clamp.ts:31 | clamping twice is clamping once |
| LangIsEmpty.IsEmpty | src/lang/isEmpty.ts:29-36 | nullish values, booleans and numbers are empty; strings and arrays by `length`, Maps and Sets by `size`, other objects by the count of own enumerable keys |
| LangIsEmpty.EmptyIffNoOwnProperty | src/lang/isEmpty.ts:35 | an object other than an array, Map or Set is empty exactly when it has no own property |
| LangIsEmpty.ArrayEmptyIffNoFirst | src/lang/isEmpty.ts:33 | an array is empty exactly when it has no index 0 |
| LangIsEmpty.PickNothingIsEmpty | src/lang/isEmpty.ts:35 | `pick(obj, [])` is empty |
| LangIsEmpty.OmitEverythingIsEmpty | src/lang/isEmpty.ts:35 | omitting every own key leaves an empty object |
| LangIsEqual.IsEqual | src/lang/isEqual.ts:25-60 | strictly equal values are equal (so NaN never equals NaN); a primitive, null or undefined equals only what it is strictly equal to; a function only itself; two distinct Dates exactly when their timestamps are strictly equal |
| LangIsEqual.KeylessObjectsEqual | src/lang/isEqual.ts:47-57 | any two non-array, non-Date objects without own enumerable keys are equal, whatever Map, Set or RegExp content they hold |
| LangIsEqual.DifferentMapsCompareEqual | src/lang/isEqual.ts:47-57 | two Maps with different entries compare equal |
| LangIsEqual.LengthForward | src/lang/isEqual.ts:47-56 | `{ length: 1 }` equals `[5]`: its one key is owned by the array and reads 1 there |
| LangIsEqual.LengthBackward | src/lang/isEqual.ts:47-56 | `[5]` does not equal `{ length: 1 }`: key `0` is not owned by the object |
| LangIsEqual.LengthMakesAsymmetric | src/lang/isEqual.ts:47-56 | so an own `length` key makes the relation asymmetric |
| LangIsEqual.IsEqualSymmetric | src/lang/isEqual.ts:25-60 | over acyclic stores where no object has an own `length` key, the relation is symmetric |
| LangIsEqual.FindKey | src/lang/isEqual.ts:25-60 | the index of the first entry with a given Map key, or none when no entry has it |
| LangIsEqual.GetSome | src/lang/isEqual.ts:25-60 | a Map lookup finds a value exactly when the key is among the entries' keys |
| LangIsEqual.IsEqualFixed | src/lang/isEqual.ts:25-60 | the corrected relation also holds for strictly equal values, and between a primitive and anything exactly when they are strictly equal |
| LangIsEqual.FixedSeparatesMaps | src/lang/isEqual.ts:47-57 | the corrected relation tells the two Maps apart |
| LangIsEqual.MapEntryDiffers | src/lang/isEqual.ts:47-57 | under the corrected relation, a Map entry missing from the other Map or holding an unequal value makes two Maps unequal |
| LangIsEqual.IsEqualFixedSymmetric | src/lang/isEqual.ts:25-60 | the corrected relation is symmetric on acyclic stores whose Maps and Sets have distinct keys and members |
| ObjectClone.CloneFrame | src/object/cloneDeep.ts:22-55 | cloning changes no object that existed before; an object not seen yet is copied to a freshly allocated address |
| ObjectClone.CloneDeepNoMutation | src/object/cloneDeep.ts:22-55 | `cloneDeep` leaves the input, and every object reachable from it, untouched |
| ObjectClone.CloneDeepLeaf | src/object/cloneDeep.ts:23-32 | primitives, null and functions come back as they are; a Date or a RegExp becomes a fresh object of the same kind and contents with no own keys |
| ObjectClone.CloneTree | src/object/cloneDeep.ts:22-55 | on a value whose reachable objects form a tree, the clone mirrors it: every object is copied to a fresh address, keeping kind, order of elements, members, entries and keys, and copies of what they hold; every reached object is marked seen |
| ObjectClone.ExpandMapTree | src/object/cloneDeep.ts:34-38 | a Map becomes a new Map whose entries are copies of the keys and values, in insertion order |
| ObjectClone.ExpandSetTree | src/object/cloneDeep.ts:40-44 | a Set becomes a new Set of copies of its members, in insertion order |
| ObjectClone.ExpandArrayTree | src/object/cloneDeep.ts:46-48 | an array becomes a new array of the same length holding copies of its elements, without its other own keys |
| ObjectClone.ExpandObjectTree | src/object/cloneDeep.ts:50-54 | any other object, class instances included, becomes a plain object with the same own enumerable keys in the same order holding copies of their values |
| ObjectClone.CloneDeepTree | src/object/cloneDeep.ts:22-55 | the same for `cloneDeep` itself, started with an empty `seen` |
| ObjectClone.CloneDeep | src/object/cloneDeep.ts:22-55 | null, undefined, primitives and functions come back as they are; CloneDeepNoMutation states that nothing existing changes, CloneDeepTree gives the copy of a tree, and PropsSeen and CloneDeepSelfReference cover sharing and cycles |
| ObjectClone.PropsSeen | src/object/cloneDeep.ts:27-53 | a property holding an object already seen gets that original object back, not a copy |
| ObjectClone.CloneDeepSelfReference | src/object/cloneDeep.ts:25-54 | cloning an object that holds itself gives a new object whose self-referencing key points at the ORIGINAL object |
| ObjectClone.MirrorsApart | src/object/cloneDeep.ts:22-55 | copies of distinct objects made one after the other are distinct objects |
| PathGet.ReachShift | src/object/get.ts:34-39 | following keys one step at a time is following the first key, then the rest |
| PathGet.WalkSpec | src/object/get.ts:31-41 | the default comes back exactly when a step before the last key lands on null or undefined or the value finally reached is undefined; otherwise that value, null included |
| PathGet.DottedAndArrayAgree | src/object/get.ts:31 | a dotted path and the array of its keys read the same thing |
| PathGet.NoKeys | src/object/get.ts:34-41 | an empty key list returns the object, or the default when it is undefined |
| PathGet.ReadsBackGet | src/object/get.ts:34-41 | along a path that reads a value step by step, `get` returns that value, or the default when it is undefined |
| PathGet.Get | src/object/get.ts:26-42 | the result is undefined only when the default is, and a null or undefined `obj` with at least one key gives the default; WalkSpec says when the default comes back, DottedAndArrayAgree that both path forms read alike, and ReadsBackGet what a readable path returns |
| ObjectMerge.MergeInternalFrame | src/object/mergeDeep.ts:35-66 | past the depth cap the target comes back as is and nothing changes; otherwise the result is a freshly allocated plain object and every object that existed before is untouched |
| ObjectMerge.MergeDeepNoMutation | src/object/mergeDeep.ts:28-33 | `mergeDeep` returns a new plain object and mutates neither the target nor any source |
| ObjectMerge.MergeInternalKeys | src/object/mergeDeep.ts:42-63 | the result's keys are the target's own enumerable keys plus the non-dangerous own keys of the plain-object sources |
| ObjectMerge.MergeDeepKeys | src/object/mergeDeep.ts:28-66 | the same for `mergeDeep` itself |
| ObjectMerge.MergeDeep | src/object/mergeDeep.ts:28-33 | the result is always a new object at the next free address, never the target; MergeDeepNoMutation, MergeDeepKeys, MergeDeepUnsupplied, MergeDeepLastWins and MergeDeepSkipsNonPlain state its result |
| ObjectMerge.MergeSourcesKeys | src/object/mergeDeep.ts:44-63 | the loop over the sources adds exactly the safe keys of the plain-object sources |
| ObjectMerge.MergeKeysKeys | src/object/mergeDeep.ts:47-62 | the loop over one source's keys adds exactly its keys other than `__proto__`, `constructor` and `prototype` |
| ObjectMerge.MergeKeyOther | src/object/mergeDeep.ts:48-61 | one key step leaves every other key, and a dangerous key, as it was |
| ObjectMerge.MergeSourcesOther | src/object/mergeDeep.ts:44-63 | a key no source supplies keeps the value the spread copy gave it |
| ObjectMerge.MergeDeepUnsupplied | src/object/mergeDeep.ts:42-63 | in the result, a key no source supplies (or a dangerous one) is present exactly when the target owns it, with the target's value |
| ObjectMerge.MergeKeyReplace | src/object/mergeDeep.ts:59-61 | when the incoming value is not a plain object, it replaces the result's value as is |
| ObjectMerge.MergeSourcesLastWins | src/object/mergeDeep.ts:44-63 | for a non-plain-object value, the last source that supplies the key wins |
| ObjectMerge.MergeDeepLastWins | src/object/mergeDeep.ts:28-66 | the same for `mergeDeep`: the last source's non-plain-object value is the result's value |
| ObjectMerge.IncomingNested | src/object/mergeDeep.ts:53-58 | when both the result's value and the source's value are plain objects, they are merged one level deeper with the source as the only source |
| ObjectMerge.MergeKeyWrites | src/object/mergeDeep.ts:50-61 | one key step writes the incoming value under the key and changes no other object than the nested merge did |
| ObjectMerge.MergeInternalNested | src/object/mergeDeep.ts:40-58 | two plain objects under the same safe key are merged into a fresh object holding the keys of both, unless that level is past the depth cap, where the target's own nested object is kept |
| ObjectMerge.MergeDeepNoSources | src/object/mergeDeep.ts:42 | with no sources the result is a shallow copy of the target's own enumerable keys, in order |
| ObjectMerge.MergeDeepSkipsNonPlain | src/object/mergeDeep.ts:45 | sources that are not plain objects are skipped: the result is as if they were not passed |
| ObjectMerge.SourceKeysSafe | src/object/mergeDeep.ts:48 | no key a source contributes is dangerous |
| ObjectOmit.Omit | src/object/omit.ts:25-42 | allocates one fresh plain object built from the object's own enumerable keys and leaves the rest of the store alone |
| ObjectOmit.OmittedKeys | src/object/omit.ts:32-38 | a key is in the result exactly when the object owns it and it is not listed, with the object's value |
| ObjectOmit.OmittedOrder | src/object/omit.ts:32-38 | the result is plain and keeps the unlisted own keys in the object's order |
| ObjectOmit.OmitNothing | src/object/omit.ts:32-38 | omitting no keys from a plain object copies its properties, order included |
| ObjectOmit.PickOmitPartition | src/object/omit.ts:32-38 | for string keys, `pick` and `omit` with the same keys split the object's keys into two disjoint parts that make up the whole |
| ObjectPick.Pick | src/object/pick.ts:25-38 | allocates one fresh plain object and leaves the rest of the store alone; picking no keys gives `{}` |
| ObjectPick.PickedKeys | src/object/pick.ts:31-35 | a key ends up in the result exactly when it was asked for and the object has it, with the object's value |
| ObjectSet.InlineListAgrees | src/object/set.ts:33-39 | the inline list of dangerous keys flags exactly the paths the shared dangerous-key check flags |
| ObjectSet.Set | src/object/set.ts:26-53 | a successful `set` returns the object passed in; a path holding `__proto__`, `constructor` or `prototype` changes nothing |
| ObjectSet.StepFacts | src/object/set.ts:44-48 | one pass of the loop steps into an existing object-typed property without touching the heap, or links a fresh `{}` under the key and steps into it, changing no other object |
| ObjectSet.FirstIntermediate | src/object/set.ts:43-48 | after `set`, the first key holds the same object it held before when that was an object, and a freshly created object otherwise |
| ObjectSet.SetFromFrame | src/object/set.ts:41-51 | only the containers the path passes through are modified; every other object keeps its contents |
| ObjectSet.SetFrame | src/object/set.ts:26-53 | the same for `set` itself, the empty key list writing the key "undefined" |
| ObjectSet.SetFromKeepsOthers | src/object/set.ts:43-51 | on an acyclic heap, every existing container on the path keeps each of its other own properties with its value; only the key of its own pass is written |
| ObjectSet.SetKeepsOthers | src/object/set.ts:17-19 | the same for `set` itself: `obj` keeps every own property other than the path's first key, so `set({ a: 1 }, 'b.c.d', 4)` keeps `a` |
| ObjectSet.SetFromReads | src/object/set.ts:41-51 | on an acyclic heap, following the keys from the container after the writes ends at the value written |
| ObjectSet.FreshChainReads | src/object/set.ts:43-51 | below a freshly created object the writes always succeed and the path reads back the value |
| ObjectSet.GetAfterSet | src/object/set.ts:26-53 | on an acyclic heap, `get(obj, path)` after a successful `set(obj, path, value)` gives `value` (or the default when `value` is undefined) |
| ObjectSet.EmptyKeysWriteUndefined | src/object/set.ts:51 | with an empty key array, `set` writes the property named "undefined", and fails exactly when the target is not an object |
| ObjectSetImmutable.SetImmutable | src/object/setImmutable.ts:38-48 | a path with a dangerous key gives back the input and changes nothing; an empty path gives back the value itself |
| ObjectSetImmutable.Level | src/object/setImmutable.ts:56-65 | each level is a fresh plain object holding the keys of `current` (none when it is not an object) with the path key added last when new; the path key holds the rebuilt rest of the path and every other key the value `current` had |
| ObjectSetImmutable.Untouched | src/object/setImmutable.ts:50-66 | no object that existed before is changed or removed, and everything created is freshly allocated |
| ObjectSetImmutable.SetImmutableNoMutation | src/object/setImmutable.ts:38-48 | `setImmutable` mutates nothing reachable from the input |
| ObjectSetImmutable.SetAtDepthReads | src/object/setImmutable.ts:50-66 | following the remaining keys from the result passes only through the new copies and ends at the value |
| ObjectSetImmutable.SetImmutableReadsBack | src/object/setImmutable.ts:38-48 | `get(setImmutable(obj, path, value), path)` is `value` (or the default when `value` is undefined), whatever `obj` is |
| ObjectSetImmutable.SetImmutableRoot | src/object/setImmutable.ts:43-64 | for a non-empty safe path the result is a new plain object, never the input, keeping the input's other own enumerable keys with their values |
| StringCamelCase.BlankedAt | src/string/camelCase.ts:27-28 | the two replaces work character by character: `_` and every character other than a letter, digit, `_` or white space become a space |
| StringCamelCase.WordsShape | src/string/camelCase.ts:26-32 | every word is non-empty and made of small letters and digits only |
| StringCamelCase.WordsOfSpaced | src/string/camelCase.ts:26-32 | lowercase words joined with single spaces come back as the same words |
| StringCamelCase.CamelCase | src/string/camelCase.ts:24-43 | `camelCase` as written; the result is made of letters and digits only and does not start with a capital |
| StringCamelCase.CamelCaseLowered | src/string/camelCase.ts:37-42 | lowercasing the result gives the words concatenated: only the first letter of each later word changes |
| StringCamelCase.CamelCaseSeparatorsOnly | src/string/camelCase.ts:26-34 | a string without letters or digits, the empty string included, gives `''` |
| StringCamelCase.CamelCaseIgnoresCase | src/string/camelCase.ts:30 | the input's case does not matter: lowercasing it first gives the same result |
| StringCamelCase.CamelCaseOneWord | src/string/camelCase.ts:34-42 | a single lowercase word comes back as is |
| StringCamelCase.CamelCasePair | src/string/camelCase.ts:26-42 | two lowercase words around one separator give the first word followed by the second capitalised |
| StringCamelCase.CamelCaseNoCaseBoundary | src/string/camelCase.ts:24-43 | `fooBar` gives `foobar`: unlike the other case functions, a case boundary does not split words |
| StringKebabCase.KebabCase | src/string/kebabCase.ts:30-33 | `kebabCase` as written; the result holds no capital, `_` or white space, and no leading, trailing or doubled `-` |
| StringKebabCase.KebabCaseKeepsWords | src/string/kebabCase.ts:31-32 | splitting the result into words gives the input's words |
| StringKebabCase.KebabCaseCutsBack | src/string/kebabCase.ts:32 | cutting the result at `-` gives the words back |
| StringKebabCase.KebabCaseIdempotent | src/string/kebabCase.ts:30-33 | kebab-casing twice is kebab-casing once |
| StringKebabCase.KebabCaseSeparatorsOnly | src/string/kebabCase.ts:31-32 | a string of separators alone gives `''` |
| StringSnakeCase.SnakeCase | src/string/snakeCase.ts:30-33 | `snakeCase` as written; the result holds no capital, `-` or white space, and no leading, trailing or doubled `_` |
| StringSnakeCase.SnakeCaseKeepsWords | src/string/snakeCase.ts:31-32 | splitting the result into words gives the input's words |
| StringSnakeCase.SnakeCaseIdempotent | src/string/snakeCase.ts:30-33 | snake-casing twice is snake-casing once |
| StringSnakeCase.SnakeIsKebabReplaced | src/string/snakeCase.ts:31-32 | the snake-cased string is the kebab-cased one with every `-` turned into `_` |
| StringSnakeCase.SnakeCaseSeparatorsOnly | src/string/snakeCase.ts:31-32 | a string of separators alone gives `''` |
| LegacyArray.First | src/array.ts:1-6 | the first element of a non-empty array, else the default |
| LegacyArray.FirstOfConcat | src/array.ts:5 | the first of a concatenation is the first of its first part, falling back to the first of the second |
| LegacyArray.Group | src/array.ts:8-21 | whatever it returns is a well-formed grouping |
| LegacyArray.GroupThrowsOnPrototypeNames | src/array.ts:14-16 | `group` throws exactly when some id names a property every object inherits (`toString`, `__proto__`, ...), and otherwise gives what `groupBy` gives |
| LegacyArray.GroupByToStringThrows | src/array.ts:15-16 | an id of `toString` throws where `groupBy` gives a `toString` bucket |
| LegacyArray.GroupFixedSpec | src/array.ts:8-21 | the corrected grouping has a bucket exactly per id, holding exactly the items with that id in order, none empty, sizes adding up to the number of items |
| LegacyArray.GroupFixedIsGroupBy | src/array.ts:8-21 | the corrected grouping is `groupBy` |
| LegacyArray.GroupFixedAgrees | src/array.ts:8-21 | where no id names an inherited property, the original and the corrected grouping agree |
| LegacyString.Capitalize | src/string.ts:3-6 | `capitalize` as written; a non-string gives `''`; a non-empty string keeps its length and every character after the first, and its first character changes exactly when it is a small letter, into the matching capital |
| LegacyString.CapitalizeIdempotent | src/string.ts:5 | capitalizing a capitalized non-empty string changes nothing |
| LegacyString.CapitalizeEmptyThrows | src/string.ts:5 | `capitalize('')` throws a TypeError, since `''[0]` is undefined |
| LegacyString.CapitalizeFixedSpec | src/string.ts:3-6 | the corrected function gives `''` on `''`, agrees with the original wherever that returns, keeps a string's length and is idempotent; the original throws exactly on `''` |
| LegacyTyped.IsNil | src/typed.ts:34-36 | true exactly for null and undefined, both falsy |
| LegacyTyped.IsNumber | src/typed.ts:15-17 | `Number(value) === value` holds exactly for numbers other than NaN |
| LegacyTyped.IsObject | src/typed.ts:3-5 | only a stored object can have `constructor === Object` |
| LegacyTyped.IsObjectVersusPlainCheck | src/typed.ts:3-5 | among the objects the model can express, where no own `constructor` property holds the `Object` function, the legacy check accepts exactly the plain objects with Object.prototype as prototype and no own `constructor` key: no arrays, class instances, Dates, null-prototype objects or primitives |
| LegacyTyped.IsEmpty | src/typed.ts:38-47 | booleans, null and undefined are empty; a number only when it is 0 (NaN is treated as empty by `isNumber` failing and `length` being absent); a string or an array by its length; a Date exactly when invalid; a function never |
| LegacyTyped.LengthDecides | src/typed.ts:44 | an object with a numeric own `length` is empty exactly when that length is 0 |
| LegacyTyped.IsEmptyAgreesWithLang | src/typed.ts:38-47 | away from numbers, Dates, functions and own `length`/`size` keys, the legacy and the newer `isEmpty` agree |
| LegacyTyped.IsEmptyDiffersOnNumbers | src/typed.ts:41 | 42 is not empty for the legacy `isEmpty` and is for the newer one |
| LegacyTyped.DayOfMonth | src/typed.ts:78 | the day of the month lies between 1 and 31 |
| LegacyTyped.GetDate | src/typed.ts:78 | `getDate()` is NaN exactly for an invalid Date and otherwise a day between 1 and 31 |
| LegacyTyped.DeepEqual | src/typed.ts:49-74 | equal objects have the same key count, and every primitive value of the first is strictly equal to what the second reads under that key |
| LegacyTyped.IsEqual | src/typed.ts:76-88 | identical values are equal; a primitive only equals itself (NaN included); a function only itself; two distinct Dates are equal exactly when their `getDate()` values are |
| LegacyTyped.NaNEqualsNaN | src/typed.ts:77 | NaN equals NaN here, and not in the newer `isEqual` |
| LegacyTyped.NestedArraysByReference | src/typed.ts:64-67 | a nested array is compared by reference, so a distinct array under the same key makes the objects unequal |
| LegacyTyped.FirstOfJanuary | src/typed.ts:78 | the epoch falls on the first of its month |
| LegacyTyped.FirstOfFebruary | src/typed.ts:78 | 31 days after the epoch falls on the first of its month |
| LegacyTyped.DatesOneMonthApartEqual | src/typed.ts:78 | two Dates one month apart compare equal |
| LegacyTyped.DeepEqualAsymmetric | src/typed.ts:61-71 | `{ a: undefined }` equals `{ c: 2 }`, but `{ c: 2 }` does not equal `{ a: undefined }` |
| LegacyTyped.UndefinedReadsAsMissing | src/typed.ts:62-67 | `a` is undefined on the first object and absent, so read as undefined, on the second |
| LegacyTyped.MissingDiffersFromUndefined | src/typed.ts:62-67 | `c` is 2 on one object and undefined on the other |
| LegacyTyped.DeepEqualFixed | src/typed.ts:49-74 | the corrected comparison also demands that every key of the first object be a key of the second |
| LegacyTyped.IsEqualFixed | src/typed.ts:76-88 | the corrected `isEqual` compares Dates by timestamp, and is otherwise `Object.is` first, then the corrected deep comparison |
| LegacyTyped.FixedSeparatesDates | src/typed.ts:78 | the corrected `isEqual` tells the two Dates a month apart apart |
| LegacyTyped.FixedDeepSym | src/typed.ts:49-74 | the corrected deep comparison is symmetric |
| LegacyTyped.IsEqualFixedSymmetric | src/typed.ts:76-88 | the corrected `isEqual` is symmetric |
| LegacyUtils.Clamp | src/utils.ts:24-26 | NaN exactly when an argument is; with ordered bounds the result lies between them and is the number when it already does; with reversed bounds it is the lower bound |
| LegacyUtils.ClampAgreesWhenOrdered | src/utils.ts:24-26 | with ordered bounds the legacy and the newer `clamp` agree |
| LegacyUtils.ClampReversedDiffers | src/utils.ts:25 | `clamp(3, 5, 1)` is 5 in the legacy function and 3 in the newer one |
| LegacyUtils.Walk | src/utils.ts:77-84 | no keys give the value reached; a key tested with `in` on a primitive other than null or undefined throws; `in` sees own keys and the inherited `size`, `source` and `flags` accessors |
| LegacyUtils.Get | src/utils.ts:71-85 | a falsy or non-object `obj` gives the default |
| LegacyUtils.WalkInPath | src/utils.ts:77-84 | along a path of keys that `in` finds, own or inherited, the walk returns the value reached, undefined included |
| LegacyUtils.GetInheritedSize | src/utils.ts:78-81 | `get(new Map([['a', 1]]), 'size', 'd')` is 1, because `'size' in map` holds through the prototype, and the newer `get` gives 1 too |
| LegacyUtils.GetAgreesWithNewer | src/utils.ts:71-85 | along a path of keys that `in` finds the legacy `get` returns the value reached, and the newer `get` the same value or, for undefined, the default |
| LegacyUtils.GetThroughNumberThrows | src/utils.ts:78 | `get({ a: 5 }, 'a.b', 'd')` throws a TypeError, since `'b' in 5` does |
| LegacyUtils.WalkFixedSpec | src/utils.ts:77-84 | the corrected walk returns the value reached along a path of keys that `in` finds, and the default when no such path exists |
| LegacyUtils.WalkFixedAgrees | src/utils.ts:77-84 | wherever the original walk returns, the corrected one returns the same |
| LegacyUtils.GetFixed | src/utils.ts:72 | the corrected `get` also gives the default for a falsy or non-object `obj` |
| LegacyUtils.GetFixedAgrees | src/utils.ts:71-85 | wherever the original `get` returns, the corrected one returns the same |
| LegacyUtils.GetFixedThroughNumber | src/utils.ts:78 | the corrected `get({ a: 5 }, 'a.b', 'd')` is `'d'` |

## Left out

- Numbers are NaN or finite reals. There is no -0, no Infinity and no floating-point rounding; `Object.is` and `===` differ only on NaN here.
- Case mapping covers ASCII letters only, and `\s` is the fixed set of white-space characters the language defines; no Unicode normalisation.
- Object keys enumerate in insertion order. The language lists integer-like keys of plain objects first, in ascending order; the model does not reorder them.
- Symbol keys, non-enumerable properties, getters and setters, proxies, frozen objects and RegExp `lastIndex` are not modelled.
- Strings are sequences of Unicode code points, not of UTF-16 code units. A string's `length` and index reads count code points, so `'😀'.length` is 1 here and 2 in JavaScript, and `get({ a: '😀' }, 'a.length')` differs the same way. Characters outside the Basic Multilingual Plane are where this shows.
- Only own properties are stored. An inherited read gives undefined, except for the built-in accessors the functions rely on: Map and Set `size`, RegExp `source` and `flags`, and a string's `length` and characters. Methods inherited from prototypes, and custom prototype chains, are not modelled.
- A read through a dangling reference gives an empty object, so that every function is total; the lemmas assume a well-formed store.
- src/array/first.ts and src/array/last.ts: single indexing expressions with no logic of their own.
- src/lang/isPlainObject.ts: an alias of `isPlainObjectCheck`, which is `TypeChecks.IsPlainObjectCheck`.
- src/collection/filter.ts, map.ts, reduce.ts and find.ts: thin wrappers over the built-in array methods with caller callbacks.
- src/function/debounce.ts and the legacy function module: timer plumbing; the legacy `once` duplicates the newer one.
- Legacy `randomInt`, `sleep` and `deepFreeze`: they depend on randomness, a timer and runtime freezing.
- src/_internal/types.ts and src/index.ts hold compile-time types and re-exports only.
- The null-prototype result object of `groupBy` is modelled as a map from keys to buckets, with the keys in creation order.
- FunctionOnce.Call: the wrapped function is a pure function of the call's `this` and arguments, so side effects it has in the caller's world are not modelled.
- FunctionThrottle.Call: `Date.now()` is a parameter of each event, and `this` is folded into the arguments. A `lastCallTime` of 0 is the "never called" sentinel, as in the source, so a call at clock time 0 is not distinguished from no call.
- FunctionThrottle.Fire: the timer fires at any time at least `wait` after it was scheduled. The host's 1 ms minimum delay and its truncation of fractional delays are not modelled.
- FunctionThrottle.AtMostOncePerWait: stated for event sequences without `cancel` and with clock times from 1 on, since `cancel` deliberately resets the spacing.
- LangIsEqual.IsEqual: takes a rank map witnessing that the store is acyclic. On cyclic data the source recurses without end; that is not modelled.
- LangIsEqual.IsEqualSymmetric: stated only for stores where no object has an own `length` key; without that condition the relation is not symmetric (see Findings).
- LangIsEqual.IsEqualFixedSymmetric: stated for Maps with distinct keys and Sets with distinct members, which real Maps and Sets always have. The sequence representation does not enforce it.
- LegacyTyped.DeepEqual: like `isEqual`, takes a rank map witnessing an acyclic store.
- LegacyTyped.GetDate: the local time zone is one fixed offset `tz` for every time value. The real `getDate()` uses the host's offset at that instant, which changes with daylight saving.
- ArrayFlattenDeep.FlattenDeep: an array that contains itself makes `flattenDeep` overflow the stack in JavaScript. Nested arrays are a tree datatype here, so such input cannot be written.
- Guards.CheckRecursionDepth: `depth` is an integer here, while the source's parameter is a number. A fractional depth such as 50.5 is not modelled. No function of the library calls this guard; `mergeDeep` has its own integer depth cap.
- ObjectClone.CloneTree: proved for values whose reachable objects form a tree of bounded height. Such objects have no own `__proto__` key, whose assignment would hit the prototype setter, and have distinct Map keys and Set members. Shared and cyclic structure is covered by ObjectClone.PropsSeen and ObjectClone.CloneDeepSelfReference: an object met again is returned as is, not copied.
- ObjectClone.CloneDeepLeaf: a copied Date or RegExp has no own enumerable keys, as `new Date` and `new RegExp` give.
- ObjectPick.PickedKeys: `key in obj` is read as "obj owns key". Keys `obj` only inherits (such as `toString`) are not modelled. An own `__proto__` key is excluded, because assigning it would hit the prototype setter.
- ObjectOmit.OmittedKeys: an own `__proto__` key is excluded for the same reason.
- ObjectOmit.OmittedKeys: the listed keys are strings. The source's `keys` may hold numbers, since `keyof` admits them. `omit` then tests `keysSet.has(key)` with the string key that `for...in` yields, and a `Set` does not convert, so a listed `1` never omits the key `'1'`: `omit({ 1: 'a', b: 2 }, [1])` keeps `'1'`.
- ObjectOmit.PickOmitPartition: stated for string keys only. With a numeric key such as `1`, `pick` takes `'1'` (the `in` operator converts) while `omit` keeps it, so in the source the two results then overlap.
- ObjectPick.PickedKeys: the listed keys are strings; a listed number is picked under its decimal string, as `in` and the assignment both convert it, and that is not modelled.
- ObjectSet.StepFacts: `key in current` is read as an own-key test. In the source an inherited `Object.prototype` method fails the `typeof` test and is replaced by `{}`, so the outcome is the same for plain objects and arrays.
- LegacyTyped.IsObject: an own `constructor` property is read as never holding the `Object` function, because functions in this model are opaque objects and `Object` itself cannot be named. The source accepts `isObject({ constructor: Object })`, which the model rejects.
- LegacyUtils.Walk: `key in result` sees own keys and the inherited accessors the model keeps (a Map's or Set's `size`, a RegExp's `source` and `flags`). The methods every object inherits from `Object.prototype` (`toString`, `hasOwnProperty`, ...) are not values in this model, so such a key gives the default where the source returns the inherited function.
- ObjectSet.GetAfterSet: stated for acyclic stores. On a cycle, a later write can overwrite a container the path passes through, so the path no longer reads back the value.
- ObjectSet.Set: a null or primitive intermediate makes `in` throw. The model returns that error instead of requiring its absence.
- ObjectMerge.MergeInternalFrame: a string target would be spread into index keys. The model spreads only objects (the TypeScript signature demands an object), and a string target gives `{}`.
- PathGet.WalkSpec: reading a key of a number or boolean gives undefined. The methods such values inherit from their wrapper prototypes (`toFixed`, ...) are not modelled.
- StringCamelCase.CamelCasePair: stated for a separator that is a space or is not white space at all. Other white space behaves the same way in the model; the lemma simply does not cover it.
- ArrayChunk.Chunk: the default `size = 1` is not modelled; a caller passes the size. The default is the same as passing 1, which ArrayChunk.ChunkIntegralSize covers.
- ArrayChunk.Chunk: `size` is a number. `slice` truncates a fractional size toward zero, and that is modelled. Infinity is not a number in this model.

## Findings

| source | as written | input that shows it | evidently intended | confidence | as-written member | corrected member |
|---|---|---|---|---|---|---|
| src/lang/isEqual.ts:47-57 | Maps, Sets and RegExps have no own enumerable keys, so any two of a kind compare equal | `isEqual(new Map([['a', 1], ['b', 2]]), new Map([['a', 1], ['b', 3]]))` is true | Maps compare their entries, Sets their members, RegExps their source and flags, as the library's own tests expect | high; not executed | LangIsEqual.DifferentMapsCompareEqual | LangIsEqual.FixedSeparatesMaps |
| src/lang/isEqual.ts:47-56 | only the first object's keys are checked against the second, and an array owns a `length` key that `Object.keys` does not list | `isEqual({ length: 1 }, [5])` is true while `isEqual([5], { length: 1 })` is false | a symmetric relation in which an array never equals a non-array | medium; not executed | LangIsEqual.LengthMakesAsymmetric | LangIsEqual.IsEqualFixedSymmetric |
| src/typed.ts:61-71 | `deepEqual` checks only the first object's keys, reading a missing key of the second as undefined | `deepEqual({ a: undefined }, { c: 2 })` is true while `deepEqual({ c: 2 }, { a: undefined })` is false | every key of the first object must also be a key of the second, making the relation symmetric | high; not executed | LegacyTyped.DeepEqualAsymmetric | LegacyTyped.IsEqualFixedSymmetric |
| src/typed.ts:78 | Dates are compared by `getDate()`, the day of the month | the epoch and 31 days after it, both the first of their month, compare equal | Dates compare by their timestamp (`getTime()`) | high; not executed | LegacyTyped.DatesOneMonthApartEqual | LegacyTyped.FixedSeparatesDates |
| src/string.ts:5 | `value[0].toUpperCase()` on the empty string reads `undefined` | `capitalize('')` throws a TypeError | the empty string gives `''` | high; not executed | LegacyString.CapitalizeEmptyThrows | LegacyString.CapitalizeFixedSpec |
| src/utils.ts:78 | `key in result` is applied to whatever the previous key gave, including numbers and strings | `get({ a: 5 }, 'a.b', 'd')` throws a TypeError | a path that does not exist gives the default | high; not executed | LegacyUtils.GetThroughNumberThrows | LegacyUtils.WalkFixedSpec |
| src/array.ts:14-16 | the result is an `{}` literal, so an id naming an inherited property (`toString`) finds a function and `push` fails on it | `group([x], () => 'toString')` throws | every id gets its own bucket, as `groupBy` gives | medium; not executed | LegacyArray.GroupThrowsOnPrototypeNames | LegacyArray.GroupFixedSpec |
| src/array/chunk.ts:26 | `size < 1` is false for NaN, and `index += NaN` ends the loop after one empty slice | `chunk([1, 2, 3], NaN)` gives `[[]]` | an invalid size gives `[]`, as a size below 1 does | medium; not executed | ArrayChunk.ChunkNaNGivesEmptyChunk | ArrayChunk.ChunkFixedSpec |
| src/function/throttle.ts:43-61 | a NaN wait is not clamped, and `timeSinceLastCall >= NaN` is false | `throttle(f, NaN)` with leading on never invokes `f` on a call | a wait that is not a number acts as 0, so the first call leads | low; not executed | FunctionThrottle.NaNWaitNeverLeads | FunctionThrottle.FixedFirstCallLeads |

=== FILE: camel_case.dfy ===
/**
 * `camelCase(str)`: its own pipeline, not `splitWords`. `_` and every
 * character outside `\w` and `\s` become spaces, the string is trimmed and
 * lowercased as a whole, split on white-space runs, and the empty pieces
 * are dropped. The first word is kept as it is, every later word gets its
 * first character uppercased, and the words are run together.
 */
module StringCamelCase {
  import opened Chars
  import Seqs
  import Strings
  import SplitWords

  /** `.replace(/[^\w\s]/g, ' ')`. */
  function BlankOthers(s: string): (r: string)
    ensures |r| == |s|
    ensures forall i :: 0 <= i < |s| ==> r[i] == if IsWordChar(s[i]) || IsSpace(s[i]) then s[i] else ' '
  {
    if |s| == 0 then "" else [if IsWordChar(s[0]) || IsSpace(s[0]) then s[0] else ' '] + BlankOthers(s[1..])
  }

  /** The two replaces: `.replace(/_/g, ' ').replace(/[^\w\s]/g, ' ')`. */
  function Blanked(str: string): string {
    BlankOthers(Strings.Replace(str, '_', ' '))
  }

  /** What the two replaces make of one character. */
  function BlankChar(c: char): char {
    var d := if c == '_' then ' ' else c;
    if IsWordChar(d) || IsSpace(d) then d else ' '
  }

  /** The replaces work character by character. */
  lemma {:induction false} BlankedAt(str: string)
    ensures |Blanked(str)| == |str|
    ensures forall i :: 0 <= i < |str| ==> Blanked(str)[i] == BlankChar(str[i])
  {
  }

  /** Letters and digits are kept, white space is kept, anything else
      becomes a space. */
  lemma {:induction false} BlankCharOf(c: char)
    ensures Alnum(c) || IsSpace(c) ==> BlankChar(c) == c
    ensures !Alnum(c) && !IsSpace(c) ==> BlankChar(c) == ' '
    ensures AlnumOrSpace(BlankChar(c))
    ensures BlankChar(ToLower(c)) == ToLower(BlankChar(c))
  {
    SpaceBlindToCase(c);
  }

  /** `.trim().toLowerCase().split(/\s+/).filter(word => word.length > 0)`. */
  function Words(str: string): seq<string> {
    Seqs.Keep(SplitWords.SplitSpaces(LowerStr(Trim(Blanked(str)))), SplitWords.NonEmpty)
  }

  /** `word.charAt(0).toUpperCase() + word.slice(1)`. */
  function Capitalize(w: string): string {
    if |w| == 0 then "" else [ToUpper(w[0])] + w[1..]
  }

  /** The later words, capitalised and joined with `''`. */
  function JoinCapitalized(ws: seq<string>): string
    decreases |ws|
  {
    if |ws| == 0 then "" else Capitalize(ws[0]) + JoinCapitalized(ws[1..])
  }

  /** The function as written. The result is made of letters and digits
      only, and does not start with a capital. */
  function CamelCase(str: string): (r: string)
    ensures AllChars(r, Alnum)
    ensures |r| > 0 ==> !IsUpper(r[0])
  {
    var ws := Words(str);
    WordsShape(str);
    if |ws| == 0 then ""
    else
      CapitalizedChars(ws[1..]);
      assert AllChars(ws[0], LowerAlnum);
      AllCharsAppend(ws[0], JoinCapitalized(ws[1..]), Alnum);
      ws[0] + JoinCapitalized(ws[1..])
  }

  // ---------------------------------------------------------------- words

  /** A small letter or a digit: all a word is made of. */
  predicate LowerAlnum(c: char) {
    IsLower(c) || IsDigit(c)
  }

  predicate Alnum(c: char) {
    IsUpper(c) || IsLower(c) || IsDigit(c)
  }

  predicate AlnumOrSpace(c: char) {
    Alnum(c) || IsSpace(c)
  }

  predicate LowerAlnumOrSpace(c: char) {
    LowerAlnum(c) || IsSpace(c)
  }

  predicate LowerWords(ws: seq<string>) {
    forall i :: 0 <= i < |ws| ==> |ws[i]| > 0 && AllChars(ws[i], LowerAlnum)
  }

  /** After the two replaces only letters, digits and white space are left. */
  lemma {:induction false} BlankedChars(str: string)
    ensures AllChars(Blanked(str), AlnumOrSpace)
  {
    BlankedAt(str);
    forall i | 0 <= i < |str| ensures AlnumOrSpace(Blanked(str)[i]) {
      BlankCharOf(str[i]);
    }
  }

  /** The words are non-empty and made of small letters and digits only. */
  lemma {:induction false} WordsShape(str: string)
    ensures LowerWords(Words(str))
  {
    var t := Trim(Blanked(str));
    BlankedChars(str);
    TrimKeeps(Blanked(str), AlnumOrSpace);
    var l := LowerStr(t);
    assert AllChars(l, LowerAlnumOrSpace);
    var pieces := SplitWords.SplitSpaces(l);
    SplitWords.SplitSpacesKeeps(l, LowerAlnumOrSpace);
    WordsOfPieces(pieces, Words(str));
  }

  lemma {:induction false} WordsOfPieces(pieces: seq<string>, ws: seq<string>)
    requires SplitWords.AllPieces(pieces, LowerAlnumOrSpace) && SplitWords.AllPieces(pieces, SplitWords.NotSpace)
    requires ws == Seqs.Keep(pieces, SplitWords.NonEmpty)
    ensures LowerWords(ws)
  {
    Seqs.KeepPasses(pieces, SplitWords.NonEmpty);
    Seqs.KeepMembers(pieces, SplitWords.NonEmpty);
    forall i | 0 <= i < |ws| ensures |ws[i]| > 0 && AllChars(ws[i], LowerAlnum) {
      assert ws[i] in pieces;
      var k :| 0 <= k < |pieces| && pieces[k] == ws[i];
      assert AllChars(pieces[k], LowerAlnumOrSpace) && AllChars(pieces[k], SplitWords.NotSpace);
    }
  }

  // ---------------------------------------------------------------- output

  lemma {:induction false} CapitalizedChars(ws: seq<string>)
    requires LowerWords(ws)
    ensures AllChars(JoinCapitalized(ws), Alnum)
    decreases |ws|
  {
    if |ws| > 0 {
      CapitalizedChars(ws[1..]);
      var w := ws[0];
      assert AllChars(w, LowerAlnum);
      var c := Capitalize(w);
      forall i | 0 <= i < |c| ensures Alnum(c[i]) {
        if i > 0 {
          assert c[i] == w[i];
        }
      }
      AllCharsAppend(c, JoinCapitalized(ws[1..]), Alnum);
    }
  }

  /** Lowercasing the result runs the words together: nothing but the case
      of each later word's first character is changed, so the length of the
      result is the total length of the words. */
  lemma {:induction false} CamelCaseLowered(str: string)
    ensures LowerStr(CamelCase(str)) == Seqs.Concat(Words(str))
  {
    var ws := Words(str);
    WordsShape(str);
    if |ws| > 0 {
      LowerOfCapitalized(ws[1..]);
      LowerAppend(ws[0], JoinCapitalized(ws[1..]));
      LowerNoop(ws[0]);
    }
  }

  lemma {:induction false} LowerOfCapitalized(ws: seq<string>)
    requires LowerWords(ws)
    ensures LowerStr(JoinCapitalized(ws)) == Seqs.Concat(ws)
    decreases |ws|
  {
    if |ws| > 0 {
      var w := ws[0];
      LowerOfCapitalized(ws[1..]);
      LowerAppend(Capitalize(w), JoinCapitalized(ws[1..]));
      LowerOfCapitalize(w);
    }
  }

  /** Capitalising a word of small letters and digits is undone by
      lowercasing. */
  lemma {:induction false} LowerOfCapitalize(w: string)
    requires |w| > 0 && AllChars(w, LowerAlnum)
    ensures LowerStr(Capitalize(w)) == w
  {
    var c := Capitalize(w);
    var l := LowerStr(c);
    forall i | 0 <= i < |w| ensures l[i] == w[i] {
      if i == 0 {
        CaseRoundTrip(w[0]);
      } else {
        assert c[i] == w[i];
      }
    }
  }

  lemma {:induction false} LowerNoop(w: string)
    requires AllChars(w, LowerAlnum)
    ensures LowerStr(w) == w
  {
    var l := LowerStr(w);
    forall i | 0 <= i < |w| ensures l[i] == w[i] {
      assert LowerAlnum(w[i]);
    }
  }

  // ---------------------------------------------------------------- separators

  /** A character the pipeline turns into a space: anything but a letter or
      a digit. */
  predicate IsCamelSeparator(c: char) {
    !Alnum(c)
  }

  /** Empty input, and input made of separators only, gives `''`. */
  lemma {:induction false} CamelCaseSeparatorsOnly(str: string)
    requires forall i :: 0 <= i < |str| ==> IsCamelSeparator(str[i])
    ensures CamelCase(str) == ""
  {
    var b := Blanked(str);
    BlankedAt(str);
    forall i | 0 <= i < |b| ensures IsSpace(b[i]) {
      BlankCharOf(str[i]);
    }
    TrimAllSpace(b);
    assert LowerStr("") == "";
  }

  // ---------------------------------------------------------------- case

  /** The replaces do not look at case. */
  lemma {:induction false} BlankedLower(str: string)
    ensures Blanked(LowerStr(str)) == LowerStr(Blanked(str))
  {
    var x, y := Blanked(LowerStr(str)), LowerStr(Blanked(str));
    BlankedAt(str);
    BlankedAt(LowerStr(str));
    forall i | 0 <= i < |str| ensures x[i] == y[i] {
      BlankCharOf(str[i]);
    }
  }

  /** The input is lowercased as a whole before it is split, so its case
      does not matter: a capital never starts a word. */
  lemma {:induction false} CamelCaseIgnoresCase(str: string)
    ensures CamelCase(LowerStr(str)) == CamelCase(str)
  {
    BlankedLower(str);
    TrimLower(Blanked(str));
    LowerTwice(Trim(Blanked(str)));
  }

  // ---------------------------------------------------------------- words joined

  /** A pipeline input made of words of small letters and digits joined by
      single spaces passes the replaces, the trim and the lowercasing
      unchanged and splits into those words. */
  lemma {:induction false} WordsOfSpaced(ws: seq<string>, s: string)
    requires |ws| > 0 && LowerWords(ws) && s == Strings.Join(ws, " ")
    ensures Blanked(s) == s && Words(s) == ws
  {
    SpacedChars(ws, s);
    BlankedNoop(s);
    TrimNoop(s);
    SplitWords.NoCapitalsUntouched(s);
    SpacedSplits(ws, s);
  }

  /** What such an input is made of. */
  lemma {:induction false} SpacedChars(ws: seq<string>, s: string)
    requires |ws| > 0 && LowerWords(ws) && s == Strings.Join(ws, " ")
    ensures AllChars(s, LowerAlnumOrSpace)
    ensures forall k :: 0 <= k < |s| ==> !IsUpper(s[k])
    ensures |s| > 0 && !IsSpace(s[0]) && !IsSpace(s[|s| - 1])
  {
    SplitWords.JoinChars(ws, " ", LowerAlnumOrSpace);
    Strings.JoinStart(ws, " ");
    assert ws[0][0] in ws[0] && ws[|ws| - 1][|ws[|ws| - 1]| - 1] in ws[|ws| - 1];
    assert AllChars(ws[0], LowerAlnum) && AllChars(ws[|ws| - 1], LowerAlnum);
  }

  /** Such an input splits into its words. */
  lemma {:induction false} SpacedSplits(ws: seq<string>, s: string)
    requires |ws| > 0 && LowerWords(ws) && s == Strings.Join(ws, " ")
    ensures Seqs.Keep(SplitWords.SplitSpaces(s), SplitWords.NonEmpty) == ws
  {
    forall i | 0 <= i < |ws| ensures SplitWords.CleanWord(ws[i]) {
      CleanOfLowerAlnum(ws[i]);
    }
    SplitWords.SplitSpacesJoin(ws);
    Seqs.KeepAll(ws, SplitWords.NonEmpty);
  }

  lemma {:induction false} CleanOfLowerAlnum(w: string)
    requires |w| > 0 && AllChars(w, LowerAlnum)
    ensures SplitWords.CleanWord(w)
  {
    forall j | 0 <= j < |w| ensures !SplitWords.IsSeparator(w[j]) && !IsUpper(w[j]) {
      SplitWords.LetterNotSeparator(w[j]);
    }
  }

  lemma {:induction false} BlankedNoop(s: string)
    requires AllChars(s, LowerAlnumOrSpace)
    ensures Blanked(s) == s
  {
    BlankedAt(s);
    forall i | 0 <= i < |s| ensures Blanked(s)[i] == s[i] {
      assert LowerAlnumOrSpace(s[i]);
      BlankCharOf(s[i]);
    }
  }

  /** A single word of small letters and digits comes back unchanged. */
  lemma {:induction false} CamelCaseOneWord(w: string)
    requires |w| > 0 && AllChars(w, LowerAlnum)
    ensures CamelCase(w) == w
  {
    assert Strings.Join([w], " ") == w;
    WordsOfSpaced([w], w);
    CamelOfWords(w, [w]);
  }

  /** The result from the words. */
  lemma {:induction false} CamelOfWords(str: string, ws: seq<string>)
    requires Words(str) == ws && |ws| > 0
    ensures CamelCase(str) == ws[0] + JoinCapitalized(ws[1..])
  {
  }

  /** Two words separated by a separator: the first is kept, the second
      gets its first character uppercased. */
  lemma {:induction false} CamelCasePair(u: string, c: char, v: string, s: string)
    requires |u| > 0 && AllChars(u, LowerAlnum) && |v| > 0 && AllChars(v, LowerAlnum)
    requires IsCamelSeparator(c) && (c == ' ' || !IsSpace(c)) && s == u + [c] + v
    ensures CamelCase(s) == u + Capitalize(v)
  {
    var j := u + " " + v;
    PairBlanked(u, c, v, s, j);
    assert Strings.Join([u, v], " ") == j by {
      assert [u, v][1..] == [v];
    }
    WordsOfSpaced([u, v], j);
    assert Words(s) == [u, v];
    CamelOfWords(s, [u, v]);
    CapitalizedOne(v, [u, v][1..]);
  }

  lemma {:induction false} CapitalizedOne(v: string, ws: seq<string>)
    requires ws == [v]
    ensures JoinCapitalized(ws) == Capitalize(v)
  {
    assert ws[1..] == [];
  }

  lemma {:induction false} PairBlanked(u: string, c: char, v: string, s: string, j: string)
    requires AllChars(u, LowerAlnum) && AllChars(v, LowerAlnum)
    requires IsCamelSeparator(c) && (c == ' ' || !IsSpace(c)) && s == u + [c] + v && j == u + " " + v
    ensures Blanked(s) == j
  {
    BlankedAppend(u + [c], v);
    BlankedAppend(u, [c]);
    LowerAlnumBlanked(u);
    LowerAlnumBlanked(v);
    BlankedAt([c]);
    BlankCharOf(c);
  }

  lemma {:induction false} LowerAlnumBlanked(w: string)
    requires AllChars(w, LowerAlnum)
    ensures Blanked(w) == w
  {
    forall i | 0 <= i < |w| ensures LowerAlnumOrSpace(w[i]) {
      assert LowerAlnum(w[i]);
    }
    BlankedNoop(w);
  }

  /** The replaces work piece by piece. */
  lemma {:induction false} BlankedAppend(x: string, y: string)
    ensures Blanked(x + y) == Blanked(x) + Blanked(y)
  {
    Strings.ReplaceAppend(x, y, '_', ' ');
    BlankOthersAppend(Strings.Replace(x, '_', ' '), Strings.Replace(y, '_', ' '));
  }

  lemma {:induction false} BlankOthersAppend(x: string, y: string)
    ensures BlankOthers(x + y) == BlankOthers(x) + BlankOthers(y)
    decreases |x|
  {
    if |x| == 0 {
      assert x + y == y;
    } else {
      assert (x + y)[0] == x[0];
      assert (x + y)[1..] == x[1..] + y;
      BlankOthersAppend(x[1..], y);
    }
  }

  /** A capital inside a word does not split it: `u + 'V' + rest` gives
      `u + 'v' + rest`, as for `'fooBar'`, which gives `'foobar'`. */
  lemma {:induction false} CamelCaseNoCaseBoundary(u: string, v: string, s: string)
    requires |u| > 0 && AllChars(u, LowerAlnum) && |v| > 0 && AllChars(v, LowerAlnum) && IsLower(v[0])
    requires s == u + [ToUpper(v[0])] + v[1..]
    ensures CamelCase(s) == u + v
  {
    CamelCaseIgnoresCase(s);
    LowerOfBoundary(u, v, s);
    AllCharsAppend(u, v, LowerAlnum);
    CamelCaseOneWord(u + v);
  }

  lemma {:induction false} LowerOfBoundary(u: string, v: string, s: string)
    requires AllChars(u, LowerAlnum) && |v| > 0 && AllChars(v, LowerAlnum) && IsLower(v[0])
    requires s == u + [ToUpper(v[0])] + v[1..]
    ensures LowerStr(s) == u + v
  {
    var a := u + [ToUpper(v[0])];
    LowerAppend(a, v[1..]);
    LowerOfCapital(u, v[0], a);
    LowerOfTail(v);
    Reassemble(u, v);
  }

  lemma {:induction false} Reassemble(u: string, v: string)
    requires |v| > 0
    ensures u + [v[0]] + v[1..] == u + v
  {
    assert [v[0]] + v[1..] == v;
  }

  lemma {:induction false} LowerOfCapital(u: string, c: char, a: string)
    requires AllChars(u, LowerAlnum) && IsLower(c) && a == u + [ToUpper(c)]
    ensures LowerStr(a) == u + [c]
  {
    LowerAppend(u, [ToUpper(c)]);
    LowerNoop(u);
    CaseRoundTrip(c);
  }

  lemma {:induction false} LowerOfTail(v: string)
    requires |v| > 0 && AllChars(v, LowerAlnum)
    ensures LowerStr(v[1..]) == v[1..]
  {
    AllCharsSlice(v, 1, |v|, LowerAlnum);
    LowerNoop(v[1..]);
  }
}

=== FILE: chars.dfy ===
/**
 * The character classes the string functions use: the ASCII letters and
 * digits that `[A-Z]`, `[a-z]` and `\w` name, the white space that `\s`
 * and `trim` name, and the ASCII part of `toLowerCase` / `toUpperCase`.
 */
module Chars {

  predicate IsUpper(c: char) {
    'A' <= c <= 'Z'
  }

  predicate IsLower(c: char) {
    'a' <= c <= 'z'
  }

  predicate IsDigit(c: char) {
    '0' <= c <= '9'
  }

  /** `\w`: ASCII letters, digits and `_`. */
  predicate IsWordChar(c: char) {
    IsUpper(c) || IsLower(c) || IsDigit(c) || c == '_'
  }

  /** `\s`, which is also the set `trim` removes: the white space and line
      terminator code points of ECMA-262 (sections 12.2 and 12.3). */
  predicate IsSpace(c: char) {
    || c == '\t' || c == '\n' || c == '\U{B}' || c == '\U{C}' || c == '\r'
    || c == ' ' || c == '\U{A0}' || c == '\U{1680}'
    || ('\U{2000}' <= c <= '\U{200A}')
    || c == '\U{2028}' || c == '\U{2029}' || c == '\U{202F}' || c == '\U{205F}'
    || c == '\U{3000}' || c == '\U{FEFF}'
  }

  /** Every character of `s` satisfies `p`. */
  predicate AllChars(s: string, p: char -> bool) {
    forall i :: 0 <= i < |s| ==> p(s[i])
  }

  /** A property of every character of two strings holds of every character
      of their concatenation. */
  lemma {:induction false} AllCharsAppend(a: string, b: string, p: char -> bool)
    requires AllChars(a, p) && AllChars(b, p)
    ensures AllChars(a + b, p)
  {
    forall i | 0 <= i < |a + b| ensures p((a + b)[i]) {
      if i < |a| {
        assert (a + b)[i] == a[i];
      } else {
        assert (a + b)[i] == b[i - |a|];
      }
    }
  }

  /** ... and of every slice. */
  lemma {:induction false} AllCharsSlice(s: string, i: nat, j: nat, p: char -> bool)
    requires i <= j <= |s| && AllChars(s, p)
    ensures AllChars(s[i..j], p)
  {
    forall k | 0 <= k < j - i ensures p(s[i..j][k]) {
      assert s[i..j][k] == s[i + k];
    }
  }

  /** `toLowerCase` on one character, ASCII only. */
  function ToLower(c: char): (d: char)
    ensures !IsUpper(d)
    ensures IsUpper(c) ==> IsLower(d)
    ensures !IsUpper(c) ==> d == c
  {
    if IsUpper(c) then (c as int + 32) as char else c
  }

  /** `toUpperCase` on one character, ASCII only. */
  function ToUpper(c: char): (d: char)
    ensures !IsLower(d)
    ensures IsLower(c) ==> IsUpper(d)
    ensures !IsLower(c) ==> d == c
  {
    if IsLower(c) then (c as int - 32) as char else c
  }

  /** The case mappings undo each other on letters. */
  lemma {:induction false} CaseRoundTrip(c: char)
    ensures IsUpper(c) ==> ToUpper(ToLower(c)) == c
    ensures IsLower(c) ==> ToLower(ToUpper(c)) == c
  {
  }

  /** `s.toLowerCase()`. */
  function LowerStr(s: string): (r: string)
    ensures |r| == |s|
    ensures forall i :: 0 <= i < |s| ==> r[i] == ToLower(s[i])
  {
    if |s| == 0 then "" else [ToLower(s[0])] + LowerStr(s[1..])
  }

  /** `s.trimStart()`: drops the leading white space. */
  function TrimStart(s: string): (r: string)
    ensures |r| <= |s| && r == s[|s| - |r|..]
    ensures forall i :: 0 <= i < |s| - |r| ==> IsSpace(s[i])
    ensures |r| > 0 ==> !IsSpace(r[0])
  {
    if |s| > 0 && IsSpace(s[0]) then TrimStart(s[1..]) else s
  }

  /** `s.trimEnd()`: drops the trailing white space. */
  function TrimEnd(s: string): (r: string)
    ensures |r| <= |s| && r == s[..|r|]
    ensures forall i :: |r| <= i < |s| ==> IsSpace(s[i])
    ensures |r| > 0 ==> !IsSpace(r[|r| - 1])
  {
    if |s| > 0 && IsSpace(s[|s| - 1]) then TrimEnd(s[..|s| - 1]) else s
  }

  /** `s.trim()`. */
  function Trim(s: string): (r: string)
    ensures |r| > 0 ==> !IsSpace(r[0]) && !IsSpace(r[|r| - 1])
  {
    TrimEnd(TrimStart(s))
  }

  /** Trimming leaves a string alone that neither starts nor ends with white
      space. */
  lemma {:induction false} TrimNoop(s: string)
    requires |s| > 0 ==> !IsSpace(s[0]) && !IsSpace(s[|s| - 1])
    ensures Trim(s) == s
  {
  }

  /** What holds of every character still holds after trimming. */
  lemma {:induction false} TrimKeeps(s: string, p: char -> bool)
    requires AllChars(s, p)
    ensures AllChars(Trim(s), p)
  {
    var t := TrimStart(s);
    assert forall i :: 0 <= i < |t| ==> t[i] == s[|s| - |t| + i];
    var u := TrimEnd(t);
    assert forall i :: 0 <= i < |u| ==> u[i] == t[i];
  }

  /** A string of white space only trims to nothing. */
  lemma {:induction false} TrimAllSpace(s: string)
    requires forall i :: 0 <= i < |s| ==> IsSpace(s[i])
    ensures Trim(s) == ""
  {
  }

  /** Lowercasing character by character. */
  lemma {:induction false} LowerAppend(a: string, b: string)
    ensures LowerStr(a + b) == LowerStr(a) + LowerStr(b)
    decreases |a|
  {
    if |a| == 0 {
      assert a + b == b;
    } else {
      assert (a + b)[0] == a[0];
      assert (a + b)[1..] == a[1..] + b;
      LowerAppend(a[1..], b);
      assert [ToLower(a[0])] + (LowerStr(a[1..]) + LowerStr(b)) == [ToLower(a[0])] + LowerStr(a[1..]) + LowerStr(b);
    }
  }

  /** Lowercasing twice is lowercasing once. */
  lemma {:induction false} LowerTwice(s: string)
    ensures LowerStr(LowerStr(s)) == LowerStr(s)
  {
  }

  /** Case mapping does not touch white space, nor make any. */
  lemma {:induction false} SpaceBlindToCase(c: char)
    ensures IsSpace(ToLower(c)) <==> IsSpace(c)
  {
  }

  /** Trimming and lowercasing commute. */
  lemma {:induction false} TrimLower(s: string)
    ensures Trim(LowerStr(s)) == LowerStr(Trim(s))
  {
    TrimStartLower(s);
    TrimEndLower(TrimStart(s));
  }

  lemma {:induction false} TrimStartLower(s: string)
    ensures TrimStart(LowerStr(s)) == LowerStr(TrimStart(s))
    decreases |s|
  {
    if |s| > 0 {
      SpaceBlindToCase(s[0]);
      TrimStartLower(s[1..]);
      assert LowerStr(s)[1..] == LowerStr(s[1..]);
    }
  }

  lemma {:induction false} TrimEndLower(s: string)
    ensures TrimEnd(LowerStr(s)) == LowerStr(TrimEnd(s))
    decreases |s|
  {
    if |s| > 0 {
      var n := |s| - 1;
      TrimEndLower(s[..n]);
      LowerInit(s, LowerStr(s), LowerStr(s[..n]));
      SpaceBlindToCase(s[n]);
    }
  }

  /** Lowercasing all but the last character. */
  lemma {:induction false} LowerInit(s: string, l: string, li: string)
    requires |s| > 0 && l == LowerStr(s) && li == LowerStr(s[..|s| - 1])
    ensures |l| == |s| && l[..|l| - 1] == li && l[|l| - 1] == ToLower(s[|s| - 1])
  {
    forall i | 0 <= i < |li| ensures l[..|l| - 1][i] == li[i] {
      assert s[..|s| - 1][i] == s[i];
    }
  }
}

=== FILE: chunk.dfy ===
/**
 * `chunk(array, size)`: after the guard `size < 1 || !array.length`, a loop
 * pushes `array.slice(index, index + size)` and advances `index` by `size`
 * while `index < array.length`. `size` is a JavaScript number, so it may be
 * fractional or NaN; `slice` truncates its positions and clamps them to the
 * array.
 *
 * `Chunk` is the function as written: NaN passes the guard (`NaN < 1` is
 * false), the first slice is empty, and the loop stops because `NaN < n` is
 * false, so a non-empty array gives `[[]]`. `ChunkFixed` rejects every size
 * that is not at least 1.
 */
module ArrayChunk {
  import Seqs
  import opened JsValue

  /** `a + b` on numbers. */
  function NumAdd(a: Number, b: Number): (r: Number)
    ensures r.NaN? <==> a.NaN? || b.NaN?
  {
    if a.NaN? || b.NaN? then NaN else Fin(a.x + b.x)
  }

  /** ToIntegerOrInfinity without the infinities: NaN is 0, anything else is
      truncated toward zero. */
  function ToInteger(n: Number): (k: int)
    ensures n.Fin? && 0.0 <= n.x ==> k == n.x.Floor
    ensures n.NaN? ==> k == 0
  {
    if n.NaN? then 0 else if 0.0 <= n.x then n.x.Floor else -((-n.x).Floor)
  }

  /** A relative position of `slice`: from the end when negative, clamped to
      `[0, len]`. */
  function RelIndex(len: nat, k: int): (i: nat)
    ensures i <= len
    ensures 0 <= k ==> i == if k < len then k else len
  {
    if k < 0 then (if len + k < 0 then 0 else len + k) else if k < len then k else len
  }

  /** `a.slice(start, end)`. */
  function Slice<T>(a: seq<T>, start: Number, end: Number): (r: seq<T>)
    ensures |r| <= |a|
  {
    var from := RelIndex(|a|, ToInteger(start));
    var to := RelIndex(|a|, ToInteger(end));
    if to < from then [] else a[from..to]
  }

  /** The distance to the end that each turn of the loop shortens. */
  function Remaining(n: nat, index: Number): nat {
    if index.NaN? || n as real <= index.x then 0 else n - index.x.Floor
  }

  /** The loop from position `index` on. */
  function ChunksFrom<T>(a: seq<T>, index: Number, size: Number): seq<seq<T>>
    requires index.Fin? ==> 0.0 <= index.x
    requires size.Fin? ==> 1.0 <= size.x
    decreases Remaining(|a|, index)
  {
    if !NumLess(index, Fin(|a| as real)) then []
    else
      var next := NumAdd(index, size);
      assert next.Fin? ==> next.x.Floor >= index.x.Floor + 1;
      [Slice(a, index, next)] + ChunksFrom(a, next, size)
  }

  /** The function as written. */
  function Chunk<T>(a: seq<T>, size: Number): (r: seq<seq<T>>)
    ensures NumLess(size, Fin(1.0)) || |a| == 0 ==> r == []
  {
    if NumLess(size, Fin(1.0)) || |a| == 0 then [] else ChunksFrom(a, Fin(0.0), size)
  }

  // ---------------------------------------------------------------- properties

  /** One turn of the loop at a number position before the end: the slice
      from the truncated position to the truncated next position, cut at the
      end of the array. */
  lemma {:induction false} ChunksFromStep<T>(a: seq<T>, x: real, s: real, y: real)
    requires 0.0 <= x < |a| as real && 1.0 <= s && y == x + s
    ensures x.Floor < |a| && x.Floor < y.Floor
    ensures ChunksFrom(a, Fin(x), Fin(s))
      == [a[x.Floor..if y.Floor < |a| then y.Floor else |a|]] + ChunksFrom(a, Fin(y), Fin(s))
  {
    var f := x.Floor;
    var g := y.Floor;
    assert (f as real) <= x < (f as real) + 1.0;
    assert (g as real) <= y < (g as real) + 1.0;
    assert f < |a|;
    assert f + 1 <= g;
    assert ToInteger(Fin(x)) == f && ToInteger(Fin(y)) == g;
    assert Slice(a, Fin(x), Fin(y)) == a[f..if g < |a| then g else |a|];
    assert NumAdd(Fin(x), Fin(s)) == Fin(y);
  }

  /** From any position the chunks cover the rest of the array. */
  lemma {:induction false} ChunksFromCover<T>(a: seq<T>, x: real, s: real)
    requires 0.0 <= x && 1.0 <= s
    ensures Seqs.Concat(ChunksFrom(a, Fin(x), Fin(s))) == a[(if x.Floor < |a| then x.Floor else |a|)..]
    decreases Remaining(|a|, Fin(x))
  {
    if x < |a| as real {
      var y := x + s;
      var f := x.Floor;
      var g := if y.Floor < |a| then y.Floor else |a|;
      ChunksFromStep(a, x, s, y);
      ChunksFromCover(a, y, s);
      var t := ChunksFrom(a, Fin(y), Fin(s));
      assert ([a[f..g]] + t)[1..] == t;
      assert a[f..g] + a[g..] == a[f..];
    } else {
      assert x.Floor >= |a|;
    }
  }

  /** For a number size of at least 1, laying the chunks end to end gives back
      the array. */
  lemma {:induction false} ChunkConcat<T>(a: seq<T>, s: real)
    requires 1.0 <= s
    ensures Seqs.Concat(Chunk(a, Fin(s))) == a
  {
    if |a| > 0 {
      ChunksFromCover(a, 0.0, s);
    }
  }

  /** For a size of at least 1 no chunk is empty, and none has as many as
      the size plus one elements. */
  lemma {:induction false} ChunksFromNonEmpty<T>(a: seq<T>, x: real, s: real)
    requires 0.0 <= x && 1.0 <= s
    ensures forall i :: 0 <= i < |ChunksFrom(a, Fin(x), Fin(s))| ==>
      0 < |ChunksFrom(a, Fin(x), Fin(s))[i]| && (|ChunksFrom(a, Fin(x), Fin(s))[i]| as real) < s + 1.0
    decreases Remaining(|a|, Fin(x))
  {
    if x < |a| as real {
      ChunksFromStep(a, x, s, x + s);
      ChunksFromNonEmpty(a, x + s, s);
      assert (x.Floor as real) <= x;
      assert ((x + s).Floor as real) <= x + s;
      assert ((x + s).Floor - x.Floor) as real < s + 1.0;
    }
  }

  /** One turn of the loop at an integral position `x == j` with an integral
      size `s == m`. */
  lemma {:induction false} ChunksFromIntStep<T>(a: seq<T>, j: nat, m: nat, x: real, s: real, y: real)
    requires 1 <= m && j < |a|
    requires x == j as real && s == m as real && y == (j + m) as real
    ensures ChunksFrom(a, Fin(x), Fin(s))
      == [a[j..if j + m < |a| then j + m else |a|]] + ChunksFrom(a, Fin(y), Fin(s))
  {
    IntegralFloors(j, m);
    ChunksFromStepAt(a, x, s, y, j, j + m);
  }

  /** At or past the end the loop stops. */
  lemma {:induction false} ChunksFromEnd<T>(a: seq<T>, y: real, s: real)
    requires |a| as real <= y && 1.0 <= s
    ensures ChunksFrom(a, Fin(y), Fin(s)) == []
  {
  }

  /** `ChunksFromStep` with the truncated positions given. */
  lemma {:induction false} ChunksFromStepAt<T>(a: seq<T>, x: real, s: real, y: real, f: int, g: int)
    requires 0.0 <= x < |a| as real && 1.0 <= s && y == x + s
    requires f == x.Floor && g == y.Floor
    ensures ChunksFrom(a, Fin(x), Fin(s))
      == [a[f..if g < |a| then g else |a|]] + ChunksFrom(a, Fin(y), Fin(s))
  {
    ChunksFromStep(a, x, s, y);
  }

  lemma {:induction false} IntegralFloors(j: nat, m: nat)
    ensures (j as real).Floor == j
    ensures ((j + m) as real).Floor == j + m
    ensures (j as real) + (m as real) == (j + m) as real
  {
  }

  /** From an integral position `j` with an integral size `m`, there are just
      enough chunks to hold the rest: `(count - 1) * m < rest <= count * m`. */
  lemma {:induction false} ChunksFromCount<T>(a: seq<T>, j: nat, m: nat)
    requires 1 <= m && j < |a|
    ensures var c := |ChunksFrom(a, Fin(j as real), Fin(m as real))|;
      0 < c && (c - 1) * m < |a| - j <= c * m
    decreases |a| - j
  {
    ChunksFromIntStep(a, j, m, j as real, m as real, (j + m) as real);
    var c := |ChunksFrom(a, Fin(j as real), Fin(m as real))|;
    if j + m >= |a| {
      ChunksFromEnd(a, (j + m) as real, m as real);
    } else {
      ChunksFromCount(a, j + m, m);
      var d := |ChunksFrom(a, Fin((j + m) as real), Fin(m as real))|;
      CountStep(c, d, m, |a| - j);
    }
  }

  lemma {:induction false} CountStep(c: int, d: int, m: int, k: int)
    requires c == d + 1 && (d - 1) * m < k - m <= d * m
    ensures (c - 1) * m < k <= c * m
  {
    assert (d - 1) * m == d * m - m;
    assert c * m == d * m + m;
  }

  /** From an integral position `j` with an integral size `m`: every chunk but
      the last has `m` elements, the last has 1 to `m`. */
  lemma {:induction false} ChunksFromShape<T>(a: seq<T>, j: nat, m: nat)
    requires 1 <= m && j < |a|
    ensures var r := ChunksFrom(a, Fin(j as real), Fin(m as real));
      && 0 < |r|
      && (forall i :: 0 <= i < |r| - 1 ==> |r[i]| == m)
      && 1 <= |r[|r| - 1]| <= m
    decreases |a| - j
  {
    ChunksFromIntStep(a, j, m, j as real, m as real, (j + m) as real);
    if j + m >= |a| {
      ChunksFromEnd(a, (j + m) as real, m as real);
    } else {
      ChunksFromShape(a, j + m, m);
    }
  }

  /** With an integral size `m`, all chunks but the last are full, and there
      are just enough chunks to hold the array: the length divided by `m`,
      rounded up. */
  lemma {:induction false} ChunkIntegralSize<T>(a: seq<T>, m: nat)
    requires 1 <= m && 0 < |a|
    ensures var r := Chunk(a, Fin(m as real));
      && (|r| - 1) * m < |a| <= |r| * m
      && (forall i :: 0 <= i < |r| - 1 ==> |r[i]| == m)
      && 1 <= |r[|r| - 1]| <= m
  {
    ChunksFromCount(a, 0, m);
    ChunksFromShape(a, 0, m);
  }

  /** `chunk([1, 2, 3], NaN)` is `[[]]`. */
  lemma {:induction false} ChunkNaNGivesEmptyChunk<T>(x: T)
    ensures Chunk([x], NaN) == [[]]
  {
    assert Slice([x], Fin(0.0), NaN) == [];
    assert ChunksFrom([x], NaN, NaN) == [];
  }

  // ---------------------------------------------------------------- corrected

  /** `chunk` with the guard `!(size >= 1)`, which also turns NaN away. */
  function ChunkFixed<T>(a: seq<T>, size: Number): (r: seq<seq<T>>)
    ensures size.NaN? || NumLess(size, Fin(1.0)) || |a| == 0 ==> r == []
  {
    if size.NaN? || NumLess(size, Fin(1.0)) || |a| == 0 then [] else ChunksFrom(a, Fin(0.0), size)
  }

  /** The corrected `chunk` never yields an empty chunk, always gives back
      the array when laid end to end (or nothing when the size is not a
      usable number), and agrees with the original on every number size. */
  lemma {:induction false} ChunkFixedSpec<T>(a: seq<T>, size: Number)
    ensures forall i :: 0 <= i < |ChunkFixed(a, size)| ==> 0 < |ChunkFixed(a, size)[i]|
    ensures size.Fin? && 1.0 <= size.x ==> Seqs.Concat(ChunkFixed(a, size)) == a
    ensures size.Fin? ==> ChunkFixed(a, size) == Chunk(a, size)
  {
    if size.Fin? && 1.0 <= size.x && |a| > 0 {
      ChunksFromNonEmpty(a, 0.0, size.x);
      ChunkConcat(a, size.x);
    }
  }
}

=== FILE: clamp.dfy ===
/** `clamp(number, lower, upper)`: a number forced into the range between two
    bounds, given in either order. */
module LangClamp {
  import opened JsValue

  function RealMin(a: real, b: real): real {
    if a <= b then a else b
  }

  function RealMax(a: real, b: real): real {
    if a <= b then b else a
  }

  /** Bounds given the wrong way round are swapped first. The result is NaN
      when any argument is; otherwise it lies between the two bounds, is the
      number itself when that already does, and is the nearer bound when it
      does not. */
  function Clamp(number: Number, lower: Number, upper: Number): (r: Number)
    ensures r.NaN? <==> number.NaN? || lower.NaN? || upper.NaN?
    ensures r.Fin? ==>
      var lo := RealMin(lower.x, upper.x);
      var hi := RealMax(lower.x, upper.x);
      && lo <= r.x <= hi
      && (lo <= number.x <= hi ==> r == number)
      && (number.x < lo ==> r.x == lo)
      && (hi < number.x ==> r.x == hi)
  {
    var (lo, hi) := if NumLess(upper, lower) then (upper, lower) else (lower, upper);
    MathMin(MathMax(number, lo), hi)
  }

  /** The order in which the bounds are given does not matter. */
  lemma {:induction false} ClampSymmetric(number: Number, lower: Number, upper: Number)
    ensures Clamp(number, lower, upper) == Clamp(number, upper, lower)
  {
  }

  /** Clamping a clamped number changes nothing. */
  lemma {:induction false} ClampIdempotent(number: Number, lower: Number, upper: Number)
    ensures Clamp(Clamp(number, lower, upper), lower, upper) == Clamp(number, lower, upper)
  {
  }
}

=== FILE: clone_deep.dfy ===
/**
 * `cloneDeep`: copy a value, dispatching on the kind of each object reached.
 * Every object expanded is first put in the seen set, and an object met a
 * second time (through a cycle or through sharing) comes back as the
 * original reference.
 *
 * The objects being copied are read from `src`, the heap as it was when the
 * call started; copies are allocated in `out`, which starts as that same
 * heap. The call writes only to objects it allocated, so the reads see the
 * same objects either way.
 */
module ObjectClone {
  import opened JsValue

  /** The threaded state after cloning one value. */
  datatype Cloned = Cloned(out: Store, seen: set<Addr>, value: Value)

  /** `typeof value === 'object'` and not null: the values that get copied. */
  predicate Expandable(src: Store, v: Value) {
    v.Ref? && TypeOf(src, v) == TObject
  }

  /** `out` with the object at `a` replaced. */
  function Update(out: Store, a: Addr, o: Obj): Store {
    Store(out.objs[a := o], out.next)
  }

  /** `Map.prototype.set`: replace the entry with key `k`, or append one. Keys
      are compared with SameValueZero, which is equality of model values. */
  function MapSet(es: seq<(Value, Value)>, k: Value, v: Value): (r: seq<(Value, Value)>)
    decreases |es|
  {
    if |es| == 0 then [(k, v)]
    else if es[0].0 == k then [(k, v)] + es[1..]
    else [es[0]] + MapSet(es[1..], k, v)
  }

  /** `Set.prototype.add`: append a value that is not yet a member. */
  function SetAdd(ms: seq<Value>, v: Value): seq<Value> {
    if v in ms then ms else ms + [v]
  }

  /** `result.set(k, v)` on the map under construction. */
  function MapPut(o: Obj, k: Value, v: Value): Obj {
    if o.kind.JsMap? then Obj(JsMap(MapSet(o.kind.entries, k, v)), o.props) else o
  }

  /** `result.add(v)` on the set under construction. */
  function SetPut(o: Obj, v: Value): Obj {
    if o.kind.JsSet? then Obj(JsSet(SetAdd(o.kind.members, v)), o.props) else o
  }

  /** Element `i` of the array `value.map` is filling. */
  function ElemPut(o: Obj, i: nat, v: Value): Obj {
    if o.kind.Array? && i < |o.kind.elems| then Obj(Array(o.kind.elems[i := v]), o.props) else o
  }

  /** `cloneDeep(value, seen)`. */
  function CloneValue(src: Store, out: Store, seen: set<Addr>, v: Value): (r: Cloned)
    ensures seen <= r.seen
    decreases src.objs.Keys - seen, 1, 0
  {
    if !Expandable(src, v) || v.addr in seen then Cloned(out, seen, v)
    else if v.addr !in src.objs then
      // an object with no own keys, as `ObjAt` reads it
      var (out1, a) := Alloc(out, NewPlain(NoFields));
      Cloned(out1, seen + {v.addr}, Ref(a))
    else Expand(src, out, seen, v)
  }

  /** The copy of an object met for the first time: it joins the seen set, its
      copy is allocated, and then the copy is filled in. */
  function Expand(src: Store, out: Store, seen: set<Addr>, v: Value): (r: Cloned)
    requires v.Ref? && v.addr in src.objs && v.addr !in seen
    ensures seen <= r.seen
    decreases src.objs.Keys - seen, 0, 0
  {
    var seen1 := seen + {v.addr};
    var o := src.objs[v.addr];
    match o.kind
    case Date(t) =>
      var (out1, a) := Alloc(out, Obj(Date(t), NoFields));
      Cloned(out1, seen1, Ref(a))
    case RegExp(s, f) =>
      var (out1, a) := Alloc(out, Obj(RegExp(s, f), NoFields));
      Cloned(out1, seen1, Ref(a))
    case JsMap(es) => CopyMap(src, out, seen1, es)
    case JsSet(ms) => CopySet(src, out, seen1, ms)
    case Array(es) => CopyArray(src, out, seen1, es)
    case _ => CopyObject(src, out, seen1, v, OwnKeys(o))
  }

  /** `const result = new Map()`, then its entries. */
  function CopyMap(src: Store, out: Store, seen: set<Addr>, es: seq<(Value, Value)>): (r: Cloned)
    ensures seen <= r.seen
    decreases src.objs.Keys - seen, 4, 0
  {
    var (out1, a) := Alloc(out, Obj(JsMap([]), NoFields));
    var (out2, seen2) := CloneEntries(src, out1, seen, a, es, 0);
    Cloned(out2, seen2, Ref(a))
  }

  /** `const result = new Set()`, then its members. */
  function CopySet(src: Store, out: Store, seen: set<Addr>, ms: seq<Value>): (r: Cloned)
    ensures seen <= r.seen
    decreases src.objs.Keys - seen, 4, 0
  {
    var (out1, a) := Alloc(out, Obj(JsSet([]), NoFields));
    var (out2, seen2) := CloneMembers(src, out1, seen, a, ms, 0);
    Cloned(out2, seen2, Ref(a))
  }

  /** `value.map(...)`: an array of the same length, then its elements. */
  function CopyArray(src: Store, out: Store, seen: set<Addr>, es: seq<Value>): (r: Cloned)
    ensures seen <= r.seen
    decreases src.objs.Keys - seen, 4, 0
  {
    var (out1, a) := Alloc(out, Obj(Array(seq(|es|, _ => Undefined)), NoFields));
    var (out2, seen2) := CloneElems(src, out1, seen, a, es, 0);
    Cloned(out2, seen2, Ref(a))
  }

  /** `const result = {}`, then the own enumerable keys of `v`. */
  function CopyObject(src: Store, out: Store, seen: set<Addr>, v: Value, keys: seq<string>): (r: Cloned)
    ensures seen <= r.seen
    decreases src.objs.Keys - seen, 4, 0
  {
    var (out1, a) := Alloc(out, NewPlain(NoFields));
    var (out2, seen2) := CloneProps(src, out1, seen, a, v, keys, 0);
    Cloned(out2, seen2, Ref(a))
  }

  /** `result.set(cloneDeep(k, seen), cloneDeep(v, seen))` for one entry. */
  function EntryStep(src: Store, out: Store, seen: set<Addr>, m: Addr, e: (Value, Value)): (r: (Store, set<Addr>))
    ensures seen <= r.1
    decreases src.objs.Keys - seen, 2, 0
  {
    var ck := CloneValue(src, out, seen, e.0);
    var cv := CloneValue(src, ck.out, ck.seen, e.1);
    (Update(cv.out, m, MapPut(ObjAt(cv.out, m), ck.value, cv.value)), cv.seen)
  }

  /** `value.forEach((v, k) => ...)`, from entry `i` on. */
  function CloneEntries(src: Store, out: Store, seen: set<Addr>, m: Addr, es: seq<(Value, Value)>, i: nat): (r: (Store, set<Addr>))
    requires i <= |es|
    ensures seen <= r.1
    decreases src.objs.Keys - seen, 3, |es| - i
  {
    if i == |es| then (out, seen)
    else
      var (out1, seen1) := EntryStep(src, out, seen, m, es[i]);
      CloneEntries(src, out1, seen1, m, es, i + 1)
  }

  /** `result.add(cloneDeep(v, seen))` for one member. */
  function MemberStep(src: Store, out: Store, seen: set<Addr>, s: Addr, x: Value): (r: (Store, set<Addr>))
    ensures seen <= r.1
    decreases src.objs.Keys - seen, 2, 0
  {
    var c := CloneValue(src, out, seen, x);
    (Update(c.out, s, SetPut(ObjAt(c.out, s), c.value)), c.seen)
  }

  /** `value.forEach(v => ...)`, from member `i` on. */
  function CloneMembers(src: Store, out: Store, seen: set<Addr>, s: Addr, ms: seq<Value>, i: nat): (r: (Store, set<Addr>))
    requires i <= |ms|
    ensures seen <= r.1
    decreases src.objs.Keys - seen, 3, |ms| - i
  {
    if i == |ms| then (out, seen)
    else
      var (out1, seen1) := MemberStep(src, out, seen, s, ms[i]);
      CloneMembers(src, out1, seen1, s, ms, i + 1)
  }

  /** Element `i` of `value.map(item => cloneDeep(item, seen))`. */
  function ElemStep(src: Store, out: Store, seen: set<Addr>, a: Addr, x: Value, i: nat): (r: (Store, set<Addr>))
    ensures seen <= r.1
    decreases src.objs.Keys - seen, 2, 0
  {
    var c := CloneValue(src, out, seen, x);
    (Update(c.out, a, ElemPut(ObjAt(c.out, a), i, c.value)), c.seen)
  }

  /** `value.map(...)`, filling element `i` onwards. */
  function CloneElems(src: Store, out: Store, seen: set<Addr>, a: Addr, es: seq<Value>, i: nat): (r: (Store, set<Addr>))
    requires i <= |es|
    ensures seen <= r.1
    decreases src.objs.Keys - seen, 3, |es| - i
  {
    if i == |es| then (out, seen)
    else
      var (out1, seen1) := ElemStep(src, out, seen, a, es[i], i);
      CloneElems(src, out1, seen1, a, es, i + 1)
  }

  /** `result[key] = cloneDeep(value[key], seen)`, where `x` is `value[key]`. */
  function PropStep(src: Store, out: Store, seen: set<Addr>, res: Addr, key: string, x: Value): (r: (Store, set<Addr>))
    ensures seen <= r.1
    decreases src.objs.Keys - seen, 2, 0
  {
    var c := CloneValue(src, out, seen, x);
    (Update(c.out, res, Assign(ObjAt(c.out, res), key, c.value)), c.seen)
  }

  /** `for (const key of Object.keys(value)) ...`, from key `i` on. */
  function CloneProps(src: Store, out: Store, seen: set<Addr>, res: Addr, v: Value, keys: seq<string>, i: nat): (r: (Store, set<Addr>))
    requires i <= |keys|
    ensures seen <= r.1
    decreases src.objs.Keys - seen, 3, |keys| - i
  {
    if i == |keys| then (out, seen)
    else
      var (out1, seen1) := PropStep(src, out, seen, res, keys[i], GetProp(src, v, keys[i]));
      CloneProps(src, out1, seen1, res, v, keys, i + 1)
  }

  /** `cloneDeep(value)`: a fresh seen set, copies allocated on top of `st`.
      Null, undefined, primitives and functions come back as they are. */
  function CloneDeep(st: Store, v: Value): (r: Value)
    ensures !Expandable(st, v) ==> r == v
  {
    CloneValue(st, st, {}, v).value
  }

  // ---------------------------------------------------------------- no mutation

  /** Replacing a valid object keeps the heap well formed and changes nothing else. */
  lemma {:induction false} UpdateFacts(out: Store, a: Addr, o: Obj)
    requires Wf(out) && a in out.objs && ValidObj(o)
    ensures Wf(Update(out, a, o)) && Grows(out, Update(out, a, o), a) && Update(out, a, o).objs[a] == o
  {
  }

  /** `cloneDeep` never changes an object that exists when it is called: it
      only allocates, and it writes only to the objects it allocated. An object
      it copies becomes a new object at the next free address. */
  lemma {:induction false} CloneFrame(src: Store, out: Store, seen: set<Addr>, v: Value)
    requires Wf(src) && Wf(out)
    ensures var r := CloneValue(src, out, seen, v);
      && Wf(r.out) && Extends(out, r.out)
      && (Expandable(src, v) && v.addr !in seen ==> r.value == Ref(out.next) && out.next in r.out.objs)
    decreases src.objs.Keys - seen, 1, 0
  {
    if Expandable(src, v) && v.addr !in seen {
      if v.addr !in src.objs {
        AllocFacts(out, NewPlain(NoFields));
      } else {
        ExpandFrame(src, out, seen, v);
      }
    }
  }

  lemma {:induction false} ExpandFrame(src: Store, out: Store, seen: set<Addr>, v: Value)
    requires Wf(src) && Wf(out)
    requires v.Ref? && v.addr in src.objs && v.addr !in seen
    ensures var r := Expand(src, out, seen, v);
      && Wf(r.out) && Extends(out, r.out) && r.value == Ref(out.next) && out.next in r.out.objs
    decreases src.objs.Keys - seen, 0, 0
  {
    var seen1 := seen + {v.addr};
    var o := src.objs[v.addr];
    if o.kind.Date? || o.kind.RegExp? {
      AllocFacts(out, Obj(o.kind, NoFields));
    } else if o.kind.JsMap? {
      CopyMapFrame(src, out, seen1, o.kind.entries);
    } else if o.kind.JsSet? {
      CopySetFrame(src, out, seen1, o.kind.members);
    } else if o.kind.Array? {
      CopyArrayFrame(src, out, seen1, o.kind.elems);
    } else {
      CopyObjectFrame(src, out, seen1, v, OwnKeys(o));
    }
  }

  lemma {:induction false} CopyMapFrame(src: Store, out: Store, seen: set<Addr>, es: seq<(Value, Value)>)
    requires Wf(src) && Wf(out)
    ensures var r := CopyMap(src, out, seen, es);
      && Wf(r.out) && Extends(out, r.out) && r.value == Ref(out.next) && out.next in r.out.objs
    decreases src.objs.Keys - seen, 4, 0
  {
    var c := Obj(JsMap([]), NoFields);
    AllocFacts(out, c);
    var (out1, a) := Alloc(out, c);
    EntriesFrame(src, out1, seen, a, es, 0);
  }

  lemma {:induction false} CopySetFrame(src: Store, out: Store, seen: set<Addr>, ms: seq<Value>)
    requires Wf(src) && Wf(out)
    ensures var r := CopySet(src, out, seen, ms);
      && Wf(r.out) && Extends(out, r.out) && r.value == Ref(out.next) && out.next in r.out.objs
    decreases src.objs.Keys - seen, 4, 0
  {
    var c := Obj(JsSet([]), NoFields);
    AllocFacts(out, c);
    var (out1, a) := Alloc(out, c);
    MembersFrame(src, out1, seen, a, ms, 0);
  }

  lemma {:induction false} CopyArrayFrame(src: Store, out: Store, seen: set<Addr>, es: seq<Value>)
    requires Wf(src) && Wf(out) && |es| <= Decimal.MaxArrayLength
    ensures var r := CopyArray(src, out, seen, es);
      && Wf(r.out) && Extends(out, r.out) && r.value == Ref(out.next) && out.next in r.out.objs
    decreases src.objs.Keys - seen, 4, 0
  {
    var c := Obj(Array(seq(|es|, _ => Undefined)), NoFields);
    AllocFacts(out, c);
    var (out1, a) := Alloc(out, c);
    ElemsFrame(src, out1, seen, a, es, 0);
  }

  lemma {:induction false} CopyObjectFrame(src: Store, out: Store, seen: set<Addr>, v: Value, keys: seq<string>)
    requires Wf(src) && Wf(out)
    ensures var r := CopyObject(src, out, seen, v, keys);
      && Wf(r.out) && Extends(out, r.out) && r.value == Ref(out.next) && out.next in r.out.objs
    decreases src.objs.Keys - seen, 4, 0
  {
    var c := NewPlain(NoFields);
    AllocFacts(out, c);
    var (out1, a) := Alloc(out, c);
    PropsFrame(src, out1, seen, a, v, keys, 0);
  }

  lemma {:induction false} EntryStepFrame(src: Store, out: Store, seen: set<Addr>, m: Addr, e: (Value, Value))
    requires Wf(src) && Wf(out) && m in out.objs
    ensures var r := EntryStep(src, out, seen, m, e);
      Wf(r.0) && Grows(out, r.0, m) && m in r.0.objs
    decreases src.objs.Keys - seen, 2, 0
  {
    var ck := CloneValue(src, out, seen, e.0);
    CloneFrame(src, out, seen, e.0);
    var cv := CloneValue(src, ck.out, ck.seen, e.1);
    CloneFrame(src, ck.out, ck.seen, e.1);
    var o := ObjAt(cv.out, m);
    assert ValidObj(MapPut(o, ck.value, cv.value));
    UpdateFacts(cv.out, m, MapPut(o, ck.value, cv.value));
  }

  lemma {:induction false} EntriesFrame(src: Store, out: Store, seen: set<Addr>, m: Addr, es: seq<(Value, Value)>, i: nat)
    requires i <= |es| && Wf(src) && Wf(out) && m in out.objs
    ensures var r := CloneEntries(src, out, seen, m, es, i);
      Wf(r.0) && Grows(out, r.0, m) && m in r.0.objs
    decreases src.objs.Keys - seen, 3, |es| - i
  {
    if i < |es| {
      EntryStepFrame(src, out, seen, m, es[i]);
      var (out1, seen1) := EntryStep(src, out, seen, m, es[i]);
      EntriesFrame(src, out1, seen1, m, es, i + 1);
      GrowsTrans(out, out1, CloneEntries(src, out1, seen1, m, es, i + 1).0, m);
    }
  }

  lemma {:induction false} MemberStepFrame(src: Store, out: Store, seen: set<Addr>, s: Addr, x: Value)
    requires Wf(src) && Wf(out) && s in out.objs
    ensures var r := MemberStep(src, out, seen, s, x);
      Wf(r.0) && Grows(out, r.0, s) && s in r.0.objs
    decreases src.objs.Keys - seen, 2, 0
  {
    var c := CloneValue(src, out, seen, x);
    CloneFrame(src, out, seen, x);
    var o := ObjAt(c.out, s);
    assert ValidObj(SetPut(o, c.value));
    UpdateFacts(c.out, s, SetPut(o, c.value));
  }

  lemma {:induction false} MembersFrame(src: Store, out: Store, seen: set<Addr>, s: Addr, ms: seq<Value>, i: nat)
    requires i <= |ms| && Wf(src) && Wf(out) && s in out.objs
    ensures var r := CloneMembers(src, out, seen, s, ms, i);
      Wf(r.0) && Grows(out, r.0, s) && s in r.0.objs
    decreases src.objs.Keys - seen, 3, |ms| - i
  {
    if i < |ms| {
      MemberStepFrame(src, out, seen, s, ms[i]);
      var (out1, seen1) := MemberStep(src, out, seen, s, ms[i]);
      MembersFrame(src, out1, seen1, s, ms, i + 1);
      GrowsTrans(out, out1, CloneMembers(src, out1, seen1, s, ms, i + 1).0, s);
    }
  }

  lemma {:induction false} ElemStepFrame(src: Store, out: Store, seen: set<Addr>, a: Addr, x: Value, i: nat)
    requires Wf(src) && Wf(out) && a in out.objs
    ensures var r := ElemStep(src, out, seen, a, x, i);
      Wf(r.0) && Grows(out, r.0, a) && a in r.0.objs
    decreases src.objs.Keys - seen, 2, 0
  {
    var c := CloneValue(src, out, seen, x);
    CloneFrame(src, out, seen, x);
    var o := ObjAt(c.out, a);
    assert ValidObj(ElemPut(o, i, c.value));
    UpdateFacts(c.out, a, ElemPut(o, i, c.value));
  }

  lemma {:induction false} ElemsFrame(src: Store, out: Store, seen: set<Addr>, a: Addr, es: seq<Value>, i: nat)
    requires i <= |es| && Wf(src) && Wf(out) && a in out.objs
    ensures var r := CloneElems(src, out, seen, a, es, i);
      Wf(r.0) && Grows(out, r.0, a) && a in r.0.objs
    decreases src.objs.Keys - seen, 3, |es| - i
  {
    if i < |es| {
      ElemStepFrame(src, out, seen, a, es[i], i);
      var (out1, seen1) := ElemStep(src, out, seen, a, es[i], i);
      ElemsFrame(src, out1, seen1, a, es, i + 1);
      GrowsTrans(out, out1, CloneElems(src, out1, seen1, a, es, i + 1).0, a);
    }
  }

  lemma {:induction false} PropStepFrame(src: Store, out: Store, seen: set<Addr>, res: Addr, key: string, x: Value)
    requires Wf(src) && Wf(out) && res in out.objs && !out.objs[res].kind.Array?
    ensures var r := PropStep(src, out, seen, res, key, x);
      Wf(r.0) && Grows(out, r.0, res) && res in r.0.objs && !r.0.objs[res].kind.Array?
    decreases src.objs.Keys - seen, 2, 0
  {
    var c := CloneValue(src, out, seen, x);
    CloneFrame(src, out, seen, x);
    var o := ObjAt(c.out, res);
    AssignValid(o, key, c.value);
    UpdateFacts(c.out, res, Assign(o, key, c.value));
  }

  lemma {:induction false} PropsFrame(src: Store, out: Store, seen: set<Addr>, res: Addr, v: Value, keys: seq<string>, i: nat)
    requires i <= |keys| && Wf(src) && Wf(out) && res in out.objs && !out.objs[res].kind.Array?
    ensures var r := CloneProps(src, out, seen, res, v, keys, i);
      Wf(r.0) && Grows(out, r.0, res) && res in r.0.objs
    decreases src.objs.Keys - seen, 3, |keys| - i
  {
    if i < |keys| {
      PropStepFrame(src, out, seen, res, keys[i], GetProp(src, v, keys[i]));
      var (out1, seen1) := PropStep(src, out, seen, res, keys[i], GetProp(src, v, keys[i]));
      PropsFrame(src, out1, seen1, res, v, keys, i + 1);
      GrowsTrans(out, out1, CloneProps(src, out1, seen1, res, v, keys, i + 1).0, res);
    }
  }

  /** `cloneDeep(value)` leaves every existing object as it was. */
  lemma {:induction false} CloneDeepNoMutation(st: Store, v: Value)
    requires Wf(st)
    ensures var r := CloneValue(st, st, {}, v);
      Wf(r.out) && Extends(st, r.out)
  {
    CloneFrame(st, st, {}, v);
  }

  // ---------------------------------------------------------------- tree-shaped input

  /** The values `cloneDeep` recurses into, in the order it visits them. */
  function Visits(o: Obj): seq<Value> {
    match o.kind
    case Array(es) => es
    case JsMap(es) => Pairs(es)
    case JsSet(ms) => ms
    case Plain(_) => PropValues(o.props)
    case Instance => PropValues(o.props)
    case _ => []
  }

  /** The keys and values of map entries, interleaved as `forEach` meets them. */
  function Pairs(es: seq<(Value, Value)>): seq<Value>
    decreases |es|
  {
    if |es| == 0 then [] else [es[0].0, es[0].1] + Pairs(es[1..])
  }

  /** The values of the fields, in key order. */
  function PropValues(f: Fields): seq<Value> {
    seq(|f.order|, j requires 0 <= j < |f.order| => FieldGet(f, f.order[j]))
  }

  /** The objects `cloneDeep` would expand from `v`, following at most `n` levels. */
  function Reach(src: Store, v: Value, n: nat): set<Addr>
    decreases n, 0
  {
    if !Expandable(src, v) || n == 0 then {}
    else {v.addr} + ReachAll(src, Visits(ObjAt(src, v.addr)), n - 1)
  }

  function ReachAll(src: Store, vs: seq<Value>, n: nat): set<Addr>
    decreases n, 1, |vs|
  {
    if |vs| == 0 then {} else Reach(src, vs[0], n) + ReachAll(src, vs[1..], n)
  }

  /** Map keys are distinct, set members are distinct, and an ordinary object
      has no own `__proto__` key (which the copy could not recreate). */
  predicate Proper(o: Obj) {
    match o.kind
    case JsMap(es) => DistinctKeys(es)
    case JsSet(ms) => Distinct(ms)
    case Plain(_) => "__proto__" !in o.props.vals
    case Instance => "__proto__" !in o.props.vals
    case _ => true
  }

  /** `v` is a tree of height at most `n`: no object is reached twice, whether
      through a cycle or through two parents. */
  predicate Tree(src: Store, v: Value, n: nat)
    decreases n, 0
  {
    Expandable(src, v) ==>
      && n > 0
      && v.addr in src.objs
      && Proper(src.objs[v.addr])
      && v.addr !in ReachAll(src, Visits(src.objs[v.addr]), n - 1)
      && TreeAll(src, Visits(src.objs[v.addr]), n - 1)
  }

  /** Each value is a tree, and no two of them reach a common object. */
  predicate TreeAll(src: Store, vs: seq<Value>, n: nat)
    decreases n, 1, |vs|
  {
    |vs| > 0 ==>
      && Tree(src, vs[0], n)
      && Reach(src, vs[0], n) !! ReachAll(src, vs[1..], n)
      && TreeAll(src, vs[1..], n)
  }

  /** `w` in `out` is a copy of `v` in `src` at most `n` levels deep: values that
      are not copied are the same, and every copied object is an object of
      `out` at an address from `lo` on, with the kind the copy gives and copies
      of the values it holds. */
  predicate Mirrors(src: Store, out: Store, v: Value, w: Value, lo: Addr, n: nat)
    decreases n, 2
  {
    if !Expandable(src, v) then w == v
    else
      && w.Ref? && lo <= w.addr < out.next && w.addr in out.objs
      && Copied(src, out, ObjAt(src, v.addr), out.objs[w.addr], lo, n)
  }

  /** `c` is the copy of object `o`. */
  predicate Copied(src: Store, out: Store, o: Obj, c: Obj, lo: Addr, n: nat)
    decreases n, 1
  {
    && n > 0
    && match o.kind
       case Date(_) => c == Obj(o.kind, NoFields)
       case RegExp(_, _) => c == Obj(o.kind, NoFields)
       case Array(es) => ArrayCopy(src, out, es, c, lo, n - 1)
       case JsMap(es) => MapCopy(src, out, es, c, lo, n - 1)
       case JsSet(ms) => SetCopy(src, out, ms, c, lo, n - 1)
       case Function => false
       case _ => ObjectCopy(src, out, o.props, c, lo, n - 1)
  }

  /** An array of copies of the elements, with no other own keys. */
  predicate ArrayCopy(src: Store, out: Store, es: seq<Value>, c: Obj, lo: Addr, m: nat)
    decreases m, 5
  {
    c.props == NoFields && c.kind.Array? && MirrorsAll(src, out, es, c.kind.elems, lo, m)
  }

  /** A set of copies of the members, in insertion order. */
  predicate SetCopy(src: Store, out: Store, ms: seq<Value>, c: Obj, lo: Addr, m: nat)
    decreases m, 5
  {
    c.props == NoFields && c.kind.JsSet? && MirrorsAll(src, out, ms, c.kind.members, lo, m)
  }

  /** A map whose entries copy the keys and the values, in insertion order. */
  predicate MapCopy(src: Store, out: Store, es: seq<(Value, Value)>, c: Obj, lo: Addr, m: nat)
    decreases m, 5
  {
    && c.props == NoFields && c.kind.JsMap?
    && MirrorsAll(src, out, KeysOf(es), KeysOf(c.kind.entries), lo, m)
    && MirrorsAll(src, out, ValsOf(es), ValsOf(c.kind.entries), lo, m)
  }

  /** A plain object with the same keys in the same order, holding copies of
      the values. */
  predicate ObjectCopy(src: Store, out: Store, f: Fields, c: Obj, lo: Addr, m: nat)
    decreases m, 5
  {
    && c.kind == Plain(false) && c.props.order == f.order
    && MirrorsAll(src, out, PropValues(f), PropValues(c.props), lo, m)
  }

  predicate MirrorsAll(src: Store, out: Store, vs: seq<Value>, ws: seq<Value>, lo: Addr, m: nat)
    decreases m, 4
  {
    |vs| == |ws| && MirrorsUpTo(src, out, vs, ws, |vs|, lo, m)
  }

  /** The first `i` values have their copies in the first `i` places. */
  predicate MirrorsUpTo(src: Store, out: Store, vs: seq<Value>, ws: seq<Value>, i: nat, lo: Addr, m: nat)
    decreases m, 3
  {
    && i <= |vs| && i <= |ws|
    && forall j :: 0 <= j < i ==> Mirrors(src, out, vs[j], ws[j], lo, m)
  }

  /** The objects from `lo` on that `out1` holds are unchanged in `out2`. */
  predicate Keeps(out1: Store, out2: Store, lo: Addr) {
    && out1.next <= out2.next
    && forall a :: a in out1.objs && lo <= a ==> a in out2.objs && out2.objs[a] == out1.objs[a]
  }

  /** A copy stays a copy while its objects are left alone. */
  lemma {:induction false} MirrorsStable(src: Store, out1: Store, out2: Store, v: Value, w: Value, lo1: Addr, lo2: Addr, n: nat)
    requires Mirrors(src, out1, v, w, lo1, n) && Keeps(out1, out2, lo1) && lo2 <= lo1
    ensures Mirrors(src, out2, v, w, lo2, n)
    decreases n, 2
  {
    if Expandable(src, v) {
      CopiedStable(src, out1, out2, ObjAt(src, v.addr), out1.objs[w.addr], lo1, lo2, n);
    }
  }

  lemma {:induction false} CopiedStable(src: Store, out1: Store, out2: Store, o: Obj, c: Obj, lo1: Addr, lo2: Addr, n: nat)
    requires Copied(src, out1, o, c, lo1, n) && Keeps(out1, out2, lo1) && lo2 <= lo1
    ensures Copied(src, out2, o, c, lo2, n)
    decreases n, 1
  {
    match o.kind
    case Date(_) =>
    case RegExp(_, _) =>
    case Array(es) =>
      assert ArrayCopy(src, out1, es, c, lo1, n - 1);
      AllStable(src, out1, out2, es, c.kind.elems, lo1, lo2, n - 1);
    case JsMap(es) =>
      assert MapCopy(src, out1, es, c, lo1, n - 1);
      AllStable(src, out1, out2, KeysOf(es), KeysOf(c.kind.entries), lo1, lo2, n - 1);
      AllStable(src, out1, out2, ValsOf(es), ValsOf(c.kind.entries), lo1, lo2, n - 1);
    case JsSet(ms) =>
      assert SetCopy(src, out1, ms, c, lo1, n - 1);
      AllStable(src, out1, out2, ms, c.kind.members, lo1, lo2, n - 1);
    case Function =>
    case Plain(_) =>
      assert ObjectCopy(src, out1, o.props, c, lo1, n - 1);
      AllStable(src, out1, out2, PropValues(o.props), PropValues(c.props), lo1, lo2, n - 1);
    case Instance =>
      assert ObjectCopy(src, out1, o.props, c, lo1, n - 1);
      AllStable(src, out1, out2, PropValues(o.props), PropValues(c.props), lo1, lo2, n - 1);
  }

  lemma {:induction false} AllStable(src: Store, out1: Store, out2: Store, vs: seq<Value>, ws: seq<Value>, lo1: Addr, lo2: Addr, m: nat)
    requires MirrorsAll(src, out1, vs, ws, lo1, m) && Keeps(out1, out2, lo1) && lo2 <= lo1
    ensures MirrorsAll(src, out2, vs, ws, lo2, m)
    decreases m, 4
  {
    UpToStable(src, out1, out2, vs, ws, |vs|, lo1, lo2, m);
  }

  lemma {:induction false} UpToStable(src: Store, out1: Store, out2: Store, vs: seq<Value>, ws: seq<Value>, i: nat, lo1: Addr, lo2: Addr, m: nat)
    requires MirrorsUpTo(src, out1, vs, ws, i, lo1, m) && Keeps(out1, out2, lo1) && lo2 <= lo1
    ensures MirrorsUpTo(src, out2, vs, ws, i, lo2, m)
    decreases m, 3
  {
    forall j | 0 <= j < i
      ensures Mirrors(src, out2, vs[j], ws[j], lo2, m)
    {
      MirrorsStable(src, out1, out2, vs[j], ws[j], lo1, lo2, m);
    }
  }

  /** Copies made in separate address ranges of distinct originals differ:
      a copied object lies in its own range, above every original, and an
      uncopied value is its original. */
  lemma {:induction false} MirrorsApart(src: Store, out1: Store, out2: Store, x: Value, x2: Value, y: Value, y2: Value, lo: Addr, n1: nat, n2: nat)
    requires Wf(src) && src.next <= lo <= out1.next && x != y
    requires Mirrors(src, out1, x, x2, lo, n1) && Mirrors(src, out2, y, y2, out1.next, n2)
    ensures x2 != y2
  {
    if x.Ref? && !Expandable(src, x) {
      assert x.addr in src.objs && x.addr < src.next;
    }
    if y.Ref? && !Expandable(src, y) {
      assert y.addr in src.objs && y.addr < src.next;
    }
  }

  // ---- helpers for the tree theorem

  /** Splitting the trees from position `i` into the first one and the rest. */
  lemma {:induction false} TreeFrom(src: Store, vs: seq<Value>, i: nat, seen: set<Addr>, m: nat)
    requires i < |vs| && TreeAll(src, vs[i..], m) && seen !! ReachAll(src, vs[i..], m)
    ensures Tree(src, vs[i], m) && seen !! Reach(src, vs[i], m)
    ensures TreeAll(src, vs[i + 1..], m) && seen + Reach(src, vs[i], m) !! ReachAll(src, vs[i + 1..], m)
    ensures ReachAll(src, vs[i..], m) == Reach(src, vs[i], m) + ReachAll(src, vs[i + 1..], m)
  {
    assert vs[i..][0] == vs[i] && vs[i..][1..] == vs[i + 1..];
  }

  /** The same split for map entries: the key, the value, then the other entries. */
  lemma {:induction false} PairsTreeFrom(src: Store, es: seq<(Value, Value)>, i: nat, seen: set<Addr>, m: nat)
    requires i < |es| && TreeAll(src, Pairs(es[i..]), m) && seen !! ReachAll(src, Pairs(es[i..]), m)
    ensures Tree(src, es[i].0, m) && seen !! Reach(src, es[i].0, m)
    ensures Tree(src, es[i].1, m) && seen + Reach(src, es[i].0, m) !! Reach(src, es[i].1, m)
    ensures TreeAll(src, Pairs(es[i + 1..]), m)
    ensures seen + Reach(src, es[i].0, m) + Reach(src, es[i].1, m) !! ReachAll(src, Pairs(es[i + 1..]), m)
    ensures ReachAll(src, Pairs(es[i..]), m) ==
      Reach(src, es[i].0, m) + Reach(src, es[i].1, m) + ReachAll(src, Pairs(es[i + 1..]), m)
  {
    var ps := Pairs(es[i..]);
    assert es[i..][0] == es[i] && es[i..][1..] == es[i + 1..];
    assert ps == [es[i].0, es[i].1] + Pairs(es[i + 1..]);
    assert ps[0..] == ps && ps[2..] == Pairs(es[i + 1..]);
    TreeFrom(src, ps, 0, seen, m);
    TreeFrom(src, ps, 1, seen + Reach(src, es[i].0, m), m);
  }

  /** Appending the copy of the next value keeps the earlier copies. */
  lemma {:induction false} PrefixExtend(src: Store, out1: Store, out2: Store, vs: seq<Value>, ws1: seq<Value>, ws2: seq<Value>, i: nat, lo: Addr, m: nat)
    requires MirrorsUpTo(src, out1, vs, ws1, i, lo, m) && Keeps(out1, out2, lo)
    requires i < |vs| && i < |ws2| && ws2[..i] == ws1[..i]
    requires Mirrors(src, out2, vs[i], ws2[i], lo, m)
    ensures MirrorsUpTo(src, out2, vs, ws2, i + 1, lo, m)
  {
    forall j | 0 <= j < i
      ensures Mirrors(src, out2, vs[j], ws2[j], lo, m)
    {
      assert ws2[j] == ws2[..i][j] == ws1[..i][j] == ws1[j];
      MirrorsStable(src, out1, out2, vs[j], ws1[j], lo, lo, m);
    }
  }

  /** The copy of a value distinct from the earlier ones is not among their copies. */
  lemma {:induction false} ApartFromPrefix(src: Store, out: Store, out2: Store, vs: seq<Value>, ws: seq<Value>, i: nat, w: Value, lo: Addr, m: nat)
    requires Wf(src) && src.next <= lo <= out.next && Distinct(vs) && i < |vs|
    requires MirrorsUpTo(src, out, vs, ws, i, lo, m) && Mirrors(src, out2, vs[i], w, out.next, m)
    ensures w !in ws[..i]
  {
    forall j | 0 <= j < i
      ensures ws[j] != w
    {
      MirrorsApart(src, out, out2, vs[j], ws[j], vs[i], w, lo, m, m);
    }
  }

  /** `Map.prototype.set` with a key not yet present appends the entry. */
  lemma {:induction false} MapSetNew(es: seq<(Value, Value)>, k: Value, v: Value)
    requires k !in KeysOf(es)
    ensures MapSet(es, k, v) == es + [(k, v)]
    decreases |es|
  {
    if |es| > 0 {
      assert KeysOf(es)[0] == es[0].0;
      assert KeysOf(es[1..]) == KeysOf(es)[1..];
      MapSetNew(es[1..], k, v);
      assert [es[0]] + (es[1..] + [(k, v)]) == es + [(k, v)];
    }
  }

  lemma {:induction false} KeysValsAppend(es: seq<(Value, Value)>, e: (Value, Value))
    ensures KeysOf(es + [e]) == KeysOf(es) + [e.0] && ValsOf(es + [e]) == ValsOf(es) + [e.1]
  {
  }

  /** Assigning a new key appends its value to the values in key order. */
  lemma {:induction false} PropValuesPut(f: Fields, k: string, v: Value)
    requires ValidFields(f) && k !in f.vals
    ensures PropValues(FieldPut(f, k, v)) == PropValues(f) + [v]
  {
    var g := FieldPut(f, k, v);
    forall j | 0 <= j < |f.order|
      ensures FieldGet(g, g.order[j]) == FieldGet(f, f.order[j])
    {
      assert f.order[j] in f.vals;
    }
  }

  /** Appending an entry whose key and value are copies, under a key the map
      does not yet hold. */
  lemma {:induction false} MapExtend(src: Store, out: Store, out1: Store, a: Addr, es: seq<(Value, Value)>, i: nat, k: Value, w: Value, m: nat)
    requires MapSoFar(src, out, a, es, i, m) && i < |es|
    requires Wf(out1) && a in out1.objs && Keeps(out, out1, a + 1)
    requires out1.objs[a] == MapPut(out.objs[a], k, w) && k !in KeysOf(out.objs[a].kind.entries)
    requires Mirrors(src, out1, es[i].0, k, a + 1, m) && Mirrors(src, out1, es[i].1, w, a + 1, m)
    ensures MapSoFar(src, out1, a, es, i + 1, m)
  {
    var before := out.objs[a].kind.entries;
    MapSetNew(before, k, w);
    var after := before + [(k, w)];
    KeysValsAppend(before, (k, w));
    assert KeysOf(es)[i] == es[i].0 && ValsOf(es)[i] == es[i].1;
    assert KeysOf(before)[..i] == KeysOf(before) && ValsOf(before)[..i] == ValsOf(before);
    PrefixExtend(src, out, out1, KeysOf(es), KeysOf(before), KeysOf(after), i, a + 1, m);
    PrefixExtend(src, out, out1, ValsOf(es), ValsOf(before), ValsOf(after), i, a + 1, m);
  }

  /** Adding the next key of `o` to the plain copy, holding a copy of its value. */
  lemma {:induction false} ObjectExtend(src: Store, out: Store, out1: Store, res: Addr, o: Obj, i: nat, w: Value, m: nat)
    requires ObjectSoFar(src, out, res, o, i, m) && i < |o.props.order|
    requires Wf(out1) && res in out1.objs && Keeps(out, out1, res + 1)
    requires o.props.order[i] !in out.objs[res].props.vals
    requires out1.objs[res] == Obj(Plain(false), FieldPut(out.objs[res].props, o.props.order[i], w))
    requires Mirrors(src, out1, PropValues(o.props)[i], w, res + 1, m)
    ensures ObjectSoFar(src, out1, res, o, i + 1, m)
  {
    var keys := o.props.order;
    var before := out.objs[res].props;
    assert ValidObj(out.objs[res]);
    PropValuesPut(before, keys[i], w);
    assert |PropValues(before)| == i;
    assert PropValues(before)[..i] == PropValues(before);
    PrefixExtend(src, out, out1, PropValues(o.props), PropValues(before), PropValues(before) + [w], i, res + 1, m);
    assert keys[..i + 1] == keys[..i] + [keys[i]];
  }

  // ---- the tree theorem

  /** On a tree, `cloneDeep` expands exactly the objects the tree reaches and
      returns a copy of it whose objects are all new, allocated from the next
      free address on. */
  lemma {:induction false} CloneTree(src: Store, out: Store, seen: set<Addr>, v: Value, n: nat)
    requires Wf(src) && Wf(out) && src.next <= out.next
    requires Tree(src, v, n) && seen !! Reach(src, v, n)
    ensures var r := CloneValue(src, out, seen, v);
      r.seen == seen + Reach(src, v, n) && Mirrors(src, r.out, v, r.value, out.next, n)
    decreases n, 1
  {
    if Expandable(src, v) {
      assert v.addr in Reach(src, v, n);
      ExpandTree(src, out, seen, v, n);
    }
  }

  lemma {:induction false} ExpandTree(src: Store, out: Store, seen: set<Addr>, v: Value, n: nat)
    requires Wf(src) && Wf(out) && src.next <= out.next
    requires Expandable(src, v) && Tree(src, v, n) && seen !! Reach(src, v, n)
    ensures v.addr in src.objs && v.addr !in seen
    ensures var r := Expand(src, out, seen, v);
      r.seen == seen + Reach(src, v, n) && Mirrors(src, r.out, v, r.value, out.next, n)
    decreases n, 0, 1
  {
    assert v.addr in Reach(src, v, n);
    var o := src.objs[v.addr];
    assert Reach(src, v, n) == {v.addr} + ReachAll(src, Visits(o), n - 1);
    if o.kind.Date? || o.kind.RegExp? {
      ExpandLeafTree(src, out, seen, v, n);
    } else if o.kind.JsMap? {
      ExpandMapTree(src, out, seen, v, n);
    } else if o.kind.JsSet? {
      ExpandSetTree(src, out, seen, v, n);
    } else if o.kind.Array? {
      ExpandArrayTree(src, out, seen, v, n);
    } else {
      ExpandObjectTree(src, out, seen, v, n);
    }
  }

  /** A date or a regular expression becomes a new object of the same kind. */
  lemma {:induction false} ExpandLeafTree(src: Store, out: Store, seen: set<Addr>, v: Value, n: nat)
    requires Wf(src) && Wf(out) && src.next <= out.next && n > 0
    requires v.Ref? && v.addr in src.objs && v.addr !in seen
    requires src.objs[v.addr].kind.Date? || src.objs[v.addr].kind.RegExp?
    ensures var r := Expand(src, out, seen, v);
      r.seen == seen + {v.addr} + ReachAll(src, Visits(src.objs[v.addr]), n - 1)
      && Mirrors(src, r.out, v, r.value, out.next, n)
  {
    ExpandFrame(src, out, seen, v);
    var r := Expand(src, out, seen, v);
    assert Copied(src, r.out, src.objs[v.addr], r.out.objs[out.next], out.next, n);
  }

  lemma {:induction false} ExpandMapTree(src: Store, out: Store, seen: set<Addr>, v: Value, n: nat)
    requires Wf(src) && Wf(out) && src.next <= out.next && n > 0
    requires v.Ref? && v.addr in src.objs && v.addr !in seen && src.objs[v.addr].kind.JsMap?
    requires Proper(src.objs[v.addr]) && TreeAll(src, Visits(src.objs[v.addr]), n - 1)
    requires seen + {v.addr} !! ReachAll(src, Visits(src.objs[v.addr]), n - 1)
    ensures var r := Expand(src, out, seen, v);
      r.seen == seen + {v.addr} + ReachAll(src, Visits(src.objs[v.addr]), n - 1)
      && Mirrors(src, r.out, v, r.value, out.next, n)
    decreases n, 0, 0
  {
    var o := src.objs[v.addr];
    ExpandFrame(src, out, seen, v);
    CopyMapTree(src, out, seen + {v.addr}, o.kind.entries, n - 1);
    var r := Expand(src, out, seen, v);
    assert Copied(src, r.out, o, r.out.objs[out.next], out.next, n);
  }

  lemma {:induction false} ExpandSetTree(src: Store, out: Store, seen: set<Addr>, v: Value, n: nat)
    requires Wf(src) && Wf(out) && src.next <= out.next && n > 0
    requires v.Ref? && v.addr in src.objs && v.addr !in seen && src.objs[v.addr].kind.JsSet?
    requires Proper(src.objs[v.addr]) && TreeAll(src, Visits(src.objs[v.addr]), n - 1)
    requires seen + {v.addr} !! ReachAll(src, Visits(src.objs[v.addr]), n - 1)
    ensures var r := Expand(src, out, seen, v);
      r.seen == seen + {v.addr} + ReachAll(src, Visits(src.objs[v.addr]), n - 1)
      && Mirrors(src, r.out, v, r.value, out.next, n)
    decreases n, 0, 0
  {
    var o := src.objs[v.addr];
    ExpandFrame(src, out, seen, v);
    CopySetTree(src, out, seen + {v.addr}, o.kind.members, n - 1);
    var r := Expand(src, out, seen, v);
    assert Copied(src, r.out, o, r.out.objs[out.next], out.next, n);
  }

  lemma {:induction false} ExpandArrayTree(src: Store, out: Store, seen: set<Addr>, v: Value, n: nat)
    requires Wf(src) && Wf(out) && src.next <= out.next && n > 0
    requires v.Ref? && v.addr in src.objs && v.addr !in seen && src.objs[v.addr].kind.Array?
    requires TreeAll(src, Visits(src.objs[v.addr]), n - 1)
    requires seen + {v.addr} !! ReachAll(src, Visits(src.objs[v.addr]), n - 1)
    ensures var r := Expand(src, out, seen, v);
      r.seen == seen + {v.addr} + ReachAll(src, Visits(src.objs[v.addr]), n - 1)
      && Mirrors(src, r.out, v, r.value, out.next, n)
    decreases n, 0, 0
  {
    var o := src.objs[v.addr];
    assert ValidObj(o);
    ExpandFrame(src, out, seen, v);
    CopyArrayTree(src, out, seen + {v.addr}, o.kind.elems, n - 1);
    var r := Expand(src, out, seen, v);
    assert Copied(src, r.out, o, r.out.objs[out.next], out.next, n);
  }

  lemma {:induction false} ExpandObjectTree(src: Store, out: Store, seen: set<Addr>, v: Value, n: nat)
    requires Wf(src) && Wf(out) && src.next <= out.next && n > 0
    requires v.Ref? && v.addr in src.objs && v.addr !in seen
    requires src.objs[v.addr].kind.Plain? || src.objs[v.addr].kind.Instance?
    requires Proper(src.objs[v.addr]) && TreeAll(src, Visits(src.objs[v.addr]), n - 1)
    requires seen + {v.addr} !! ReachAll(src, Visits(src.objs[v.addr]), n - 1)
    ensures var r := Expand(src, out, seen, v);
      r.seen == seen + {v.addr} + ReachAll(src, Visits(src.objs[v.addr]), n - 1)
      && Mirrors(src, r.out, v, r.value, out.next, n)
    decreases n, 0, 0
  {
    var o := src.objs[v.addr];
    assert OwnKeys(o) == o.props.order;
    ExpandFrame(src, out, seen, v);
    CopyObjectTree(src, out, seen + {v.addr}, v, n - 1);
    var r := Expand(src, out, seen, v);
    assert Copied(src, r.out, o, r.out.objs[out.next], out.next, n);
  }


  /** One recursive call on a tree: the frame and the copy together. */
  lemma {:induction false} CloneFacts(src: Store, out: Store, seen: set<Addr>, x: Value, m: nat)
    requires Wf(src) && Wf(out) && src.next <= out.next
    requires Tree(src, x, m) && seen !! Reach(src, x, m)
    ensures var c := CloneValue(src, out, seen, x);
      && Wf(c.out) && Extends(out, c.out) && c.seen == seen + Reach(src, x, m)
      && Mirrors(src, c.out, x, c.value, out.next, m)
    decreases m, 2
  {
    CloneTree(src, out, seen, x, m);
    CloneFrame(src, out, seen, x);
  }

  // ---- arrays

  lemma {:induction false} CopyArrayTree(src: Store, out: Store, seen: set<Addr>, es: seq<Value>, m: nat)
    requires Wf(src) && Wf(out) && src.next <= out.next && |es| <= Decimal.MaxArrayLength
    requires TreeAll(src, es, m) && seen !! ReachAll(src, es, m)
    ensures var r := CopyArray(src, out, seen, es);
      && r.seen == seen + ReachAll(src, es, m) && r.value == Ref(out.next) && out.next in r.out.objs
      && ArrayCopy(src, r.out, es, r.out.objs[out.next], out.next, m)
    decreases m, 5
  {
    var c := Obj(Array(seq(|es|, _ => Undefined)), NoFields);
    AllocFacts(out, c);
    var (out1, a) := Alloc(out, c);
    assert es[0..] == es;
    ElemsTree(src, out1, seen, a, es, 0, m);
    var r := CopyArray(src, out, seen, es);
    UpToStable(src, r.out, r.out, es, r.out.objs[a].kind.elems, |es|, a + 1, a, m);
  }

  lemma {:induction false} ElemsTree(src: Store, out: Store, seen: set<Addr>, a: Addr, es: seq<Value>, i: nat, m: nat)
    requires Wf(src) && Wf(out) && src.next <= a && a in out.objs && i <= |es|
    requires out.objs[a].props == NoFields && out.objs[a].kind.Array? && |out.objs[a].kind.elems| == |es|
    requires MirrorsUpTo(src, out, es, out.objs[a].kind.elems, i, a + 1, m)
    requires TreeAll(src, es[i..], m) && seen !! ReachAll(src, es[i..], m)
    ensures var r := CloneElems(src, out, seen, a, es, i);
      && r.1 == seen + ReachAll(src, es[i..], m)
      && a in r.0.objs && r.0.objs[a].props == NoFields && r.0.objs[a].kind.Array?
      && |r.0.objs[a].kind.elems| == |es|
      && MirrorsUpTo(src, r.0, es, r.0.objs[a].kind.elems, |es|, a + 1, m)
    decreases m, 4, |es| - i
  {
    if i < |es| {
      TreeFrom(src, es, i, seen, m);
      ElemStepTree(src, out, seen, a, es[i], i, m);
      var (out1, seen1) := ElemStep(src, out, seen, a, es[i], i);
      PrefixExtend(src, out, out1, es, out.objs[a].kind.elems, out1.objs[a].kind.elems, i, a + 1, m);
      ElemsTree(src, out1, seen1, a, es, i + 1, m);
    }
  }

  lemma {:induction false} ElemStepTree(src: Store, out: Store, seen: set<Addr>, a: Addr, x: Value, i: nat, m: nat)
    requires Wf(src) && Wf(out) && src.next <= a && a in out.objs
    requires Tree(src, x, m) && seen !! Reach(src, x, m)
    ensures var r := ElemStep(src, out, seen, a, x, i);
      var c := CloneValue(src, out, seen, x);
      && r.1 == seen + Reach(src, x, m) && Wf(r.0) && a in r.0.objs
      && r.0.objs[a] == ElemPut(out.objs[a], i, c.value)
      && Mirrors(src, r.0, x, c.value, a + 1, m) && Keeps(out, r.0, a + 1)
    decreases m, 3
  {
    var c := CloneValue(src, out, seen, x);
    CloneFacts(src, out, seen, x, m);
    ElemStepFrame(src, out, seen, a, x, i);
    var r := ElemStep(src, out, seen, a, x, i);
    MirrorsStable(src, c.out, r.0, x, c.value, out.next, a + 1, m);
  }

  // ---- sets

  lemma {:induction false} CopySetTree(src: Store, out: Store, seen: set<Addr>, ms: seq<Value>, m: nat)
    requires Wf(src) && Wf(out) && src.next <= out.next && Distinct(ms)
    requires TreeAll(src, ms, m) && seen !! ReachAll(src, ms, m)
    ensures var r := CopySet(src, out, seen, ms);
      && r.seen == seen + ReachAll(src, ms, m) && r.value == Ref(out.next) && out.next in r.out.objs
      && SetCopy(src, r.out, ms, r.out.objs[out.next], out.next, m)
    decreases m, 5
  {
    var c := Obj(JsSet([]), NoFields);
    AllocFacts(out, c);
    var (out1, s) := Alloc(out, c);
    assert ms[0..] == ms;
    MembersTree(src, out1, seen, s, ms, 0, m);
    var r := CopySet(src, out, seen, ms);
    UpToStable(src, r.out, r.out, ms, r.out.objs[s].kind.members, |ms|, s + 1, s, m);
  }

  lemma {:induction false} MembersTree(src: Store, out: Store, seen: set<Addr>, s: Addr, ms: seq<Value>, i: nat, m: nat)
    requires Wf(src) && Wf(out) && src.next <= s && s in out.objs && i <= |ms| && Distinct(ms)
    requires out.objs[s].props == NoFields && out.objs[s].kind.JsSet? && |out.objs[s].kind.members| == i
    requires MirrorsUpTo(src, out, ms, out.objs[s].kind.members, i, s + 1, m)
    requires TreeAll(src, ms[i..], m) && seen !! ReachAll(src, ms[i..], m)
    ensures var r := CloneMembers(src, out, seen, s, ms, i);
      && r.1 == seen + ReachAll(src, ms[i..], m)
      && s in r.0.objs && r.0.objs[s].props == NoFields && r.0.objs[s].kind.JsSet?
      && |r.0.objs[s].kind.members| == |ms|
      && MirrorsUpTo(src, r.0, ms, r.0.objs[s].kind.members, |ms|, s + 1, m)
    decreases m, 4, |ms| - i
  {
    if i < |ms| {
      TreeFrom(src, ms, i, seen, m);
      MemberStepTree(src, out, seen, s, ms[i], m);
      var c := CloneValue(src, out, seen, ms[i]);
      var (out1, seen1) := MemberStep(src, out, seen, s, ms[i]);
      var before := out.objs[s].kind.members;
      ApartFromPrefix(src, out, c.out, ms, before, i, c.value, s + 1, m);
      assert before[..i] == before;
      assert out1.objs[s].kind.members == before + [c.value];
      PrefixExtend(src, out, out1, ms, before, before + [c.value], i, s + 1, m);
      MembersTree(src, out1, seen1, s, ms, i + 1, m);
    }
  }

  lemma {:induction false} MemberStepTree(src: Store, out: Store, seen: set<Addr>, s: Addr, x: Value, m: nat)
    requires Wf(src) && Wf(out) && src.next <= s && s in out.objs
    requires Tree(src, x, m) && seen !! Reach(src, x, m)
    ensures var r := MemberStep(src, out, seen, s, x);
      var c := CloneValue(src, out, seen, x);
      && r.1 == seen + Reach(src, x, m) && Wf(r.0) && s in r.0.objs
      && r.0.objs[s] == SetPut(out.objs[s], c.value)
      && Mirrors(src, c.out, x, c.value, out.next, m)
      && Mirrors(src, r.0, x, c.value, s + 1, m) && Keeps(out, r.0, s + 1)
    decreases m, 3
  {
    var c := CloneValue(src, out, seen, x);
    CloneFacts(src, out, seen, x, m);
    MemberStepFrame(src, out, seen, s, x);
    var r := MemberStep(src, out, seen, s, x);
    MirrorsStable(src, c.out, r.0, x, c.value, out.next, s + 1, m);
  }

  // ---- maps

  lemma {:induction false} CopyMapTree(src: Store, out: Store, seen: set<Addr>, es: seq<(Value, Value)>, m: nat)
    requires Wf(src) && Wf(out) && src.next <= out.next && DistinctKeys(es)
    requires TreeAll(src, Pairs(es), m) && seen !! ReachAll(src, Pairs(es), m)
    ensures var r := CopyMap(src, out, seen, es);
      && r.seen == seen + ReachAll(src, Pairs(es), m) && r.value == Ref(out.next) && out.next in r.out.objs
      && MapCopy(src, r.out, es, r.out.objs[out.next], out.next, m)
    decreases m, 5
  {
    var c := Obj(JsMap([]), NoFields);
    AllocFacts(out, c);
    var (out1, a) := Alloc(out, c);
    assert es[0..] == es;
    EntriesTree(src, out1, seen, a, es, 0, m);
    var r := CopyMap(src, out, seen, es);
    var ws := r.out.objs[a].kind.entries;
    UpToStable(src, r.out, r.out, KeysOf(es), KeysOf(ws), |es|, a + 1, a, m);
    UpToStable(src, r.out, r.out, ValsOf(es), ValsOf(ws), |es|, a + 1, a, m);
  }

  /** The map under construction after its first `i` entries: the copies of
      their keys and values, in order. */
  predicate MapSoFar(src: Store, out: Store, a: Addr, es: seq<(Value, Value)>, i: nat, m: nat) {
    && Wf(out) && a in out.objs && i <= |es|
    && out.objs[a].props == NoFields && out.objs[a].kind.JsMap? && |out.objs[a].kind.entries| == i
    && MirrorsUpTo(src, out, KeysOf(es), KeysOf(out.objs[a].kind.entries), i, a + 1, m)
    && MirrorsUpTo(src, out, ValsOf(es), ValsOf(out.objs[a].kind.entries), i, a + 1, m)
  }

  lemma {:induction false} EntriesTree(src: Store, out: Store, seen: set<Addr>, a: Addr, es: seq<(Value, Value)>, i: nat, m: nat)
    requires Wf(src) && src.next <= a && DistinctKeys(es) && MapSoFar(src, out, a, es, i, m)
    requires TreeAll(src, Pairs(es[i..]), m) && seen !! ReachAll(src, Pairs(es[i..]), m)
    ensures var r := CloneEntries(src, out, seen, a, es, i);
      r.1 == seen + ReachAll(src, Pairs(es[i..]), m) && MapSoFar(src, r.0, a, es, |es|, m)
    decreases m, 4, |es| - i
  {
    if i < |es| {
      PairsTreeFrom(src, es, i, seen, m);
      EntryAdvance(src, out, seen, a, es, i, m);
      var (out1, seen1) := EntryStep(src, out, seen, a, es[i]);
      EntriesTree(src, out1, seen1, a, es, i + 1, m);
    }
  }

  /** One entry more: its key's copy is a new key, so `set` appends. */
  lemma {:induction false} EntryAdvance(src: Store, out: Store, seen: set<Addr>, a: Addr, es: seq<(Value, Value)>, i: nat, m: nat)
    requires Wf(src) && src.next <= a && DistinctKeys(es) && MapSoFar(src, out, a, es, i, m) && i < |es|
    requires Tree(src, es[i].0, m) && seen !! Reach(src, es[i].0, m)
    requires Tree(src, es[i].1, m) && seen + Reach(src, es[i].0, m) !! Reach(src, es[i].1, m)
    ensures var r := EntryStep(src, out, seen, a, es[i]);
      r.1 == seen + Reach(src, es[i].0, m) + Reach(src, es[i].1, m) && MapSoFar(src, r.0, a, es, i + 1, m)
    decreases m, 3, 2
  {
    EntryStepTree(src, out, seen, a, es[i], m);
    var ck := CloneValue(src, out, seen, es[i].0);
    var cv := CloneValue(src, ck.out, ck.seen, es[i].1);
    var (out1, seen1) := EntryStep(src, out, seen, a, es[i]);
    var before := out.objs[a].kind.entries;
    assert KeysOf(es)[i] == es[i].0;
    ApartFromPrefix(src, out, ck.out, KeysOf(es), KeysOf(before), i, ck.value, a + 1, m);
    assert KeysOf(before)[..i] == KeysOf(before);
    MapExtend(src, out, out1, a, es, i, ck.value, cv.value, m);
  }

  lemma {:induction false} EntryStepTree(src: Store, out: Store, seen: set<Addr>, a: Addr, e: (Value, Value), m: nat)
    requires Wf(src) && Wf(out) && src.next <= a && a in out.objs
    requires Tree(src, e.0, m) && seen !! Reach(src, e.0, m)
    requires Tree(src, e.1, m) && seen + Reach(src, e.0, m) !! Reach(src, e.1, m)
    ensures var r := EntryStep(src, out, seen, a, e);
      var ck := CloneValue(src, out, seen, e.0);
      var cv := CloneValue(src, ck.out, ck.seen, e.1);
      && r.1 == seen + Reach(src, e.0, m) + Reach(src, e.1, m) && Wf(r.0) && a in r.0.objs
      && r.0.objs[a] == MapPut(out.objs[a], ck.value, cv.value)
      && Mirrors(src, ck.out, e.0, ck.value, out.next, m)
      && Mirrors(src, r.0, e.0, ck.value, a + 1, m) && Mirrors(src, r.0, e.1, cv.value, a + 1, m)
      && Keeps(out, r.0, a + 1)
    decreases m, 3, 1
  {
    var ck := CloneValue(src, out, seen, e.0);
    var cv := CloneValue(src, ck.out, ck.seen, e.1);
    EntryPairTree(src, out, seen, e, m);
    assert ValidObj(out.objs[a]);
    UpdateAfter(out, cv.out, a, MapPut(out.objs[a], ck.value, cv.value));
    var r := EntryStep(src, out, seen, a, e);
    MirrorsStable(src, cv.out, r.0, e.0, ck.value, out.next, a + 1, m);
    MirrorsStable(src, cv.out, r.0, e.1, cv.value, out.next, a + 1, m);
  }

  /** Writing into an object that `out` already held, once a clone has grown
      `out` into `mid`: the copies made in between stay as they are. */
  lemma {:induction false} UpdateAfter(out: Store, mid: Store, a: Addr, o: Obj)
    requires Wf(out) && Wf(mid) && Extends(out, mid) && a in out.objs && ValidObj(o)
    ensures var out2 := Update(mid, a, o);
      && Wf(out2) && a in out2.objs && out2.objs[a] == o && ObjAt(mid, a) == out.objs[a]
      && Keeps(out, out2, a + 1) && Keeps(mid, out2, out.next)
  {
  }

  /** Cloning a key and then its value: both are copies, made from `out.next` on. */
  lemma {:induction false} EntryPairTree(src: Store, out: Store, seen: set<Addr>, e: (Value, Value), m: nat)
    requires Wf(src) && Wf(out) && src.next <= out.next
    requires Tree(src, e.0, m) && seen !! Reach(src, e.0, m)
    requires Tree(src, e.1, m) && seen + Reach(src, e.0, m) !! Reach(src, e.1, m)
    ensures var ck := CloneValue(src, out, seen, e.0);
      var cv := CloneValue(src, ck.out, ck.seen, e.1);
      && cv.seen == seen + Reach(src, e.0, m) + Reach(src, e.1, m) && Wf(cv.out) && Extends(out, cv.out)
      && Mirrors(src, ck.out, e.0, ck.value, out.next, m)
      && Mirrors(src, cv.out, e.0, ck.value, out.next, m) && Mirrors(src, cv.out, e.1, cv.value, out.next, m)
    decreases m, 3, 0
  {
    var ck := CloneValue(src, out, seen, e.0);
    CloneFacts(src, out, seen, e.0, m);
    var cv := CloneValue(src, ck.out, ck.seen, e.1);
    CloneFacts(src, ck.out, ck.seen, e.1, m);
    MirrorsStable(src, ck.out, cv.out, e.0, ck.value, out.next, out.next, m);
    MirrorsStable(src, cv.out, cv.out, e.1, cv.value, ck.out.next, out.next, m);
  }

  // ---- other objects

  lemma {:induction false} CopyObjectTree(src: Store, out: Store, seen: set<Addr>, v: Value, m: nat)
    requires Wf(src) && Wf(out) && src.next <= out.next
    requires v.Ref? && v.addr in src.objs && !src.objs[v.addr].kind.Array?
    requires "__proto__" !in src.objs[v.addr].props.vals
    requires TreeAll(src, PropValues(src.objs[v.addr].props), m)
    requires seen !! ReachAll(src, PropValues(src.objs[v.addr].props), m)
    ensures var o := src.objs[v.addr];
      var r := CopyObject(src, out, seen, v, o.props.order);
      && r.seen == seen + ReachAll(src, PropValues(o.props), m) && r.value == Ref(out.next) && out.next in r.out.objs
      && ObjectCopy(src, r.out, o.props, r.out.objs[out.next], out.next, m)
    decreases m, 5
  {
    var o := src.objs[v.addr];
    var vs := PropValues(o.props);
    var c := NewPlain(NoFields);
    AllocFacts(out, c);
    var (out1, a) := Alloc(out, c);
    assert vs[0..] == vs;
    assert o.props.order[..0] == [];
    PropsTree(src, out1, seen, a, v, o, 0, m);
    var r := CopyObject(src, out, seen, v, o.props.order);
    ObjectDone(src, r.out, a, o, m);
  }

  /** All keys done: the plain object is a copy of `o`. */
  lemma {:induction false} ObjectDone(src: Store, out: Store, res: Addr, o: Obj, m: nat)
    requires ObjectSoFar(src, out, res, o, |o.props.order|, m)
    ensures ObjectCopy(src, out, o.props, out.objs[res], res, m)
  {
    assert o.props.order[..|o.props.order|] == o.props.order;
    UpToStable(src, out, out, PropValues(o.props), PropValues(out.objs[res].props), |o.props.order|, res + 1, res, m);
  }

  /** The next key of a plain copy is new to the copy and not `__proto__`, and
      the value read for it is the field's value. */
  lemma {:induction false} PropKeyFresh(src: Store, out: Store, res: Addr, v: Value, o: Obj, i: nat)
    requires Wf(src) && Wf(out) && res in out.objs
    requires v.Ref? && v.addr in src.objs && src.objs[v.addr] == o
    requires !o.kind.Array? && "__proto__" !in o.props.vals && i < |o.props.order|
    requires out.objs[res].props.order == o.props.order[..i]
    ensures var key := o.props.order[i];
      && key != "__proto__" && key !in out.objs[res].props.vals
      && GetProp(src, v, key) == PropValues(o.props)[i]
      && ValidFields(out.objs[res].props) && |PropValues(out.objs[res].props)| == i
  {
    var key := o.props.order[i];
    var before := out.objs[res].props;
    assert ValidObj(o) && ValidObj(out.objs[res]);
    assert key in o.props.vals;
    forall j | 0 <= j < i
      ensures before.order[j] != key
    {
      assert before.order[j] == o.props.order[j];
    }
  }

  /** The plain copy after the first `i` keys of `o`: those keys, in order,
      holding copies of their values. */
  predicate ObjectSoFar(src: Store, out: Store, res: Addr, o: Obj, i: nat, m: nat) {
    && Wf(out) && res in out.objs && i <= |o.props.order|
    && out.objs[res].kind == Plain(false) && out.objs[res].props.order == o.props.order[..i]
    && MirrorsUpTo(src, out, PropValues(o.props), PropValues(out.objs[res].props), i, res + 1, m)
  }

  lemma {:induction false} PropsTree(src: Store, out: Store, seen: set<Addr>, res: Addr, v: Value, o: Obj, i: nat, m: nat)
    requires Wf(src) && src.next <= res && ObjectSoFar(src, out, res, o, i, m)
    requires v.Ref? && v.addr in src.objs && src.objs[v.addr] == o
    requires !o.kind.Array? && "__proto__" !in o.props.vals
    requires TreeAll(src, PropValues(o.props)[i..], m) && seen !! ReachAll(src, PropValues(o.props)[i..], m)
    ensures var r := CloneProps(src, out, seen, res, v, o.props.order, i);
      r.1 == seen + ReachAll(src, PropValues(o.props)[i..], m) && ObjectSoFar(src, r.0, res, o, |o.props.order|, m)
    decreases m, 4, |o.props.order| - i
  {
    var keys := o.props.order;
    if i < |keys| {
      TreeFrom(src, PropValues(o.props), i, seen, m);
      PropAdvance(src, out, seen, res, v, o, i, m);
      var (out1, seen1) := PropStep(src, out, seen, res, keys[i], GetProp(src, v, keys[i]));
      PropsTree(src, out1, seen1, res, v, o, i + 1, m);
    }
  }

  /** One key more: it is new to the copy, so the assignment appends it. */
  lemma {:induction false} PropAdvance(src: Store, out: Store, seen: set<Addr>, res: Addr, v: Value, o: Obj, i: nat, m: nat)
    requires Wf(src) && src.next <= res && ObjectSoFar(src, out, res, o, i, m)
    requires v.Ref? && v.addr in src.objs && src.objs[v.addr] == o
    requires !o.kind.Array? && "__proto__" !in o.props.vals && i < |o.props.order|
    requires Tree(src, PropValues(o.props)[i], m) && seen !! Reach(src, PropValues(o.props)[i], m)
    ensures var key := o.props.order[i];
      var r := PropStep(src, out, seen, res, key, GetProp(src, v, key));
      r.1 == seen + Reach(src, PropValues(o.props)[i], m) && ObjectSoFar(src, r.0, res, o, i + 1, m)
    decreases m, 3, 1
  {
    var keys := o.props.order;
    var vs := PropValues(o.props);
    PropKeyFresh(src, out, res, v, o, i);
    PropStepTree(src, out, seen, res, keys[i], vs[i], m);
    var c := CloneValue(src, out, seen, vs[i]);
    var (out1, seen1) := PropStep(src, out, seen, res, keys[i], vs[i]);
    ObjectExtend(src, out, out1, res, o, i, c.value, m);
  }

  lemma {:induction false} PropStepTree(src: Store, out: Store, seen: set<Addr>, res: Addr, key: string, x: Value, m: nat)
    requires Wf(src) && Wf(out) && src.next <= res && res in out.objs
    requires key != "__proto__" && out.objs[res].kind == Plain(false) && key !in out.objs[res].props.vals
    requires Tree(src, x, m) && seen !! Reach(src, x, m)
    ensures var r := PropStep(src, out, seen, res, key, x);
      var c := CloneValue(src, out, seen, x);
      && r.1 == seen + Reach(src, x, m) && Wf(r.0) && res in r.0.objs
      && r.0.objs[res] == Obj(Plain(false), FieldPut(out.objs[res].props, key, c.value))
      && Mirrors(src, r.0, x, c.value, res + 1, m) && Keeps(out, r.0, res + 1)
    decreases m, 3, 0
  {
    var c := CloneValue(src, out, seen, x);
    CloneFacts(src, out, seen, x, m);
    PropStepFrame(src, out, seen, res, key, x);
    var r := PropStep(src, out, seen, res, key, x);
    MirrorsStable(src, c.out, r.0, x, c.value, out.next, res + 1, m);
  }

  // ---------------------------------------------------------------- results

  /** Primitives, `null` and functions come back as they are; a date or a
      regular expression becomes a new object of the same kind. */
  lemma {:induction false} CloneDeepLeaf(st: Store, v: Value)
    requires Wf(st)
    ensures !Expandable(st, v) ==> CloneDeep(st, v) == v
    ensures Expandable(st, v) && v.addr in st.objs && (st.objs[v.addr].kind.Date? || st.objs[v.addr].kind.RegExp?) ==>
      var r := CloneValue(st, st, {}, v);
      r.value == Ref(st.next) && st.next in r.out.objs && r.out.objs[st.next] == Obj(st.objs[v.addr].kind, NoFields)
  {
  }

  /** `cloneDeep` of a tree of height `n` is a copy of it: equal in structure,
      with primitives and functions kept, and every object in it new, so that
      the copy shares no container with the input. */
  lemma {:induction false} CloneDeepTree(st: Store, v: Value, n: nat)
    requires Wf(st) && Tree(st, v, n)
    ensures var r := CloneValue(st, st, {}, v);
      && r.value == CloneDeep(st, v) && Wf(r.out) && Extends(st, r.out)
      && Mirrors(st, r.out, v, r.value, st.next, n)
  {
    CloneFacts(st, st, {}, v, n);
  }

  /** A key that the rest of the loop does not visit keeps its value in the copy. */
  lemma {:induction false} PropsKeep(src: Store, out: Store, seen: set<Addr>, res: Addr, v: Value, keys: seq<string>, i: nat, k: string)
    requires Wf(src) && Wf(out) && res in out.objs && !out.objs[res].kind.Array?
    requires i <= |keys| && k !in keys[i..]
    ensures var r := CloneProps(src, out, seen, res, v, keys, i);
      res in r.0.objs && FieldGet(r.0.objs[res].props, k) == FieldGet(out.objs[res].props, k)
    decreases |keys| - i
  {
    if i < |keys| {
      var x := GetProp(src, v, keys[i]);
      CloneFrame(src, out, seen, x);
      PropStepFrame(src, out, seen, res, keys[i], x);
      var (out1, seen1) := PropStep(src, out, seen, res, keys[i], x);
      assert keys[i..][0] == keys[i] && keys[i..][1..] == keys[i + 1..];
      PropsKeep(src, out1, seen1, res, v, keys, i + 1, k);
    }
  }

  /** A key whose value is an object already met is given that object itself,
      not a copy. */
  lemma {:induction false} PropsSeen(src: Store, out: Store, seen: set<Addr>, res: Addr, v: Value, keys: seq<string>, i: nat, j: nat)
    requires Wf(src) && Wf(out) && res in out.objs && !out.objs[res].kind.Array?
    requires i <= j < |keys| && Distinct(keys) && keys[j] != "__proto__"
    requires GetProp(src, v, keys[j]).Ref? && GetProp(src, v, keys[j]).addr in seen
    ensures var r := CloneProps(src, out, seen, res, v, keys, i);
      res in r.0.objs && FieldGet(r.0.objs[res].props, keys[j]) == GetProp(src, v, keys[j])
    decreases j - i
  {
    var x := GetProp(src, v, keys[i]);
    CloneFrame(src, out, seen, x);
    PropStepFrame(src, out, seen, res, keys[i], x);
    var (out1, seen1) := PropStep(src, out, seen, res, keys[i], x);
    if i < j {
      PropsSeen(src, out1, seen1, res, v, keys, i + 1, j);
    } else {
      assert keys[j] !in keys[j + 1..];
      PropsKeep(src, out1, seen1, res, v, keys, j + 1, keys[j]);
    }
  }

  /** The circular case: an object that holds itself under key `k` clones to a
      new object whose `k` is the original object, not the copy. */
  lemma {:induction false} CloneDeepSelfReference(st: Store, p: Addr, k: string)
    requires Wf(st) && p in st.objs && st.objs[p].kind.Plain?
    requires k != "__proto__" && k in st.objs[p].props.vals && st.objs[p].props.vals[k] == Ref(p)
    ensures var c := CloneDeep(st, Ref(p));
      c == Ref(st.next) && c != Ref(p) && GetProp(CloneValue(st, st, {}, Ref(p)).out, c, k) == Ref(p)
  {
    var o := st.objs[p];
    assert ValidObj(o);
    var j :| 0 <= j < |o.props.order| && o.props.order[j] == k;
    ExpandPlain(st, p);
    var (out1, a) := Alloc(st, NewPlain(NoFields));
    AllocFacts(st, NewPlain(NoFields));
    assert GetProp(st, Ref(p), k) == Ref(p);
    PropsSeen(st, out1, {p}, a, Ref(p), o.props.order, 0, j);
    CloneFrame(st, st, {}, Ref(p));
  }

  /** The first expansion of a plain object: a new plain object gets its keys in order. */
  lemma {:induction false} ExpandPlain(st: Store, p: Addr)
    requires p in st.objs && st.objs[p].kind.Plain?
    ensures var (out1, a) := Alloc(st, NewPlain(NoFields));
      var (out2, seen2) := CloneProps(st, out1, {p}, a, Ref(p), st.objs[p].props.order, 0);
      CloneValue(st, st, {}, Ref(p)) == Cloned(out2, seen2, Ref(a))
  {
    var o := st.objs[p];
    assert OwnKeys(o) == o.props.order;
    assert Expandable(st, Ref(p));
    var none: set<Addr> := {};
    assert none + {p} == {p};
    assert CloneValue(st, st, {}, Ref(p)) == Expand(st, st, {}, Ref(p));
    assert Expand(st, st, {}, Ref(p)) == CopyObject(st, st, {p}, Ref(p), o.props.order);
  }
}

=== FILE: compact.dfy ===
/** `compact(array)`: `array.filter(Boolean)`, the truthy elements in order. */
module ArrayCompact {
  import Seqs
  import opened JsValue

  /** The truthy elements, in order: every element kept is truthy, every
      truthy element is kept, and the order of the input is kept. */
  function Compact(a: seq<Value>): (r: seq<Value>)
    ensures forall i :: 0 <= i < |r| ==> Truthy(r[i])
    ensures forall i :: 0 <= i < |a| && Truthy(a[i]) ==> a[i] in r
    ensures Seqs.Subseq(r, a)
  {
    Seqs.KeepPasses(a, Truthy);
    Seqs.KeepMembers(a, Truthy);
    Seqs.KeepSubseq(a, Truthy);
    Seqs.Keep(a, Truthy)
  }

  /** false, null, undefined, 0, '' and NaN are all removed. */
  lemma {:induction false} FalsyRemoved()
    ensures Compact([Bool(false), Null, Undefined, NumOf(0), Str(""), Num(NaN)]) == []
  {
    Seqs.KeepNone([Bool(false), Null, Undefined, NumOf(0), Str(""), Num(NaN)], Truthy);
  }

  /** Each truthy value occurs as often in the result as in the input. */
  lemma {:induction false} CompactKeepsRepeats(a: seq<Value>, x: Value)
    requires Truthy(x)
    ensures multiset(Compact(a))[x] == multiset(a)[x]
    decreases |a|
  {
    if |a| > 0 {
      CompactKeepsRepeats(a[1..], x);
      assert a == [a[0]] + a[1..];
    }
  }

  /** An input whose elements are all truthy comes back equal. */
  lemma {:induction false} AllTruthyIsCopy(a: seq<Value>)
    requires forall i :: 0 <= i < |a| ==> Truthy(a[i])
    ensures Compact(a) == a
  {
    Seqs.KeepAll(a, Truthy);
  }

  lemma {:induction false} CompactIdempotent(a: seq<Value>)
    ensures Compact(Compact(a)) == Compact(a)
  {
    Seqs.KeepIdempotent(a, Truthy);
  }

  /** `compact([0, 1, false, 2, '', 3])` is `[1, 2, 3]`. */
  lemma {:induction false} CompactExample()
    ensures Compact([NumOf(0), NumOf(1), Bool(false), NumOf(2), Str(""), NumOf(3)]) == [NumOf(1), NumOf(2), NumOf(3)]
  {
  }
}

=== FILE: decimal.dfy ===
/**
 * Decimal spelling of array indices. JavaScript stores array elements under
 * the property names "0", "1", ... and accepts a property name as an index
 * only when it is the canonical decimal spelling of a number below 2^32 - 1.
 */
module Decimal {
  import opened Wrappers

  /** The largest array length; valid indices are strictly below it. */
  const MaxArrayLength: nat := 4294967295

  predicate IsDigit(c: char) {
    '0' <= c <= '9'
  }

  function DigitChar(d: nat): char
    requires d < 10
  {
    ['0', '1', '2', '3', '4', '5', '6', '7', '8', '9'][d]
  }

  function DigitValue(c: char): nat
    requires IsDigit(c)
  {
    (c as int - '0' as int) as nat
  }

  predicate AllDigits(s: string) {
    forall i :: 0 <= i < |s| ==> IsDigit(s[i])
  }

  /** Non-empty, digits only, and no leading zero unless it is "0". */
  predicate Canonical(s: string) {
    |s| > 0 && AllDigits(s) && (|s| == 1 || s[0] != '0')
  }

  /** The decimal spelling of `n`, as `String(n)` produces it. */
  function IndexKey(n: nat): (s: string)
    ensures Canonical(s)
  {
    if n < 10 then [DigitChar(n)] else IndexKey(n / 10) + [DigitChar(n % 10)]
  }

  /** The number a string of digits spells. */
  function DigitsValue(s: string): nat
    requires AllDigits(s)
  {
    if |s| == 0 then 0 else DigitsValue(s[..|s| - 1]) * 10 + DigitValue(s[|s| - 1])
  }

  /** The array index a property name denotes, if any. */
  function ParseIndex(s: string): (r: Option<nat>)
    ensures r.Some? ==> Canonical(s) && r.value < MaxArrayLength
  {
    if Canonical(s) && DigitsValue(s) < MaxArrayLength then Some(DigitsValue(s)) else None
  }

  lemma {:induction false} DigitRoundTrip(d: nat)
    requires d < 10
    ensures IsDigit(DigitChar(d)) && DigitValue(DigitChar(d)) == d
  {
  }

  lemma {:induction false} ValueOfIndexKey(n: nat)
    ensures DigitsValue(IndexKey(n)) == n
  {
    if n < 10 {
      DigitRoundTrip(n);
    } else {
      var s := IndexKey(n);
      ValueOfIndexKey(n / 10);
      DigitRoundTrip(n % 10);
      assert s[..|s| - 1] == IndexKey(n / 10);
    }
  }

  lemma {:induction false} LeadingDigitPositive(s: string)
    requires Canonical(s) && s[0] != '0'
    ensures DigitsValue(s) >= 1
  {
    if |s| > 1 {
      var t := s[..|s| - 1];
      assert t[0] == s[0];
      LeadingDigitPositive(t);
    }
  }

  lemma {:induction false} IndexKeyOfValue(s: string)
    requires Canonical(s)
    ensures IndexKey(DigitsValue(s)) == s
  {
    var n := DigitsValue(s);
    var d := DigitValue(s[|s| - 1]);
    if |s| == 1 {
      assert s[..|s| - 1] == [];
      assert DigitsValue(s[..|s| - 1]) == 0;
      assert DigitChar(d) == s[0];
    } else {
      var t := s[..|s| - 1];
      assert t[0] == s[0];
      LeadingDigitPositive(t);
      IndexKeyOfValue(t);
      assert n / 10 == DigitsValue(t) && n % 10 == d;
      assert DigitChar(d) == s[|s| - 1];
      assert s == t + [s[|s| - 1]];
    }
  }

  /** Every index below the maximum length is read back from its key. */
  lemma {:induction false} ParseIndexKey(n: nat)
    requires n < MaxArrayLength
    ensures ParseIndex(IndexKey(n)) == Some(n)
  {
    ValueOfIndexKey(n);
  }

  /** A property name that parses as an index is that index's key. */
  lemma {:induction false} ParsedIsIndexKey(s: string)
    requires ParseIndex(s).Some?
    ensures s == IndexKey(ParseIndex(s).value)
  {
    IndexKeyOfValue(s);
  }

  lemma {:induction false} IndexKeyInjective(m: nat, n: nat)
    ensures IndexKey(m) == IndexKey(n) ==> m == n
  {
    ValueOfIndexKey(m);
    ValueOfIndexKey(n);
  }
}

=== FILE: difference.dfy ===
/** `difference(array, ...values)`: the elements of `array` found in none of
    the other arrays, in order and with their repeats. With no other arrays
    the result is a copy; otherwise every element of the other arrays goes
    into an exclusion set first and `array` is filtered against it. Equality
    is the Set's SameValueZero, so objects are compared by reference. */
module ArrayDifference {
  import Seqs

  /** `x` occurs in one of the exclusion arrays. */
  predicate Excluded<T(==)>(values: seq<seq<T>>, x: T) {
    exists j :: 0 <= j < |values| && x in values[j]
  }

  /** The filter the second loop applies. */
  function NotExcludedBy<T(==)>(values: seq<seq<T>>): T -> bool {
    x => !Excluded(values, x)
  }

  /** The function as written. */
  method Difference<T(==)>(a: seq<T>, values: seq<seq<T>>) returns (r: seq<T>)
    ensures |values| == 0 ==> r == a
    ensures r == Seqs.Keep(a, NotExcludedBy(values))
    ensures Seqs.Subseq(r, a)
    ensures forall i :: 0 <= i < |r| ==> forall j :: 0 <= j < |values| ==> r[i] !in values[j]
    ensures forall i :: 0 <= i < |a| && !Excluded(values, a[i]) ==> a[i] in r
  {
    DifferenceSpec(a, values);
    if |values| == 0 {
      Seqs.KeepAll(a, NotExcludedBy(values));
      return a;
    }
    var excludeSet: set<T> := {};
    var j := 0;
    while j < |values|
      invariant 0 <= j <= |values|
      invariant forall x :: x in excludeSet <==> Excluded(values[..j], x)
    {
      var arr := values[j];
      var k := 0;
      while k < |arr|
        invariant 0 <= k <= |arr|
        invariant forall x :: x in excludeSet <==> Excluded(values[..j], x) || x in arr[..k]
      {
        excludeSet := excludeSet + {arr[k]};
        k := k + 1;
      }
      assert arr[..k] == arr;
      ExcludedSnoc(values, j);
      j := j + 1;
    }
    assert values[..j] == values;
    var p := NotExcludedBy(values);
    r := [];
    var i := 0;
    while i < |a|
      invariant 0 <= i <= |a|
      invariant r == Seqs.Keep(a[..i], p)
    {
      Seqs.KeepSnoc(a, i, p);
      if a[i] !in excludeSet {
        r := r + [a[i]];
      }
      i := i + 1;
    }
    assert a[..i] == a;
  }

  /** Adding one more exclusion array to those already seen. */
  lemma {:induction false} ExcludedSnoc<T>(values: seq<seq<T>>, j: nat)
    requires j < |values|
    ensures forall x :: Excluded(values[..j + 1], x) <==> Excluded(values[..j], x) || x in values[j]
  {
    forall x ensures Excluded(values[..j + 1], x) <==> Excluded(values[..j], x) || x in values[j] {
      if Excluded(values[..j + 1], x) {
        var m :| 0 <= m < j + 1 && x in values[..j + 1][m];
        if m < j {
          assert values[..j][m] == values[m];
        }
      }
      if Excluded(values[..j], x) {
        var m :| 0 <= m < j && x in values[..j][m];
        assert values[..j + 1][m] == values[m];
      }
      if x in values[j] {
        assert values[..j + 1][j] == values[j];
      }
    }
  }

  /** The result keeps the order of the input, holds no excluded element and
      drops no element that is not excluded. */
  lemma {:induction false} DifferenceSpec<T>(a: seq<T>, values: seq<seq<T>>)
    ensures var r := Seqs.Keep(a, NotExcludedBy(values));
      && Seqs.Subseq(r, a)
      && (forall i :: 0 <= i < |r| ==> forall j :: 0 <= j < |values| ==> r[i] !in values[j])
      && (forall i :: 0 <= i < |a| && !Excluded(values, a[i]) ==> a[i] in r)
  {
    var p := NotExcludedBy(values);
    Seqs.KeepSubseq(a, p);
    Seqs.KeepPasses(a, p);
    Seqs.KeepMembers(a, p);
  }

  /** Every occurrence of a kept element survives: an element that is not
      excluded occurs as often in the result as in the input. */
  lemma {:induction false} DifferenceKeepsRepeats<T>(a: seq<T>, values: seq<seq<T>>, x: T)
    requires !Excluded(values, x)
    ensures multiset(Seqs.Keep(a, NotExcludedBy(values)))[x] == multiset(a)[x]
    decreases |a|
  {
    if |a| > 0 {
      DifferenceKeepsRepeats(a[1..], values, x);
      assert a == [a[0]] + a[1..];
    }
  }

  /** The input minus itself is empty. */
  lemma {:induction false} DifferenceWithItself<T>(a: seq<T>)
    ensures Seqs.Keep(a, NotExcludedBy([a])) == []
  {
    var p := NotExcludedBy([a]);
    forall i | 0 <= i < |a| ensures !p(a[i]) {
      assert a[i] in [a][0];
    }
    Seqs.KeepNone(a, p);
  }
}

=== FILE: flatten_deep.dfy ===
/** `flattenDeep(array)`: every element that is not an array is pushed in
    order; every array element is flattened first and its result spread in
    its place. Arrays nest as a tree here, so the input cannot contain
    itself. */
module ArrayFlattenDeep {

  /** An element of a nested array: a value that is not an array, or an array
      of further elements. */
  datatype Nested<T> = Leaf(value: T) | List(items: seq<Nested<T>>)

  /** The input has no nested arrays. */
  predicate Flat<T>(a: seq<Nested<T>>) {
    forall i :: 0 <= i < |a| ==> a[i].Leaf?
  }

  /** The loop of `flattenDeep`, element by element. */
  function FlattenDeep<T>(a: seq<Nested<T>>): (r: seq<Nested<T>>)
    ensures Flat(r)
    decreases a
  {
    if |a| == 0 then []
    else
      var head := match a[0]
        case Leaf(_) => [a[0]]
        case List(items) => FlattenDeep(items);
      head + FlattenDeep(a[1..])
  }

  /** The non-array values of one element, left to right, depth first: an
      independent reference, by recursion on the tree instead of the list. */
  function Leaves<T>(n: Nested<T>): seq<T>
    decreases n, 1
  {
    match n
    case Leaf(v) => [v]
    case List(items) => LeavesOf(items)
  }

  function LeavesOf<T>(a: seq<Nested<T>>): seq<T>
    decreases a, 0
  {
    if |a| == 0 then [] else Leaves(a[0]) + LeavesOf(a[1..])
  }

  /** The values of a flat list. */
  function Values<T>(a: seq<Nested<T>>): (vs: seq<T>)
    requires Flat(a)
    ensures |vs| == |a|
  {
    if |a| == 0 then [] else [a[0].value] + Values(a[1..])
  }

  /** The result holds exactly the non-array values of the input, in
      left-to-right depth-first order. */
  lemma {:induction false} FlattenDeepLeaves<T>(a: seq<Nested<T>>)
    ensures Values(FlattenDeep(a)) == LeavesOf(a)
    decreases a
  {
    if |a| > 0 {
      FlattenDeepLeaves(a[1..]);
      match a[0]
      case Leaf(_) =>
        ValuesAppend([a[0]], FlattenDeep(a[1..]));
      case List(items) =>
        FlattenDeepLeaves(items);
        ValuesAppend(FlattenDeep(items), FlattenDeep(a[1..]));
    }
  }

  lemma {:induction false} ValuesAppend<T>(a: seq<Nested<T>>, b: seq<Nested<T>>)
    requires Flat(a) && Flat(b)
    ensures Flat(a + b) && Values(a + b) == Values(a) + Values(b)
    decreases |a|
  {
    if |a| > 0 {
      assert (a + b)[1..] == a[1..] + b;
      ValuesAppend(a[1..], b);
    } else {
      assert a + b == b;
    }
  }

  /** Flattening distributes over concatenation. */
  lemma {:induction false} FlattenDeepAppend<T>(a: seq<Nested<T>>, b: seq<Nested<T>>)
    ensures FlattenDeep(a + b) == FlattenDeep(a) + FlattenDeep(b)
    decreases |a|
  {
    if |a| > 0 {
      assert (a + b)[0] == a[0];
      assert (a + b)[1..] == a[1..] + b;
      FlattenDeepAppend(a[1..], b);
    } else {
      assert a + b == b;
    }
  }

  /** A flat input comes back equal. */
  lemma {:induction false} FlatIsCopy<T>(a: seq<Nested<T>>)
    requires Flat(a)
    ensures FlattenDeep(a) == a
    decreases |a|
  {
    if |a| > 0 {
      FlatIsCopy(a[1..]);
    }
  }

  /** `flattenDeep` is idempotent. */
  lemma {:induction false} FlattenDeepIdempotent<T>(a: seq<Nested<T>>)
    ensures FlattenDeep(FlattenDeep(a)) == FlattenDeep(a)
  {
    FlatIsCopy(FlattenDeep(a));
  }

  /** Elements without values, such as nested empty arrays however deep,
      contribute nothing. */
  lemma {:induction false} EmptyContributesNothing<T>(a: seq<Nested<T>>, e: seq<Nested<T>>, b: seq<Nested<T>>)
    requires LeavesOf(e) == []
    ensures FlattenDeep(a + e + b) == FlattenDeep(a + b)
  {
    FlattenDeepLeaves(e);
    assert |FlattenDeep(e)| == |Values(FlattenDeep(e))| == 0;
    FlattenDeepAppend(a + e, b);
    FlattenDeepAppend(a, e);
    FlattenDeepAppend(a, b);
  }

  /** `[[[]]]` has no values. */
  lemma {:induction false} DeepEmptyHasNoLeaves<T>(e: seq<Nested<T>>)
    requires e == [List([List([])])]
    ensures LeavesOf(e) == []
  {
    var inner: seq<Nested<T>> := [List([])];
    assert LeavesOf(inner[1..]) == [];
    assert Leaves(inner[0]) == [];
    assert LeavesOf(inner) == [];
    assert LeavesOf(e[1..]) == [];
  }

  /** `flattenDeep([1, [2, [3, [4]]]])` is `[1, 2, 3, 4]`. */
  lemma {:induction false} FlattenDeepExample()
    ensures Values(FlattenDeep([Leaf(1), List([Leaf(2), List([Leaf(3), List([Leaf(4)])])])])) == [1, 2, 3, 4]
  {
    FlattenDeepLeaves([Leaf(1), List([Leaf(2), List([Leaf(3), List([Leaf(4)])])])]);
  }
}

=== FILE: get.dfy ===
/** `get`: read the value at a path, falling back to a default. */
module PathGet {
  import opened JsValue
  import Path
  import Strings

  /** The walk of `get`: stop with the default at a null or undefined step, and
      turn a final undefined into the default. It gives undefined only when
      the default is undefined. */
  function Walk(st: Store, v: Value, keys: seq<string>, default: Value): (r: Value)
    ensures r.Undefined? ==> default.Undefined?
    decreases |keys|
  {
    if |keys| == 0 then (if v.Undefined? then default else v)
    else if IsNullish(v) then default
    else Walk(st, GetProp(st, v, keys[0]), keys[1..], default)
  }

  /** `get(obj, path, defaultValue)`. It gives undefined only when the
      default is undefined, and the default for a null or undefined `obj`
      with at least one key. */
  function Get(st: Store, obj: Value, path: Path.PathSpec, default: Value): (r: Value)
    ensures r.Undefined? ==> default.Undefined?
    ensures IsNullish(obj) && |Path.ParsePath(path)| > 0 ==> r == default
  {
    Walk(st, obj, Path.ParsePath(path), default)
  }

  /** The value reached after following the first `i` keys, ignoring guards. */
  function Reach(st: Store, v: Value, keys: seq<string>, i: nat): Value
    requires i <= |keys|
  {
    if i == 0 then v else GetProp(st, Reach(st, v, keys, i - 1), keys[i - 1])
  }

  lemma {:induction false} ReachShift(st: Store, v: Value, keys: seq<string>, i: nat)
    requires 0 < |keys| && i < |keys|
    ensures Reach(st, v, keys, i + 1) == Reach(st, GetProp(st, v, keys[0]), keys[1..], i)
  {
    if i > 0 {
      ReachShift(st, v, keys, i - 1);
    }
  }

  /** Some step before the last key lands on null or undefined. */
  predicate StopsEarly(st: Store, v: Value, keys: seq<string>) {
    exists i :: 0 <= i < |keys| && IsNullish(Reach(st, v, keys, i))
  }

  /** The default comes back exactly when a step before the last key lands on
      null or undefined, or the value finally reached is undefined; otherwise the
      value reached, null included, is returned. */
  lemma {:induction false} WalkSpec(st: Store, v: Value, keys: seq<string>, default: Value)
    decreases |keys|
    ensures Walk(st, v, keys, default) ==
      if StopsEarly(st, v, keys) || Reach(st, v, keys, |keys|).Undefined?
      then default
      else Reach(st, v, keys, |keys|)
  {
    if |keys| > 0 && !IsNullish(v) {
      var w := GetProp(st, v, keys[0]);
      var n := |keys|;
      WalkSpec(st, w, keys[1..], default);
      forall i | 0 <= i < n
        ensures Reach(st, v, keys, i + 1) == Reach(st, w, keys[1..], i)
      {
        ReachShift(st, v, keys, i);
      }
      var stopV := StopsEarly(st, v, keys);
      var stopW := StopsEarly(st, w, keys[1..]);
      if stopV {
        var i :| 0 <= i < n && IsNullish(Reach(st, v, keys, i));
        assert i > 0;
        assert IsNullish(Reach(st, w, keys[1..], i - 1));
        assert stopW;
      }
      if stopW {
        var j :| 0 <= j < n - 1 && IsNullish(Reach(st, w, keys[1..], j));
        assert IsNullish(Reach(st, v, keys, j + 1));
        assert stopV;
      }
      assert Reach(st, v, keys, n) == Reach(st, w, keys[1..], n - 1);
      assert Walk(st, v, keys, default) == Walk(st, w, keys[1..], default);
    } else if |keys| > 0 {
      assert Reach(st, v, keys, 0) == v;
      assert StopsEarly(st, v, keys);
      assert Walk(st, v, keys, default) == default;
    }
  }

  /** `'a.b'` and `['a', 'b']` read the same value when no key holds a '.'. */
  lemma {:induction false} DottedAndArrayAgree(st: Store, obj: Value, keys: seq<string>, default: Value)
    requires |keys| >= 1
    requires forall i :: 0 <= i < |keys| ==> '.' !in keys[i]
    ensures Get(st, obj, Path.Dotted(Strings.Join(keys, ".")), default) == Get(st, obj, Path.KeyArray(keys), default)
  {
    Path.ParseJoined(keys);
  }

  /** With no keys the object itself comes back, or the default if it is undefined. */
  lemma {:induction false} NoKeys(st: Store, obj: Value, default: Value)
    ensures Get(st, obj, Path.KeyArray([]), default) == if obj.Undefined? then default else obj
  {
  }

  /** Following `keys` from `v` passes only through objects and ends at `value`. */
  predicate ReadsBack(st: Store, v: Value, keys: seq<string>, value: Value)
    decreases |keys|
  {
    if |keys| == 0 then v == value
    else v.Ref? && ReadsBack(st, GetProp(st, v, keys[0]), keys[1..], value)
  }

  /** `get` along such a path returns the value found there, or the default
      when it is undefined. */
  lemma {:induction false} ReadsBackGet(st: Store, v: Value, keys: seq<string>, value: Value, default: Value)
    requires ReadsBack(st, v, keys, value)
    ensures Walk(st, v, keys, default) == if value.Undefined? then default else value
    decreases |keys|
  {
    if |keys| > 0 {
      ReadsBackGet(st, GetProp(st, v, keys[0]), keys[1..], value, default);
    }
  }
}

=== FILE: group_by.dfy ===
/** `groupBy(array, iteratee)`: each item is appended to the bucket named by
    its key, the bucket being created the first time the key comes up. The
    iteratee is a function from items to their (already stringified) key. */
module CollectionGroupBy {
  import Seqs
  import ArrayUniq
  import JsValue

  /** The result object: keys in the order they were created, and a bucket
      per key. */
  datatype Groups<T> = Groups(order: seq<string>, buckets: map<string, seq<T>>)

  /** Every key is listed once, and exactly the keys with a bucket are
      listed. */
  predicate ValidGroups<T>(g: Groups<T>) {
    && JsValue.Distinct(g.order)
    && (forall k :: k in g.buckets ==> k in g.order)
    && (forall i :: 0 <= i < |g.order| ==> g.order[i] in g.buckets)
  }

  /** One turn of the loop: create the bucket if the key is new, then push. */
  function AddItem<T>(g: Groups<T>, key: string, item: T): (r: Groups<T>)
    requires ValidGroups(g)
    ensures ValidGroups(r)
    ensures key in r.buckets && r.buckets[key] == (if key in g.buckets then g.buckets[key] else []) + [item]
    ensures forall k :: k != key ==> (k in r.buckets <==> k in g.buckets)
    ensures forall k :: k != key && k in g.buckets ==> r.buckets[k] == g.buckets[k]
  {
    if key in g.buckets then Groups(g.order, g.buckets[key := g.buckets[key] + [item]])
    else Groups(g.order + [key], g.buckets[key := [item]])
  }

  /** The keys of the items, in input order. */
  function KeysOf<T>(a: seq<T>, f: T -> string): (ks: seq<string>)
    ensures |ks| == |a|
    ensures forall i :: 0 <= i < |a| ==> ks[i] == f(a[i])
  {
    if |a| == 0 then [] else KeysOf(a[..|a| - 1], f) + [f(a[|a| - 1])]
  }

  /** The function as written, item by item. */
  function GroupBy<T>(a: seq<T>, f: T -> string): (r: Groups<T>)
    ensures ValidGroups(r)
    decreases |a|
  {
    if |a| == 0 then Groups([], map[])
    else AddItem(GroupBy(a[..|a| - 1], f), f(a[|a| - 1]), a[|a| - 1])
  }

  /** The test selecting the items of one bucket. */
  function HasKey<T>(f: T -> string, k: string): T -> bool {
    x => f(x) == k
  }

  /** Each bucket holds exactly the items with its key, in input order; there
      is a bucket for every key some item has and for no other. */
  lemma {:induction false} GroupByBuckets<T>(a: seq<T>, f: T -> string)
    ensures forall k :: k in GroupBy(a, f).buckets <==> k in KeysOf(a, f)
    ensures forall k :: k in GroupBy(a, f).buckets ==> GroupBy(a, f).buckets[k] == Seqs.Keep(a, HasKey(f, k))
    decreases |a|
  {
    if |a| > 0 {
      var n := |a| - 1;
      GroupByBuckets(a[..n], f);
      assert KeysOf(a, f) == KeysOf(a[..n], f) + [f(a[n])];
      forall k | k in GroupBy(a, f).buckets
        ensures GroupBy(a, f).buckets[k] == Seqs.Keep(a, HasKey(f, k))
      {
        Seqs.KeepSnoc(a, n, HasKey(f, k));
        assert a[..n + 1] == a;
        if k != f(a[n]) && k in GroupBy(a[..n], f).buckets {
          assert Seqs.Keep(a, HasKey(f, k)) == Seqs.Keep(a[..n], HasKey(f, k)) + [];
        } else if k == f(a[n]) && k !in GroupBy(a[..n], f).buckets {
          Seqs.KeepNone(a[..n], HasKey(f, k));
        }
      }
    }
  }

  /** The keys are listed in the order they first come up. */
  lemma {:induction false} GroupByOrder<T>(a: seq<T>, f: T -> string)
    ensures GroupBy(a, f).order == ArrayUniq.Uniq(KeysOf(a, f))
    decreases |a|
  {
    if |a| > 0 {
      var n := |a| - 1;
      var ks := KeysOf(a, f);
      GroupByOrder(a[..n], f);
      GroupByBuckets(a[..n], f);
      assert ks[..n] == KeysOf(a[..n], f);
      ArrayUniq.UniqStep(ks);
    }
  }

  /** No bucket is empty. */
  lemma {:induction false} GroupByNoEmptyBucket<T>(a: seq<T>, f: T -> string)
    ensures forall k :: k in GroupBy(a, f).buckets ==> |GroupBy(a, f).buckets[k]| > 0
  {
    var g := GroupBy(a, f);
    GroupByBuckets(a, f);
    forall k | k in g.buckets ensures |g.buckets[k]| > 0 {
      KeptWithKey(a, f, k);
    }
  }

  /** Some item has key `k`, so keeping the items with key `k` keeps one. */
  lemma {:induction false} KeptWithKey<T>(a: seq<T>, f: T -> string, k: string)
    requires k in KeysOf(a, f)
    ensures |Seqs.Keep(a, HasKey(f, k))| > 0
  {
    var i :| 0 <= i < |a| && KeysOf(a, f)[i] == k;
    Seqs.KeepMembers(a, HasKey(f, k));
    assert a[i] in Seqs.Keep(a, HasKey(f, k));
  }

  /** The total size of the buckets listed in `order`. */
  function Total<T>(order: seq<string>, buckets: map<string, seq<T>>): nat
    requires forall i :: 0 <= i < |order| ==> order[i] in buckets
  {
    if |order| == 0 then 0 else |buckets[order[0]]| + Total(order[1..], buckets)
  }

  /** Lengthening one listed bucket by one adds one to the total. */
  lemma {:induction false} TotalGrows<T>(order: seq<string>, buckets: map<string, seq<T>>, key: string, item: T)
    requires JsValue.Distinct(order) && key in order
    requires forall i :: 0 <= i < |order| ==> order[i] in buckets
    ensures Total(order, buckets[key := buckets[key] + [item]]) == Total(order, buckets) + 1
    decreases |order|
  {
    var b2 := buckets[key := buckets[key] + [item]];
    if order[0] == key {
      assert key !in order[1..];
      TotalSame(order[1..], buckets, b2);
    } else {
      TotalGrows(order[1..], buckets, key, item);
    }
  }

  /** Buckets that are not listed do not count. */
  lemma {:induction false} TotalSame<T>(order: seq<string>, b1: map<string, seq<T>>, b2: map<string, seq<T>>)
    requires forall i :: 0 <= i < |order| ==> order[i] in b1 && order[i] in b2 && b1[order[i]] == b2[order[i]]
    ensures Total(order, b1) == Total(order, b2)
    decreases |order|
  {
    if |order| > 0 {
      TotalSame(order[1..], b1, b2);
    }
  }

  /** Adding a new key with a one-item bucket adds one to the total. */
  lemma {:induction false} TotalNewKey<T>(order: seq<string>, buckets: map<string, seq<T>>, key: string, item: T)
    requires key !in order
    requires forall i :: 0 <= i < |order| ==> order[i] in buckets
    ensures Total(order + [key], buckets[key := [item]]) == Total(order, buckets) + 1
    decreases |order|
  {
    var b2 := buckets[key := [item]];
    if |order| == 0 {
      assert [key][1..] == [];
    } else {
      assert (order + [key])[1..] == order[1..] + [key];
      TotalNewKey(order[1..], buckets, key, item);
    }
  }

  /** Every item lands in exactly one bucket: the bucket sizes add up to the
      length of the input. */
  lemma {:induction false} GroupBySizes<T>(a: seq<T>, f: T -> string)
    ensures Total(GroupBy(a, f).order, GroupBy(a, f).buckets) == |a|
    decreases |a|
  {
    if |a| > 0 {
      var n := |a| - 1;
      GroupBySizes(a[..n], f);
      TotalAddItem(GroupBy(a[..n], f), f(a[n]), a[n]);
    }
  }

  /** One turn of the loop adds one to the total. */
  lemma {:induction false} TotalAddItem<T>(g: Groups<T>, key: string, item: T)
    requires ValidGroups(g)
    ensures Total(AddItem(g, key, item).order, AddItem(g, key, item).buckets) == Total(g.order, g.buckets) + 1
  {
    if key in g.buckets {
      TotalGrows(g.order, g.buckets, key, item);
    } else {
      TotalNewKey(g.order, g.buckets, key, item);
    }
  }

  /** `groupBy([], f)` has no keys. */
  lemma {:induction false} GroupByEmpty<T>(f: T -> string)
    ensures GroupBy([], f).order == [] && GroupBy([], f).buckets == map[]
  {
  }
}

=== FILE: guards.dfy ===
/**
 * Depth tripwires. Unlike the rest of the core they signal by throwing a
 * RangeError; passing them changes nothing. `hasDangerousKey` is re-exported
 * from the path engine unchanged (it is `Path.HasDangerousKey`).
 */
module Guards {
  import opened Wrappers
  import Decimal

  const MaxPathDepth: nat := 100
  const MaxRecursionDepth: nat := 50

  /** `validatePathDepth`: throws when the path has more than 100 keys. */
  function ValidatePathDepth(keys: seq<string>): (r: Outcome)
    ensures r.Fail? <==> |keys| > MaxPathDepth
    ensures r.Fail? ==> r.error == RangeError("Path depth " + Decimal.IndexKey(|keys|) + " exceeds maximum 100")
  {
    if |keys| > MaxPathDepth then
      Fail(RangeError("Path depth " + Decimal.IndexKey(|keys|) + " exceeds maximum 100"))
    else Pass
  }

  /** `checkRecursionDepth`: throws when the depth is above 50. */
  function CheckRecursionDepth(depth: int): (r: Outcome)
    ensures r.Fail? <==> depth > MaxRecursionDepth
    ensures r.Fail? ==> r.error == RangeError("Recursion depth " + Decimal.IndexKey(depth as nat) + " exceeds maximum 50")
  {
    if depth > MaxRecursionDepth then
      Fail(RangeError("Recursion depth " + Decimal.IndexKey(depth as nat) + " exceeds maximum 50"))
    else Pass
  }

  /** The boundaries are inclusive: 100 keys and depth 50 pass, one more fails. */
  lemma {:induction false} GuardBoundaries(keys100: seq<string>, keys101: seq<string>)
    requires |keys100| == 100 && |keys101| == 101
    ensures ValidatePathDepth(keys100) == Pass
    ensures ValidatePathDepth(keys101).Fail?
    ensures CheckRecursionDepth(50) == Pass
    ensures CheckRecursionDepth(51).Fail?
  {
  }
}

=== FILE: intersection.dfy ===
/** `intersection(...arrays)`: the elements of the first array found in every
    other one, each once, in the order of their first occurrences. The loop
    skips an element already in the result set, checks `includes` against
    every other array (stopping at the first that lacks it) and pushes it when
    all have it. */
module ArrayIntersection {
  import Seqs
  import ArrayUniq
  import JsValue

  /** `x` occurs in every array of `rest`. */
  predicate InAll<T(==)>(rest: seq<seq<T>>, x: T) {
    forall j :: 0 <= j < |rest| ==> x in rest[j]
  }

  /** The test the loop applies to an element of the first array. */
  function InAllOf<T(==)>(rest: seq<seq<T>>): T -> bool {
    x => InAll(rest, x)
  }

  /** The inner loop: `rest.every(arr => arr.includes(item))`, leaving at the
      first array that lacks the element. */
  method IncludedInAll<T(==)>(rest: seq<seq<T>>, item: T) returns (isInAll: bool)
    ensures isInAll <==> InAll(rest, item)
  {
    isInAll := true;
    var j := 0;
    while j < |rest|
      invariant 0 <= j <= |rest|
      invariant forall k :: 0 <= k < j ==> item in rest[k]
    {
      if item !in rest[j] {
        isInAll := false;
        break;
      }
      j := j + 1;
    }
  }

  /** The function as written: a result list plus a set of what it holds. */
  method Intersection<T(==)>(arrays: seq<seq<T>>) returns (r: seq<T>)
    ensures |arrays| == 0 ==> r == []
    ensures |arrays| > 0 ==> r == ArrayUniq.Uniq(Seqs.Keep(arrays[0], InAllOf(arrays[1..])))
    ensures JsValue.Distinct(r)
    ensures forall i :: 0 <= i < |r| ==> forall j :: 0 <= j < |arrays| ==> r[i] in arrays[j]
    ensures |arrays| > 0 ==> forall i :: 0 <= i < |arrays[0]| && InAll(arrays, arrays[0][i]) ==> arrays[0][i] in r
    ensures |arrays| > 0 ==> ArrayUniq.InFirstOrder(r, arrays[0])
  {
    if |arrays| == 0 {
      return [];
    }
    var first := arrays[0];
    var rest := arrays[1..];
    var p := InAllOf(rest);
    r := [];
    var resultSet: set<T> := {};
    var i := 0;
    while i < |first|
      invariant 0 <= i <= |first|
      invariant r == Pushed(first, p, i)
      invariant forall x :: x in resultSet <==> x in r
    {
      var item := first[i];
      if item !in resultSet {
        var isInAll := IncludedInAll(rest, item);
        assert isInAll == p(item);
        if isInAll {
          r := r + [item];
          resultSet := resultSet + {item};
        }
      }
      i := i + 1;
    }
    PushedIsUniqKeep(first, p, |first|);
    assert first[..|first|] == first;
    IntersectionOfAll(arrays, r);
  }

  /** What the loop has pushed after the first `i` elements. */
  function Pushed<T(==)>(a: seq<T>, p: T -> bool, i: nat): seq<T>
    requires i <= |a|
  {
    if i == 0 then []
    else
      var u := Pushed(a, p, i - 1);
      if p(a[i - 1]) && a[i - 1] !in u then u + [a[i - 1]] else u
  }

  /** The loop computes the `uniq` of the kept prefix. */
  lemma {:induction false} PushedIsUniqKeep<T>(a: seq<T>, p: T -> bool, i: nat)
    requires i <= |a|
    ensures Pushed(a, p, i) == ArrayUniq.Uniq(Seqs.Keep(a[..i], p))
  {
    if i == 0 {
      assert a[..0] == [];
    } else {
      PushedIsUniqKeep(a, p, i - 1);
      PushedStep(a, p, i - 1, Pushed(a, p, i - 1));
    }
  }

  lemma {:induction false} PushedStep<T>(a: seq<T>, p: T -> bool, i: nat, u: seq<T>)
    requires i < |a| && u == Pushed(a, p, i) && u == ArrayUniq.Uniq(Seqs.Keep(a[..i], p))
    ensures Pushed(a, p, i + 1) == ArrayUniq.Uniq(Seqs.Keep(a[..i + 1], p))
  {
    Step(a, i, p, u);
  }

  /** `IntersectionSpec` restated over the whole argument list. */
  lemma {:induction false} IntersectionOfAll<T>(arrays: seq<seq<T>>, r: seq<T>)
    requires |arrays| > 0 && r == ArrayUniq.Uniq(Seqs.Keep(arrays[0], InAllOf(arrays[1..])))
    ensures JsValue.Distinct(r)
    ensures forall i :: 0 <= i < |r| ==> forall j :: 0 <= j < |arrays| ==> r[i] in arrays[j]
    ensures forall i :: 0 <= i < |arrays[0]| && InAll(arrays, arrays[0][i]) ==> arrays[0][i] in r
    ensures ArrayUniq.InFirstOrder(r, arrays[0])
  {
    var first := arrays[0];
    var rest := arrays[1..];
    IntersectionSpec(first, rest);
    forall i | 0 <= i < |r| ensures forall j :: 0 <= j < |arrays| ==> r[i] in arrays[j] {
      assert InAll(rest, r[i]);
      forall j | 1 <= j < |arrays| ensures r[i] in arrays[j] {
        assert arrays[j] == rest[j - 1];
      }
    }
    forall i | 0 <= i < |first| && InAll(arrays, first[i]) ensures first[i] in r {
      forall j | 0 <= j < |rest| ensures first[i] in rest[j] {
        assert rest[j] == arrays[j + 1];
      }
    }
  }

  /** One turn of the loop: the element is appended when it passes the test
      and is not in the result yet. */
  lemma {:induction false} Step<T>(a: seq<T>, i: nat, p: T -> bool, u: seq<T>)
    requires i < |a| && u == ArrayUniq.Uniq(Seqs.Keep(a[..i], p))
    ensures ArrayUniq.Uniq(Seqs.Keep(a[..i + 1], p)) == if p(a[i]) && a[i] !in u then u + [a[i]] else u
  {
    var k := Seqs.Keep(a[..i], p);
    var x := a[i];
    Seqs.KeepSnoc(a, i, p);
    if p(x) {
      var kx := k + [x];
      assert kx[..|kx| - 1] == k;
      assert kx[|kx| - 1] == x;
      ArrayUniq.UniqStep(kx);
      Seqs.KeepMembers(a[..i], p);
      ArrayUniq.UniqMembers(k);
      assert x in u <==> x in k;
    } else {
      assert k + [] == k;
    }
  }

  /** What the result holds: each element of the first array that every
      other array contains, once, in first-occurrence order. */
  lemma {:induction false} IntersectionSpec<T>(first: seq<T>, rest: seq<seq<T>>)
    ensures var r := ArrayUniq.Uniq(Seqs.Keep(first, InAllOf(rest)));
      && JsValue.Distinct(r)
      && (forall i :: 0 <= i < |r| ==> r[i] in first && InAll(rest, r[i]))
      && (forall i :: 0 <= i < |first| && InAll(rest, first[i]) ==> first[i] in r)
      && ArrayUniq.InFirstOrder(r, first)
  {
    var r := ArrayUniq.Uniq(Seqs.Keep(first, InAllOf(rest)));
    IntersectionMembers(first, rest);
    IntersectionOrder(first, rest);
    forall i | 0 <= i < |r| ensures r[i] in first && InAll(rest, r[i]) {
      assert r[i] in r;
    }
    forall i | 0 <= i < |first| && InAll(rest, first[i]) ensures first[i] in r {
      assert first[i] in first;
    }
  }

  lemma {:induction false} IntersectionMembers<T>(first: seq<T>, rest: seq<seq<T>>)
    ensures var r := ArrayUniq.Uniq(Seqs.Keep(first, InAllOf(rest)));
      forall x :: x in r <==> x in first && InAll(rest, x)
  {
    var p := InAllOf(rest);
    Seqs.KeepMembers(first, p);
    ArrayUniq.UniqMembers(Seqs.Keep(first, p));
  }

  lemma {:induction false} IntersectionOrder<T>(first: seq<T>, rest: seq<seq<T>>)
    ensures ArrayUniq.InFirstOrder(ArrayUniq.Uniq(Seqs.Keep(first, InAllOf(rest))), first)
  {
    var p := InAllOf(rest);
    ArrayUniq.UniqKeep(first, p);
    Seqs.KeepSubseq(ArrayUniq.Uniq(first), p);
    ArrayUniq.UniqOrder(first);
    ArrayUniq.SubseqOrder(Seqs.Keep(ArrayUniq.Uniq(first), p), ArrayUniq.Uniq(first), first);
  }

  /** One array gives its `uniq`. */
  lemma {:induction false} SingleArrayIsUniq<T>(first: seq<T>)
    ensures ArrayUniq.Uniq(Seqs.Keep(first, InAllOf([]))) == ArrayUniq.Uniq(first)
  {
    Seqs.KeepAll(first, InAllOf([]));
  }

  /** Two arrays with nothing in common give []. */
  lemma {:induction false} DisjointGivesNothing<T>(first: seq<T>, second: seq<T>)
    requires forall i :: 0 <= i < |first| ==> first[i] !in second
    ensures ArrayUniq.Uniq(Seqs.Keep(first, InAllOf([second]))) == []
  {
    var p := InAllOf([second]);
    forall i | 0 <= i < |first| ensures !p(first[i]) {
      assert [second][0] == second;
    }
    Seqs.KeepNone(first, p);
  }
}

=== FILE: is_empty.dfy ===
/** `isEmpty(value)`: whether a value holds nothing. */
module LangIsEmpty {
  import opened JsValue
  import Decimal
  import ObjectPick
  import ObjectOmit

  /** `value instanceof Map || value instanceof Set`. */
  predicate IsCollection(o: Obj) {
    o.kind.JsMap? || o.kind.JsSet?
  }

  /** Null, undefined, every boolean and every number are empty; a string or
      an array is empty when its `length` is 0; a Map or Set when its `size`
      is 0; any other object when `Object.keys` finds nothing. */
  function IsEmpty(st: Store, v: Value): (r: bool)
    ensures IsNullish(v) || v.Bool? || v.Num? ==> r
    ensures v.Str? ==> (r <==> GetProp(st, v, "length") == NumOf(0))
    ensures v.Ref? && ObjAt(st, v.addr).kind.Array? ==> (r <==> GetProp(st, v, "length") == NumOf(0))
    ensures v.Ref? && IsCollection(ObjAt(st, v.addr)) && !HasOwn(ObjAt(st, v.addr), "size") ==>
              (r <==> GetProp(st, v, "size") == NumOf(0))
    ensures v.Ref? && !ObjAt(st, v.addr).kind.Array? && !IsCollection(ObjAt(st, v.addr)) ==>
              (r <==> |OwnKeys(ObjAt(st, v.addr))| == 0)
  {
    match v
    case Str(s) => |s| == 0
    case Ref(a) =>
      (match ObjAt(st, a).kind
       case Array(es) => |es| == 0
       case JsMap(es) => |es| == 0
       case JsSet(ms) => |ms| == 0
       case _ => |OwnKeys(ObjAt(st, a))| == 0)
    case _ => true
  }

  /** An object that is not an array, Map or Set is empty exactly when it has
      no own property at all. */
  lemma {:induction false} EmptyIffNoOwnProperty(st: Store, v: Value)
    requires Wf(st) && v.Ref? && v.addr in st.objs
    requires !ObjAt(st, v.addr).kind.Array? && !IsCollection(ObjAt(st, v.addr))
    ensures IsEmpty(st, v) <==> forall k :: !HasOwn(ObjAt(st, v.addr), k)
  {
    var o := ObjAt(st, v.addr);
    assert ValidObj(o);
    if !IsEmpty(st, v) {
      assert o.props.order[0] in o.props.vals;
      assert HasOwn(o, o.props.order[0]);
    }
  }

  /** An array is empty exactly when it has no element at index 0. */
  lemma {:induction false} ArrayEmptyIffNoFirst(st: Store, v: Value)
    requires Wf(st) && v.Ref? && v.addr in st.objs && ObjAt(st, v.addr).kind.Array?
    ensures IsEmpty(st, v) <==> !HasOwn(ObjAt(st, v.addr), "0")
  {
    var o := ObjAt(st, v.addr);
    assert ValidObj(o);
    Decimal.ParseIndexKey(0);
    assert Decimal.IndexKey(0) == "0";
  }

  /** `pick` with no keys gives an empty object. */
  lemma {:induction false} PickNothingIsEmpty(st: Store, obj: Addr)
    requires Wf(st)
    ensures var r := ObjectPick.Pick(st, obj, []); IsEmpty(r.0, r.1)
  {
  }

  /** An object from which nothing is assigned is a fresh empty object. */
  lemma {:induction false} OmittedNothingKept(o: Obj, keys: seq<string>, own: seq<string>)
    requires forall i :: 0 <= i < |own| ==> own[i] in keys
    ensures ObjectOmit.Omitted(o, keys, own) == NewPlain(NoFields)
    decreases |own|
  {
    if |own| > 0 {
      OmittedNothingKept(o, keys, own[..|own| - 1]);
    }
  }

  /** `omit` listing every own key of an object gives an empty object. */
  lemma {:induction false} OmitEverythingIsEmpty(st: Store, obj: Addr)
    requires Wf(st)
    ensures var r := ObjectOmit.Omit(st, obj, OwnKeys(ObjAt(st, obj))); IsEmpty(r.0, r.1)
  {
    var o := ObjAt(st, obj);
    OmittedNothingKept(o, OwnKeys(o), OwnKeys(o));
  }
}

=== FILE: is_equal.dfy ===
/**
 * `isEqual(value, other)`: deep equality of two values. Identical values
 * are equal; null and undefined equal only themselves; values of different
 * `typeof` differ; two Dates compare their times; two arrays compare their
 * lengths and their elements pairwise; any other two objects compare their
 * own enumerable keys and the values under them.
 *
 * The recursion follows references, so it ends only on an object graph
 * without cycles: the functions take a rank witnessing that (`Acyclic`)
 * and every recursive call is on a value of lower rank.
 *
 * `IsEqual` is the function as written. `IsEqualFixed` is the comparison
 * the library's documentation and tests describe: RegExps, Maps and Sets
 * are compared by content, and a key of one object must be an own
 * enumerable key of the other, which makes the relation symmetric.
 */
module LangIsEqual {
  import opened Wrappers
  import opened JsValue

  predicate BothDates(st: Store, a: Value, b: Value) {
    a.Ref? && b.Ref? && ObjAt(st, a.addr).kind.Date? && ObjAt(st, b.addr).kind.Date?
  }

  predicate BothArrays(st: Store, a: Value, b: Value) {
    a.Ref? && b.Ref? && ObjAt(st, a.addr).kind.Array? && ObjAt(st, b.addr).kind.Array?
  }

  predicate BothRegExps(st: Store, a: Value, b: Value) {
    a.Ref? && b.Ref? && ObjAt(st, a.addr).kind.RegExp? && ObjAt(st, b.addr).kind.RegExp?
  }

  predicate BothMaps(st: Store, a: Value, b: Value) {
    a.Ref? && b.Ref? && ObjAt(st, a.addr).kind.JsMap? && ObjAt(st, b.addr).kind.JsMap?
  }

  predicate BothSets(st: Store, a: Value, b: Value) {
    a.Ref? && b.Ref? && ObjAt(st, a.addr).kind.JsSet? && ObjAt(st, b.addr).kind.JsSet?
  }

  // ---------------------------------------------------------------- ranks

  /** `v[k]`, for an own enumerable key `k` of `v`, ranks below `v`. */
  lemma {:induction false} PropRank(st: Store, rank: map<Addr, nat>, x: Addr, k: string)
    requires Acyclic(st, rank) && k in OwnKeys(ObjAt(st, x))
    ensures x in st.objs
    ensures RankOf(st, rank, GetProp(st, Ref(x), k)) < RankOf(st, rank, Ref(x))
  {
    assert x in st.objs;
    if HasOwn(st.objs[x], k) {
      OwnValueRank(st, rank, x, k);
    }
  }

  /** The value of a Map entry ranks below the Map. */
  lemma {:induction false} EntryRank(st: Store, rank: map<Addr, nat>, x: Addr, i: nat)
    requires Acyclic(st, rank) && x in st.objs && st.objs[x].kind.JsMap? && i < |st.objs[x].kind.entries|
    ensures RankOf(st, rank, st.objs[x].kind.entries[i].1) < RankOf(st, rank, Ref(x))
  {
    var es := st.objs[x].kind.entries;
    var w := es[i].1;
    if w.Ref? && w.addr in st.objs {
      assert ValsOf(es)[i] == w;
      assert w.addr in RefsIn(ValsOf(es));
      assert w.addr in ChildRefs(st.objs[x]);
    }
  }

  // ---------------------------------------------------------------- as written

  /** `isEqual(a, b)` as the library writes it. Each `every` is a universal
      statement over the indices or keys of the first value. */
  function IsEqual(st: Store, rank: map<Addr, nat>, a: Value, b: Value): (r: bool)
    requires Acyclic(st, rank)
    ensures StrictEq(a, b) ==> r
    ensures !a.Ref? || !b.Ref? ==> (r <==> StrictEq(a, b))
    ensures TypeOf(st, a) == TFunction ==> (r <==> a == b)
    ensures BothDates(st, a, b) && a != b ==>
      (r <==> StrictEq(Num(ObjAt(st, a.addr).kind.time), Num(ObjAt(st, b.addr).kind.time)))
    decreases RankOf(st, rank, a)
  {
    if StrictEq(a, b) then true
    else if IsNullish(a) || IsNullish(b) then false
    else if TypeOf(st, a) != TypeOf(st, b) then false
    else if BothDates(st, a, b) then
      StrictEq(Num(ObjAt(st, a.addr).kind.time), Num(ObjAt(st, b.addr).kind.time))
    else if BothArrays(st, a, b) then
      var ea := ObjAt(st, a.addr).kind.elems;
      var eb := ObjAt(st, b.addr).kind.elems;
      && |ea| == |eb|
      && forall j :: 0 <= j < |ea| ==>
        (ElemRank(st, rank, a.addr, j); IsEqual(st, rank, ea[j], eb[j]))
    else if TypeOf(st, a) == TObject then
      var ka := OwnKeys(ObjAt(st, a.addr));
      && |ka| == |OwnKeys(ObjAt(st, b.addr))|
      && forall k :: k in ka ==>
        (PropRank(st, rank, a.addr, k);
         HasOwn(ObjAt(st, b.addr), k) && IsEqual(st, rank, GetProp(st, a, k), GetProp(st, b, k)))
    else false
  }

  /** Two different objects without own enumerable keys that are neither both
      Dates nor both arrays always compare equal: every Map equals every Map,
      every Set every Set, every RegExp every RegExp, and each of them equals
      `{}`. */
  lemma {:induction false} KeylessObjectsEqual(st: Store, rank: map<Addr, nat>, a: Value, b: Value)
    requires Acyclic(st, rank) && a.Ref? && b.Ref?
    requires TypeOf(st, a) == TObject && TypeOf(st, b) == TObject
    requires !BothDates(st, a, b) && !BothArrays(st, a, b)
    requires OwnKeys(ObjAt(st, a.addr)) == [] && OwnKeys(ObjAt(st, b.addr)) == []
    ensures IsEqual(st, rank, a, b)
  {
  }

  /** `new Map([['a', 1], ['b', 2]])` and `new Map([['a', 1], ['b', 3]])`. */
  function TwoMaps(): Store {
    Store(map[
      0 := Obj(JsMap([(Str("a"), Num(Fin(1.0))), (Str("b"), Num(Fin(2.0)))]), NoFields),
      1 := Obj(JsMap([(Str("a"), Num(Fin(1.0))), (Str("b"), Num(Fin(3.0)))]), NoFields)], 2)
  }

  /** `{ length: 1 }` and `[5]`. */
  function LengthAndArray(): Store {
    Store(map[
      0 := Obj(Plain(false), Fields(["length"], map["length" := Num(Fin(1.0))])),
      1 := Obj(Array([Num(Fin(5.0))]), NoFields)], 2)
  }

  const FlatRank: map<Addr, nat> := map[0 := 0, 1 := 0]

  lemma {:induction false} TwoMapsFlat()
    ensures Acyclic(TwoMaps(), FlatRank)
  {
    var m := TwoMaps();
    assert ChildRefs(m.objs[0]) == {} by {
      assert RefsIn(KeysOf(m.objs[0].kind.entries)) == {};
      assert RefsIn(ValsOf(m.objs[0].kind.entries)) == {};
    }
    assert ChildRefs(m.objs[1]) == {} by {
      assert RefsIn(KeysOf(m.objs[1].kind.entries)) == {};
      assert RefsIn(ValsOf(m.objs[1].kind.entries)) == {};
    }
  }

  lemma {:induction false} LengthAndArrayFlat()
    ensures Acyclic(LengthAndArray(), FlatRank)
  {
    var s := LengthAndArray();
    assert ChildRefs(s.objs[0]) == {};
    assert ChildRefs(s.objs[1]) == {} by {
      assert RefsIn(s.objs[1].kind.elems) == {};
    }
  }

  /** As written, two Maps with different entries compare equal. */
  lemma {:induction false} DifferentMapsCompareEqual()
    ensures Acyclic(TwoMaps(), FlatRank)
    ensures TwoMaps().objs[0].kind.entries != TwoMaps().objs[1].kind.entries
    ensures IsEqual(TwoMaps(), FlatRank, Ref(0), Ref(1))
  {
    var st := TwoMaps();
    TwoMapsFlat();
    assert st.objs[0].kind.entries[1] != st.objs[1].kind.entries[1];
    assert OwnKeys(st.objs[0]) == [] && OwnKeys(st.objs[1]) == [];
    KeylessObjectsEqual(st, FlatRank, Ref(0), Ref(1));
  }

  lemma {:induction false} LengthForward()
    ensures Acyclic(LengthAndArray(), FlatRank)
    ensures IsEqual(LengthAndArray(), FlatRank, Ref(0), Ref(1))
  {
    LengthAndArrayFlat();
    var st := LengthAndArray();
    assert OwnKeys(st.objs[0]) == ["length"];
    assert |OwnKeys(st.objs[1])| == 1;
    assert HasOwn(st.objs[1], "length");
    assert GetProp(st, Ref(0), "length") == Num(Fin(1.0));
    assert GetProp(st, Ref(1), "length") == Num(Fin(1.0));
  }

  lemma {:induction false} LengthBackward()
    ensures Acyclic(LengthAndArray(), FlatRank)
    ensures !IsEqual(LengthAndArray(), FlatRank, Ref(1), Ref(0))
  {
    LengthAndArrayFlat();
    var st := LengthAndArray();
    assert OwnKeys(st.objs[1]) == [Decimal.IndexKey(0)];
    assert Decimal.IndexKey(0) == "0";
    assert "0" in OwnKeys(st.objs[1]) && !HasOwn(st.objs[0], "0");
  }

  /** As written, `isEqual({ length: 1 }, [5])` holds, because the array has
      an own (non-enumerable) `length`, while `isEqual([5], { length: 1 })`
      does not: the relation is not symmetric. */
  lemma {:induction false} LengthMakesAsymmetric()
    ensures Acyclic(LengthAndArray(), FlatRank)
    ensures IsEqual(LengthAndArray(), FlatRank, Ref(0), Ref(1))
    ensures !IsEqual(LengthAndArray(), FlatRank, Ref(1), Ref(0))
  {
    LengthForward();
    LengthBackward();
  }

  /** No object has an own enumerable property named `length`. */
  predicate NoLengthKey(st: Store) {
    forall a :: a in st.objs ==> "length" !in st.objs[a].props.vals
  }

  // ---------------------------------------------------------------- counting

  lemma {:induction false} DistinctCard<T>(s: seq<T>)
    requires Distinct(s)
    ensures |set x | x in s| == |s|
  {
    if |s| > 0 {
      var t := s[1..];
      forall i, j | 0 <= i < j < |t|
        ensures t[i] != t[j]
      {
        assert t[i] == s[i + 1] && t[j] == s[j + 1];
      }
      DistinctCard(t);
      forall j | 0 <= j < |t|
        ensures t[j] != s[0]
      {
        assert t[j] == s[j + 1];
      }
      assert (set x | x in s) == {s[0]} + (set x | x in t);
    }
  }

  /** Two duplicate-free sequences of one length, the first inside the
      second, hold the same elements. */
  lemma {:induction false} SameSizeCovers<T>(s: seq<T>, t: seq<T>)
    requires Distinct(s) && Distinct(t) && |s| == |t|
    requires forall x :: x in s ==> x in t
    ensures forall y :: y in t ==> y in s
  {
    var S := set x | x in s;
    var T := set y | y in t;
    DistinctCard(s);
    DistinctCard(t);
    assert T == S + (T - S);
    assert |T - S| == 0;
    forall y | y in t
      ensures y in s
    {
      assert y in T && y !in T - S;
    }
  }

  /** Two objects with as many own enumerable keys, those of the first among
      those of the second, have the same keys. */
  lemma {:induction false} KeysCover(st: Store, x: Addr, y: Addr)
    requires Wf(st) && x in st.objs && y in st.objs
    requires |OwnKeys(st.objs[x])| == |OwnKeys(st.objs[y])|
    requires forall k :: k in OwnKeys(st.objs[x]) ==> k in OwnKeys(st.objs[y])
    ensures forall k :: k in OwnKeys(st.objs[y]) ==> k in OwnKeys(st.objs[x])
  {
    OwnKeysDistinct(st.objs[x]);
    OwnKeysDistinct(st.objs[y]);
    SameSizeCovers(OwnKeys(st.objs[x]), OwnKeys(st.objs[y]));
  }

  // ---------------------------------------------------------------- symmetry as written

  lemma {:induction false} WrittenSymArrays(st: Store, rank: map<Addr, nat>, a: Value, b: Value)
    requires Acyclic(st, rank) && Wf(st) && NoLengthKey(st)
    requires BothArrays(st, a, b) && a != b && IsEqual(st, rank, a, b)
    ensures IsEqual(st, rank, b, a)
    decreases RankOf(st, rank, a) + RankOf(st, rank, b), 0
  {
    var ea := ObjAt(st, a.addr).kind.elems;
    var eb := ObjAt(st, b.addr).kind.elems;
    assert a.addr in st.objs && b.addr in st.objs;
    forall j | 0 <= j < |eb|
      ensures IsEqual(st, rank, eb[j], ea[j])
    {
      ElemRank(st, rank, a.addr, j);
      ElemRank(st, rank, b.addr, j);
      WrittenSymStep(st, rank, ea[j], eb[j]);
    }
  }

  lemma {:induction false} WrittenSymObjects(st: Store, rank: map<Addr, nat>, a: Value, b: Value)
    requires Acyclic(st, rank) && Wf(st) && NoLengthKey(st)
    requires a.Ref? && b.Ref? && a != b && TypeOf(st, a) == TObject && TypeOf(st, b) == TObject
    requires !BothDates(st, a, b) && !BothArrays(st, a, b) && IsEqual(st, rank, a, b)
    ensures IsEqual(st, rank, b, a)
    decreases RankOf(st, rank, a) + RankOf(st, rank, b), 0
  {
    var ka := OwnKeys(ObjAt(st, a.addr));
    var kb := OwnKeys(ObjAt(st, b.addr));
    if |kb| > 0 {
      assert a.addr in st.objs && b.addr in st.objs;
      forall k | k in ka
        ensures k in kb
      {
        OwnKeysAreOwn(st.objs[a.addr], k);
        OwnKeysAreOwn(st.objs[b.addr], k);
      }
      KeysCover(st, a.addr, b.addr);
      forall k | k in kb
        ensures HasOwn(ObjAt(st, a.addr), k) && IsEqual(st, rank, GetProp(st, b, k), GetProp(st, a, k))
      {
        OwnKeysAreOwn(st.objs[a.addr], k);
        PropRank(st, rank, a.addr, k);
        PropRank(st, rank, b.addr, k);
        WrittenSymStep(st, rank, GetProp(st, a, k), GetProp(st, b, k));
      }
    }
  }

  lemma {:induction false} WrittenSymStep(st: Store, rank: map<Addr, nat>, a: Value, b: Value)
    requires Acyclic(st, rank) && Wf(st) && NoLengthKey(st)
    requires IsEqual(st, rank, a, b)
    ensures IsEqual(st, rank, b, a)
    decreases RankOf(st, rank, a) + RankOf(st, rank, b), 1
  {
    if StrictEq(a, b) || BothDates(st, a, b) {
    } else if BothArrays(st, a, b) {
      WrittenSymArrays(st, rank, a, b);
    } else {
      WrittenSymObjects(st, rank, a, b);
    }
  }

  /** As written, the comparison is symmetric on every heap where no object
      has an own enumerable `length` key: that key is the only way for a key
      of one side to be an own property of the other without being one of
      its enumerable keys. */
  lemma {:induction false} IsEqualSymmetric(st: Store, rank: map<Addr, nat>, a: Value, b: Value)
    requires Acyclic(st, rank) && Wf(st) && NoLengthKey(st)
    ensures IsEqual(st, rank, a, b) == IsEqual(st, rank, b, a)
  {
    if IsEqual(st, rank, a, b) {
      WrittenSymStep(st, rank, a, b);
    }
    if IsEqual(st, rank, b, a) {
      WrittenSymStep(st, rank, b, a);
    }
  }

  // ---------------------------------------------------------------- corrected

  /** The index of the entry with key `k` (keys compare as SameValueZero,
      which on this value model is `==`): what `Map.prototype.has` and `get`
      consult. */
  function FindKey(es: seq<(Value, Value)>, k: Value): (r: Option<nat>)
    ensures r.Some? ==> r.value < |es| && es[r.value].0 == k
    ensures r.None? ==> forall i :: 0 <= i < |es| ==> es[i].0 != k
  {
    if |es| == 0 then None
    else
      match FindKey(es[..|es| - 1], k)
      case Some(j) => Some(j)
      case None => if es[|es| - 1].0 == k then Some(|es| - 1) else None
  }

  /** `m.get(k)` when `m.has(k)`, and nothing otherwise. */
  function Get(es: seq<(Value, Value)>, k: Value): Option<Value> {
    var i := FindKey(es, k);
    if i.Some? then Some(es[i.value].1) else None
  }

  lemma {:induction false} GetSome(es: seq<(Value, Value)>, k: Value)
    ensures Get(es, k).Some? <==> k in KeysOf(es)
  {
    var i := FindKey(es, k);
    if i.Some? {
      assert KeysOf(es)[i.value] == k;
    }
  }

  /** Keys of a duplicate-free Map are found where they are. */
  lemma {:induction false} FindKeyAt(es: seq<(Value, Value)>, i: nat)
    requires DistinctKeys(es) && i < |es|
    ensures FindKey(es, es[i].0) == Some(i)
  {
    var r := FindKey(es, es[i].0);
    assert KeysOf(es)[i] == es[i].0 && KeysOf(es)[r.value] == es[r.value].0;
  }

  /** Every Map has distinct keys and every Set distinct members. */
  predicate Collections(st: Store) {
    forall a :: a in st.objs ==>
      && (st.objs[a].kind.JsMap? ==> DistinctKeys(st.objs[a].kind.entries))
      && (st.objs[a].kind.JsSet? ==> Distinct(st.objs[a].kind.members))
  }

  /** Deep equality as documented: like `IsEqual`, but RegExps compare source
      and flags, Maps compare size and the value under every key, Sets compare
      size and membership, and a key of the first object must be an own
      enumerable key of the second. */
  function IsEqualFixed(st: Store, rank: map<Addr, nat>, a: Value, b: Value): (r: bool)
    requires Acyclic(st, rank)
    ensures StrictEq(a, b) ==> r
    ensures !a.Ref? || !b.Ref? ==> (r <==> StrictEq(a, b))
    decreases RankOf(st, rank, a)
  {
    if StrictEq(a, b) then true
    else if IsNullish(a) || IsNullish(b) then false
    else if TypeOf(st, a) != TypeOf(st, b) then false
    else if BothDates(st, a, b) then
      StrictEq(Num(ObjAt(st, a.addr).kind.time), Num(ObjAt(st, b.addr).kind.time))
    else if BothRegExps(st, a, b) then
      ObjAt(st, a.addr).kind.source == ObjAt(st, b.addr).kind.source
      && ObjAt(st, a.addr).kind.flags == ObjAt(st, b.addr).kind.flags
    else if BothMaps(st, a, b) then
      var ea := ObjAt(st, a.addr).kind.entries;
      var eb := ObjAt(st, b.addr).kind.entries;
      && |ea| == |eb|
      && forall j :: 0 <= j < |ea| ==>
        (EntryRank(st, rank, a.addr, j);
         Get(eb, ea[j].0).Some? && IsEqualFixed(st, rank, ea[j].1, Get(eb, ea[j].0).value))
    else if BothSets(st, a, b) then
      var ma := ObjAt(st, a.addr).kind.members;
      var mb := ObjAt(st, b.addr).kind.members;
      |ma| == |mb| && forall v :: v in ma ==> v in mb
    else if BothArrays(st, a, b) then
      var ea := ObjAt(st, a.addr).kind.elems;
      var eb := ObjAt(st, b.addr).kind.elems;
      && |ea| == |eb|
      && forall j :: 0 <= j < |ea| ==>
        (ElemRank(st, rank, a.addr, j); IsEqualFixed(st, rank, ea[j], eb[j]))
    else if TypeOf(st, a) == TObject then
      var ka := OwnKeys(ObjAt(st, a.addr));
      var kb := OwnKeys(ObjAt(st, b.addr));
      && |ka| == |kb|
      && forall k :: k in ka ==>
        (PropRank(st, rank, a.addr, k);
         k in kb && IsEqualFixed(st, rank, GetProp(st, a, k), GetProp(st, b, k)))
    else false
  }

  /** The corrected comparison tells apart the Maps, Sets and RegExps the
      library's tests expect to differ, and equates those they expect equal. */
  lemma {:induction false} FixedSeparatesMaps()
    ensures Acyclic(TwoMaps(), FlatRank)
    ensures !IsEqualFixed(TwoMaps(), FlatRank, Ref(0), Ref(1))
  {
    var st := TwoMaps();
    TwoMapsFlat();
    var ea := st.objs[0].kind.entries;
    var eb := st.objs[1].kind.entries;
    assert FindKey(eb, Str("b")) == Some(1);
    assert Get(eb, ea[1].0) == Some(Num(Fin(3.0)));
    assert !IsEqualFixed(st, FlatRank, ea[1].1, Num(Fin(3.0)));
    MapEntryDiffers(st, FlatRank, Ref(0), Ref(1), 1);
  }

  /** The corrected comparison tells two Maps apart as soon as one entry of
      the first has no equal counterpart under its key in the second. */
  lemma {:induction false} MapEntryDiffers(st: Store, rank: map<Addr, nat>, a: Value, b: Value, j: nat)
    requires Acyclic(st, rank) && BothMaps(st, a, b) && a != b
    requires j < |ObjAt(st, a.addr).kind.entries|
    requires var ea, eb := ObjAt(st, a.addr).kind.entries, ObjAt(st, b.addr).kind.entries;
      Get(eb, ea[j].0).None? || !IsEqualFixed(st, rank, ea[j].1, Get(eb, ea[j].0).value)
    ensures !IsEqualFixed(st, rank, a, b)
  {
  }

  // ---------------------------------------------------------------- symmetry corrected

  /** Two duplicate-free Maps of one size, every key of the first a key of
      the second, have the same keys. */
  lemma {:induction false} MapKeysCover(ea: seq<(Value, Value)>, eb: seq<(Value, Value)>)
    requires DistinctKeys(ea) && DistinctKeys(eb) && |ea| == |eb|
    requires forall j :: 0 <= j < |ea| ==> Get(eb, ea[j].0).Some?
    ensures forall j :: 0 <= j < |eb| ==> Get(ea, eb[j].0).Some?
  {
    forall k | k in KeysOf(ea)
      ensures k in KeysOf(eb)
    {
      var j :| 0 <= j < |ea| && KeysOf(ea)[j] == k;
      GetSome(eb, ea[j].0);
    }
    SameSizeCovers(KeysOf(ea), KeysOf(eb));
    forall j | 0 <= j < |eb|
      ensures Get(ea, eb[j].0).Some?
    {
      assert KeysOf(eb)[j] == eb[j].0;
      GetSome(ea, eb[j].0);
    }
  }

  lemma {:induction false} FixedSymMaps(st: Store, rank: map<Addr, nat>, a: Value, b: Value)
    requires Acyclic(st, rank) && Wf(st) && Collections(st)
    requires BothMaps(st, a, b) && a != b && IsEqualFixed(st, rank, a, b)
    ensures IsEqualFixed(st, rank, b, a)
    decreases RankOf(st, rank, a) + RankOf(st, rank, b), 0
  {
    assert a.addr in st.objs && b.addr in st.objs;
    var ea := st.objs[a.addr].kind.entries;
    var eb := st.objs[b.addr].kind.entries;
    assert DistinctKeys(ea) && DistinctKeys(eb);
    MapKeysCover(ea, eb);
    forall j | 0 <= j < |eb|
      ensures Get(ea, eb[j].0).Some? && IsEqualFixed(st, rank, eb[j].1, Get(ea, eb[j].0).value)
    {
      var q := FindKey(ea, eb[j].0).value;
      FindKeyAt(eb, j);
      assert Get(eb, ea[q].0) == Some(eb[j].1);
      EntryRank(st, rank, a.addr, q);
      EntryRank(st, rank, b.addr, j);
      FixedSymStep(st, rank, ea[q].1, eb[j].1);
    }
  }

  lemma {:induction false} FixedSymArrays(st: Store, rank: map<Addr, nat>, a: Value, b: Value)
    requires Acyclic(st, rank) && Wf(st) && Collections(st)
    requires BothArrays(st, a, b) && a != b && IsEqualFixed(st, rank, a, b)
    ensures IsEqualFixed(st, rank, b, a)
    decreases RankOf(st, rank, a) + RankOf(st, rank, b), 0
  {
    var ea := ObjAt(st, a.addr).kind.elems;
    var eb := ObjAt(st, b.addr).kind.elems;
    assert a.addr in st.objs && b.addr in st.objs;
    forall j | 0 <= j < |eb|
      ensures IsEqualFixed(st, rank, eb[j], ea[j])
    {
      ElemRank(st, rank, a.addr, j);
      ElemRank(st, rank, b.addr, j);
      FixedSymStep(st, rank, ea[j], eb[j]);
    }
  }

  lemma {:induction false} FixedSymObjects(st: Store, rank: map<Addr, nat>, a: Value, b: Value)
    requires Acyclic(st, rank) && Wf(st) && Collections(st)
    requires a.Ref? && b.Ref? && a != b && TypeOf(st, a) == TObject && TypeOf(st, b) == TObject
    requires !BothDates(st, a, b) && !BothRegExps(st, a, b) && !BothMaps(st, a, b)
    requires !BothSets(st, a, b) && !BothArrays(st, a, b) && IsEqualFixed(st, rank, a, b)
    ensures IsEqualFixed(st, rank, b, a)
    decreases RankOf(st, rank, a) + RankOf(st, rank, b), 0
  {
    var ka := OwnKeys(ObjAt(st, a.addr));
    var kb := OwnKeys(ObjAt(st, b.addr));
    if |kb| > 0 {
      assert a.addr in st.objs && b.addr in st.objs;
      KeysCover(st, a.addr, b.addr);
      forall k | k in kb
        ensures k in ka && IsEqualFixed(st, rank, GetProp(st, b, k), GetProp(st, a, k))
      {
        PropRank(st, rank, a.addr, k);
        PropRank(st, rank, b.addr, k);
        FixedSymStep(st, rank, GetProp(st, a, k), GetProp(st, b, k));
      }
    }
  }

  lemma {:induction false} FixedSymStep(st: Store, rank: map<Addr, nat>, a: Value, b: Value)
    requires Acyclic(st, rank) && Wf(st) && Collections(st)
    requires IsEqualFixed(st, rank, a, b)
    ensures IsEqualFixed(st, rank, b, a)
    decreases RankOf(st, rank, a) + RankOf(st, rank, b), 1
  {
    if StrictEq(a, b) || BothDates(st, a, b) || BothRegExps(st, a, b) {
    } else if BothMaps(st, a, b) {
      FixedSymMaps(st, rank, a, b);
    } else if BothSets(st, a, b) {
      SameSizeCovers(ObjAt(st, a.addr).kind.members, ObjAt(st, b.addr).kind.members);
    } else if BothArrays(st, a, b) {
      FixedSymArrays(st, rank, a, b);
    } else {
      FixedSymObjects(st, rank, a, b);
    }
  }

  /** The corrected comparison is symmetric on every heap of real Maps and
      Sets. */
  lemma {:induction false} IsEqualFixedSymmetric(st: Store, rank: map<Addr, nat>, a: Value, b: Value)
    requires Acyclic(st, rank) && Wf(st) && Collections(st)
    ensures IsEqualFixed(st, rank, a, b) == IsEqualFixed(st, rank, b, a)
  {
    if IsEqualFixed(st, rank, a, b) {
      FixedSymStep(st, rank, a, b);
    }
    if IsEqualFixed(st, rank, b, a) {
      FixedSymStep(st, rank, b, a);
    }
  }
}

=== FILE: js_value.dfy ===
/**
 * The JavaScript values the library manipulates. Primitives are datatype
 * cases; every object is a reference into a `Store`, so that identity
 * (`===` on objects), sharing, cycles and in-place mutation can be stated.
 *
 * An object is its kind (the internal slots that `instanceof`,
 * `Array.isArray` and `typeof` look at) plus its own enumerable
 * string-keyed properties in enumeration order. Array elements are kept in
 * the kind, not among the properties; `Object.keys` of an array lists the
 * index keys first, as the language does.
 */
module JsValue {
  import opened Wrappers
  import Decimal

  type Addr = nat

  /** A JavaScript number: NaN or a finite value. */
  datatype Number = NaN | Fin(x: real)

  datatype Value =
    | Undefined
    | Null
    | Bool(b: bool)
    | Num(n: Number)
    | Str(s: string)
    | Ref(addr: Addr)

  /** Own enumerable properties: keys in enumeration order, and their values. */
  datatype Fields = Fields(order: seq<string>, vals: map<string, Value>)

  datatype Kind =
    | Plain(nullProto: bool)          // `{}` (Object.prototype) or Object.create(null)
    | Array(elems: seq<Value>)        // holes read as undefined
    | Date(time: Number)              // NaN time is an invalid date
    | RegExp(source: string, flags: string)
    | JsMap(entries: seq<(Value, Value)>)
    | JsSet(members: seq<Value>)
    | Instance                        // any other object whose typeof is 'object'
    | Function                        // typeof 'function'

  datatype Obj = Obj(kind: Kind, props: Fields)

  /** The heap: allocated objects, and the next address to hand out. */
  datatype Store = Store(objs: map<Addr, Obj>, next: Addr)

  /** The result of the `typeof` operator. */
  datatype JsType = TUndefined | TObject | TBoolean | TNumber | TString | TFunction

  // ---------------------------------------------------------------- fields

  const NoFields: Fields := Fields([], map[])

  predicate Distinct<T(==)>(s: seq<T>) {
    forall i, j :: 0 <= i < j < |s| ==> s[i] != s[j]
  }

  /** The order lists each key of the map exactly once. */
  predicate ValidFields(f: Fields) {
    && Distinct(f.order)
    && (forall k :: k in f.vals ==> k in f.order)
    && (forall i :: 0 <= i < |f.order| ==> f.order[i] in f.vals)
  }

  function FieldGet(f: Fields, k: string): Value {
    if k in f.vals then f.vals[k] else Undefined
  }

  /** Assignment `o[k] = v` on an ordinary object: a new key goes last. */
  function FieldPut(f: Fields, k: string, v: Value): (r: Fields)
    ensures r.vals == f.vals[k := v]
    ensures k in f.vals ==> r.order == f.order
    ensures k !in f.vals ==> r.order == f.order + [k]
    ensures ValidFields(f) ==> ValidFields(r)
  {
    if k in f.vals then Fields(f.order, f.vals[k := v]) else Fields(f.order + [k], f.vals[k := v])
  }

  // ---------------------------------------------------------------- objects

  /** The object at `a`; a dangling address reads as an empty object. */
  function ObjAt(st: Store, a: Addr): Obj {
    if a in st.objs then st.objs[a] else Obj(Instance, NoFields)
  }

  function TypeOf(st: Store, v: Value): JsType {
    match v
    case Undefined => TUndefined
    case Null => TObject
    case Bool(_) => TBoolean
    case Num(_) => TNumber
    case Str(_) => TString
    case Ref(a) => if ObjAt(st, a).kind.Function? then TFunction else TObject
  }

  /** `a === b`: references by identity, NaN unequal to itself. */
  predicate StrictEq(a: Value, b: Value) {
    if a.Num? && b.Num? then a.n.Fin? && b.n.Fin? && a.n.x == b.n.x else a == b
  }

  /** `v == null`: null or undefined. */
  predicate IsNullish(v: Value) {
    v.Undefined? || v.Null?
  }

  /** `Boolean(v)`: false, null, undefined, 0, NaN and '' are falsy. */
  predicate Truthy(v: Value) {
    match v
    case Undefined => false
    case Null => false
    case Bool(b) => b
    case Num(n) => n.Fin? && n.x != 0.0
    case Str(s) => |s| > 0
    case Ref(_) => true
  }

  /** `a < b` on numbers: false whenever either side is NaN. */
  predicate NumLess(a: Number, b: Number) {
    a.Fin? && b.Fin? && a.x < b.x
  }

  /** `Math.max(a, b)`: NaN when either argument is NaN, else the larger. */
  function MathMax(a: Number, b: Number): (r: Number)
    ensures r.NaN? <==> a.NaN? || b.NaN?
    ensures r.Fin? ==> a.x <= r.x && b.x <= r.x && (r == a || r == b)
  {
    if a.NaN? || b.NaN? then NaN else if a.x < b.x then b else a
  }

  /** `Math.min(a, b)`: NaN when either argument is NaN, else the smaller. */
  function MathMin(a: Number, b: Number): (r: Number)
    ensures r.NaN? <==> a.NaN? || b.NaN?
    ensures r.Fin? ==> r.x <= a.x && r.x <= b.x && (r == a || r == b)
  {
    if a.NaN? || b.NaN? then NaN else if b.x < a.x then b else a
  }

  function NumOf(n: nat): Value {
    Num(Fin(n as real))
  }

  /** "0", "1", ..., the keys of the first `n` array elements. */
  function IndexKeys(n: nat): (ks: seq<string>)
    ensures |ks| == n
    ensures forall i :: 0 <= i < n ==> ks[i] == Decimal.IndexKey(i)
  {
    seq(n, i requires 0 <= i < n => Decimal.IndexKey(i))
  }

  /** `Object.keys(o)`: index keys of an array, then the other own keys. */
  function OwnKeys(o: Obj): seq<string> {
    (if o.kind.Array? then IndexKeys(|o.kind.elems|) else []) + o.props.order
  }

  /** `k` is the key of an index below `n`. */
  predicate IndexBelow(k: string, n: nat) {
    Decimal.ParseIndex(k).Some? && Decimal.ParseIndex(k).value < n
  }

  /** `Object.prototype.hasOwnProperty.call(o, k)`, and the `in` operator on own keys. */
  predicate HasOwn(o: Obj, k: string) {
    || k in o.props.vals
    || (o.kind.Array? && (k == "length" || IndexBelow(k, |o.kind.elems|)))
  }

  /** The value of own property `k` (undefined when there is none). */
  function OwnValue(o: Obj, k: string): Value {
    if o.kind.Array? && k == "length" then NumOf(|o.kind.elems|)
    else if o.kind.Array? && IndexBelow(k, |o.kind.elems|) then o.kind.elems[Decimal.ParseIndex(k).value]
    else FieldGet(o.props, k)
  }

  /** The built-in accessors the model keeps: Map/Set `size`, RegExp `source`/`flags`. */
  function Inherited(o: Obj, k: string): Value {
    match o.kind
    case JsMap(es) => if k == "size" then NumOf(|es|) else Undefined
    case JsSet(ms) => if k == "size" then NumOf(|ms|) else Undefined
    case RegExp(src, fl) => if k == "source" then Str(src) else if k == "flags" then Str(fl) else Undefined
    case _ => Undefined
  }

  /** `v[k]` for a value that is not null or undefined. */
  function GetProp(st: Store, v: Value, k: string): Value {
    match v
    case Str(s) =>
      if k == "length" then NumOf(|s|)
      else if IndexBelow(k, |s|) then Str([s[Decimal.ParseIndex(k).value]])
      else Undefined
    case Ref(a) =>
      var o := ObjAt(st, a);
      if HasOwn(o, k) then OwnValue(o, k) else Inherited(o, k)
    case _ => Undefined
  }

  /** `{ ...v }`: the own enumerable properties of an object, in order. */
  function SpreadFields(st: Store, v: Value): Fields {
    if v.Ref? then
      var o := ObjAt(st, v.addr);
      Fields(OwnKeys(o), map k | k in OwnKeys(o) :: OwnValue(o, k))
    else NoFields
  }

  // ---------------------------------------------------------------- writes

  /** An accessor without a setter: assigning to it throws in strict mode. */
  predicate ReadOnlyAccessor(o: Obj, k: string) {
    && k !in o.props.vals
    && match o.kind
       case JsMap(_) => k == "size"
       case JsSet(_) => k == "size"
       case RegExp(_, _) => k == "source" || k == "flags"
       case _ => false
  }

  /** The array length a number denotes when assigned to `length`. */
  predicate ValidLength(v: Value) {
    v.Num? && v.n.Fin? && v.n.x == v.n.x.Floor as real && 0 <= v.n.x.Floor <= Decimal.MaxArrayLength
  }

  /** `elems` resized to `n`: truncated, or padded with holes. */
  function Resize(elems: seq<Value>, n: nat): (r: seq<Value>)
    ensures |r| == n
    ensures forall i :: 0 <= i < n && i < |elems| ==> r[i] == elems[i]
    ensures forall i :: |elems| <= i < n ==> r[i] == Undefined
  {
    if n <= |elems| then elems[..n] else elems + seq(n - |elems|, _ => Undefined)
  }

  /** `o[k] = v` on one object; the exceptions strict-mode code raises. */
  function PutOwn(o: Obj, k: string, v: Value): Result<Obj> {
    if o.kind.Array? && k !in o.props.vals && Decimal.ParseIndex(k).Some? then
      var i := Decimal.ParseIndex(k).value;
      var es := o.kind.elems;
      var grown := if i < |es| then es else Resize(es, i + 1);
      Ok(Obj(Array(grown[i := v]), o.props))
    else if o.kind.Array? && k == "length" then
      if ValidLength(v) then Ok(Obj(Array(Resize(o.kind.elems, v.n.x.Floor)), o.props))
      else Err(RangeError("Invalid array length"))
    else if ReadOnlyAccessor(o, k) then
      Err(TypeError("Cannot set property " + k + " which has only a getter"))
    else Ok(Assign(o, k, v))
  }

  /** `o[k] = v` on an ordinary object. Without an own `__proto__` property the
      name reaches the inherited `__proto__` setter: an object or null becomes
      the prototype (so `o` is no longer plain) and no own key is created. */
  function Assign(o: Obj, k: string, v: Value): (r: Obj)
    ensures k != "__proto__" ==> r == Obj(o.kind, FieldPut(o.props, k, v))
    ensures r.props == o.props || r.props == FieldPut(o.props, k, v)
  {
    if k == "__proto__" && k !in o.props.vals && o.kind != Plain(true) then
      if v.Ref? && o.kind.Plain? then Obj(Instance, o.props)
      else if v.Null? && o.kind.Plain? then Obj(Plain(true), o.props)
      else o
    else Obj(o.kind, FieldPut(o.props, k, v))
  }

  /** `current[k] = v`, where `current` is the object at `a`. */
  function PutProp(st: Store, a: Addr, k: string, v: Value): (r: Result<Store>)
    ensures r.Ok? ==> r.value.next == st.next
    ensures r.Ok? ==> r.value.objs.Keys == st.objs.Keys + {a}
    ensures r.Ok? ==> forall b :: b in st.objs && b != a ==> r.value.objs[b] == st.objs[b]
  {
    match PutOwn(ObjAt(st, a), k, v)
    case Ok(o) => Ok(Store(st.objs[a := o], st.next))
    case Err(e) => Err(e)
  }

  /** A fresh object at the next free address. */
  function Alloc(st: Store, o: Obj): (r: (Store, Addr))
    ensures r.1 == st.next && r.0.next == st.next + 1
    ensures r.0.objs == st.objs[st.next := o]
  {
    (Store(st.objs[st.next := o], st.next + 1), st.next)
  }

  function NewPlain(f: Fields): Obj {
    Obj(Plain(false), f)
  }

  // ---------------------------------------------------------------- well-formedness

  predicate ValidObj(o: Obj) {
    && ValidFields(o.props)
    && (o.kind.Array? ==>
          && |o.kind.elems| <= Decimal.MaxArrayLength
          && forall k :: k in o.props.vals ==> k != "length" && Decimal.ParseIndex(k).None?)
  }

  /** Every object is valid and sits below the allocation mark. */
  predicate Wf(st: Store) {
    forall a :: a in st.objs ==> a < st.next && ValidObj(st.objs[a])
  }

  /** `v` is a primitive or refers to an allocated object. */
  predicate Live(st: Store, v: Value) {
    v.Ref? ==> v.addr in st.objs
  }

  /** `st2` only adds objects to `st`: nothing already allocated changes. */
  predicate Extends(st: Store, st2: Store) {
    && st.next <= st2.next
    && st.objs.Keys <= st2.objs.Keys
    && (forall a :: a in st.objs ==> st2.objs[a] == st.objs[a])
  }

  /** Addresses allocated in `st2` that were not in `st`. */
  predicate Fresh(st: Store, st2: Store, a: Addr) {
    a in st2.objs && a !in st.objs && st.next <= a
  }

  lemma {:induction false} ExtendsTrans(s1: Store, s2: Store, s3: Store)
    requires Extends(s1, s2) && Extends(s2, s3)
    ensures Extends(s1, s3)
  {
  }

  /** `st2` differs from `st` only in the object at `res` and in new objects. */
  predicate Grows(st: Store, st2: Store, res: Addr) {
    && st.next <= st2.next
    && st.objs.Keys <= st2.objs.Keys
    && forall a :: a in st.objs && a != res ==> st2.objs[a] == st.objs[a]
  }

  lemma {:induction false} GrowsTrans(s1: Store, s2: Store, s3: Store, res: Addr)
    requires Grows(s1, s2, res) && Grows(s2, s3, res)
    ensures Grows(s1, s3, res)
  {
  }

  lemma {:induction false} AllocFacts(st: Store, o: Obj)
    requires Wf(st) && ValidObj(o)
    ensures var (st2, a) := Alloc(st, o);
      && Wf(st2) && Extends(st, st2) && a !in st.objs && Fresh(st, st2, a) && st2.objs[a] == o
  {
  }

  /** Dropping the last element keeps a sequence distinct, and the dropped
      element is not among the rest. */
  lemma {:induction false} DistinctInit<T>(s: seq<T>)
    requires Distinct(s) && |s| > 0
    ensures Distinct(s[..|s| - 1]) && s[|s| - 1] !in s[..|s| - 1]
  {
    forall i | 0 <= i < |s| - 1
      ensures s[i] != s[|s| - 1]
    {
      assert s[..|s| - 1][i] == s[i];
    }
  }

  /** The keys `Object.keys` reports for a valid object are distinct. */
  lemma {:induction false} OwnKeysDistinct(o: Obj)
    requires ValidObj(o)
    ensures Distinct(OwnKeys(o))
  {
    if o.kind.Array? {
      var n := |o.kind.elems|;
      var ks := OwnKeys(o);
      forall i, j | 0 <= i < j < |ks| ensures ks[i] != ks[j] {
        if j < n {
          Decimal.IndexKeyInjective(i, j);
        } else if i < n {
          Decimal.ParseIndexKey(i);
          assert ks[j] in o.props.vals;
        }
      }
    }
  }

  /** Each key of `Object.keys(o)` is an own property of `o`, and conversely
      every own enumerable property is listed. */
  lemma {:induction false} OwnKeysAreOwn(o: Obj, k: string)
    requires ValidObj(o)
    ensures k in OwnKeys(o) <==> (HasOwn(o, k) && k != "length") || (k == "length" && k in o.props.vals)
  {
    if o.kind.Array? {
      var n := |o.kind.elems|;
      if IndexBelow(k, |o.kind.elems|) {
        var i := Decimal.ParseIndex(k).value;
        Decimal.ParsedIsIndexKey(k);
        assert OwnKeys(o)[i] == k;
      }
      if k in OwnKeys(o)[..n] {
        var i :| 0 <= i < n && OwnKeys(o)[i] == k;
        Decimal.ParseIndexKey(i);
      }
      assert OwnKeys(o) == OwnKeys(o)[..n] + o.props.order;
    }
  }

  /** Spreading a valid object gives valid fields whose values are its own values. */
  lemma {:induction false} SpreadFieldsFacts(st: Store, v: Value)
    requires Wf(st)
    ensures ValidFields(SpreadFields(st, v))
    ensures v.Ref? ==> SpreadFields(st, v).order == OwnKeys(ObjAt(st, v.addr))
  {
    if v.Ref? {
      var o := ObjAt(st, v.addr);
      OwnKeysDistinct(o);
    }
  }

  // ---------------------------------------------------------------- reachability

  /** The addresses among a sequence of values. */
  function RefsIn(vs: seq<Value>): set<Addr> {
    set i | 0 <= i < |vs| && vs[i].Ref? :: vs[i].addr
  }

  /** The keys of a Map's entries, in insertion order. */
  function KeysOf(es: seq<(Value, Value)>): (ks: seq<Value>)
    ensures |ks| == |es|
  {
    seq(|es|, j requires 0 <= j < |es| => es[j].0)
  }

  /** The values of a Map's entries, in insertion order. */
  function ValsOf(es: seq<(Value, Value)>): (vs: seq<Value>)
    ensures |vs| == |es|
  {
    seq(|es|, j requires 0 <= j < |es| => es[j].1)
  }

  /** No two entries share a key, as in every real Map. */
  predicate DistinctKeys(es: seq<(Value, Value)>) {
    Distinct(KeysOf(es))
  }

  /** The addresses an object refers to directly. */
  function ChildRefs(o: Obj): set<Addr> {
    var fromKind :=
      match o.kind
      case Array(es) => RefsIn(es)
      case JsMap(es) => RefsIn(KeysOf(es)) + RefsIn(ValsOf(es))
      case JsSet(ms) => RefsIn(ms)
      case _ => {};
    fromKind + set k | k in o.props.vals && o.props.vals[k].Ref? :: o.props.vals[k].addr
  }

  /** `rank` decreases along every reference between allocated objects, so the
      object graph has no cycle. */
  predicate Acyclic(st: Store, rank: map<Addr, nat>) {
    forall a :: a in st.objs ==>
      && a in rank
      && forall c :: c in ChildRefs(st.objs[a]) && c in st.objs ==> c in rank && rank[c] < rank[a]
  }

  /** The height bound a value carries: one above its object's rank. */
  function RankOf(st: Store, rank: map<Addr, nat>, v: Value): nat {
    if v.Ref? && v.addr in st.objs && v.addr in rank then rank[v.addr] + 1 else 0
  }

  /** A read depends only on the object read from. */
  lemma {:induction false} SameObjSameProp(st: Store, st2: Store, a: Addr, k: string)
    requires ObjAt(st, a) == ObjAt(st2, a)
    ensures GetProp(st, Ref(a), k) == GetProp(st2, Ref(a), k)
  {
  }

  /** Only an own property of an allocated object reads as a reference. */
  lemma {:induction false} GetPropRef(st: Store, v: Value, k: string)
    requires GetProp(st, v, k).Ref?
    ensures v.Ref? && HasOwn(ObjAt(st, v.addr), k) && GetProp(st, v, k) == OwnValue(ObjAt(st, v.addr), k)
    ensures v.addr !in st.objs ==> ObjAt(st, v.addr) == Obj(Instance, NoFields)
  {
  }

  /** Own values of an object rank below the object. */
  lemma {:induction false} OwnValueRank(st: Store, rank: map<Addr, nat>, a: Addr, k: string)
    requires Acyclic(st, rank) && a in st.objs
    ensures RankOf(st, rank, OwnValue(st.objs[a], k)) < RankOf(st, rank, Ref(a))
  {
    var o := st.objs[a];
    var w := OwnValue(o, k);
    if w.Ref? && w.addr in st.objs {
      if o.kind.Array? && IndexBelow(k, |o.kind.elems|) {
        var i := Decimal.ParseIndex(k).value;
        assert w == o.kind.elems[i];
        assert w.addr in RefsIn(o.kind.elems);
      } else {
        assert k in o.props.vals;
      }
      assert w.addr in ChildRefs(o);
    }
  }

  lemma {:induction false} ElemRank(st: Store, rank: map<Addr, nat>, a: Addr, i: nat)
    requires Acyclic(st, rank) && a in st.objs && st.objs[a].kind.Array? && i < |st.objs[a].kind.elems|
    ensures RankOf(st, rank, st.objs[a].kind.elems[i]) < RankOf(st, rank, Ref(a))
  {
    var w := st.objs[a].kind.elems[i];
    if w.Ref? && w.addr in st.objs {
      assert w.addr in RefsIn(st.objs[a].kind.elems);
    }
  }

  /** Every reference held by an allocated object is itself allocated. */
  predicate Closed(st: Store) {
    forall a :: a in st.objs ==> ChildRefs(st.objs[a]) <= st.objs.Keys
  }

  /** Own values of an object in a closed store are live. */
  lemma {:induction false} OwnValueLive(st: Store, a: Addr, k: string)
    requires Closed(st) && a in st.objs
    ensures Live(st, OwnValue(st.objs[a], k))
  {
    var o := st.objs[a];
    var w := OwnValue(o, k);
    if w.Ref? {
      if o.kind.Array? && IndexBelow(k, |o.kind.elems|) {
        assert w.addr in RefsIn(o.kind.elems);
      } else {
        assert k in o.props.vals;
      }
      assert w.addr in ChildRefs(o);
    }
  }

  // ---------------------------------------------------------------- write lemmas

  /** Assignment keeps a non-array object valid. */
  lemma {:induction false} AssignValid(o: Obj, k: string, v: Value)
    requires ValidObj(o) && !o.kind.Array?
    ensures ValidObj(Assign(o, k, v))
  {
  }

  /** A successful write keeps an object valid. */
  lemma {:induction false} PutOwnValid(o: Obj, k: string, v: Value)
    requires ValidObj(o) && PutOwn(o, k, v).Ok?
    ensures ValidObj(PutOwn(o, k, v).value)
  {
  }

  lemma {:induction false} PutPropWf(st: Store, a: Addr, k: string, v: Value)
    requires Wf(st) && a in st.objs && PutProp(st, a, k, v).Ok?
    ensures Wf(PutProp(st, a, k, v).value)
  {
    PutOwnValid(ObjAt(st, a), k, v);
  }

  /** Reading a property right after a successful write gives the value written
      (the `__proto__` setter aside). */
  lemma {:induction false} PutThenGet(st: Store, a: Addr, k: string, v: Value)
    requires ValidObj(ObjAt(st, a)) && k != "__proto__" && PutProp(st, a, k, v).Ok?
    ensures GetProp(PutProp(st, a, k, v).value, Ref(a), k) == v
  {
    var o := ObjAt(st, a);
    assert Decimal.ParseIndex("length").None? by {
      assert !Decimal.IsDigit('l');
    }
    if o.kind.Array? && k !in o.props.vals && Decimal.ParseIndex(k).Some? {
      assert k != "length";
    }
  }

  /** A write to `k` leaves every other own property in place; on an array,
      `length` is the exception both ways (writing it resizes, and writing an
      index past the end changes it). */
  lemma {:induction false} PutOwnOther(o: Obj, k: string, v: Value, k2: string)
    requires ValidObj(o) && PutOwn(o, k, v).Ok?
    requires k2 != k && (o.kind.Array? ==> k != "length" && k2 != "length") && HasOwn(o, k2)
    ensures HasOwn(PutOwn(o, k, v).value, k2)
    ensures OwnValue(PutOwn(o, k, v).value, k2) == OwnValue(o, k2)
  {
    if o.kind.Array? && k !in o.props.vals && Decimal.ParseIndex(k).Some? {
      if IndexBelow(k2, |o.kind.elems|) {
        assert Decimal.ParseIndex(k2).value != Decimal.ParseIndex(k).value by {
          Decimal.ParsedIsIndexKey(k);
          Decimal.ParsedIsIndexKey(k2);
        }
      }
    }
  }
}

=== FILE: kebab_case.dfy ===
/** `kebabCase(str)`: the words of `splitWords(str)` joined by `-`. */
module StringKebabCase {
  import opened Chars
  import Strings
  import SplitWords

  /** The function as written. The result holds no capital, `_` or white
      space, and has no leading, trailing or doubled `-`. */
  function KebabCase(str: string): (r: string)
    ensures AllChars(r, KebabChar)
    ensures Strings.Delimited(r, '-')
  {
    var ws := SplitWords.Split(str);
    SplitWords.JoinChars(ws, "-", KebabChar);
    WordsAvoid(ws, '-');
    Strings.JoinDelimited(ws, '-');
    Strings.Join(ws, "-")
  }

  /** A character a kebab-cased string may hold. */
  predicate KebabChar(c: char) {
    !IsUpper(c) && c != '_' && !IsSpace(c)
  }

  /** No word holds the separator `c`. */
  lemma {:induction false} WordsAvoid(ws: seq<string>, c: char)
    requires SplitWords.AllClean(ws) && SplitWords.IsSeparator(c)
    ensures forall i :: 0 <= i < |ws| ==> |ws[i]| > 0 && c !in ws[i]
  {
    forall i | 0 <= i < |ws| ensures |ws[i]| > 0 && c !in ws[i] {
      assert SplitWords.CleanWord(ws[i]);
    }
  }

  /** Splitting the result gives back the words: no word is lost, merged or
      changed. */
  lemma {:induction false} KebabCaseKeepsWords(str: string)
    ensures SplitWords.Split(KebabCase(str)) == SplitWords.Split(str)
  {
    SplitWords.SplitRoundTrip(str);
  }

  /** Cutting the result at each `-` gives back the words, when there are
      any. */
  lemma {:induction false} KebabCaseCutsBack(str: string)
    requires |SplitWords.Split(str)| > 0
    ensures Strings.Split(KebabCase(str), '-') == SplitWords.Split(str)
  {
    var ws := SplitWords.Split(str);
    WordsAvoid(ws, '-');
    Strings.SplitJoin(ws, '-');
  }

  /** `kebabCase` is idempotent. */
  lemma {:induction false} KebabCaseIdempotent(str: string)
    ensures KebabCase(KebabCase(str)) == KebabCase(str)
  {
    KebabCaseKeepsWords(str);
  }

  /** Empty and separator-only input, such as `'---'`, gives `''`. */
  lemma {:induction false} KebabCaseSeparatorsOnly(str: string)
    requires forall i :: 0 <= i < |str| ==> SplitWords.IsSeparator(str[i])
    ensures KebabCase(str) == ""
  {
    SplitWords.SplitSeparatorsOnly(str);
  }
}

=== FILE: key_by.dfy ===
/** `keyBy(array, iteratee)`: each item is assigned under its key, so a later
    item with the same key overwrites an earlier one. The iteratee is a
    function from items to their (already stringified) key. */
module CollectionKeyBy {
  import Seqs
  import CollectionGroupBy

  /** The function as written, item by item: `result[key] = item`. Every
      value is an item of the input, stored under its own key. */
  function KeyBy<T>(a: seq<T>, f: T -> string): (r: map<string, T>)
    ensures forall k :: k in r ==> r[k] in a && f(r[k]) == k
    decreases |a|
  {
    if |a| == 0 then map[] else KeyBy(a[..|a| - 1], f)[f(a[|a| - 1]):= a[|a| - 1]]
  }

  /** Item `i` has key `k`, and no later item has. */
  predicate LastWithKey<T>(a: seq<T>, f: T -> string, k: string, i: int) {
    0 <= i < |a| && f(a[i]) == k && forall j :: i < j < |a| ==> f(a[j]) != k
  }

  /** The keys are the keys of the items; each maps to the last item with
      that key. */
  lemma {:induction false} KeyByLast<T>(a: seq<T>, f: T -> string)
    ensures forall k :: k in KeyBy(a, f) <==> k in CollectionGroupBy.KeysOf(a, f)
    ensures forall k :: k in KeyBy(a, f) ==> exists i :: LastWithKey(a, f, k, i) && KeyBy(a, f)[k] == a[i]
    decreases |a|
  {
    if |a| > 0 {
      var n := |a| - 1;
      KeyByLast(a[..n], f);
      assert CollectionGroupBy.KeysOf(a, f) == CollectionGroupBy.KeysOf(a[..n], f) + [f(a[n])];
      forall k | k in KeyBy(a, f)
        ensures exists i :: LastWithKey(a, f, k, i) && KeyBy(a, f)[k] == a[i]
      {
        if k == f(a[n]) {
          assert LastWithKey(a, f, k, n) && KeyBy(a, f)[k] == a[n];
        } else {
          assert k in KeyBy(a[..n], f);
          var i :| LastWithKey(a[..n], f, k, i) && KeyBy(a[..n], f)[k] == a[..n][i];
          assert a[..n][i] == a[i];
          forall j | i < j < |a| ensures f(a[j]) != k {
            if j < n {
              assert a[..n][j] == a[j];
            }
          }
          assert LastWithKey(a, f, k, i);
        }
      }
    }
  }

  /** Every value is an item of the input. */
  lemma {:induction false} ValuesFromInput<T>(a: seq<T>, f: T -> string)
    ensures forall k :: k in KeyBy(a, f) ==> KeyBy(a, f)[k] in a
  {
    KeyByLast(a, f);
  }

  /** `keyBy` keeps, for each key, the last item of the `groupBy` bucket:
      both have the same keys, and `keyBy(a, f)[k]` is the last element of
      `groupBy(a, f)[k]`. */
  lemma {:induction false} KeyByIsLastOfGroup<T>(a: seq<T>, f: T -> string)
    ensures forall k :: k in KeyBy(a, f) <==> k in CollectionGroupBy.GroupBy(a, f).buckets
    ensures forall k :: k in KeyBy(a, f) ==> LastOfBucket(CollectionGroupBy.GroupBy(a, f).buckets, k, KeyBy(a, f)[k])
    decreases |a|
  {
    if |a| > 0 {
      var n := |a| - 1;
      KeyByIsLastOfGroup(a[..n], f);
      LastOfGroupStep(KeyBy(a[..n], f), CollectionGroupBy.GroupBy(a[..n], f), f(a[n]), a[n]);
    }
  }

  /** Writing an item under its key, and pushing it into that key's bucket,
      keep the map the last items of the buckets. */
  lemma {:induction false} LastOfGroupStep<T>(m: map<string, T>, g: CollectionGroupBy.Groups<T>, key: string, item: T)
    requires CollectionGroupBy.ValidGroups(g)
    requires forall k :: k in m <==> k in g.buckets
    requires forall k :: k in m ==> LastOfBucket(g.buckets, k, m[k])
    ensures var m', g' := m[key := item], CollectionGroupBy.AddItem(g, key, item);
      && (forall k :: k in m' <==> k in g'.buckets)
      && (forall k :: k in m' ==> LastOfBucket(g'.buckets, k, m'[k]))
  {
  }

  /** `buckets` has a non-empty bucket `k` whose last item is `x`. */
  ghost predicate LastOfBucket<T>(buckets: map<string, seq<T>>, k: string, x: T) {
    k in buckets && |buckets[k]| > 0 && buckets[k][|buckets[k]| - 1] == x
  }

  /** `keyBy([], f)` is `{}`. */
  lemma {:induction false} KeyByEmpty<T>(f: T -> string)
    ensures KeyBy([], f) == map[]
  {
  }
}

=== FILE: legacy_array.dfy ===
/**
 * The older `first` and `group` of `src/array.ts`.
 *
 * `group` reduces into an ordinary object literal, which inherits from
 * Object.prototype. Its test `!acc[groupId]` therefore finds the inherited
 * property when the id is a name like 'toString' or 'constructor', skips
 * creating the bucket, and the following `acc[groupId].push(item)` throws a
 * TypeError, since the inherited value has no `push`. `Group` is the
 * function as written; `GroupFixed` tests for an own bucket, as `groupBy`
 * does with its prototype-less result.
 */
module LegacyArray {
  import opened Wrappers
  import CollectionGroupBy
  import Seqs

  // ---------------------------------------------------------------- first

  /** `array.length ? array[0] : defaultValue`. */
  function First<T>(a: seq<T>, default: T): (r: T)
    ensures |a| > 0 ==> r == a[0]
    ensures |a| == 0 ==> r == default
  {
    if |a| > 0 then a[0] else default
  }

  /** The first of a concatenation is the first of the front part, or of the
      back part when the front is empty. */
  lemma {:induction false} FirstOfConcat<T>(a: seq<T>, b: seq<T>, default: T)
    ensures First(a + b, default) == First(a, First(b, default))
  {
    if |a| > 0 {
      assert (a + b)[0] == a[0];
    } else {
      assert a + b == b;
    }
  }

  // ---------------------------------------------------------------- group

  /** The properties every ordinary object inherits from Object.prototype;
      each of them is truthy. */
  const ObjectPrototypeNames: set<string> := {
    "constructor", "__defineGetter__", "__defineSetter__", "hasOwnProperty",
    "__lookupGetter__", "__lookupSetter__", "isPrototypeOf",
    "propertyIsEnumerable", "toString", "valueOf", "__proto__", "toLocaleString"
  }

  /** The reduce of `group` as written, item by item: a new id gets a bucket,
      an id naming an inherited property throws. */
  function Group<T>(a: seq<T>, getGroupId: T -> string): (r: Result<CollectionGroupBy.Groups<T>>)
    ensures r.Ok? ==> CollectionGroupBy.ValidGroups(r.value)
    decreases |a|
  {
    if |a| == 0 then Ok(CollectionGroupBy.Groups([], map[]))
    else
      var acc := Group(a[..|a| - 1], getGroupId);
      var item := a[|a| - 1];
      var groupId := getGroupId(item);
      if acc.Err? then acc
      else if groupId in ObjectPrototypeNames then
        Err(TypeError("acc[groupId].push is not a function"))
      else Ok(CollectionGroupBy.AddItem(acc.value, groupId, item))
  }

  /** Some item's id names an inherited property. */
  predicate HitsPrototype<T>(a: seq<T>, getGroupId: T -> string) {
    exists i :: 0 <= i < |a| && getGroupId(a[i]) in ObjectPrototypeNames
  }

  /** `group` throws exactly when some id names an inherited property, and
      otherwise gives what `groupBy` gives. */
  lemma {:induction false} GroupThrowsOnPrototypeNames<T>(a: seq<T>, getGroupId: T -> string)
    ensures Group(a, getGroupId).Err? <==> HitsPrototype(a, getGroupId)
    ensures Group(a, getGroupId).Ok? ==> Group(a, getGroupId).value == CollectionGroupBy.GroupBy(a, getGroupId)
    decreases |a|
  {
    if |a| > 0 {
      var n := |a| - 1;
      GroupThrowsOnPrototypeNames(a[..n], getGroupId);
      HitsSnoc(a, a[..n], getGroupId);
    }
  }

  /** Some item of `a` hits an inherited name when some item of its front
      part does or its last item does. */
  lemma {:induction false} HitsSnoc<T>(a: seq<T>, init: seq<T>, getGroupId: T -> string)
    requires |a| > 0 && init == a[..|a| - 1]
    ensures HitsPrototype(a, getGroupId) <==>
      HitsPrototype(init, getGroupId) || getGroupId(a[|a| - 1]) in ObjectPrototypeNames
  {
    var n := |a| - 1;
    if HitsPrototype(init, getGroupId) {
      var i :| 0 <= i < n && getGroupId(init[i]) in ObjectPrototypeNames;
      assert init[i] == a[i];
    }
    if HitsPrototype(a, getGroupId) && !(getGroupId(a[n]) in ObjectPrototypeNames) {
      var i :| 0 <= i < |a| && getGroupId(a[i]) in ObjectPrototypeNames;
      assert init[i] == a[i];
    }
  }

  /** `group(['a'], () => 'toString')` throws, where `groupBy` gives
      `{ toString: ['a'] }`. */
  lemma {:induction false} GroupByToStringThrows()
    ensures Group(["a"], (s: string) => "toString").Err?
    ensures CollectionGroupBy.GroupBy(["a"], (s: string) => "toString").buckets == map["toString" := ["a"]]
  {
    var f := (s: string) => "toString";
    assert ["a"][..0] == [];
    assert Group(["a"], f) == Err(TypeError("acc[groupId].push is not a function"));
  }

  // ---------------------------------------------------------------- corrected

  /** `group` testing for an own bucket: `groupBy`. */
  function GroupFixed<T>(a: seq<T>, getGroupId: T -> string): (r: CollectionGroupBy.Groups<T>)
    ensures CollectionGroupBy.ValidGroups(r)
    decreases |a|
  {
    if |a| == 0 then CollectionGroupBy.Groups([], map[])
    else CollectionGroupBy.AddItem(GroupFixed(a[..|a| - 1], getGroupId), getGroupId(a[|a| - 1]), a[|a| - 1])
  }

  /** The corrected `group` never fails, puts every item in the bucket of its
      id in input order, leaves no bucket empty, and its bucket sizes add up to
      the input length, whatever the ids. */
  lemma {:induction false} GroupFixedSpec<T>(a: seq<T>, getGroupId: T -> string)
    ensures var g := GroupFixed(a, getGroupId);
      && (forall k :: k in g.buckets <==> k in CollectionGroupBy.KeysOf(a, getGroupId))
      && (forall k :: k in g.buckets ==> g.buckets[k] == Seqs.Keep(a, CollectionGroupBy.HasKey(getGroupId, k)))
      && (forall k :: k in g.buckets ==> |g.buckets[k]| > 0)
      && CollectionGroupBy.Total(g.order, g.buckets) == |a|
  {
    GroupFixedIsGroupBy(a, getGroupId);
    CollectionGroupBy.GroupByBuckets(a, getGroupId);
    CollectionGroupBy.GroupByNoEmptyBucket(a, getGroupId);
    CollectionGroupBy.GroupBySizes(a, getGroupId);
  }

  lemma {:induction false} GroupFixedIsGroupBy<T>(a: seq<T>, getGroupId: T -> string)
    ensures GroupFixed(a, getGroupId) == CollectionGroupBy.GroupBy(a, getGroupId)
    decreases |a|
  {
    if |a| > 0 {
      GroupFixedIsGroupBy(a[..|a| - 1], getGroupId);
    }
  }

  /** Where ids avoid the inherited names, the corrected `group` agrees with
      the original. */
  lemma {:induction false} GroupFixedAgrees<T>(a: seq<T>, getGroupId: T -> string)
    requires !HitsPrototype(a, getGroupId)
    ensures Group(a, getGroupId) == Ok(GroupFixed(a, getGroupId))
  {
    GroupThrowsOnPrototypeNames(a, getGroupId);
    GroupFixedIsGroupBy(a, getGroupId);
  }
}

=== FILE: legacy_string.dfy ===
/**
 * The older `capitalize` of `src/string.ts`: a non-string gives `''`, and a
 * string gets its first character uppercased by `value[0].toUpperCase()`.
 * On `''`, `value[0]` is undefined, so the call throws a TypeError instead
 * of giving `''`. `Capitalize` is the function as written; `CapitalizeFixed`
 * reads the first character with `charAt(0)`, which gives `''` on `''`.
 */
module LegacyString {
  import opened Wrappers
  import opened Chars
  import opened JsValue
  import LegacyTyped

  /** The function as written. A non-string gives `''`; a non-empty string
      keeps its length and every character after the first, and its first
      character changes exactly when it is a small letter, into the matching
      capital. */
  function Capitalize(v: Value): (r: Result<string>)
    ensures !v.Str? ==> r == Ok("")
    ensures v.Str? && |v.s| > 0 ==>
      && r.Ok?
      && |r.value| == |v.s|
      && (forall i :: 1 <= i < |v.s| ==> r.value[i] == v.s[i])
      && (r.value[0] != v.s[0] <==> IsLower(v.s[0]))
      && (IsLower(v.s[0]) ==> ToLower(r.value[0]) == v.s[0])
  {
    if !LegacyTyped.IsString(v) then Ok("")
    else if |v.s| == 0 then Err(TypeError("Cannot read properties of undefined (reading 'toUpperCase')"))
    else
      CaseRoundTrip(v.s[0]);
      Ok([ToUpper(v.s[0])] + v.s[1..])
  }

  /** On non-empty strings `capitalize` is idempotent. */
  lemma {:induction false} CapitalizeIdempotent(s: string)
    requires |s| > 0
    ensures Capitalize(Str(s)).Ok?
    ensures Capitalize(Str(Capitalize(Str(s)).value)) == Capitalize(Str(s))
  {
    var t := [ToUpper(s[0])] + s[1..];
    assert t[0] == ToUpper(s[0]) && t[1..] == s[1..];
  }

  /** `capitalize('')` throws. */
  lemma {:induction false} CapitalizeEmptyThrows()
    ensures Capitalize(Str("")).Err?
  {
  }

  // ---------------------------------------------------------------- corrected

  /** `capitalize` reading the first character with `charAt(0)`. */
  function CapitalizeFixed(v: Value): string {
    if !LegacyTyped.IsString(v) || |v.s| == 0 then "" else [ToUpper(v.s[0])] + v.s[1..]
  }

  /** The corrected function never throws, gives `''` on `''`, agrees with
      the original wherever that does not throw, and is idempotent on every
      string. */
  lemma {:induction false} CapitalizeFixedSpec(v: Value)
    ensures v == Str("") ==> CapitalizeFixed(v) == ""
    ensures Capitalize(v).Ok? ==> CapitalizeFixed(v) == Capitalize(v).value
    ensures Capitalize(v).Err? <==> v == Str("")
    ensures v.Str? ==> |CapitalizeFixed(v)| == |v.s|
    ensures CapitalizeFixed(Str(CapitalizeFixed(v))) == CapitalizeFixed(v)
  {
    var r := CapitalizeFixed(v);
    if |r| > 0 {
      assert r[0] == ToUpper(v.s[0]) && r[1..] == v.s[1..];
    }
  }
}

=== FILE: legacy_typed.dfy ===
/**
 * The older type helpers of `src/typed.ts`, kept apart from the `lang`
 * functions that replaced them because their meaning differs: a number is
 * empty only when it is 0, "object" means "built by the `Object`
 * constructor", two Dates are compared by their day of the month, and the
 * deep comparison recurses only into such objects.
 *
 * `IsEqual` is the comparison as written; `IsEqualFixed` compares Dates by
 * their time and requires every key of the first object to be an own key of
 * the second, which makes it symmetric.
 */
module LegacyTyped {
  import opened JsValue
  import TypeChecks
  import LangIsEmpty
  import LangIsEqual

  /** `isNil`: `value === null || value === undefined`. */
  function IsNil(v: Value): (r: bool)
    ensures r <==> IsNullish(v)
    ensures r ==> !Truthy(v)
  {
    StrictEq(v, Null) || StrictEq(v, Undefined)
  }

  /** `isNumber`: `Number(value) === value`. Only a number converts to itself,
      and NaN is not equal to itself. */
  function IsNumber(v: Value): (r: bool)
    ensures r <==> v.Num? && v.n.Fin?
  {
    match v
    case Num(_) => StrictEq(v, v)
    case _ => false
  }

  /** `isString`: `typeof value === 'string'`. */
  predicate IsString(v: Value) {
    v.Str?
  }

  /** An object whose `constructor` is `Object`: created by `{}` or
      `new Object()`, with no own `constructor` key shadowing the inherited
      one. Functions are opaque here, so an own `constructor` key is taken
      never to hold the `Object` function itself. */
  predicate ConstructedByObject(o: Obj) {
    o.kind == Plain(false) && "constructor" !in o.props.vals
  }

  /** `isObject`: `!!value && value.constructor === Object`. */
  function IsObject(st: Store, v: Value): (r: bool)
    ensures r ==> v.Ref? && v.addr in st.objs
  {
    Truthy(v) && v.Ref? && ConstructedByObject(ObjAt(st, v.addr))
  }

  /** With no own `constructor` holding `Object` (which the model cannot
      express), the legacy check accepts exactly the plain objects of the
      newer check that have `Object.prototype` as prototype and no own
      `constructor`: it
      rejects arrays, class instances, Dates, null-prototype objects and every
      primitive. */
  lemma {:induction false} IsObjectVersusPlainCheck(st: Store, v: Value)
    ensures IsObject(st, v) <==>
      && TypeChecks.IsPlainObjectCheck(st, v)
      && ObjAt(st, v.addr).kind == Plain(false)
      && "constructor" !in ObjAt(st, v.addr).props.vals
  {
  }

  // ---------------------------------------------------------------- isEmpty

  predicate IsDate(st: Store, v: Value) {
    v.Ref? && ObjAt(st, v.addr).kind.Date?
  }

  /** `Object.keys(value)` for a value that is neither null nor undefined:
      a primitive other than a string has no own keys. */
  function ObjectKeys(st: Store, v: Value): seq<string> {
    if v.Ref? then OwnKeys(ObjAt(st, v.addr)) else []
  }

  /** `isEmpty` as `src/typed.ts` writes it: booleans and nil are empty, a
      number only when it is 0, a Date when it is invalid, a function never;
      otherwise a numeric `length` decides, then a numeric `size`, then the
      count of own enumerable keys. */
  function IsEmpty(st: Store, v: Value): (r: bool)
    ensures v.Bool? || IsNil(v) ==> r
    ensures IsNumber(v) ==> (r <==> v.n.x == 0.0)
    ensures v == Num(NaN) ==> r
    ensures v.Str? ==> (r <==> |v.s| == 0)
    ensures IsDate(st, v) ==> (r <==> ObjAt(st, v.addr).kind.time.NaN?)
    ensures TypeOf(st, v) == TFunction ==> !r
    ensures v.Ref? && ObjAt(st, v.addr).kind.Array? ==> (r <==> |ObjAt(st, v.addr).kind.elems| == 0)
  {
    if v == Bool(true) || v == Bool(false) then true
    else if IsNil(v) then true
    else if IsNumber(v) then StrictEq(v, NumOf(0))
    else if IsDate(st, v) then ObjAt(st, v.addr).kind.time.NaN?
    else if TypeOf(st, v) == TFunction then false
    else if IsNumber(GetProp(st, v, "length")) then StrictEq(GetProp(st, v, "length"), NumOf(0))
    else if IsNumber(GetProp(st, v, "size")) then StrictEq(GetProp(st, v, "size"), NumOf(0))
    else |ObjectKeys(st, v)| == 0
  }

  /** An object with a numeric own `length` is judged by it alone, whatever
      else it holds: `{ length: 0, a: 1 }` is empty. */
  lemma {:induction false} LengthDecides(st: Store, v: Value)
    requires v.Ref? && ObjAt(st, v.addr).kind.Plain? && "length" in ObjAt(st, v.addr).props.vals
    requires IsNumber(ObjAt(st, v.addr).props.vals["length"])
    ensures IsEmpty(st, v) <==> ObjAt(st, v.addr).props.vals["length"] == NumOf(0)
  {
  }

  /** Where the two versions agree: for everything but numbers, Dates,
      functions and objects carrying their own `length` or `size`, the legacy
      `isEmpty` and the newer one give the same answer. */
  lemma {:induction false} IsEmptyAgreesWithLang(st: Store, v: Value)
    requires Wf(st)
    requires !v.Num? && !IsDate(st, v) && TypeOf(st, v) != TFunction
    requires v.Ref? ==> "length" !in ObjAt(st, v.addr).props.vals && "size" !in ObjAt(st, v.addr).props.vals
    ensures IsEmpty(st, v) == LangIsEmpty.IsEmpty(st, v)
  {
    if v.Str? {
      assert GetProp(st, v, "length") == NumOf(|v.s|);
    }
  }

  /** Where they differ: the legacy version calls 42 non-empty and the newer
      one calls every number empty. */
  lemma {:induction false} IsEmptyDiffersOnNumbers(st: Store)
    ensures !IsEmpty(st, NumOf(42)) && LangIsEmpty.IsEmpty(st, NumOf(42))
  {
  }

  // ---------------------------------------------------------------- dates

  const MsPerDay: int := 86400000

  /** The day of the month (1 to 31) of a time value, in milliseconds since
      the epoch, on the proleptic Gregorian calendar that section 21.4.1 of
      ECMA-262 fixes: days are counted from 1 March of year 0 in 400-year
      eras of 146097 days. */
  function DayOfMonth(t: int): (d: int)
    ensures 1 <= d <= 31
  {
    var z := t / MsPerDay + 719468;
    var era := z / 146097;
    var doe := z - era * 146097;
    var yoe := (doe - doe / 1460 + doe / 36524 - doe / 146096) / 365;
    var doy := doe - (365 * yoe + yoe / 4 - yoe / 100);
    var mp := (5 * doy + 2) / 153;
    doy - (153 * mp + 2) / 5 + 1
  }

  /** `date.getDate()`: the day of the month in local time, `tz` being the
      local offset from UTC in milliseconds; NaN for an invalid date. */
  function GetDate(tz: int, t: Number): (r: Number)
    ensures r.NaN? <==> t.NaN?
    ensures r.Fin? ==> 1.0 <= r.x <= 31.0
  {
    if t.NaN? then NaN else Fin(DayOfMonth(t.x.Floor + tz) as real)
  }

  // ---------------------------------------------------------------- deepEqual

  /** `rank` decreases from each object `isObject` accepts to each such object
      among its own values, so the recursion of `deepEqual`, which descends
      only into such objects, ends. Cycles through arrays and class instances
      are allowed. */
  predicate PlainAcyclic(st: Store, rank: map<Addr, nat>) {
    forall a :: a in st.objs && ConstructedByObject(st.objs[a]) ==>
      && a in rank
      && forall k :: k in st.objs[a].props.vals && IsObject(st, st.objs[a].props.vals[k]) ==>
           st.objs[a].props.vals[k].addr in rank && rank[st.objs[a].props.vals[k].addr] < rank[a]
  }

  function Height(rank: map<Addr, nat>, a: Addr): nat {
    if a in rank then rank[a] else 0
  }

  /** 0 for an object `isObject` accepts, 1 for any other: the first call of
      `deepEqual` may be on an array or an instance, every later one is not. */
  function Outer(st: Store, a: Addr): nat {
    if ConstructedByObject(ObjAt(st, a)) then 0 else 1
  }

  /** An object `isObject` accepts, read from one it accepts, sits lower. */
  lemma {:induction false} ChildHeight(st: Store, rank: map<Addr, nat>, x: Addr, k: string)
    requires PlainAcyclic(st, rank) && IsObject(st, GetProp(st, Ref(x), k))
    ensures Outer(st, GetProp(st, Ref(x), k).addr) == 0
    ensures Outer(st, x) == 0 ==> Height(rank, GetProp(st, Ref(x), k).addr) < Height(rank, x)
  {
    if Outer(st, x) == 0 {
      assert x in st.objs;
    }
  }

  /** `deepEqual(object1, object2)` as written: the key counts agree, and for
      each own enumerable key of the first object the two values are either
      both accepted by `isObject` and deeply equal, or strictly equal. The
      second object is read with `object2[key]`, whether it owns the key or
      not. */
  function DeepEqual(st: Store, rank: map<Addr, nat>, x: Addr, y: Addr): (r: bool)
    requires PlainAcyclic(st, rank)
    ensures r ==> |OwnKeys(ObjAt(st, x))| == |OwnKeys(ObjAt(st, y))|
    ensures r ==> forall k :: k in OwnKeys(ObjAt(st, x)) && !IsObject(st, GetProp(st, Ref(x), k)) ==>
                    StrictEq(GetProp(st, Ref(x), k), GetProp(st, Ref(y), k))
    decreases Outer(st, x), Height(rank, x)
  {
    var ka := OwnKeys(ObjAt(st, x));
    && |ka| == |OwnKeys(ObjAt(st, y))|
    && forall k :: k in ka ==>
      var v1 := GetProp(st, Ref(x), k);
      var v2 := GetProp(st, Ref(y), k);
      if IsObject(st, v1) && IsObject(st, v2) then
        (ChildHeight(st, rank, x, k); DeepEqual(st, rank, v1.addr, v2.addr))
      else StrictEq(v1, v2)
  }

  predicate BothObjects(st: Store, x: Value, y: Value) {
    TypeOf(st, x) == TObject && TypeOf(st, y) == TObject && !x.Null? && !y.Null?
  }

  /** `isEqual(x, y)` as written: `Object.is` first (so NaN equals NaN), then
      two Dates by `getDate()`, then two non-null objects by `deepEqual`. */
  function IsEqual(st: Store, rank: map<Addr, nat>, tz: int, x: Value, y: Value): (r: bool)
    requires PlainAcyclic(st, rank)
    ensures x == y ==> r
    ensures !x.Ref? || !y.Ref? ==> (r <==> x == y)
    ensures TypeOf(st, x) == TFunction ==> (r <==> x == y)
    ensures LangIsEqual.BothDates(st, x, y) && x != y ==>
      (r <==> StrictEq(Num(GetDate(tz, ObjAt(st, x.addr).kind.time)), Num(GetDate(tz, ObjAt(st, y.addr).kind.time))))
  {
    if x == y then true
    else if LangIsEqual.BothDates(st, x, y) then
      StrictEq(Num(GetDate(tz, ObjAt(st, x.addr).kind.time)), Num(GetDate(tz, ObjAt(st, y.addr).kind.time)))
    else if BothObjects(st, x, y) then DeepEqual(st, rank, x.addr, y.addr)
    else false
  }

  /** `Object.is` makes NaN equal to itself, unlike `===` and the newer
      `isEqual`. */
  lemma {:induction false} NaNEqualsNaN(st: Store, rank: map<Addr, nat>, tz: int)
    requires PlainAcyclic(st, rank) && Acyclic(st, rank)
    ensures IsEqual(st, rank, tz, Num(NaN), Num(NaN))
    ensures !LangIsEqual.IsEqual(st, rank, Num(NaN), Num(NaN))
  {
  }

  /** Nested arrays are never descended into: two different arrays under the
      same key make the objects unequal, however alike they are. */
  lemma {:induction false} NestedArraysByReference(st: Store, rank: map<Addr, nat>, x: Addr, y: Addr, k: string)
    requires PlainAcyclic(st, rank)
    requires k in OwnKeys(ObjAt(st, x))
    requires GetProp(st, Ref(x), k).Ref? && ObjAt(st, GetProp(st, Ref(x), k).addr).kind.Array?
    requires GetProp(st, Ref(x), k) != GetProp(st, Ref(y), k)
    ensures !DeepEqual(st, rank, x, y)
  {
  }

  // ---------------------------------------------------------------- findings

  /** Two Dates 31 days apart: 1 January and 1 February 1970, UTC. */
  function TwoDates(): Store {
    Store(map[0 := Obj(Date(Fin(0.0)), NoFields), 1 := Obj(Date(Fin(2678400000.0)), NoFields)], 2)
  }

  const FlatRank: map<Addr, nat> := map[0 := 0, 1 := 0]

  /** The epoch, 1 January 1970, is the first of its month. */
  lemma {:induction false} FirstOfJanuary()
    ensures DayOfMonth(0) == 1
  {
    var z := 0 / MsPerDay + 719468;
    assert z / 146097 == 4;
    var doe := z - 4 * 146097;
    assert doe == 135080;
    assert (doe - doe / 1460 + doe / 36524 - doe / 146096) / 365 == 369;
    assert doe - (365 * 369 + 369 / 4 - 369 / 100) == 306;
  }

  /** 31 days later, 1 February 1970, is the first of its month too. */
  lemma {:induction false} FirstOfFebruary()
    ensures DayOfMonth(2678400000) == 1
  {
    assert 2678400000 / MsPerDay == 31;
    var z := 31 + 719468;
    assert z / 146097 == 4;
    var doe := z - 4 * 146097;
    assert doe == 135111;
    assert (doe - doe / 1460 + doe / 36524 - doe / 146096) / 365 == 369;
    assert doe - (365 * 369 + 369 / 4 - 369 / 100) == 337;
  }

  /** In UTC those two Dates compare equal although their times differ. */
  lemma {:induction false} DatesOneMonthApartEqual()
    ensures PlainAcyclic(TwoDates(), FlatRank)
    ensures ObjAt(TwoDates(), 0).kind.time != ObjAt(TwoDates(), 1).kind.time
    ensures IsEqual(TwoDates(), FlatRank, 0, Ref(0), Ref(1))
  {
    FirstOfJanuary();
    FirstOfFebruary();
    assert GetDate(0, Fin(0.0)) == Fin(1.0);
    assert GetDate(0, Fin(2678400000.0)) == Fin(1.0);
  }

  /** `{ a: undefined }` and `{ c: 2 }`. */
  function UndefinedAndMissing(): Store {
    Store(map[
      0 := Obj(Plain(false), Fields(["a"], map["a" := Undefined])),
      1 := Obj(Plain(false), Fields(["c"], map["c" := NumOf(2)]))], 2)
  }

  lemma {:induction false} UndefinedAndMissingFlat()
    ensures PlainAcyclic(UndefinedAndMissing(), FlatRank)
  {
  }

  /** The first is equal to the second (its `a` reads as undefined on both),
      but the second is not equal to the first (its `c` is 2 on one side and
      undefined on the other). */
  lemma {:induction false} DeepEqualAsymmetric()
    ensures PlainAcyclic(UndefinedAndMissing(), FlatRank)
    ensures IsEqual(UndefinedAndMissing(), FlatRank, 0, Ref(0), Ref(1))
    ensures !IsEqual(UndefinedAndMissing(), FlatRank, 0, Ref(1), Ref(0))
  {
    UndefinedReadsAsMissing();
    MissingDiffersFromUndefined();
  }

  /** Forward: `a` is undefined on the first object and absent, so undefined,
      on the second. */
  lemma {:induction false} UndefinedReadsAsMissing()
    ensures PlainAcyclic(UndefinedAndMissing(), FlatRank)
    ensures IsEqual(UndefinedAndMissing(), FlatRank, 0, Ref(0), Ref(1))
  {
    UndefinedAndMissingFlat();
    var st := UndefinedAndMissing();
    var o0, o1 := ObjAt(st, 0), ObjAt(st, 1);
    OneFieldReads(o0, "a", Undefined, "a");
    OneFieldReads(o1, "c", NumOf(2), "a");
    OneKeyEqual(st, FlatRank, 0, 1, "a");
    PlainIsEqual(st, FlatRank, 0, 0, 1);
  }

  /** Backward: `c` is 2 on the second object and undefined on the first. */
  lemma {:induction false} MissingDiffersFromUndefined()
    ensures PlainAcyclic(UndefinedAndMissing(), FlatRank)
    ensures !IsEqual(UndefinedAndMissing(), FlatRank, 0, Ref(1), Ref(0))
  {
    UndefinedAndMissingFlat();
    var st := UndefinedAndMissing();
    var o0, o1 := ObjAt(st, 0), ObjAt(st, 1);
    OneFieldReads(o1, "c", NumOf(2), "c");
    OneFieldReads(o0, "a", Undefined, "c");
    ReadOwnOrInherited(st, 1, "c");
    ReadOwnOrInherited(st, 0, "c");
    OneKeyDiffers(st, FlatRank, 1, 0, "c");
    PlainIsEqual(st, FlatRank, 0, 1, 0);
  }

  /** A plain object with the single field `k` lists `k` alone and reads
      `v` under `k`, undefined under any other key. */
  lemma {:induction false} OneFieldReads(o: Obj, k: string, v: Value, j: string)
    requires o == Obj(Plain(false), Fields([k], map[k := v]))
    ensures OwnKeys(o) == [k]
    ensures HasOwn(o, j) <==> j == k
    ensures OwnValue(o, j) == (if j == k then v else Undefined)
    ensures Inherited(o, j) == Undefined
  {
  }

  /** Two objects with one key each, the first one's value being a
      primitive strictly equal to what the second reads under that key, are
      deeply equal. */
  lemma {:induction false} OneKeyEqual(st: Store, rank: map<Addr, nat>, x: Addr, y: Addr, k: string)
    requires PlainAcyclic(st, rank)
    requires OwnKeys(ObjAt(st, x)) == [k] && |OwnKeys(ObjAt(st, y))| == 1
    requires !IsObject(st, GetProp(st, Ref(x), k))
    requires StrictEq(GetProp(st, Ref(x), k), GetProp(st, Ref(y), k))
    ensures DeepEqual(st, rank, x, y)
  {
  }

  /** A key of the first object whose value is a primitive not strictly
      equal to what the second reads under it makes them unequal. */
  lemma {:induction false} OneKeyDiffers(st: Store, rank: map<Addr, nat>, x: Addr, y: Addr, k: string)
    requires PlainAcyclic(st, rank)
    requires k in OwnKeys(ObjAt(st, x)) && !IsObject(st, GetProp(st, Ref(x), k))
    requires !StrictEq(GetProp(st, Ref(x), k), GetProp(st, Ref(y), k))
    ensures !DeepEqual(st, rank, x, y)
  {
  }

  /** `o[k]` on an object: its own value when it has the key, else what it
      inherits. */
  lemma {:induction false} ReadOwnOrInherited(st: Store, a: Addr, k: string)
    ensures GetProp(st, Ref(a), k) == if HasOwn(ObjAt(st, a), k) then OwnValue(ObjAt(st, a), k) else Inherited(ObjAt(st, a), k)
  {
  }

  /** Between two distinct plain objects `isEqual` is `deepEqual`. */
  lemma {:induction false} PlainIsEqual(st: Store, rank: map<Addr, nat>, tz: int, x: Addr, y: Addr)
    requires PlainAcyclic(st, rank)
    requires x != y && ObjAt(st, x).kind.Plain? && ObjAt(st, y).kind.Plain?
    ensures IsEqual(st, rank, tz, Ref(x), Ref(y)) == DeepEqual(st, rank, x, y)
  {
  }

  // ---------------------------------------------------------------- corrected

  /** `deepEqual` requiring each key of the first object to be an own
      enumerable key of the second. */
  function DeepEqualFixed(st: Store, rank: map<Addr, nat>, x: Addr, y: Addr): (r: bool)
    requires PlainAcyclic(st, rank)
    ensures r ==> |OwnKeys(ObjAt(st, x))| == |OwnKeys(ObjAt(st, y))|
    ensures r ==> forall k :: k in OwnKeys(ObjAt(st, x)) ==> k in OwnKeys(ObjAt(st, y))
    decreases Outer(st, x), Height(rank, x)
  {
    var ka := OwnKeys(ObjAt(st, x));
    var kb := OwnKeys(ObjAt(st, y));
    && |ka| == |kb|
    && forall k :: k in ka ==>
      var v1 := GetProp(st, Ref(x), k);
      var v2 := GetProp(st, Ref(y), k);
      && k in kb
      && if IsObject(st, v1) && IsObject(st, v2) then
           (ChildHeight(st, rank, x, k); DeepEqualFixed(st, rank, v1.addr, v2.addr))
         else StrictEq(v1, v2)
  }

  /** `isEqual` with Dates compared by `getTime()` and objects by
      `DeepEqualFixed`. */
  function IsEqualFixed(st: Store, rank: map<Addr, nat>, x: Value, y: Value): (r: bool)
    requires PlainAcyclic(st, rank)
    ensures x == y ==> r
    ensures !x.Ref? || !y.Ref? ==> (r <==> x == y)
    ensures LangIsEqual.BothDates(st, x, y) && x != y ==>
      (r <==> StrictEq(Num(ObjAt(st, x.addr).kind.time), Num(ObjAt(st, y.addr).kind.time)))
  {
    if x == y then true
    else if LangIsEqual.BothDates(st, x, y) then
      StrictEq(Num(ObjAt(st, x.addr).kind.time), Num(ObjAt(st, y.addr).kind.time))
    else if BothObjects(st, x, y) then DeepEqualFixed(st, rank, x.addr, y.addr)
    else false
  }

  /** The corrected comparison tells the two Dates apart. */
  lemma {:induction false} FixedSeparatesDates()
    ensures PlainAcyclic(TwoDates(), FlatRank)
    ensures !IsEqualFixed(TwoDates(), FlatRank, Ref(0), Ref(1))
  {
  }

  lemma {:induction false} FixedDeepSym(st: Store, rank: map<Addr, nat>, x: Addr, y: Addr)
    requires PlainAcyclic(st, rank) && Wf(st) && DeepEqualFixed(st, rank, x, y)
    ensures DeepEqualFixed(st, rank, y, x)
    decreases Outer(st, x) + Outer(st, y), Height(rank, x) + Height(rank, y)
  {
    var ka := OwnKeys(ObjAt(st, x));
    var kb := OwnKeys(ObjAt(st, y));
    if |kb| > 0 {
      assert x in st.objs && y in st.objs;
      LangIsEqual.KeysCover(st, x, y);
      forall k | k in kb
        ensures k in ka
        ensures var v1 := GetProp(st, Ref(y), k);
          var v2 := GetProp(st, Ref(x), k);
          if IsObject(st, v1) && IsObject(st, v2) then DeepEqualFixed(st, rank, v1.addr, v2.addr)
          else StrictEq(v1, v2)
      {
        var v1 := GetProp(st, Ref(x), k);
        var v2 := GetProp(st, Ref(y), k);
        if IsObject(st, v1) && IsObject(st, v2) {
          ChildHeight(st, rank, x, k);
          ChildHeight(st, rank, y, k);
          FixedDeepSym(st, rank, v1.addr, v2.addr);
        }
      }
    }
  }

  /** The corrected comparison is symmetric. */
  lemma {:induction false} IsEqualFixedSymmetric(st: Store, rank: map<Addr, nat>, x: Value, y: Value)
    requires PlainAcyclic(st, rank) && Wf(st)
    ensures IsEqualFixed(st, rank, x, y) == IsEqualFixed(st, rank, y, x)
  {
    if x != y && !LangIsEqual.BothDates(st, x, y) && BothObjects(st, x, y) {
      if DeepEqualFixed(st, rank, x.addr, y.addr) {
        FixedDeepSym(st, rank, x.addr, y.addr);
      }
      if DeepEqualFixed(st, rank, y.addr, x.addr) {
        FixedDeepSym(st, rank, y.addr, x.addr);
      }
    }
  }
}

=== FILE: legacy_utils.dfy ===
/**
 * The older `clamp` and `get` of `src/utils.ts`. `clamp` takes its bounds in
 * the given order; `get` splits its path on '.', tests each key with the
 * `in` operator and returns whatever the last key holds.
 *
 * `Get` is the function as written, which throws when a step lands on a
 * primitive that is neither null nor undefined (`in` only accepts objects);
 * `GetFixed` returns the default there instead.
 */
module LegacyUtils {
  import opened Wrappers
  import opened JsValue
  import Strings
  import Path
  import PathGet
  import LangClamp

  // ---------------------------------------------------------------- clamp

  /** `Math.max(lower, Math.min(number, upper))`. The result is NaN when an
      argument is; with `lower <= upper` it lies between them, and with the
      bounds reversed it is always `lower`. */
  function Clamp(number: Number, lower: Number, upper: Number): (r: Number)
    ensures r.NaN? <==> number.NaN? || lower.NaN? || upper.NaN?
    ensures r.Fin? && lower.x <= upper.x ==> lower.x <= r.x <= upper.x
    ensures r.Fin? && lower.x <= number.x <= upper.x ==> r == number
    ensures r.Fin? && upper.x < lower.x ==> r == lower
  {
    MathMax(lower, MathMin(number, upper))
  }

  /** With the bounds in order, the legacy and the newer `clamp` agree. */
  lemma {:induction false} ClampAgreesWhenOrdered(number: Number, lower: Number, upper: Number)
    requires !NumLess(upper, lower)
    ensures Clamp(number, lower, upper) == LangClamp.Clamp(number, lower, upper)
  {
  }

  /** With the bounds reversed they differ: `clamp(3, 5, 1)` is 5 here and 3
      in the newer version, which swaps the bounds first. */
  lemma {:induction false} ClampReversedDiffers()
    ensures Clamp(Fin(3.0), Fin(5.0), Fin(1.0)) == Fin(5.0)
    ensures LangClamp.Clamp(Fin(3.0), Fin(5.0), Fin(1.0)) == Fin(3.0)
  {
  }

  // ---------------------------------------------------------------- get

  /** `k in o`: an own property, or one of the built-in accessors the model
      keeps on the prototype chain (a Map's or Set's `size`, a RegExp's
      `source` and `flags`). */
  predicate HasProperty(o: Obj, k: string) {
    HasOwn(o, k) || Inherited(o, k) != Undefined
  }

  /** The loop of `get` as written: a null or undefined step, or a key the
      current object does not have, gives the default; `key in result` on any
      other primitive throws; after the last key the value reached is
      returned, even when it is undefined. */
  function Walk(st: Store, result: Value, keys: seq<string>, default: Value): (r: Result<Value>)
    ensures |keys| == 0 ==> r == Ok(result)
    ensures |keys| > 0 && !result.Ref? && !IsNullish(result) ==> r.Err?
    decreases |keys|
  {
    if |keys| == 0 then Ok(result)
    else if IsNullish(result) then Ok(default)
    else if !result.Ref? then
      Err(TypeError("Cannot use 'in' operator to search for '" + keys[0] + "'"))
    else if !HasProperty(ObjAt(st, result.addr), keys[0]) then Ok(default)
    else Walk(st, GetProp(st, result, keys[0]), keys[1..], default)
  }

  /** `get(obj, path, defaultValue)` as written: a falsy `obj` or one whose
      `typeof` is not 'object' gives the default. */
  function Get(st: Store, obj: Value, path: string, default: Value): (r: Result<Value>)
    ensures !Truthy(obj) || TypeOf(st, obj) != TObject ==> r == Ok(default)
  {
    if !Truthy(obj) || TypeOf(st, obj) != TObject then Ok(default)
    else Walk(st, obj, Strings.Split(path, '.'), default)
  }

  /** Following `keys` from `v`, each step is an object that has the key
      (`key in result` holds), and the walk ends at `value`. */
  predicate InPath(st: Store, v: Value, keys: seq<string>, value: Value)
    decreases |keys|
  {
    if |keys| == 0 then v == value
    else v.Ref? && HasProperty(ObjAt(st, v.addr), keys[0]) && InPath(st, GetProp(st, v, keys[0]), keys[1..], value)
  }

  /** Along a path of keys that `in` finds, the walk returns the value found,
      undefined included. */
  lemma {:induction false} WalkInPath(st: Store, v: Value, keys: seq<string>, value: Value, default: Value)
    requires InPath(st, v, keys, value)
    ensures Walk(st, v, keys, default) == Ok(value)
    decreases |keys|
  {
    if |keys| > 0 {
      WalkInPath(st, GetProp(st, v, keys[0]), keys[1..], value, default);
    }
  }

  /** Along a path of keys that `in` finds, the legacy `get` and the newer one agree,
      except that the newer one turns a final undefined into the default. */
  lemma {:induction false} GetAgreesWithNewer(st: Store, obj: Value, path: string, value: Value, default: Value)
    requires obj.Ref? && TypeOf(st, obj) == TObject
    requires InPath(st, obj, Strings.Split(path, '.'), value)
    ensures Get(st, obj, path, default) == Ok(value)
    ensures PathGet.Get(st, obj, Path.Dotted(path), default) == if value.Undefined? then default else value
  {
    var keys := Strings.Split(path, '.');
    WalkInPath(st, obj, keys, value, default);
    InPathReadsBack(st, obj, keys, value);
    PathGet.ReadsBackGet(st, obj, keys, value, default);
  }

  lemma {:induction false} InPathReadsBack(st: Store, v: Value, keys: seq<string>, value: Value)
    requires InPath(st, v, keys, value)
    ensures PathGet.ReadsBack(st, v, keys, value)
    decreases |keys|
  {
    if |keys| > 0 {
      InPathReadsBack(st, GetProp(st, v, keys[0]), keys[1..], value);
    }
  }

  /** `new Map([['a', 1]])`. */
  function MapWithA(): Store {
    Store(map[0 := Obj(JsMap([(Str("a"), NumOf(1))]), NoFields)], 1)
  }

  /** `in` sees the inherited `size`: `get(new Map([['a', 1]]), 'size', 'd')`
      is 1, not the default, and the newer `get` reads the same. */
  lemma {:induction false} GetInheritedSize()
    ensures Get(MapWithA(), Ref(0), "size", Str("d")) == Ok(NumOf(1))
    ensures PathGet.Get(MapWithA(), Ref(0), Path.Dotted("size"), Str("d")) == NumOf(1)
  {
    Strings.SplitJoin(["size"], '.');
    assert Strings.Join(["size"], ".") == "size";
    assert !HasOwn(ObjAt(MapWithA(), 0), "size");
    assert Walk(MapWithA(), NumOf(1), [], Str("d")) == Ok(NumOf(1));
  }

  // ---------------------------------------------------------------- finding

  /** `{ a: 5 }`. */
  function FiveUnderA(): Store {
    Store(map[0 := Obj(Plain(false), Fields(["a"], map["a" := NumOf(5)]))], 1)
  }

  lemma {:induction false} SplitAB()
    ensures Strings.Split("a.b", '.') == ["a", "b"]
  {
    Strings.SplitJoin(["a", "b"], '.');
    assert Strings.Join(["a", "b"], ".") == "a.b";
  }

  /** `get({ a: 5 }, 'a.b', 'd')` throws instead of returning 'd'. */
  lemma {:induction false} GetThroughNumberThrows()
    ensures Get(FiveUnderA(), Ref(0), "a.b", Str("d")).Err?
  {
    SplitAB();
    assert GetProp(FiveUnderA(), Ref(0), "a") == NumOf(5);
  }

  // ---------------------------------------------------------------- corrected

  /** The loop with any step that is not an object giving the default. */
  function WalkFixed(st: Store, result: Value, keys: seq<string>, default: Value): (r: Value)
    decreases |keys|
  {
    if |keys| == 0 then result
    else if !result.Ref? || !HasProperty(ObjAt(st, result.addr), keys[0]) then default
    else WalkFixed(st, GetProp(st, result, keys[0]), keys[1..], default)
  }

  /** `get` that never throws. */
  function GetFixed(st: Store, obj: Value, path: string, default: Value): (r: Value)
    ensures !Truthy(obj) || TypeOf(st, obj) != TObject ==> r == default
  {
    if !Truthy(obj) || TypeOf(st, obj) != TObject then default
    else WalkFixed(st, obj, Strings.Split(path, '.'), default)
  }

  /** The corrected walk returns the value at the end of a path of keys that
      `in` finds, and the default when the keys do not lead through objects
      that have them. */
  lemma {:induction false} WalkFixedSpec(st: Store, v: Value, keys: seq<string>, default: Value)
    ensures forall value :: InPath(st, v, keys, value) ==> WalkFixed(st, v, keys, default) == value
    ensures (forall value :: !InPath(st, v, keys, value)) ==> WalkFixed(st, v, keys, default) == default
    decreases |keys|
  {
    if |keys| > 0 && v.Ref? && HasProperty(ObjAt(st, v.addr), keys[0]) {
      var w := GetProp(st, v, keys[0]);
      WalkFixedSpec(st, w, keys[1..], default);
      forall value
        ensures InPath(st, v, keys, value) == InPath(st, w, keys[1..], value)
      {
      }
    } else if |keys| == 0 {
      assert InPath(st, v, keys, v);
    }
  }

  /** Wherever the legacy walk does not throw, the corrected one gives the
      same value. */
  lemma {:induction false} WalkFixedAgrees(st: Store, v: Value, keys: seq<string>, default: Value)
    requires Walk(st, v, keys, default).Ok?
    ensures WalkFixed(st, v, keys, default) == Walk(st, v, keys, default).value
    decreases |keys|
  {
    if |keys| > 0 && v.Ref? && HasProperty(ObjAt(st, v.addr), keys[0]) {
      WalkFixedAgrees(st, GetProp(st, v, keys[0]), keys[1..], default);
    }
  }

  /** The corrected `get` agrees with the legacy one wherever that one does
      not throw. */
  lemma {:induction false} GetFixedAgrees(st: Store, obj: Value, path: string, default: Value)
    ensures Get(st, obj, path, default).Ok? ==> GetFixed(st, obj, path, default) == Get(st, obj, path, default).value
  {
    if Get(st, obj, path, default).Ok? && Truthy(obj) && TypeOf(st, obj) == TObject {
      WalkFixedAgrees(st, obj, Strings.Split(path, '.'), default);
    }
  }

  /** Where the legacy `get` throws, the corrected one gives the default. */
  lemma {:induction false} GetFixedThroughNumber()
    ensures GetFixed(FiveUnderA(), Ref(0), "a.b", Str("d")) == Str("d")
  {
    SplitAB();
    assert GetProp(FiveUnderA(), Ref(0), "a") == NumOf(5);
  }
}

=== FILE: merge_deep.dfy ===
/**
 * `mergeDeep`: merge plain-object sources into a fresh copy of the target.
 * Only plain objects are merged recursively; any other source value replaces
 * the target's value wholesale. Keys that could reach a prototype are skipped,
 * and past 50 levels of nesting the nested target comes back untouched.
 */
module ObjectMerge {
  import opened JsValue
  import Path
  import TypeChecks

  /** `MAX_DEPTH`: the deepest level at which `mergeInternal` still merges. */
  const MaxDepth: nat := 50

  /** The termination measure shared by the four mutually recursive members. */
  function Budget(depth: nat): nat {
    if depth > MaxDepth then 0 else MaxDepth + 1 - depth
  }

  /** `result[key] = v` on the result under construction. */
  function Write(st: Store, res: Addr, key: string, v: Value): Store {
    Store(st.objs[res := Assign(ObjAt(st, res), key, v)], st.next)
  }

  /** `mergeInternal(target, sources, depth)`: past the depth cap the target
      itself; otherwise a fresh `{ ...target }` with every source merged in. */
  function MergeInternal(st: Store, target: Value, sources: seq<Value>, depth: nat): (r: (Store, Value))
    decreases Budget(depth), 4, 0
  {
    if depth > MaxDepth then (st, target)
    else
      var (st1, res) := Alloc(st, NewPlain(SpreadFields(st, target)));
      (MergeSources(st1, res, sources, depth), Ref(res))
  }

  /** The loop over the sources: those that are not plain objects are skipped. */
  function MergeSources(st: Store, res: Addr, sources: seq<Value>, depth: nat): Store
    requires depth <= MaxDepth
    decreases Budget(depth), 3, |sources|
  {
    if |sources| == 0 then st
    else
      var src := sources[0];
      var st1 := if TypeChecks.IsPlainObjectCheck(st, src)
        then MergeKeys(st, res, src, OwnKeys(ObjAt(st, src.addr)), depth)
        else st;
      MergeSources(st1, res, sources[1..], depth)
  }

  /** The loop over `Object.keys(source)`. */
  function MergeKeys(st: Store, res: Addr, src: Value, keys: seq<string>, depth: nat): Store
    requires depth <= MaxDepth
    decreases Budget(depth), 2, |keys|
  {
    if |keys| == 0 then st
    else MergeKeys(MergeKey(st, res, src, keys[0], depth), res, src, keys[1..], depth)
  }

  /** One key of one source: skipped when dangerous, otherwise the result's
      key gets the incoming value. */
  function MergeKey(st: Store, res: Addr, src: Value, key: string, depth: nat): Store
    requires depth <= MaxDepth
    decreases Budget(depth), 1, 0
  {
    if Path.HasDangerousKey([key]) then st
    else
      var (st2, v) := Incoming(st, res, src, key, depth);
      Write(st2, res, key, v)
  }

  /** Both sides plain objects: merged one level deeper. Otherwise the
      source's value, as is. */
  function Incoming(st: Store, res: Addr, src: Value, key: string, depth: nat): (Store, Value)
    requires depth <= MaxDepth
    decreases Budget(depth), 0, 0
  {
    var targetVal := GetProp(st, Ref(res), key);
    var sourceVal := GetProp(st, src, key);
    if TypeChecks.IsPlainObjectCheck(st, targetVal) && TypeChecks.IsPlainObjectCheck(st, sourceVal)
    then MergeInternal(st, targetVal, [sourceVal], depth + 1)
    else (st, sourceVal)
  }

  /** `mergeDeep(target, ...sources)`. The depth starts below the cap, so the
      result is always a new object at the next free address, never the target. */
  function MergeDeep(st: Store, target: Value, sources: seq<Value>): (r: (Store, Value))
    ensures r.1 == Ref(st.next)
  {
    MergeInternal(st, target, sources, 0)
  }

  // ---------------------------------------------------------------- no mutation

  /** The object being built: a plain object (with Object.prototype). */
  predicate Building(st: Store, res: Addr) {
    Wf(st) && res in st.objs && st.objs[res].kind == Plain(false)
  }

  /** A write of a safe key updates only the result's fields. */
  lemma {:induction false} WriteFacts(st: Store, res: Addr, key: string, v: Value)
    requires Building(st, res) && key != "__proto__"
    ensures var st2 := Write(st, res, key, v);
      && Building(st2, res) && Grows(st, st2, res)
      && st2.objs[res].props == FieldPut(st.objs[res].props, key, v)
  {
    AssignValid(st.objs[res], key, v);
  }

  /** `mergeInternal` only allocates: every existing object is left as it was,
      the heap stays well formed, and below the cap the result is a fresh
      plain object at the next free address. */
  lemma {:induction false} MergeInternalFrame(st: Store, target: Value, sources: seq<Value>, depth: nat)
    requires Wf(st)
    ensures var r := MergeInternal(st, target, sources, depth);
      && Wf(r.0) && Extends(st, r.0)
      && (depth > MaxDepth ==> r == (st, target))
      && (depth <= MaxDepth ==>
            && r.1 == Ref(st.next) && st.next !in st.objs
            && st.next in r.0.objs && r.0.objs[st.next].kind == Plain(false))
    decreases Budget(depth), 4, 0
  {
    if depth <= MaxDepth {
      SpreadFieldsFacts(st, target);
      AllocFacts(st, NewPlain(SpreadFields(st, target)));
      var (st1, res) := Alloc(st, NewPlain(SpreadFields(st, target)));
      MergeSourcesFrame(st1, res, sources, depth);
    }
  }

  lemma {:induction false} MergeSourcesFrame(st: Store, res: Addr, sources: seq<Value>, depth: nat)
    requires depth <= MaxDepth && Building(st, res)
    ensures var st2 := MergeSources(st, res, sources, depth);
      Building(st2, res) && Grows(st, st2, res)
    decreases Budget(depth), 3, |sources|
  {
    if |sources| > 0 {
      var src := sources[0];
      if TypeChecks.IsPlainObjectCheck(st, src) {
        var keys := OwnKeys(ObjAt(st, src.addr));
        MergeKeysFrame(st, res, src, keys, depth);
        var st1 := MergeKeys(st, res, src, keys, depth);
        MergeSourcesFrame(st1, res, sources[1..], depth);
        GrowsTrans(st, st1, MergeSources(st1, res, sources[1..], depth), res);
      } else {
        MergeSourcesFrame(st, res, sources[1..], depth);
      }
    }
  }

  lemma {:induction false} MergeKeysFrame(st: Store, res: Addr, src: Value, keys: seq<string>, depth: nat)
    requires depth <= MaxDepth && Building(st, res)
    ensures var st2 := MergeKeys(st, res, src, keys, depth);
      Building(st2, res) && Grows(st, st2, res)
    decreases Budget(depth), 2, |keys|
  {
    if |keys| > 0 {
      MergeKeyFrame(st, res, src, keys[0], depth);
      var st1 := MergeKey(st, res, src, keys[0], depth);
      MergeKeysFrame(st1, res, src, keys[1..], depth);
      GrowsTrans(st, st1, MergeKeys(st1, res, src, keys[1..], depth), res);
    }
  }

  lemma {:induction false} MergeKeyFrame(st: Store, res: Addr, src: Value, key: string, depth: nat)
    requires depth <= MaxDepth && Building(st, res)
    ensures var st2 := MergeKey(st, res, src, key, depth);
      Building(st2, res) && Grows(st, st2, res)
    decreases Budget(depth), 1, 0
  {
    if !Path.HasDangerousKey([key]) {
      assert key != "__proto__";
      IncomingFrame(st, res, src, key, depth);
      var (st2, v) := Incoming(st, res, src, key, depth);
      WriteFacts(st2, res, key, v);
    }
  }

  lemma {:induction false} IncomingFrame(st: Store, res: Addr, src: Value, key: string, depth: nat)
    requires depth <= MaxDepth && Building(st, res)
    ensures var r := Incoming(st, res, src, key, depth);
      Building(r.0, res) && Extends(st, r.0)
    decreases Budget(depth), 0, 0
  {
    var targetVal := GetProp(st, Ref(res), key);
    var sourceVal := GetProp(st, src, key);
    if TypeChecks.IsPlainObjectCheck(st, targetVal) && TypeChecks.IsPlainObjectCheck(st, sourceVal) {
      MergeInternalFrame(st, targetVal, [sourceVal], depth + 1);
    }
  }

  // ---------------------------------------------------------------- key sets

  lemma {:induction false} DangerousSingle(k: string)
    ensures Path.HasDangerousKey([k]) <==> k in Path.DangerousKeys
  {
    assert [k][1..] == [];
  }

  /** The keys of a list that the merge may write. */
  function SafeKeys(keys: seq<string>): set<string> {
    set k | k in keys && k !in Path.DangerousKeys
  }

  /** The own enumerable keys `{ ...target }` starts from. */
  function TargetKeys(st: Store, target: Value): set<string> {
    if target.Ref? then set k | k in OwnKeys(ObjAt(st, target.addr)) else {}
  }

  /** The safe keys of the plain-object sources. */
  function SourceKeys(st: Store, sources: seq<Value>): set<string>
    decreases |sources|
  {
    if |sources| == 0 then {}
    else
      (if TypeChecks.IsPlainObjectCheck(st, sources[0]) then SafeKeys(OwnKeys(ObjAt(st, sources[0].addr))) else {})
      + SourceKeys(st, sources[1..])
  }

  /** `v` is a primitive or an existing object other than the result under
      construction, so the merge never changes what it reads from it. */
  predicate Settled(st: Store, res: Addr, v: Value) {
    v.Ref? ==> v.addr in st.objs && v.addr != res
  }

  predicate AllSettled(st: Store, res: Addr, vs: seq<Value>) {
    forall i :: 0 <= i < |vs| ==> Settled(st, res, vs[i])
  }

  lemma {:induction false} SettledStays(st: Store, st2: Store, res: Addr, v: Value)
    requires Grows(st, st2, res) && Settled(st, res, v)
    ensures Settled(st2, res, v)
    ensures v.Ref? ==> ObjAt(st2, v.addr) == ObjAt(st, v.addr)
    ensures TypeChecks.IsPlainObjectCheck(st2, v) == TypeChecks.IsPlainObjectCheck(st, v)
    ensures TargetKeys(st2, v) == TargetKeys(st, v)
  {
  }

  lemma {:induction false} SourceKeysStay(st: Store, st2: Store, res: Addr, sources: seq<Value>)
    requires Grows(st, st2, res) && AllSettled(st, res, sources)
    ensures AllSettled(st2, res, sources)
    ensures SourceKeys(st2, sources) == SourceKeys(st, sources)
    decreases |sources|
  {
    if |sources| > 0 {
      SettledStays(st, st2, res, sources[0]);
      SourceKeysStay(st, st2, res, sources[1..]);
    }
    forall i | 0 <= i < |sources| ensures Settled(st2, res, sources[i]) {
      SettledStays(st, st2, res, sources[i]);
    }
  }

  /** The spread copy holds exactly the target's own enumerable keys. */
  lemma {:induction false} SpreadKeys(st: Store, target: Value)
    ensures SpreadFields(st, target).vals.Keys == TargetKeys(st, target)
  {
  }

  /** The result's keys are the target's keys plus the safe keys of the plain
      sources: dangerous keys are never added, and no key is lost. */
  lemma {:induction false} MergeInternalKeys(st: Store, target: Value, sources: seq<Value>, depth: nat)
    requires Wf(st) && depth <= MaxDepth
    requires forall i :: 0 <= i < |sources| ==> Live(st, sources[i])
    ensures var r := MergeInternal(st, target, sources, depth);
      ObjAt(r.0, st.next).props.vals.Keys == TargetKeys(st, target) + SourceKeys(st, sources)
  {
    SpreadFieldsFacts(st, target);
    AllocFacts(st, NewPlain(SpreadFields(st, target)));
    var (st1, res) := Alloc(st, NewPlain(SpreadFields(st, target)));
    assert Grows(st, st1, res);
    SourceKeysStay(st, st1, res, sources);
    SpreadKeys(st, target);
    MergeSourcesKeys(st1, res, sources, depth);
  }

  lemma {:induction false} MergeSourcesKeys(st: Store, res: Addr, sources: seq<Value>, depth: nat)
    requires depth <= MaxDepth && Building(st, res) && AllSettled(st, res, sources)
    ensures ObjAt(MergeSources(st, res, sources, depth), res).props.vals.Keys
      == st.objs[res].props.vals.Keys + SourceKeys(st, sources)
    decreases |sources|
  {
    if |sources| > 0 {
      var src := sources[0];
      var st1 := if TypeChecks.IsPlainObjectCheck(st, src)
        then MergeKeys(st, res, src, OwnKeys(ObjAt(st, src.addr)), depth)
        else st;
      if TypeChecks.IsPlainObjectCheck(st, src) {
        MergeKeysFrame(st, res, src, OwnKeys(ObjAt(st, src.addr)), depth);
        MergeKeysKeys(st, res, src, OwnKeys(ObjAt(st, src.addr)), depth);
      }
      assert Grows(st, st1, res) && Building(st1, res);
      SourceKeysStay(st, st1, res, sources[1..]);
      MergeSourcesKeys(st1, res, sources[1..], depth);
    }
  }

  lemma {:induction false} MergeKeysKeys(st: Store, res: Addr, src: Value, keys: seq<string>, depth: nat)
    requires depth <= MaxDepth && Building(st, res)
    ensures ObjAt(MergeKeys(st, res, src, keys, depth), res).props.vals.Keys
      == st.objs[res].props.vals.Keys + SafeKeys(keys)
    decreases |keys|
  {
    if |keys| > 0 {
      var st1 := MergeKey(st, res, src, keys[0], depth);
      MergeKeyFrame(st, res, src, keys[0], depth);
      MergeKeyKeys(st, res, src, keys[0], depth);
      MergeKeysKeys(st1, res, src, keys[1..], depth);
      assert SafeKeys(keys) == SafeKeys([keys[0]]) + SafeKeys(keys[1..]);
    }
  }

  lemma {:induction false} MergeKeyKeys(st: Store, res: Addr, src: Value, key: string, depth: nat)
    requires depth <= MaxDepth && Building(st, res)
    ensures ObjAt(MergeKey(st, res, src, key, depth), res).props.vals.Keys
      == st.objs[res].props.vals.Keys + SafeKeys([key])
  {
    DangerousSingle(key);
    if key !in Path.DangerousKeys {
      IncomingFrame(st, res, src, key, depth);
      var (st2, v) := Incoming(st, res, src, key, depth);
      WriteFacts(st2, res, key, v);
    }
  }

  // ---------------------------------------------------------------- values

  /** The result's current value at `k`. */
  function Field(st: Store, res: Addr, k: string): Value {
    FieldGet(ObjAt(st, res).props, k)
  }

  /** A key no source supplies keeps the value the copy started with. */
  lemma {:induction false} MergeKeyOther(st: Store, res: Addr, src: Value, key: string, depth: nat, k: string)
    requires depth <= MaxDepth && Building(st, res)
    requires k != key || key in Path.DangerousKeys
    ensures Field(MergeKey(st, res, src, key, depth), res, k) == Field(st, res, k)
  {
    DangerousSingle(key);
    if key !in Path.DangerousKeys {
      IncomingFrame(st, res, src, key, depth);
      var (st2, v) := Incoming(st, res, src, key, depth);
      WriteFacts(st2, res, key, v);
    }
  }

  lemma {:induction false} MergeKeysOther(st: Store, res: Addr, src: Value, keys: seq<string>, depth: nat, k: string)
    requires depth <= MaxDepth && Building(st, res) && k !in SafeKeys(keys)
    ensures Field(MergeKeys(st, res, src, keys, depth), res, k) == Field(st, res, k)
    decreases |keys|
  {
    if |keys| > 0 {
      MergeKeyFrame(st, res, src, keys[0], depth);
      MergeKeyOther(st, res, src, keys[0], depth, k);
      assert k !in SafeKeys(keys[1..]);
      MergeKeysOther(MergeKey(st, res, src, keys[0], depth), res, src, keys[1..], depth, k);
    }
  }

  lemma {:induction false} MergeSourcesOther(st: Store, res: Addr, sources: seq<Value>, depth: nat, k: string)
    requires depth <= MaxDepth && Building(st, res) && AllSettled(st, res, sources)
    requires k !in SourceKeys(st, sources)
    ensures Field(MergeSources(st, res, sources, depth), res, k) == Field(st, res, k)
    decreases |sources|
  {
    if |sources| > 0 {
      var src := sources[0];
      var st1 := if TypeChecks.IsPlainObjectCheck(st, src)
        then MergeKeys(st, res, src, OwnKeys(ObjAt(st, src.addr)), depth)
        else st;
      if TypeChecks.IsPlainObjectCheck(st, src) {
        MergeKeysFrame(st, res, src, OwnKeys(ObjAt(st, src.addr)), depth);
        MergeKeysOther(st, res, src, OwnKeys(ObjAt(st, src.addr)), depth, k);
      }
      assert Grows(st, st1, res) && Building(st1, res);
      SourceKeysStay(st, st1, res, sources[1..]);
      MergeSourcesOther(st1, res, sources[1..], depth, k);
    }
  }

  /** The key written when it comes up: with a non-plain source value, that
      value itself. */
  lemma {:induction false} MergeKeyReplace(st: Store, res: Addr, src: Value, key: string, depth: nat)
    requires depth <= MaxDepth && Building(st, res) && key !in Path.DangerousKeys
    requires !TypeChecks.IsPlainObjectCheck(st, GetProp(st, src, key))
    ensures Field(MergeKey(st, res, src, key, depth), res, key) == GetProp(st, src, key)
  {
    DangerousSingle(key);
    WriteFacts(st, res, key, GetProp(st, src, key));
  }

  /** Among distinct keys, a safe key whose source value is not a plain
      object ends up holding that very value. */
  lemma {:induction false} MergeKeysReplace(st: Store, res: Addr, src: Value, keys: seq<string>, depth: nat, k: string)
    requires depth <= MaxDepth && Building(st, res) && Distinct(keys)
    requires k in keys && k !in Path.DangerousKeys
    requires Settled(st, res, src) && Settled(st, res, GetProp(st, src, k))
    requires !TypeChecks.IsPlainObjectCheck(st, GetProp(st, src, k))
    ensures Field(MergeKeys(st, res, src, keys, depth), res, k) == GetProp(st, src, k)
    decreases |keys|
  {
    var st1 := MergeKey(st, res, src, keys[0], depth);
    MergeKeyFrame(st, res, src, keys[0], depth);
    assert Distinct(keys[1..]);
    if keys[0] == k {
      MergeKeyReplace(st, res, src, k, depth);
      assert k !in keys[1..];
      MergeKeysOther(st1, res, src, keys[1..], depth, k);
    } else {
      SettledStays(st, st1, res, src);
      if src.Ref? {
        SameObjSameProp(st, st1, src.addr, k);
      }
      SettledStays(st, st1, res, GetProp(st, src, k));
      MergeKeysReplace(st1, res, src, keys[1..], depth, k);
    }
  }

  /** Over several sources the last plain one decides a key whose value there
      is not a plain object: that value replaces whatever came before. */
  lemma {:induction false} MergeSourcesLastWins(st: Store, res: Addr, sources: seq<Value>, depth: nat, k: string)
    requires depth <= MaxDepth && Building(st, res) && AllSettled(st, res, sources) && |sources| > 0
    requires var last := sources[|sources| - 1];
      && TypeChecks.IsPlainObjectCheck(st, last) && k in SafeKeys(OwnKeys(ObjAt(st, last.addr)))
      && Settled(st, res, GetProp(st, last, k)) && !TypeChecks.IsPlainObjectCheck(st, GetProp(st, last, k))
    ensures Field(MergeSources(st, res, sources, depth), res, k) == GetProp(st, sources[|sources| - 1], k)
    decreases |sources|
  {
    var src := sources[0];
    var last := sources[|sources| - 1];
    var st1 := if TypeChecks.IsPlainObjectCheck(st, src)
      then MergeKeys(st, res, src, OwnKeys(ObjAt(st, src.addr)), depth)
      else st;
    if TypeChecks.IsPlainObjectCheck(st, src) {
      MergeKeysFrame(st, res, src, OwnKeys(ObjAt(st, src.addr)), depth);
    }
    assert Grows(st, st1, res) && Building(st1, res);
    if |sources| == 1 {
      assert src == last;
      OwnKeysDistinct(ObjAt(st, src.addr));
      MergeKeysReplace(st, res, src, OwnKeys(ObjAt(st, src.addr)), depth, k);
    } else {
      assert AllSettled(st, res, sources[1..]);
      SourceKeysStay(st, st1, res, sources[1..]);
      assert sources[1..][|sources[1..]| - 1] == last;
      SettledStays(st, st1, res, last);
      SameObjSameProp(st, st1, last.addr, k);
      SettledStays(st, st1, res, GetProp(st, last, k));
      MergeSourcesLastWins(st1, res, sources[1..], depth, k);
    }
  }

  /** Merging a single plain source into a target yields a fresh object
      holding the keys of both. */
  lemma {:induction false} MergeOneKeys(st: Store, tv: Value, sv: Value, depth: nat)
    requires Wf(st) && depth <= MaxDepth && Live(st, sv) && TypeChecks.IsPlainObjectCheck(st, sv)
    ensures var r := MergeInternal(st, tv, [sv], depth);
      && r.1 == Ref(st.next) && st.next !in st.objs && st.next in r.0.objs && Extends(st, r.0) && Wf(r.0)
      && ObjAt(r.0, st.next).props.vals.Keys == TargetKeys(st, tv) + SafeKeys(OwnKeys(ObjAt(st, sv.addr)))
  {
    MergeInternalFrame(st, tv, [sv], depth);
    MergeInternalKeys(st, tv, [sv], depth);
    assert [sv][1..] == [];
    assert SourceKeys(st, [sv]) == SafeKeys(OwnKeys(ObjAt(st, sv.addr)));
  }

  /** A safe key gets the incoming value, and only the result changes. */
  lemma {:induction false} MergeKeyWrites(st: Store, res: Addr, src: Value, key: string, depth: nat)
    requires depth <= MaxDepth && Building(st, res) && key !in Path.DangerousKeys
    ensures var (st2, m) := Incoming(st, res, src, key, depth);
      var st3 := MergeKey(st, res, src, key, depth);
      && Field(st3, res, key) == m
      && forall a: Addr :: a != res ==> ObjAt(st3, a) == ObjAt(st2, a)
  {
    DangerousSingle(key);
    IncomingFrame(st, res, src, key, depth);
    var (st2, m) := Incoming(st, res, src, key, depth);
    WriteFacts(st2, res, key, m);
  }

  /** With plain objects on both sides the incoming value is their merge one
      level deeper. */
  lemma {:induction false} IncomingNested(st: Store, res: Addr, src: Value, key: string, depth: nat)
    requires depth <= MaxDepth && Building(st, res)
    requires TypeChecks.IsPlainObjectCheck(st, Field(st, res, key)) && TypeChecks.IsPlainObjectCheck(st, GetProp(st, src, key))
    ensures Incoming(st, res, src, key, depth) == MergeInternal(st, Field(st, res, key), [GetProp(st, src, key)], depth + 1)
  {
    assert GetProp(st, Ref(res), key) == Field(st, res, key);
  }

  /** What a key where plain objects `tv` (target side) and `sv` (source
      side) meet holds afterwards: at the cap `tv` itself; below it a new
      object (absent from `st0`, present in `st2`) with the keys of both. */
  predicate MergedInto(st0: Store, st2: Store, v: Value, tv: Value, sv: Value, depth: nat) {
    && (depth + 1 > MaxDepth ==> v == tv)
    && (depth + 1 <= MaxDepth ==>
          && v.Ref? && v.addr !in st0.objs && v.addr in st2.objs && sv.Ref?
          && ObjAt(st2, v.addr).props.vals.Keys == TargetKeys(st0, tv) + SafeKeys(OwnKeys(ObjAt(st0, sv.addr))))
  }

  /** Later steps that only change the result keep the merged object. */
  lemma {:induction false} MergedIntoLater(st0: Store, st2: Store, st3: Store, res: Addr, v: Value, tv: Value, sv: Value, depth: nat)
    requires MergedInto(st0, st2, v, tv, sv, depth) && Grows(st2, st3, res) && res in st0.objs
    ensures MergedInto(st0, st3, v, tv, sv, depth)
  {
    if depth + 1 <= MaxDepth {
      assert v.addr != res && v.addr in st2.objs;
      assert st3.objs[v.addr] == st2.objs[v.addr];
    }
  }

  /** Earlier steps that only changed the result do not change what the
      merged object is described by. */
  lemma {:induction false} MergedIntoEarlier(st0: Store, st1: Store, st2: Store, res: Addr, v: Value, tv: Value, sv: Value, depth: nat)
    requires MergedInto(st1, st2, v, tv, sv, depth) && Grows(st0, st1, res)
    requires Settled(st0, res, tv) && Settled(st0, res, sv)
    ensures MergedInto(st0, st2, v, tv, sv, depth)
  {
    SettledStays(st0, st1, res, tv);
    SettledStays(st0, st1, res, sv);
  }

  /** Two plain objects meeting at a key: below the cap the key gets a fresh
      object holding the keys of both; at the cap the target's own nested
      object stays. */
  lemma {:induction false} MergeKeyNested(st: Store, res: Addr, src: Value, key: string, depth: nat)
    requires depth <= MaxDepth && Building(st, res) && key !in Path.DangerousKeys
    requires var tv := Field(st, res, key); var sv := GetProp(st, src, key);
      && Settled(st, res, tv) && Settled(st, res, sv)
      && TypeChecks.IsPlainObjectCheck(st, tv) && TypeChecks.IsPlainObjectCheck(st, sv)
    ensures var st2 := MergeKey(st, res, src, key, depth);
      MergedInto(st, st2, Field(st2, res, key), Field(st, res, key), GetProp(st, src, key), depth)
  {
    var tv := Field(st, res, key);
    var sv := GetProp(st, src, key);
    IncomingNested(st, res, src, key, depth);
    MergeKeyWrites(st, res, src, key, depth);
    MergeKeyFrame(st, res, src, key, depth);
    if depth + 1 <= MaxDepth {
      var (st2, m) := MergeInternal(st, tv, [sv], depth + 1);
      NestedWritten(st, st2, MergeKey(st, res, src, key, depth), res, tv, sv, m, depth);
    }
  }

  lemma {:induction false} NestedWritten(st: Store, st2: Store, st3: Store, res: Addr, tv: Value, sv: Value, m: Value, depth: nat)
    requires depth + 1 <= MaxDepth && Wf(st) && res in st.objs
    requires Live(st, sv) && TypeChecks.IsPlainObjectCheck(st, sv)
    requires MergeInternal(st, tv, [sv], depth + 1) == (st2, m)
    requires forall a: Addr :: a != res ==> ObjAt(st3, a) == ObjAt(st2, a)
    requires st2.objs.Keys <= st3.objs.Keys
    ensures MergedInto(st, st3, m, tv, sv, depth)
  {
    MergeOneKeys(st, tv, sv, depth + 1);
    assert st.next != res;
  }

  /** Among distinct keys, the nested merge of a key where two plain objects
      meet survives the rest of the loop. */
  lemma {:induction false} MergeKeysNested(st: Store, res: Addr, src: Value, keys: seq<string>, depth: nat, k: string)
    requires depth <= MaxDepth && Building(st, res) && Distinct(keys)
    requires k in keys && k !in Path.DangerousKeys && Settled(st, res, src)
    requires var tv := Field(st, res, k); var sv := GetProp(st, src, k);
      && Settled(st, res, tv) && Settled(st, res, sv)
      && TypeChecks.IsPlainObjectCheck(st, tv) && TypeChecks.IsPlainObjectCheck(st, sv)
    ensures var st2 := MergeKeys(st, res, src, keys, depth);
      MergedInto(st, st2, Field(st2, res, k), Field(st, res, k), GetProp(st, src, k), depth)
    decreases |keys|
  {
    var tv := Field(st, res, k);
    var sv := GetProp(st, src, k);
    var st1 := MergeKey(st, res, src, keys[0], depth);
    var st2 := MergeKeys(st1, res, src, keys[1..], depth);
    MergeKeyFrame(st, res, src, keys[0], depth);
    assert Distinct(keys[1..]);
    if keys[0] == k {
      MergeKeyNested(st, res, src, k, depth);
      assert k !in keys[1..];
      MergeKeysOther(st1, res, src, keys[1..], depth, k);
      MergeKeysFrame(st1, res, src, keys[1..], depth);
      MergedIntoLater(st, st1, st2, res, Field(st1, res, k), tv, sv, depth);
    } else {
      MergeKeyOther(st, res, src, keys[0], depth, k);
      SettledStays(st, st1, res, src);
      if src.Ref? {
        SameObjSameProp(st, st1, src.addr, k);
      }
      SettledStays(st, st1, res, tv);
      SettledStays(st, st1, res, sv);
      MergeKeysNested(st1, res, src, keys[1..], depth, k);
      MergedIntoEarlier(st, st1, st2, res, Field(st2, res, k), tv, sv, depth);
    }
  }

  /** `mergeInternal(target, [source], depth)` at a key where both sides hold
      plain objects. */
  lemma {:induction false} MergeInternalNested(st: Store, target: Value, source: Value, depth: nat, k: string)
    requires Wf(st) && Closed(st) && depth <= MaxDepth
    requires target.Ref? && target.addr in st.objs && k in OwnKeys(st.objs[target.addr])
    requires source.Ref? && source.addr in st.objs && TypeChecks.IsPlainObjectCheck(st, source)
    requires k in OwnKeys(st.objs[source.addr]) && k !in Path.DangerousKeys
    requires var tv := OwnValue(st.objs[target.addr], k); var sv := OwnValue(st.objs[source.addr], k);
      TypeChecks.IsPlainObjectCheck(st, tv) && TypeChecks.IsPlainObjectCheck(st, sv)
    ensures var r := MergeInternal(st, target, [source], depth);
      MergedInto(st, r.0, Field(r.0, st.next, k), OwnValue(st.objs[target.addr], k), OwnValue(st.objs[source.addr], k), depth)
  {
    var tv := OwnValue(st.objs[target.addr], k);
    var sv := OwnValue(st.objs[source.addr], k);
    SpreadFieldsFacts(st, target);
    AllocFacts(st, NewPlain(SpreadFields(st, target)));
    var (st1, res) := Alloc(st, NewPlain(SpreadFields(st, target)));
    OwnValueLive(st, target.addr, k);
    OwnValueLive(st, source.addr, k);
    OwnKeysAreOwn(st.objs[source.addr], k);
    assert GetProp(st, source, k) == sv;
    assert Grows(st, st1, res);
    SettledStays(st, st1, res, source);
    SameObjSameProp(st, st1, source.addr, k);
    assert Field(st1, res, k) == tv;
    OwnKeysDistinct(st.objs[source.addr]);
    var keys := OwnKeys(ObjAt(st1, source.addr));
    MergeKeysNested(st1, res, source, keys, depth, k);
    var st2 := MergeKeys(st1, res, source, keys, depth);
    MergedIntoEarlier(st, st1, st2, res, Field(st2, res, k), tv, sv, depth);
    assert [source][1..] == [];
    assert MergeSources(st1, res, [source], depth) == MergeSources(st2, res, [], depth) == st2;
    assert MergeInternal(st, target, [source], depth) == (st2, Ref(res));
  }

  // ---------------------------------------------------------------- skipped sources

  /** The plain-object sources, in order. */
  function PlainSources(st: Store, sources: seq<Value>): (r: seq<Value>)
    decreases |sources|
  {
    if |sources| == 0 then []
    else (if TypeChecks.IsPlainObjectCheck(st, sources[0]) then [sources[0]] else []) + PlainSources(st, sources[1..])
  }

  lemma {:induction false} PlainSourcesStay(st: Store, st2: Store, res: Addr, sources: seq<Value>)
    requires Grows(st, st2, res) && AllSettled(st, res, sources)
    ensures PlainSources(st2, sources) == PlainSources(st, sources)
    ensures AllSettled(st, res, PlainSources(st, sources))
    decreases |sources|
  {
    if |sources| > 0 {
      SettledStays(st, st2, res, sources[0]);
      PlainSourcesStay(st, st2, res, sources[1..]);
      var rest := PlainSources(st, sources[1..]);
      var head := if TypeChecks.IsPlainObjectCheck(st, sources[0]) then [sources[0]] else [];
      assert PlainSources(st, sources) == head + rest;
      forall i | 0 <= i < |head + rest| ensures Settled(st, res, (head + rest)[i]) {
        if i >= |head| {
          assert (head + rest)[i] == rest[i - |head|];
        }
      }
    }
  }

  /** Dropping the sources that are not plain objects changes nothing: they
      are skipped, null included. */
  lemma {:induction false} MergeSourcesSkips(st: Store, res: Addr, sources: seq<Value>, depth: nat)
    requires depth <= MaxDepth && Building(st, res) && AllSettled(st, res, sources)
    ensures MergeSources(st, res, sources, depth) == MergeSources(st, res, PlainSources(st, sources), depth)
    decreases |sources|
  {
    if |sources| > 0 {
      var src := sources[0];
      var rest := PlainSources(st, sources[1..]);
      var st1 := if TypeChecks.IsPlainObjectCheck(st, src)
        then MergeKeys(st, res, src, OwnKeys(ObjAt(st, src.addr)), depth)
        else st;
      if TypeChecks.IsPlainObjectCheck(st, src) {
        MergeKeysFrame(st, res, src, OwnKeys(ObjAt(st, src.addr)), depth);
      }
      assert Grows(st, st1, res) && Building(st1, res);
      SourceKeysStay(st, st1, res, sources[1..]);
      PlainSourcesStay(st, st1, res, sources[1..]);
      MergeSourcesSkips(st1, res, sources[1..], depth);
      if TypeChecks.IsPlainObjectCheck(st, src) {
        assert PlainSources(st, sources) == [src] + rest;
        assert ([src] + rest)[0] == src && ([src] + rest)[1..] == rest;
      } else {
        assert PlainSources(st, sources) == rest;
      }
    }
  }

  // ---------------------------------------------------------------- the whole call

  /** Dangerous keys are never among the keys a source supplies. */
  lemma {:induction false} SourceKeysSafe(st: Store, sources: seq<Value>)
    ensures forall k :: k in SourceKeys(st, sources) ==> k !in Path.DangerousKeys
    decreases |sources|
  {
    if |sources| > 0 {
      SourceKeysSafe(st, sources[1..]);
    }
  }

  /** The result is a new plain object; the target, the sources and every
      object nested in them are left exactly as they were. */
  lemma {:induction false} MergeDeepNoMutation(st: Store, target: Value, sources: seq<Value>)
    requires Wf(st)
    ensures var r := MergeDeep(st, target, sources);
      && Wf(r.0) && Extends(st, r.0)
      && r.1 == Ref(st.next) && st.next !in st.objs && st.next in r.0.objs && r.0.objs[st.next].kind == Plain(false)
  {
    MergeInternalFrame(st, target, sources, 0);
  }

  /** The result's keys are the target's own keys together with the safe keys
      of the plain sources. */
  lemma {:induction false} MergeDeepKeys(st: Store, target: Value, sources: seq<Value>)
    requires Wf(st) && forall i :: 0 <= i < |sources| ==> Live(st, sources[i])
    ensures var r := MergeDeep(st, target, sources);
      ObjAt(r.0, st.next).props.vals.Keys == TargetKeys(st, target) + SourceKeys(st, sources)
  {
    MergeInternalKeys(st, target, sources, 0);
  }

  /** A key no plain source supplies keeps the target's very value (nested
      objects are shared, not copied). In particular a dangerous key is in the
      result exactly when the target has it as its own key, with the target's
      value: the merge never writes one. */
  lemma {:induction false} MergeDeepUnsupplied(st: Store, target: Value, sources: seq<Value>, k: string)
    requires Wf(st) && forall i :: 0 <= i < |sources| ==> Live(st, sources[i])
    requires k !in SourceKeys(st, sources) || k in Path.DangerousKeys
    ensures var r := MergeDeep(st, target, sources);
      && (k in ObjAt(r.0, st.next).props.vals <==> k in TargetKeys(st, target))
      && Field(r.0, st.next, k) == FieldGet(SpreadFields(st, target), k)
      && (target.Ref? && k in TargetKeys(st, target) ==> Field(r.0, st.next, k) == OwnValue(ObjAt(st, target.addr), k))
  {
    SourceKeysSafe(st, sources);
    MergeInternalKeys(st, target, sources, 0);
    SpreadFieldsFacts(st, target);
    AllocFacts(st, NewPlain(SpreadFields(st, target)));
    var (st1, res) := Alloc(st, NewPlain(SpreadFields(st, target)));
    assert Grows(st, st1, res);
    SourceKeysStay(st, st1, res, sources);
    MergeSourcesOther(st1, res, sources, 0, k);
  }

  /** The last plain source decides a key whose value there is not a plain
      object, arrays included: that value replaces whatever came before. */
  lemma {:induction false} MergeDeepLastWins(st: Store, target: Value, sources: seq<Value>, k: string)
    requires Wf(st) && Closed(st) && |sources| > 0
    requires forall i :: 0 <= i < |sources| ==> Live(st, sources[i])
    requires var last := sources[|sources| - 1];
      && TypeChecks.IsPlainObjectCheck(st, last) && k in OwnKeys(st.objs[last.addr]) && k !in Path.DangerousKeys
      && !TypeChecks.IsPlainObjectCheck(st, OwnValue(st.objs[last.addr], k))
    ensures var r := MergeDeep(st, target, sources);
      var last := sources[|sources| - 1];
      Field(r.0, st.next, k) == OwnValue(st.objs[last.addr], k)
  {
    var last := sources[|sources| - 1];
    var sv := OwnValue(st.objs[last.addr], k);
    OwnValueLive(st, last.addr, k);
    OwnKeysAreOwn(st.objs[last.addr], k);
    assert GetProp(st, last, k) == sv;
    SpreadFieldsFacts(st, target);
    AllocFacts(st, NewPlain(SpreadFields(st, target)));
    var (st1, res) := Alloc(st, NewPlain(SpreadFields(st, target)));
    assert Grows(st, st1, res);
    SourceKeysStay(st, st1, res, sources);
    SettledStays(st, st1, res, last);
    SameObjSameProp(st, st1, last.addr, k);
    SettledStays(st, st1, res, sv);
    MergeSourcesLastWins(st1, res, sources, 0, k);
  }

  /** With no sources the result is a shallow copy: a new plain object with
      the target's own keys, in order, holding the target's values. */
  lemma {:induction false} MergeDeepNoSources(st: Store, target: Value)
    requires Wf(st)
    ensures var r := MergeDeep(st, target, []);
      && r.1 == Ref(st.next) && r.0.objs[st.next] == NewPlain(SpreadFields(st, target))
      && (target.Ref? ==> ObjAt(r.0, st.next).props.order == OwnKeys(ObjAt(st, target.addr)))
      && (target.Ref? ==> forall k :: k in OwnKeys(ObjAt(st, target.addr)) ==>
            Field(r.0, st.next, k) == OwnValue(ObjAt(st, target.addr), k))
  {
    SpreadFieldsFacts(st, target);
  }

  /** Non-plain sources, null included, are skipped: merging only the plain
      ones gives the same result. */
  lemma {:induction false} MergeDeepSkipsNonPlain(st: Store, target: Value, sources: seq<Value>)
    requires Wf(st) && forall i :: 0 <= i < |sources| ==> Live(st, sources[i])
    ensures MergeDeep(st, target, sources) == MergeDeep(st, target, PlainSources(st, sources))
  {
    var (st1, res) := Alloc(st, NewPlain(SpreadFields(st, target)));
    SpreadFieldsFacts(st, target);
    AllocFacts(st, NewPlain(SpreadFields(st, target)));
    assert Grows(st, st1, res);
    SourceKeysStay(st, st1, res, sources);
    MergeSourcesSkips(st1, res, sources, 0);
    PlainSourcesStay(st, st1, res, sources);
  }
}

=== FILE: omit.dfy ===
/** `omit(obj, keys)`: a new object holding the own keys of `obj` that are
    not listed. */
module ObjectOmit {
  import opened JsValue
  import ObjectPick

  /** The object the `for...in` loop has built after the enumerated keys
      `own`: `result[key] = obj[key]` for each own key not in the set of
      listed keys. */
  function Omitted(o: Obj, keys: seq<string>, own: seq<string>): (r: Obj)
    ensures ValidObj(r) && !r.kind.Array?
    decreases |own|
  {
    if |own| == 0 then NewPlain(NoFields)
    else
      var acc := Omitted(o, keys, own[..|own| - 1]);
      var k := own[|own| - 1];
      AssignValid(acc, k, OwnValue(o, k));
      if HasOwn(o, k) && k !in keys then Assign(acc, k, OwnValue(o, k)) else acc
  }

  /** `omit(obj, keys)`: the loop runs over `Object.keys(obj)`; the result is a
      new object and `obj` is left as it was. */
  function Omit(st: Store, obj: Addr, keys: seq<string>): (r: (Store, Value))
    requires Wf(st)
    ensures Wf(r.0) && Extends(st, r.0) && r.1 == Ref(st.next) && st.next !in st.objs
    ensures st.next in r.0.objs && r.0.objs[st.next] == Omitted(ObjAt(st, obj), keys, OwnKeys(ObjAt(st, obj)))
  {
    var o := Omitted(ObjAt(st, obj), keys, OwnKeys(ObjAt(st, obj)));
    AllocFacts(st, o);
    var (st2, a) := Alloc(st, o);
    (st2, Ref(a))
  }

  /** The keys of `ks` that are not listed, in order. */
  function Unlisted(ks: seq<string>, keys: seq<string>): (r: seq<string>)
    decreases |ks|
  {
    if |ks| == 0 then []
    else (if ks[0] in keys then [] else [ks[0]]) + Unlisted(ks[1..], keys)
  }

  lemma {:induction false} UnlistedAppend(ks: seq<string>, k: string, keys: seq<string>)
    ensures Unlisted(ks + [k], keys) == Unlisted(ks, keys) + (if k in keys then [] else [k])
    decreases |ks|
  {
    if |ks| > 0 {
      assert (ks + [k])[1..] == ks[1..] + [k];
      UnlistedAppend(ks[1..], k, keys);
    }
  }

  /** A key is in the result exactly when it is an enumerated own key that is
      not listed, and then it holds `obj`'s value. */
  lemma {:induction false} OmittedKeys(o: Obj, keys: seq<string>, own: seq<string>, k: string)
    requires k != "__proto__" || !HasOwn(o, k)
    ensures var r := Omitted(o, keys, own);
      && (k in r.props.vals <==> k in own && HasOwn(o, k) && k !in keys)
      && (k in r.props.vals ==> r.props.vals[k] == OwnValue(o, k))
    decreases |own|
  {
    if |own| > 0 {
      var init := own[..|own| - 1];
      OmittedKeys(o, keys, init, k);
      assert own == init + [own[|own| - 1]];
    }
  }

  /** On an ordinary object without an own `__proto__` key the result keeps
      the enumeration order of the keys it retains and stays a plain object. */
  lemma {:induction false} OmittedOrder(o: Obj, keys: seq<string>, own: seq<string>)
    requires ValidObj(o) && !o.kind.Array? && "__proto__" !in o.props.vals
    requires Distinct(own) && forall i :: 0 <= i < |own| ==> own[i] in o.props.vals
    ensures var r := Omitted(o, keys, own);
      r.kind == Plain(false) && r.props.order == Unlisted(own, keys)
    decreases |own|
  {
    if |own| > 0 {
      var init := own[..|own| - 1];
      var k := own[|own| - 1];
      DistinctInit(own);
      InitKeys(own, init, o.props.vals);
      OmittedOrder(o, keys, init);
      assert own == init + [k];
      UnlistedAppend(init, k, keys);
      OmittedKeys(o, keys, init, k);
      OmitStep(o, keys, Omitted(o, keys, init), k);
    }
  }

  lemma {:induction false} InitKeys(own: seq<string>, init: seq<string>, m: map<string, Value>)
    requires |own| > 0 && init == own[..|own| - 1]
    requires forall i :: 0 <= i < |own| ==> own[i] in m
    ensures forall i :: 0 <= i < |init| ==> init[i] in m
  {
    forall i | 0 <= i < |init| ensures init[i] in m {
      assert init[i] == own[i];
    }
  }

  /** One more enumerated key: a key not yet in the result is appended when
      it is not listed, and the result stays plain. */
  lemma {:induction false} OmitStep(o: Obj, keys: seq<string>, acc: Obj, k: string)
    requires k in o.props.vals && k != "__proto__" && acc.kind == Plain(false) && k !in acc.props.vals
    ensures var r := if HasOwn(o, k) && k !in keys then Assign(acc, k, OwnValue(o, k)) else acc;
      r.kind == Plain(false) && r.props.order == acc.props.order + (if k in keys then [] else [k])
  {
  }

  /** With nothing listed, the result has exactly `obj`'s keys, order and values. */
  lemma {:induction false} OmitNothing(o: Obj)
    requires ValidObj(o) && !o.kind.Array? && "__proto__" !in o.props.vals
    ensures Omitted(o, [], OwnKeys(o)).props == o.props
  {
    var own := o.props.order;
    assert OwnKeys(o) == own;
    OmittedOrder(o, [], own);
    UnlistedNothing(own);
    OmitNothingVals(o);
  }

  lemma {:induction false} OmitNothingVals(o: Obj)
    requires ValidObj(o) && !o.kind.Array? && "__proto__" !in o.props.vals
    ensures Omitted(o, [], o.props.order).props.vals == o.props.vals
  {
    var r := Omitted(o, [], o.props.order);
    forall k | k in r.props.vals
      ensures k in o.props.vals && r.props.vals[k] == o.props.vals[k]
    {
      OmittedKeys(o, [], o.props.order, k);
    }
    forall k | k in o.props.vals
      ensures k in r.props.vals
    {
      OmittedKeys(o, [], o.props.order, k);
    }
  }

  lemma {:induction false} UnlistedNothing(ks: seq<string>)
    ensures Unlisted(ks, []) == ks
    decreases |ks|
  {
    if |ks| > 0 {
      UnlistedNothing(ks[1..]);
    }
  }

  /** Over the own keys of an ordinary object, `pick` and `omit` with the same
      list of string keys split the keys: no key lands in both, and together
      they hold all. */
  lemma {:induction false} PickOmitPartition(o: Obj, keys: seq<string>)
    requires ValidObj(o) && !o.kind.Array? && "__proto__" !in o.props.vals
    ensures var p := ObjectPick.Picked(o, keys).props.vals.Keys;
      var q := Omitted(o, keys, OwnKeys(o)).props.vals.Keys;
      p !! q && p + q == o.props.vals.Keys
  {
    var p := ObjectPick.Picked(o, keys).props.vals.Keys;
    var q := Omitted(o, keys, OwnKeys(o)).props.vals.Keys;
    forall k | k in p + q + o.props.vals.Keys
      ensures (k in p || k in q) <==> k in o.props.vals
      ensures !(k in p && k in q)
    {
      ObjectPick.PickedKeys(o, keys, k);
      OmittedKeys(o, keys, OwnKeys(o), k);
    }
  }
}

=== FILE: once.dfy ===
/** `once(func)`: a wrapper that invokes `func` on its first call only and
    hands every later call the value that first invocation returned. The
    closure keeps two variables, a `called` flag and the cached `result`;
    `isCalled` reads the flag. `func` is a function from the call's `this`
    and arguments (the type parameter `A`) to how it completed. */
module FunctionOnce {
  import opened JsValue

  /** How one invocation of `func` ended: a returned value or a thrown one. */
  datatype Completion = Returned(value: Value) | Threw(thrown: Value)

  /** The closure's state, plus the arguments `func` has been invoked with. */
  datatype Once<A> = Once(called: bool, result: Value, invoked: seq<A>)

  /** A fresh wrapper: not called, `result` still undefined. */
  function Create<A>(): (o: Once<A>)
    ensures !IsCalled(o) && o.invoked == []
  {
    Once(false, Undefined, [])
  }

  /** The `isCalled` getter. */
  function IsCalled<A>(o: Once<A>): bool {
    o.called
  }

  /** The state after a call, and how the call ended for its caller. */
  datatype Reply<A> = Reply(next: Once<A>, out: Completion)

  /** One call of the wrapper. The flag is set before `func` runs, so a
      first call that throws still counts, and later calls return the
      `result` it never assigned: undefined. */
  function Call<A>(o: Once<A>, func: A -> Completion, args: A): (r: Reply<A>)
    ensures IsCalled(r.next)
    ensures IsCalled(o) ==> r.next == o && r.out == Returned(o.result)
    ensures !IsCalled(o) ==> r.next.invoked == o.invoked + [args] && r.out == func(args)
  {
    if !o.called then
      match func(args)
      case Returned(v) => Reply(Once(true, v, o.invoked + [args]), Returned(v))
      case Threw(e) => Reply(Once(true, o.result, o.invoked + [args]), Threw(e))
    else Reply(o, Returned(o.result))
  }

  /** A sequence of calls: the final state and what each call gave back. */
  datatype Trace<A> = Trace(final: Once<A>, outs: seq<Completion>)

  function Run<A>(o: Once<A>, func: A -> Completion, calls: seq<A>): (t: Trace<A>)
    ensures |t.outs| == |calls|
    decreases |calls|
  {
    if |calls| == 0 then Trace(o, [])
    else
      var r := Call(o, func, calls[0]);
      var rest := Run(r.next, func, calls[1..]);
      Trace(rest.final, [r.out] + rest.outs)
  }

  /** What every call after the first returns: the first invocation's value,
      or undefined when it threw. */
  function Cached(first: Completion): Value {
    if first.Returned? then first.value else Undefined
  }

  /** Once called, the wrapper never changes again and keeps returning its
      result. */
  lemma {:induction false} RunWhenCalled<A>(o: Once<A>, func: A -> Completion, calls: seq<A>)
    requires IsCalled(o)
    ensures Run(o, func, calls).final == o
    ensures forall i :: 0 <= i < |calls| ==> Run(o, func, calls).outs[i] == Returned(o.result)
    decreases |calls|
  {
    if |calls| > 0 {
      RunWhenCalled(o, func, calls[1..]);
    }
  }

  /** Over any sequence of calls from a fresh wrapper: `func` runs once,
      with the first call's arguments, exactly when there was a call; the
      first call gets what `func` gave; every later call gets the cached
      value, whatever its own arguments; `isCalled` is true exactly when
      some call happened. */
  lemma {:induction false} OnceSpec<A>(func: A -> Completion, calls: seq<A>)
    ensures var t := Run(Create(), func, calls);
      && t.final.invoked == (if |calls| == 0 then [] else [calls[0]])
      && (IsCalled(t.final) <==> |calls| > 0)
      && (forall i :: 0 <= i < |calls| ==>
            t.outs[i] == if i == 0 then func(calls[0]) else Returned(Cached(func(calls[0]))))
  {
    if |calls| > 0 {
      var r := Call(Create(), func, calls[0]);
      assert r.next.result == Cached(func(calls[0]));
      RunWhenCalled(r.next, func, calls[1..]);
    }
  }

  /** `isCalled` is false before the first call and true after every
      prefix that holds one: it never goes back. */
  lemma {:induction false} IsCalledMonotone<A>(func: A -> Completion, calls: seq<A>, i: nat, j: nat)
    requires i <= j <= |calls|
    ensures IsCalled(Run(Create(), func, calls[..i]).final) ==> IsCalled(Run(Create(), func, calls[..j]).final)
    ensures IsCalled(Run(Create(), func, calls[..i]).final) <==> i > 0
  {
    OnceSpec(func, calls[..i]);
    OnceSpec(func, calls[..j]);
  }

  /** A falsy first result (undefined, null, 0, false, '') is cached like
      any other: the second call returns it without invoking `func`. */
  lemma {:induction false} FalsyResultCached<A>(func: A -> Completion, a: A, b: A)
    requires func(a).Returned? && !Truthy(func(a).value)
    ensures Run(Create(), func, [a, b]).outs == [func(a), func(a)]
    ensures Run(Create(), func, [a, b]).final.invoked == [a]
  {
    OnceSpec(func, [a, b]);
  }

  /** A first call that throws is not retried: later calls return
      undefined. */
  lemma {:induction false} ThrowNotRetried<A>(func: A -> Completion, a: A, b: A)
    requires func(a).Threw?
    ensures Run(Create(), func, [a, b]).outs == [func(a), Returned(Undefined)]
    ensures Run(Create(), func, [a, b]).final.invoked == [a]
  {
    OnceSpec(func, [a, b]);
  }
}

=== FILE: path.dfy ===
/**
 * The path engine: turning a dotted string or a key array into keys, and
 * spotting the keys that reach a shared prototype.
 */
module Path {
  import Strings

  /** The property names that lead to a prototype object. */
  const DangerousKeys: set<string> := {"__proto__", "constructor", "prototype"}

  /** A path as callers pass it: `'a.b.c'` or `['a', 'b', 'c']`. */
  datatype PathSpec = Dotted(s: string) | KeyArray(keys: seq<string>)

  /** `parsePath`: an array is returned as it is; a string is split on every '.'. */
  function ParsePath(p: PathSpec): (keys: seq<string>)
    ensures p.KeyArray? ==> keys == p.keys
    ensures p.Dotted? ==> |keys| == Strings.Count(p.s, '.') + 1
    ensures p.Dotted? ==> Strings.Join(keys, ".") == p.s
    ensures p.Dotted? ==> forall i :: 0 <= i < |keys| ==> '.' !in keys[i]
  {
    match p
    case KeyArray(ks) => ks
    case Dotted(s) => Strings.Split(s, '.')
  }

  /** `parsePath('')` is `['']`: an empty segment is a key like any other. */
  lemma {:induction false} EmptyPathIsOneEmptyKey()
    ensures ParsePath(Dotted("")) == [""]
  {
  }

  /** A key array with no '.' inside a key survives being joined and re-parsed. */
  lemma {:induction false} ParseJoined(keys: seq<string>)
    requires |keys| >= 1
    requires forall i :: 0 <= i < |keys| ==> '.' !in keys[i]
    ensures ParsePath(Dotted(Strings.Join(keys, "."))) == keys
  {
    Strings.SplitJoin(keys, '.');
  }

  /** `hasDangerousKey`: `keys.some(k => DANGEROUS_KEYS.has(k))`, scanned left
      to right. A path that passes holds none of the three keys. */
  predicate HasDangerousKey(keys: seq<string>)
    ensures !HasDangerousKey(keys) ==> forall i :: 0 <= i < |keys| ==> keys[i] !in DangerousKeys
  {
    |keys| > 0 && (keys[0] in DangerousKeys || HasDangerousKey(keys[1..]))
  }

  /** The scan reports exactly the paths that hold one of the three keys. */
  lemma {:induction false} DangerousIff(keys: seq<string>)
    ensures HasDangerousKey(keys) <==>
      exists i :: 0 <= i < |keys| && (keys[i] == "__proto__" || keys[i] == "constructor" || keys[i] == "prototype")
  {
    if |keys| > 0 {
      DangerousIff(keys[1..]);
      if HasDangerousKey(keys[1..]) {
        var i :| 0 <= i < |keys[1..]| && keys[1..][i] in DangerousKeys;
        assert keys[i + 1] == keys[1..][i];
      }
      if exists i :: 0 <= i < |keys| && keys[i] in DangerousKeys {
        var i :| 0 <= i < |keys| && keys[i] in DangerousKeys;
        if i > 0 {
          assert keys[1..][i - 1] == keys[i];
        }
      }
    }
  }

  /** A path is dangerous exactly when one of its two halves is. */
  lemma {:induction false} DangerousConcat(a: seq<string>, b: seq<string>)
    ensures !HasDangerousKey([])
    ensures HasDangerousKey(a + b) <==> HasDangerousKey(a) || HasDangerousKey(b)
  {
    if |a| > 0 {
      assert (a + b)[1..] == a[1..] + b;
      DangerousConcat(a[1..], b);
    } else {
      assert a + b == b;
    }
  }
}

=== FILE: pick.dfy ===
/** `pick(obj, keys)`: a new object holding the listed keys that `obj` has. */
module ObjectPick {
  import opened JsValue

  /** The object the loop has built after the listed keys: `result[key] =
      obj[key]` for each key that `key in obj` finds, in list order. */
  function Picked(o: Obj, keys: seq<string>): (r: Obj)
    ensures ValidObj(r) && !r.kind.Array?
    decreases |keys|
  {
    if |keys| == 0 then NewPlain(NoFields)
    else
      var acc := Picked(o, keys[..|keys| - 1]);
      var k := keys[|keys| - 1];
      AssignValid(acc, k, OwnValue(o, k));
      if HasOwn(o, k) then Assign(acc, k, OwnValue(o, k)) else acc
  }

  /** `pick(obj, keys)`: the result is a new object and `obj` is left as it was. */
  function Pick(st: Store, obj: Addr, keys: seq<string>): (r: (Store, Value))
    requires Wf(st)
    ensures Wf(r.0) && Extends(st, r.0) && r.1 == Ref(st.next) && st.next !in st.objs
    ensures st.next in r.0.objs && r.0.objs[st.next] == Picked(ObjAt(st, obj), keys)
    ensures |keys| == 0 ==> r.0.objs[st.next] == NewPlain(NoFields)
  {
    var o := Picked(ObjAt(st, obj), keys);
    AllocFacts(st, o);
    var (st2, a) := Alloc(st, o);
    (st2, Ref(a))
  }

  /** A key is in the result exactly when it is listed and `obj` has it, and
      then it holds `obj`'s value. A `__proto__` key that `obj` does not own
      is never created. */
  lemma {:induction false} PickedKeys(o: Obj, keys: seq<string>, k: string)
    requires k != "__proto__" || !HasOwn(o, k)
    ensures var r := Picked(o, keys);
      && (k in r.props.vals <==> k in keys && HasOwn(o, k))
      && (k in r.props.vals ==> r.props.vals[k] == OwnValue(o, k))
    decreases |keys|
  {
    if |keys| > 0 {
      var init := keys[..|keys| - 1];
      PickedKeys(o, init, k);
      assert keys == init + [keys[|keys| - 1]];
    }
  }
}

=== FILE: seqs.dfy ===
/** Order-keeping sequence notions the array and collection functions are
    specified with: subsequences, filtering, concatenation of pieces. */
module Seqs {

  /** `s` is `t` with some elements left out, the rest in the same order. */
  predicate Subseq<T(==)>(s: seq<T>, t: seq<T>)
    decreases |t|
  {
    if |s| == 0 then true
    else if |t| == 0 then false
    else if s[0] == t[0] then Subseq(s[1..], t[1..])
    else Subseq(s, t[1..])
  }

  lemma {:induction false} SubseqRefl<T>(s: seq<T>)
    ensures Subseq(s, s)
    decreases |s|
  {
    if |s| > 0 {
      SubseqRefl(s[1..]);
    }
  }

  /** Every element of a subsequence occurs in the whole. */
  lemma {:induction false} SubseqMembers<T>(s: seq<T>, t: seq<T>)
    requires Subseq(s, t)
    ensures forall x :: x in s ==> x in t
    ensures |s| <= |t|
    decreases |t|
  {
    if |s| > 0 {
      if s[0] == t[0] {
        SubseqMembers(s[1..], t[1..]);
        assert forall x :: x in s ==> x == s[0] || x in s[1..];
      } else {
        SubseqMembers(s, t[1..]);
      }
    }
  }

  /** Dropping the first element keeps a subsequence. */
  lemma {:induction false} SubseqTail<T>(s: seq<T>, t: seq<T>)
    requires |s| > 0 && Subseq(s, t)
    ensures Subseq(s[1..], t)
    decreases |t|, 1
  {
    if s[0] == t[0] {
      SubseqCons(s[1..], t);
    } else {
      SubseqTail(s, t[1..]);
      SubseqCons(s[1..], t);
    }
  }

  /** A subsequence of the tail is a subsequence of the whole. */
  lemma {:induction false} SubseqCons<T>(u: seq<T>, t: seq<T>)
    requires |t| > 0 && Subseq(u, t[1..])
    ensures Subseq(u, t)
    decreases |t|, 0
  {
    if |u| > 0 && u[0] == t[0] {
      SubseqTail(u, t[1..]);
    }
  }

  lemma {:induction false} SubseqTrans<T>(r: seq<T>, s: seq<T>, t: seq<T>)
    requires Subseq(r, s) && Subseq(s, t)
    ensures Subseq(r, t)
    decreases |t|
  {
    if |r| > 0 {
      if s[0] == t[0] {
        if r[0] == s[0] {
          SubseqTrans(r[1..], s[1..], t[1..]);
        } else {
          SubseqTrans(r, s[1..], t[1..]);
        }
      } else {
        SubseqTrans(r, s, t[1..]);
        if r[0] == t[0] {
          SubseqTail(r, t[1..]);
        }
      }
    }
  }

  /** The elements of `a` that satisfy `p`, in order: `a.filter(p)`. */
  function Keep<T>(a: seq<T>, p: T -> bool): (r: seq<T>)
    ensures |r| <= |a|
    decreases |a|
  {
    if |a| == 0 then [] else (if p(a[0]) then [a[0]] else []) + Keep(a[1..], p)
  }

  /** An element is kept exactly when it occurs and satisfies `p`. */
  lemma {:induction false} KeepMembers<T>(a: seq<T>, p: T -> bool)
    ensures forall x :: x in Keep(a, p) <==> x in a && p(x)
    decreases |a|
  {
    if |a| > 0 {
      KeepMembers(a[1..], p);
      assert forall x :: x in a <==> x == a[0] || x in a[1..];
    }
  }

  lemma {:induction false} KeepAppend<T>(a: seq<T>, b: seq<T>, p: T -> bool)
    ensures Keep(a + b, p) == Keep(a, p) + Keep(b, p)
    decreases |a|
  {
    if |a| > 0 {
      assert (a + b)[1..] == a[1..] + b;
      KeepAppend(a[1..], b, p);
    } else {
      assert a + b == b;
    }
  }

  /** Filtering one more element at the end, as a loop over the input does. */
  lemma {:induction false} KeepSnoc<T>(a: seq<T>, i: nat, p: T -> bool)
    requires i < |a|
    ensures Keep(a[..i + 1], p) == Keep(a[..i], p) + (if p(a[i]) then [a[i]] else [])
  {
    assert a[..i + 1] == a[..i] + [a[i]];
    KeepAppend(a[..i], [a[i]], p);
  }

  /** The kept elements form a subsequence of the input. */
  lemma {:induction false} KeepSubseq<T>(a: seq<T>, p: T -> bool)
    ensures Subseq(Keep(a, p), a)
    decreases |a|
  {
    if |a| > 0 {
      var k := Keep(a[1..], p);
      KeepSubseq(a[1..], p);
      if p(a[0]) {
        assert Keep(a, p) == [a[0]] + k;
        assert ([a[0]] + k)[1..] == k;
      } else {
        assert Keep(a, p) == k;
        KeepMembers(a[1..], p);
        if |k| > 0 {
          assert k[0] in k;
          assert k[0] != a[0];
        }
      }
    }
  }

  /** When every element passes, nothing is dropped. */
  lemma {:induction false} KeepAll<T>(a: seq<T>, p: T -> bool)
    requires forall i :: 0 <= i < |a| ==> p(a[i])
    ensures Keep(a, p) == a
    decreases |a|
  {
    if |a| > 0 {
      KeepAll(a[1..], p);
    }
  }

  /** When no element passes, nothing is kept. */
  lemma {:induction false} KeepNone<T>(a: seq<T>, p: T -> bool)
    requires forall i :: 0 <= i < |a| ==> !p(a[i])
    ensures Keep(a, p) == []
    decreases |a|
  {
    if |a| > 0 {
      KeepNone(a[1..], p);
    }
  }

  /** Every kept element satisfies the test. */
  lemma {:induction false} KeepPasses<T>(a: seq<T>, p: T -> bool)
    ensures forall i :: 0 <= i < |Keep(a, p)| ==> p(Keep(a, p)[i])
    decreases |a|
  {
    if |a| > 0 {
      KeepPasses(a[1..], p);
    }
  }

  /** Filtering twice with the same test is filtering once. */
  lemma {:induction false} KeepIdempotent<T>(a: seq<T>, p: T -> bool)
    ensures Keep(Keep(a, p), p) == Keep(a, p)
  {
    KeepPasses(a, p);
    KeepAll(Keep(a, p), p);
  }

  /** The pieces of `ss` laid end to end. */
  function Concat<T>(ss: seq<seq<T>>): (r: seq<T>)
    decreases |ss|
  {
    if |ss| == 0 then [] else ss[0] + Concat(ss[1..])
  }

  lemma {:induction false} ConcatAppend<T>(ss: seq<seq<T>>, tt: seq<seq<T>>)
    ensures Concat(ss + tt) == Concat(ss) + Concat(tt)
    decreases |ss|
  {
    if |ss| > 0 {
      assert (ss + tt)[1..] == ss[1..] + tt;
      ConcatAppend(ss[1..], tt);
    } else {
      assert ss + tt == tt;
    }
  }
}

=== FILE: set_immutable.dfy ===
/**
 * `setImmutable`: write a value at a path without touching the input. Only
 * the spine of the path is copied, each copy being a fresh plain object
 * spread from the container it replaces; every off-path value is shared.
 */
module ObjectSetImmutable {
  import opened JsValue
  import Path
  import PathGet

  /** `current` is what `setAtDepth` spreads: typeof 'object' and not null. */
  predicate Spreadable(st: Store, current: Value) {
    current.Ref? && TypeOf(st, current) == TObject
  }

  /** The own enumerable properties the copy at this level starts from:
      those of `current`, or none when it is a primitive, null, undefined or
      a function (which are replaced by `{}`). */
  function Base(st: Store, current: Value): Fields {
    if Spreadable(st, current) then SpreadFields(st, current) else NoFields
  }

  /** `currentObj[key]`: a read of `current`, or of the empty `{}` standing in
      for it. */
  function Below(st: Store, current: Value, key: string): Value {
    if Spreadable(st, current) then GetProp(st, current, key) else Undefined
  }

  /** `setAtDepth(current, keys, i, value)`: allocate the copy `{ ...currentObj }`,
      build the rest of the path below it, then assign the result to the key. */
  function SetAtDepth(st: Store, current: Value, keys: seq<string>, i: nat, value: Value): (r: (Store, Value))
    requires i <= |keys|
    decreases |keys| - i
  {
    if i == |keys| then (st, value)
    else
      var key := keys[i];
      var (st1, c) := Alloc(st, NewPlain(Base(st, current)));
      var (st2, v) := SetAtDepth(st1, Below(st, current, key), keys, i + 1, value);
      (Store(st2.objs[c := Assign(ObjAt(st2, c), key, v)], st2.next), Ref(c))
  }

  /** `setImmutable(obj, path, value)`. */
  function SetImmutable(st: Store, obj: Value, path: Path.PathSpec, value: Value): (r: (Store, Value))
    ensures Path.HasDangerousKey(Path.ParsePath(path)) ==> r == (st, obj)
    ensures |Path.ParsePath(path)| == 0 ==> r == (st, value)
  {
    var keys := Path.ParsePath(path);
    if Path.HasDangerousKey(keys) then (st, obj) else SetAtDepth(st, obj, keys, 0, value)
  }

  // ---------------------------------------------------------------- one level

  /** The copy made at level `i` is a fresh plain object at the next free
      address. Its keys are the spread keys of `current` with the path key
      added last when new (only the path key when `current` is not an object);
      the path key holds the rebuilt rest of the path, and every other key
      holds the very value `current` had. */
  lemma {:induction false} Level(st: Store, current: Value, keys: seq<string>, i: nat, value: Value)
    requires Wf(st) && i < |keys| && keys[i] != "__proto__"
    ensures var r := SetAtDepth(st, current, keys, i, value);
      var key := keys[i];
      var copy := ObjAt(r.0, st.next);
      && r.1 == Ref(st.next) && st.next !in st.objs && st.next in r.0.objs
      && copy.kind == Plain(false)
      && (Spreadable(st, current) ==>
            var before := OwnKeys(ObjAt(st, current.addr));
            copy.props.order == if key in before then before else before + [key])
      && (!Spreadable(st, current) ==> copy.props.order == [key])
      && FieldGet(copy.props, key) == SetAtDepth(Alloc(st, NewPlain(Base(st, current))).0, Below(st, current, key), keys, i + 1, value).1
      && forall k :: k != key && k in Base(st, current).vals ==>
           k in copy.props.vals && copy.props.vals[k] == OwnValue(ObjAt(st, current.addr), k)
  {
    var key := keys[i];
    SpreadFieldsFacts(st, current);
    AllocFacts(st, NewPlain(Base(st, current)));
    var (st1, c) := Alloc(st, NewPlain(Base(st, current)));
    SetAtDepthExtends(st1, Below(st, current, key), keys, i + 1, value);
  }

  /** The deeper levels only allocate and then fill in their own copies:
      nothing below the allocation mark they started from changes. */
  lemma {:induction false} Untouched(st: Store, current: Value, keys: seq<string>, i: nat, value: Value)
    requires i <= |keys|
    ensures var r := SetAtDepth(st, current, keys, i, value);
      && st.next <= r.0.next
      && (forall a: Addr :: a < st.next ==> ObjAt(r.0, a) == ObjAt(st, a) && (a in r.0.objs <==> a in st.objs))
      && (i < |keys| ==> r.1 == Ref(st.next) && st.next in r.0.objs)
      && (forall a :: a in r.0.objs ==> a in st.objs || st.next <= a < r.0.next)
    decreases |keys| - i
  {
    if i < |keys| {
      var (st1, c) := Alloc(st, NewPlain(Base(st, current)));
      Untouched(st1, Below(st, current, keys[i]), keys, i + 1, value);
    }
  }

  /** The last act of a level: the copy at the next free address gets the path
      key assigned, and no other object differs from the store the deeper
      levels left behind. */
  lemma {:induction false} TopCopy(st: Store, current: Value, keys: seq<string>, i: nat, value: Value)
    requires i < |keys|
    ensures var (st1, c) := Alloc(st, NewPlain(Base(st, current)));
      var (st2, v) := SetAtDepth(st1, Below(st, current, keys[i]), keys, i + 1, value);
      var r := SetAtDepth(st, current, keys, i, value);
      && r.1 == Ref(c) && c == st.next
      && ObjAt(r.0, c) == Assign(NewPlain(Base(st, current)), keys[i], v)
      && forall a: Addr :: a != c ==> ObjAt(r.0, a) == ObjAt(st2, a)
  {
    var (st1, c) := Alloc(st, NewPlain(Base(st, current)));
    Untouched(st1, Below(st, current, keys[i]), keys, i + 1, value);
  }

  /** Building the rest of the path only adds objects: nothing that existed
      changes, so the input is not mutated. */
  lemma {:induction false} SetAtDepthExtends(st: Store, current: Value, keys: seq<string>, i: nat, value: Value)
    requires Wf(st) && i <= |keys|
    ensures Extends(st, SetAtDepth(st, current, keys, i, value).0)
  {
    Untouched(st, current, keys, i, value);
  }

  /** Replacing one allocated object by a valid one keeps the heap well formed. */
  lemma {:induction false} UpdateWf(st: Store, c: Addr, o: Obj)
    requires Wf(st) && c in st.objs && ValidObj(o)
    ensures Wf(Store(st.objs[c := o], st.next))
  {
  }

  /** Building the rest of the path keeps the heap well formed. */
  lemma {:induction false} SetAtDepthWf(st: Store, current: Value, keys: seq<string>, i: nat, value: Value)
    requires Wf(st) && i <= |keys|
    ensures Wf(SetAtDepth(st, current, keys, i, value).0)
    decreases |keys| - i
  {
    if i < |keys| {
      var key := keys[i];
      var base := NewPlain(Base(st, current));
      SpreadFieldsFacts(st, current);
      AllocFacts(st, base);
      var (st1, c) := Alloc(st, base);
      SetAtDepthWf(st1, Below(st, current, key), keys, i + 1, value);
      Untouched(st1, Below(st, current, key), keys, i + 1, value);
      var (st2, v) := SetAtDepth(st1, Below(st, current, key), keys, i + 1, value);
      assert c < st1.next && c in st1.objs;
      assert ObjAt(st2, c) == base && c in st2.objs;
      AssignValid(base, key, v);
      UpdateWf(st2, c, Assign(base, key, v));
    }
  }

  /** Following `keys` from `v` passes only through objects at `lo` or above
      and ends at `value`. */
  predicate ReachesAbove(st: Store, v: Value, keys: seq<string>, value: Value, lo: nat)
    decreases |keys|
  {
    if |keys| == 0 then v == value
    else v.Ref? && v.addr >= lo && ReachesAbove(st, GetProp(st, v, keys[0]), keys[1..], value, lo)
  }

  lemma {:induction false} ReachesAboveReadsBack(st: Store, v: Value, keys: seq<string>, value: Value, lo: nat)
    requires ReachesAbove(st, v, keys, value, lo)
    ensures PathGet.ReadsBack(st, v, keys, value)
    decreases |keys|
  {
    if |keys| > 0 {
      ReachesAboveReadsBack(st, GetProp(st, v, keys[0]), keys[1..], value, lo);
    }
  }

  /** Such a path survives changes to objects below `lo`, which it never visits. */
  lemma {:induction false} ReachesAboveFrame(st: Store, st2: Store, v: Value, keys: seq<string>, value: Value, lo: nat, lo2: nat)
    requires ReachesAbove(st, v, keys, value, lo) && lo2 <= lo
    requires forall a: Addr :: a >= lo ==> ObjAt(st2, a) == ObjAt(st, a)
    ensures ReachesAbove(st2, v, keys, value, lo2)
    decreases |keys|
  {
    if |keys| > 0 {
      SameObjSameProp(st, st2, v.addr, keys[0]);
      ReachesAboveFrame(st, st2, GetProp(st, v, keys[0]), keys[1..], value, lo, lo2);
    }
  }

  /** A plain copy that got `key` assigned reads `key` back. */
  lemma {:induction false} CopyReadsKey(st: Store, c: Addr, base: Obj, key: string, v: Value)
    requires base.kind == Plain(false) && key != "__proto__"
    requires ObjAt(st, c) == Assign(base, key, v)
    ensures GetProp(st, Ref(c), key) == v
  {
  }

  /** Prefixing a path that stays above `c + 1` with a link out of `c`. */
  lemma {:induction false} ReachesAboveLink(st2: Store, st3: Store, c: Addr, key: string, v: Value, rest: seq<string>, value: Value, lo: nat)
    requires ReachesAbove(st2, v, rest, value, c + 1) && lo <= c
    requires GetProp(st3, Ref(c), key) == v
    requires forall a: Addr :: a != c ==> ObjAt(st3, a) == ObjAt(st2, a)
    ensures ReachesAbove(st3, Ref(c), [key] + rest, value, lo)
  {
    assert forall a: Addr :: a >= c + 1 ==> ObjAt(st3, a) == ObjAt(st2, a);
    ReachesAboveFrame(st2, st3, v, rest, value, c + 1, lo);
    assert ([key] + rest)[1..] == rest;
  }

  /** One level of the read-back: if the deeper levels leave a path above the
      copy's address, the copy extends it by the level's key. */
  lemma {:induction false} LevelReads(st: Store, current: Value, keys: seq<string>, i: nat, value: Value)
    requires i < |keys| && keys[i] != "__proto__"
    requires var (st1, c) := Alloc(st, NewPlain(Base(st, current)));
      var r := SetAtDepth(st1, Below(st, current, keys[i]), keys, i + 1, value);
      ReachesAbove(r.0, r.1, keys[i + 1..], value, st1.next)
    ensures var r := SetAtDepth(st, current, keys, i, value);
      ReachesAbove(r.0, r.1, [keys[i]] + keys[i + 1..], value, st.next)
  {
    var key := keys[i];
    var base := NewPlain(Base(st, current));
    var (st1, c) := Alloc(st, base);
    var (st2, v) := SetAtDepth(st1, Below(st, current, key), keys, i + 1, value);
    var st3 := SetAtDepth(st, current, keys, i, value).0;
    TopCopy(st, current, keys, i, value);
    CopyReadsKey(st3, c, base, key, v);
    assert st1.next == c + 1;
    ReachesAboveLink(st2, st3, c, key, v, keys[i + 1..], value, st.next);
  }

  /** Following the rest of the path from the copy passes only through the
      new plain objects and ends at `value`. */
  lemma {:induction false} SetAtDepthReads(st: Store, current: Value, keys: seq<string>, i: nat, value: Value)
    requires i <= |keys| && !Path.HasDangerousKey(keys[i..])
    ensures var r := SetAtDepth(st, current, keys, i, value);
      ReachesAbove(r.0, r.1, keys[i..], value, st.next)
    decreases |keys| - i
  {
    if i < |keys| {
      assert keys[i..] == [keys[i]] + keys[i + 1..];
      var st1 := Alloc(st, NewPlain(Base(st, current))).0;
      SetAtDepthReads(st1, Below(st, current, keys[i]), keys, i + 1, value);
      LevelReads(st, current, keys, i, value);
    }
  }

  // ---------------------------------------------------------------- the whole call

  /** `get` at the same path on the result reads the value written (or the
      default, when the value written is undefined). */
  lemma {:induction false} SetImmutableReadsBack(st: Store, obj: Value, path: Path.PathSpec, value: Value, default: Value)
    requires !Path.HasDangerousKey(Path.ParsePath(path))
    ensures var r := SetImmutable(st, obj, path, value);
      PathGet.Get(r.0, r.1, path, default) == if value.Undefined? then default else value
  {
    var keys := Path.ParsePath(path);
    assert keys[0..] == keys;
    SetAtDepthReads(st, obj, keys, 0, value);
    var r := SetImmutable(st, obj, path, value);
    ReachesAboveReadsBack(r.0, r.1, keys, value, st.next);
    PathGet.ReadsBackGet(r.0, r.1, keys, value, default);
  }

  /** The input is never mutated: every object that existed is unchanged, and
      the heap stays well formed. */
  lemma {:induction false} SetImmutableNoMutation(st: Store, obj: Value, path: Path.PathSpec, value: Value)
    requires Wf(st)
    ensures var r := SetImmutable(st, obj, path, value);
      Extends(st, r.0) && Wf(r.0)
  {
    var keys := Path.ParsePath(path);
    if !Path.HasDangerousKey(keys) {
      SetAtDepthExtends(st, obj, keys, 0, value);
      SetAtDepthWf(st, obj, keys, 0, value);
    }
  }

  /** On a non-empty safe path the result is a new object, not the input; its
      other keys hold the very values the input had (a shallow copy). */
  lemma {:induction false} SetImmutableRoot(st: Store, obj: Value, path: Path.PathSpec, value: Value)
    requires Wf(st)
    requires var keys := Path.ParsePath(path); |keys| > 0 && !Path.HasDangerousKey(keys)
    ensures var r := SetImmutable(st, obj, path, value);
      var key := Path.ParsePath(path)[0];
      var root := ObjAt(r.0, st.next);
      && r.1 == Ref(st.next) && st.next !in st.objs && (Live(st, obj) ==> r.1 != obj)
      && root.kind == Plain(false)
      && forall k :: k != key && k in Base(st, obj).vals ==>
           k in root.props.vals && root.props.vals[k] == OwnValue(ObjAt(st, obj.addr), k)
  {
    var keys := Path.ParsePath(path);
    Level(st, obj, keys, 0, value);
  }
}

=== FILE: set_path.dfy ===
/**
 * `set`: write a value at a path in place, creating the intermediates that
 * are missing or are not objects, and return the object passed in.
 */
module ObjectSet {
  import opened Wrappers
  import opened JsValue
  import Path
  import PathGet

  /** The list `set` spells out itself instead of calling `hasDangerousKey`. */
  const InlineDangerous: seq<string> := ["__proto__", "constructor", "prototype"]

  /** The scan `set` runs over its keys before writing anything. */
  predicate ListsDangerous(keys: seq<string>) {
    exists i :: 0 <= i < |keys| && keys[i] in InlineDangerous
  }

  /** The inline list and the shared path-engine check flag the same paths. */
  lemma {:induction false} InlineListAgrees(keys: seq<string>)
    ensures ListsDangerous(keys) <==> Path.HasDangerousKey(keys)
  {
    Path.DangerousIff(keys);
  }

  /** One pass of the loop on an object: step into the own property `k` when
      its `typeof` is 'object' (null included), otherwise first assign it a
      fresh `{}` and step into what the property now holds. */
  function Step(st: Store, cur: Value, k: string): Result<(Store, Value)>
    requires cur.Ref?
  {
    var o := ObjAt(st, cur.addr);
    if HasOwn(o, k) && TypeOf(st, OwnValue(o, k)) == TObject then Ok((st, OwnValue(o, k)))
    else
      var (st1, f) := Alloc(st, NewPlain(NoFields));
      match PutProp(st1, cur.addr, k, Ref(f))
      case Err(e) => Err(e)
      case Ok(st2) => Ok((st2, GetProp(st2, cur, k)))
  }

  /** The loop of `set` from the container `cur` on, then the final
      assignment of `value` to the last key. The `in` test and the assignment
      throw on a primitive, null or undefined container. */
  function SetFrom(st: Store, cur: Value, keys: seq<string>, value: Value): Result<Store>
    requires |keys| >= 1 && !Path.HasDangerousKey(keys)
    decreases |keys|
  {
    var k := keys[0];
    if !cur.Ref? then
      if |keys| == 1 then Err(TypeError("Cannot create property '" + k + "' on a primitive"))
      else Err(TypeError("Cannot use 'in' operator to search for '" + k + "'"))
    else if |keys| == 1 then PutProp(st, cur.addr, k, value)
    else
      match Step(st, cur, k)
      case Err(e) => Err(e)
      case Ok((st2, next)) => SetFrom(st2, next, keys[1..], value)
  }

  /** What one pass does: either it steps into the existing object and the heap
      is unchanged, or it allocates a fresh empty object, links it under `k`
      and steps into it, changing no other existing object. */
  lemma {:induction false} StepFacts(st: Store, cur: Value, k: string)
    requires Wf(st) && cur.Ref? && cur.addr in st.objs && k != "__proto__"
    requires Step(st, cur, k).Ok?
    ensures var (st2, next) := Step(st, cur, k).value;
      var o := ObjAt(st, cur.addr);
      && Wf(st2) && st.objs.Keys <= st2.objs.Keys && st.next <= st2.next
      && next == GetProp(st2, cur, k)
      && (HasOwn(o, k) && TypeOf(st, OwnValue(o, k)) == TObject ==> st2 == st && next == OwnValue(o, k))
      && (!(HasOwn(o, k) && TypeOf(st, OwnValue(o, k)) == TObject) ==>
            && next == Ref(st.next) && st.next !in st.objs && st2.objs[st.next] == NewPlain(NoFields)
            && forall x :: x in st.objs && x != cur.addr ==> st2.objs[x] == st.objs[x])
  {
    var o := ObjAt(st, cur.addr);
    if !(HasOwn(o, k) && TypeOf(st, OwnValue(o, k)) == TObject) {
      var (st1, f) := Alloc(st, NewPlain(NoFields));
      AllocFacts(st, NewPlain(NoFields));
      PutPropWf(st1, cur.addr, k, Ref(f));
      PutThenGet(st1, cur.addr, k, Ref(f));
    }
  }

  /** `set(obj, path, value)`. An empty key array reaches `keys[-1]`, that is
      the property named "undefined". */
  function Set(st: Store, obj: Value, path: Path.PathSpec, value: Value): (r: Result<(Store, Value)>)
    ensures r.Ok? ==> r.value.1 == obj
    ensures Path.HasDangerousKey(Path.ParsePath(path)) ==> r == Ok((st, obj))
  {
    var keys := Path.ParsePath(path);
    InlineListAgrees(keys);
    if ListsDangerous(keys) then Ok((st, obj))
    else
      var ks := if |keys| == 0 then ["undefined"] else keys;
      match SetFrom(st, obj, ks, value)
      case Ok(st2) => Ok((st2, obj))
      case Err(e) => Err(e)
  }

  // ---------------------------------------------------------------- the spine

  /** The containers the walk passes through in the original heap. */
  predicate OnSpine(st: Store, cur: Value, keys: seq<string>, x: Addr) {
    exists i :: 0 <= i < |keys| && PathGet.Reach(st, cur, keys, i) == Ref(x)
  }

  /** A value reached from `v` ranks no higher than `v`, and strictly lower
      after at least one step. */
  lemma {:induction false} ReachRank(st: Store, rank: map<Addr, nat>, v: Value, keys: seq<string>, i: nat)
    requires Acyclic(st, rank) && i <= |keys|
    ensures var w := PathGet.Reach(st, v, keys, i);
      w.Ref? && w.addr in st.objs ==>
        RankOf(st, rank, w) <= RankOf(st, rank, v) && (i > 0 ==> RankOf(st, rank, w) < RankOf(st, rank, v))
  {
    if i > 0 {
      var p := PathGet.Reach(st, v, keys, i - 1);
      var w := PathGet.Reach(st, v, keys, i);
      assert w == GetProp(st, p, keys[i - 1]);
      if w.Ref? && w.addr in st.objs {
        GetPropRef(st, p, keys[i - 1]);
        OwnValueRank(st, rank, p.addr, keys[i - 1]);
        ReachRank(st, rank, v, keys, i - 1);
      }
    }
  }

  /** The value reached from `cur` is the value reached from the next
      container, one key later. */
  lemma {:induction false} ShiftAll(st: Store, cur: Value, keys: seq<string>, next: Value)
    requires |keys| >= 1 && GetProp(st, cur, keys[0]) == next
    ensures forall i :: 0 <= i < |keys| ==> PathGet.Reach(st, cur, keys, i + 1) == PathGet.Reach(st, next, keys[1..], i)
    ensures PathGet.Reach(st, cur, keys, 0) == cur
  {
    forall i | 0 <= i < |keys|
      ensures PathGet.Reach(st, cur, keys, i + 1) == PathGet.Reach(st, next, keys[1..], i)
    {
      PathGet.ReachShift(st, cur, keys, i);
    }
  }

  /** From a fresh empty object every step creates the next container, so the
      walk cannot fail and touches nothing that existed before. */
  lemma {:induction false} FreshChain(st: Store, f: Addr, keys: seq<string>, value: Value)
    requires Wf(st) && f in st.objs && st.objs[f] == NewPlain(NoFields)
    requires |keys| >= 1 && !Path.HasDangerousKey(keys)
    ensures SetFrom(st, Ref(f), keys, value).Ok?
    ensures var st2 := SetFrom(st, Ref(f), keys, value).value;
      && Wf(st2) && st.objs.Keys <= st2.objs.Keys && st.next <= st2.next
      && (forall x :: x in st.objs && x != f ==> st2.objs[x] == st.objs[x])
    decreases |keys|
  {
    var k := keys[0];
    if |keys| == 1 {
      PutPropWf(st, f, k, value);
    } else {
      assert Step(st, Ref(f), k).Ok?;
      StepFacts(st, Ref(f), k);
      var st2 := Step(st, Ref(f), k).value.0;
      assert Step(st, Ref(f), k).value.1 == Ref(st.next);
      FreshChain(st2, st.next, keys[1..], value);
    }
  }

  /** Get-after-set from a fresh empty object. */
  lemma {:induction false} FreshChainReads(st: Store, f: Addr, keys: seq<string>, value: Value)
    requires Wf(st) && f in st.objs && st.objs[f] == NewPlain(NoFields)
    requires |keys| >= 1 && !Path.HasDangerousKey(keys)
    ensures SetFrom(st, Ref(f), keys, value).Ok?
    ensures PathGet.ReadsBack(SetFrom(st, Ref(f), keys, value).value, Ref(f), keys, value)
    decreases |keys|
  {
    FreshChain(st, f, keys, value);
    var k := keys[0];
    if |keys| == 1 {
      PutThenGet(st, f, k, value);
    } else {
      StepFacts(st, Ref(f), k);
      var st2 := Step(st, Ref(f), k).value.0;
      var g := st.next;
      assert Step(st, Ref(f), k).value.1 == Ref(g);
      FreshChain(st2, g, keys[1..], value);
      FreshChainReads(st2, g, keys[1..], value);
      var st3 := SetFrom(st2, Ref(g), keys[1..], value).value;
      assert SetFrom(st, Ref(f), keys, value) == Ok(st3);
      assert ObjAt(st3, f) == ObjAt(st2, f);
      SameObjSameProp(st3, st2, f, k);
    }
  }

  /** The walk keeps the heap well formed and loses nothing allocated. */
  lemma {:induction false} SetFromWf(st: Store, cur: Value, keys: seq<string>, value: Value)
    requires Wf(st) && Closed(st) && Live(st, cur)
    requires |keys| >= 1 && !Path.HasDangerousKey(keys)
    requires SetFrom(st, cur, keys, value).Ok?
    ensures var st2 := SetFrom(st, cur, keys, value).value;
      Wf(st2) && st.objs.Keys <= st2.objs.Keys && st.next <= st2.next
    decreases |keys|
  {
    var k := keys[0];
    if |keys| == 1 {
      PutPropWf(st, cur.addr, k, value);
    } else {
      StepFacts(st, cur, k);
      var st2 := Step(st, cur, k).value.0;
      var next := Step(st, cur, k).value.1;
      var o := ObjAt(st, cur.addr);
      if HasOwn(o, k) && TypeOf(st, OwnValue(o, k)) == TObject {
        OwnValueLive(st, cur.addr, k);
        SetFromWf(st, next, keys[1..], value);
      } else {
        FreshChain(st2, next.addr, keys[1..], value);
      }
    }
  }

  /** Only containers on the walk are written: every object that existed and
      is not on the spine is left exactly as it was. */
  lemma {:induction false} SetFromFrame(st: Store, cur: Value, keys: seq<string>, value: Value)
    requires Wf(st) && Closed(st) && Live(st, cur)
    requires |keys| >= 1 && !Path.HasDangerousKey(keys)
    requires SetFrom(st, cur, keys, value).Ok?
    ensures var st2 := SetFrom(st, cur, keys, value).value;
      forall x :: x in st.objs && !OnSpine(st, cur, keys, x) ==> x in st2.objs && st2.objs[x] == st.objs[x]
    decreases |keys|
  {
    var k := keys[0];
    var st3 := SetFrom(st, cur, keys, value).value;
    assert PathGet.Reach(st, cur, keys, 0) == cur;
    if |keys| == 1 {
      assert st3 == PutProp(st, cur.addr, k, value).value;
    } else {
      StepFacts(st, cur, k);
      var st2 := Step(st, cur, k).value.0;
      var next := Step(st, cur, k).value.1;
      assert st3 == SetFrom(st2, next, keys[1..], value).value;
      var o := ObjAt(st, cur.addr);
      if HasOwn(o, k) && TypeOf(st, OwnValue(o, k)) == TObject {
        OwnValueLive(st, cur.addr, k);
        SetFromFrame(st, next, keys[1..], value);
        ShiftAll(st, cur, keys, next);
        forall x | x in st.objs && OnSpine(st, next, keys[1..], x) ensures OnSpine(st, cur, keys, x) {
          var i :| 0 <= i < |keys[1..]| && PathGet.Reach(st, next, keys[1..], i) == Ref(x);
          assert PathGet.Reach(st, cur, keys, i + 1) == Ref(x);
        }
      } else {
        FreshChain(st2, next.addr, keys[1..], value);
        forall x | x in st.objs && !OnSpine(st, cur, keys, x) ensures x in st3.objs && st3.objs[x] == st.objs[x] {
          assert x != cur.addr;
          assert x != next.addr;
          assert st2.objs[x] == st.objs[x];
        }
      }
    }
  }

  /** Nothing on the walk below the first key reaches back to `cur` in an
      acyclic heap. */
  lemma {:induction false} BelowIsOffSpine(st: Store, rank: map<Addr, nat>, cur: Value, k: string, rest: seq<string>)
    requires Acyclic(st, rank) && cur.Ref? && cur.addr in st.objs
    ensures !OnSpine(st, OwnValue(st.objs[cur.addr], k), rest, cur.addr)
  {
    var w := OwnValue(st.objs[cur.addr], k);
    OwnValueRank(st, rank, cur.addr, k);
    forall i | 0 <= i < |rest| ensures PathGet.Reach(st, w, rest, i) != cur {
      ReachRank(st, rank, w, rest, i);
    }
  }

  /** When the first pass steps into an existing object, the rest of the walk
      never writes `cur` again in an acyclic heap. */
  lemma {:induction false} ReuseKeepsCur(st: Store, rank: map<Addr, nat>, cur: Value, k: string, rest: seq<string>, value: Value)
    requires Wf(st) && Closed(st) && Acyclic(st, rank) && cur.Ref? && cur.addr in st.objs
    requires HasOwn(st.objs[cur.addr], k) && TypeOf(st, OwnValue(st.objs[cur.addr], k)) == TObject
    requires |rest| >= 1 && !Path.HasDangerousKey(rest)
    ensures SetFrom(st, OwnValue(st.objs[cur.addr], k), rest, value).Ok? ==>
      ObjAt(SetFrom(st, OwnValue(st.objs[cur.addr], k), rest, value).value, cur.addr) == ObjAt(st, cur.addr)
  {
    if SetFrom(st, OwnValue(st.objs[cur.addr], k), rest, value).Ok? {
      OwnValueLive(st, cur.addr, k);
      SetFromFrame(st, OwnValue(st.objs[cur.addr], k), rest, value);
      BelowIsOffSpine(st, rank, cur, k, rest);
    }
  }

  /** The container `cur` after the whole walk: in an acyclic heap it is only
      written by its own pass, so its first key leads to the next container. */
  lemma {:induction false} FirstLink(st: Store, rank: map<Addr, nat>, cur: Value, keys: seq<string>, value: Value)
    requires Wf(st) && Closed(st) && Live(st, cur) && Acyclic(st, rank)
    requires |keys| >= 2 && !Path.HasDangerousKey(keys)
    requires SetFrom(st, cur, keys, value).Ok?
    ensures cur.Ref? && Step(st, cur, keys[0]).Ok?
    ensures SetFrom(st, cur, keys, value) ==
      SetFrom(Step(st, cur, keys[0]).value.0, Step(st, cur, keys[0]).value.1, keys[1..], value)
    ensures GetProp(SetFrom(st, cur, keys, value).value, cur, keys[0]) == Step(st, cur, keys[0]).value.1
  {
    var k := keys[0];
    StepFacts(st, cur, k);
    var st2 := Step(st, cur, k).value.0;
    var next := Step(st, cur, k).value.1;
    var st3 := SetFrom(st2, next, keys[1..], value).value;
    assert SetFrom(st, cur, keys, value) == Ok(st3);
    var o := ObjAt(st, cur.addr);
    if HasOwn(o, k) && TypeOf(st, OwnValue(o, k)) == TObject {
      ReuseKeepsCur(st, rank, cur, k, keys[1..], value);
    } else {
      FreshChain(st2, next.addr, keys[1..], value);
      assert ObjAt(st3, cur.addr) == ObjAt(st2, cur.addr);
    }
    SameObjSameProp(st3, st2, cur.addr, k);
  }

  /** Get-after-set on an acyclic heap: every container on the written path
      is an object, and the last key holds `value`. */
  lemma {:induction false} SetFromReads(st: Store, rank: map<Addr, nat>, cur: Value, keys: seq<string>, value: Value)
    requires Wf(st) && Closed(st) && Live(st, cur) && Acyclic(st, rank)
    requires |keys| >= 1 && !Path.HasDangerousKey(keys)
    requires SetFrom(st, cur, keys, value).Ok?
    ensures PathGet.ReadsBack(SetFrom(st, cur, keys, value).value, cur, keys, value)
    decreases |keys|
  {
    var k := keys[0];
    if |keys| == 1 {
      PutThenGet(st, cur.addr, k, value);
    } else {
      FirstLink(st, rank, cur, keys, value);
      StepFacts(st, cur, k);
      var st2 := Step(st, cur, k).value.0;
      var next := Step(st, cur, k).value.1;
      var o := ObjAt(st, cur.addr);
      if HasOwn(o, k) && TypeOf(st, OwnValue(o, k)) == TObject {
        OwnValueLive(st, cur.addr, k);
        SetFromReads(st, rank, next, keys[1..], value);
      } else {
        FreshChainReads(st2, next.addr, keys[1..], value);
      }
    }
  }

  /** The object at `x` keeps every own property other than `k` with its
      value; on an array `length` is set aside too, as writing an index can
      change it. */
  ghost predicate KeepsOthers(st: Store, st2: Store, x: Addr, k: string) {
    forall k2 :: k2 != k && (ObjAt(st, x).kind.Array? ==> k != "length" && k2 != "length") && HasOwn(ObjAt(st, x), k2) ==>
      HasOwn(ObjAt(st2, x), k2) && OwnValue(ObjAt(st2, x), k2) == OwnValue(ObjAt(st, x), k2)
  }

  /** One write of `k` into the object at `a` keeps its other properties. */
  lemma {:induction false} PutKeepsOthers(st: Store, st2: Store, a: Addr, k: string, v: Value)
    requires Wf(st) && a in st.objs && PutOwn(ObjAt(st, a), k, v).Ok?
    requires ObjAt(st2, a) == PutOwn(ObjAt(st, a), k, v).value
    ensures KeepsOthers(st, st2, a, k)
  {
    var o := ObjAt(st, a);
    forall k2 | k2 != k && (o.kind.Array? ==> k != "length" && k2 != "length") && HasOwn(o, k2)
      ensures HasOwn(ObjAt(st2, a), k2) && OwnValue(ObjAt(st2, a), k2) == OwnValue(o, k2)
    {
      PutOwnOther(o, k, v, k2);
    }
  }

  /** An object the walk leaves alone keeps everything. */
  lemma {:induction false} SameKeepsOthers(st: Store, st2: Store, x: Addr, k: string)
    requires ObjAt(st2, x) == ObjAt(st, x)
    ensures KeepsOthers(st, st2, x, k)
  {
  }

  /** Every existing container the walk passes through keeps its other own
      properties: the write into it (of the next container or of `value`)
      touches only the key of that pass. */
  lemma {:induction false} SetFromKeepsOthers(st: Store, rank: map<Addr, nat>, cur: Value, keys: seq<string>, value: Value)
    requires Wf(st) && Closed(st) && Live(st, cur) && Acyclic(st, rank)
    requires |keys| >= 1 && !Path.HasDangerousKey(keys)
    requires SetFrom(st, cur, keys, value).Ok?
    ensures forall i :: 0 <= i < |keys| && PathGet.Reach(st, cur, keys, i).Ref? && PathGet.Reach(st, cur, keys, i).addr in st.objs ==>
      KeepsOthers(st, SetFrom(st, cur, keys, value).value, PathGet.Reach(st, cur, keys, i).addr, keys[i])
    decreases |keys|, 1
  {
    if |keys| == 1 {
      assert PathGet.Reach(st, cur, keys, 0) == cur;
      PutKeepsOthers(st, SetFrom(st, cur, keys, value).value, cur.addr, keys[0], value);
    } else {
      var o := ObjAt(st, cur.addr);
      if HasOwn(o, keys[0]) && TypeOf(st, OwnValue(o, keys[0])) == TObject {
        KeepsOthersReuse(st, rank, cur, keys, value);
      } else {
        KeepsOthersFresh(st, rank, cur, keys, value);
      }
    }
  }

  /** `SetFromKeepsOthers` when the first pass steps into an existing object:
      `cur` is not written at all, and the rest is the walk from that object. */
  lemma {:induction false} KeepsOthersReuse(st: Store, rank: map<Addr, nat>, cur: Value, keys: seq<string>, value: Value)
    requires Wf(st) && Closed(st) && Live(st, cur) && Acyclic(st, rank)
    requires |keys| >= 2 && !Path.HasDangerousKey(keys)
    requires SetFrom(st, cur, keys, value).Ok?
    requires cur.Ref? && HasOwn(ObjAt(st, cur.addr), keys[0]) && TypeOf(st, OwnValue(ObjAt(st, cur.addr), keys[0])) == TObject
    ensures forall i :: 0 <= i < |keys| && PathGet.Reach(st, cur, keys, i).Ref? && PathGet.Reach(st, cur, keys, i).addr in st.objs ==>
      KeepsOthers(st, SetFrom(st, cur, keys, value).value, PathGet.Reach(st, cur, keys, i).addr, keys[i])
    decreases |keys|, 0
  {
    var k := keys[0];
    var next := OwnValue(ObjAt(st, cur.addr), k);
    assert Step(st, cur, k) == Ok((st, next));
    var st3 := SetFrom(st, next, keys[1..], value).value;
    assert SetFrom(st, cur, keys, value) == Ok(st3);
    OwnValueLive(st, cur.addr, k);
    ReuseKeepsCur(st, rank, cur, k, keys[1..], value);
    SameKeepsOthers(st, st3, cur.addr, k);
    SetFromKeepsOthers(st, rank, next, keys[1..], value);
    assert GetProp(st, cur, k) == next;
    ShiftAll(st, cur, keys, next);
    forall i | 0 <= i < |keys| && PathGet.Reach(st, cur, keys, i).Ref? && PathGet.Reach(st, cur, keys, i).addr in st.objs
      ensures KeepsOthers(st, st3, PathGet.Reach(st, cur, keys, i).addr, keys[i])
    {
      if i > 0 {
        assert PathGet.Reach(st, cur, keys, i) == PathGet.Reach(st, next, keys[1..], i - 1);
        assert keys[1..][i - 1] == keys[i];
      }
    }
  }

  /** `SetFromKeepsOthers` when the first pass links a fresh `{}` under the
      first key: that write is the only one into an existing object. */
  lemma {:induction false} KeepsOthersFresh(st: Store, rank: map<Addr, nat>, cur: Value, keys: seq<string>, value: Value)
    requires Wf(st) && Closed(st) && Live(st, cur) && Acyclic(st, rank)
    requires |keys| >= 2 && !Path.HasDangerousKey(keys)
    requires SetFrom(st, cur, keys, value).Ok?
    requires cur.Ref? && !(HasOwn(ObjAt(st, cur.addr), keys[0]) && TypeOf(st, OwnValue(ObjAt(st, cur.addr), keys[0])) == TObject)
    ensures forall i :: 0 <= i < |keys| && PathGet.Reach(st, cur, keys, i).Ref? && PathGet.Reach(st, cur, keys, i).addr in st.objs ==>
      KeepsOthers(st, SetFrom(st, cur, keys, value).value, PathGet.Reach(st, cur, keys, i).addr, keys[i])
  {
    var st3 := SetFrom(st, cur, keys, value).value;
    FreshFirstPass(st, cur, keys, value);
    PutKeepsOthers(st, st3, cur.addr, keys[0], Ref(st.next));
    assert PathGet.Reach(st, cur, keys, 0) == cur;
    BelowKeepsOthers(st, rank, cur, keys, st3);
  }

  /** The first pass links a fresh `{}` into `cur`; the rest of the walk only
      writes objects allocated after it. */
  lemma {:induction false} FreshFirstPass(st: Store, cur: Value, keys: seq<string>, value: Value)
    requires Wf(st) && Live(st, cur)
    requires |keys| >= 2 && !Path.HasDangerousKey(keys)
    requires SetFrom(st, cur, keys, value).Ok?
    requires cur.Ref? && !(HasOwn(ObjAt(st, cur.addr), keys[0]) && TypeOf(st, OwnValue(ObjAt(st, cur.addr), keys[0])) == TObject)
    ensures PutOwn(ObjAt(st, cur.addr), keys[0], Ref(st.next)).Ok?
    ensures ObjAt(SetFrom(st, cur, keys, value).value, cur.addr) == PutOwn(ObjAt(st, cur.addr), keys[0], Ref(st.next)).value
    ensures forall x :: x in st.objs && x != cur.addr ==> ObjAt(SetFrom(st, cur, keys, value).value, x) == ObjAt(st, x)
  {
    var k := keys[0];
    StepFacts(st, cur, k);
    var st2 := Step(st, cur, k).value.0;
    var next := Step(st, cur, k).value.1;
    var st3 := SetFrom(st2, next, keys[1..], value).value;
    assert SetFrom(st, cur, keys, value) == Ok(st3);
    FreshChain(st2, next.addr, keys[1..], value);
    var st1 := Alloc(st, NewPlain(NoFields)).0;
    assert st2 == PutProp(st1, cur.addr, k, Ref(st.next)).value;
    assert ObjAt(st1, cur.addr) == ObjAt(st, cur.addr);
    assert ObjAt(st3, cur.addr) == ObjAt(st2, cur.addr);
    forall x | x in st.objs && x != cur.addr ensures ObjAt(st3, x) == ObjAt(st, x) {
      assert x != st.next;
    }
  }

  /** Below `cur`, in an acyclic heap, the walk meets no existing object
      twice, so where only `cur` changed every other container keeps all. */
  lemma {:induction false} BelowKeepsOthers(st: Store, rank: map<Addr, nat>, cur: Value, keys: seq<string>, st3: Store)
    requires Acyclic(st, rank) && cur.Ref? && cur.addr in st.objs
    requires forall x :: x in st.objs && x != cur.addr ==> ObjAt(st3, x) == ObjAt(st, x)
    ensures forall i :: 0 < i < |keys| && PathGet.Reach(st, cur, keys, i).Ref? && PathGet.Reach(st, cur, keys, i).addr in st.objs ==>
      KeepsOthers(st, st3, PathGet.Reach(st, cur, keys, i).addr, keys[i])
  {
    forall i | 0 < i < |keys| && PathGet.Reach(st, cur, keys, i).Ref? && PathGet.Reach(st, cur, keys, i).addr in st.objs
      ensures KeepsOthers(st, st3, PathGet.Reach(st, cur, keys, i).addr, keys[i])
    {
      var x := PathGet.Reach(st, cur, keys, i).addr;
      ReachRank(st, rank, cur, keys, i);
      SameKeepsOthers(st, st3, x, keys[i]);
    }
  }

  // ---------------------------------------------------------------- properties of `set`

  /** After a successful `set` of a safe path on an acyclic heap, following
      the keys from `obj` passes through objects only and reaches `value`, and
      `get` reads it back (or the default, when `value` is undefined). */
  lemma {:induction false} GetAfterSet(st: Store, rank: map<Addr, nat>, obj: Value, path: Path.PathSpec, value: Value, default: Value)
    requires Wf(st) && Closed(st) && Live(st, obj) && Acyclic(st, rank)
    requires |Path.ParsePath(path)| >= 1 && !Path.HasDangerousKey(Path.ParsePath(path))
    requires Set(st, obj, path, value).Ok?
    ensures PathGet.ReadsBack(Set(st, obj, path, value).value.0, obj, Path.ParsePath(path), value)
    ensures PathGet.Get(Set(st, obj, path, value).value.0, obj, path, default) == if value.Undefined? then default else value
  {
    var keys := Path.ParsePath(path);
    var st2 := Set(st, obj, path, value).value.0;
    InlineListAgrees(keys);
    SetFromReads(st, rank, obj, keys, value);
    PathGet.ReadsBackGet(st2, obj, keys, value, default);
  }

  /** An empty key array writes the property named "undefined" on `obj`. */
  lemma {:induction false} EmptyKeysWriteUndefined(st: Store, obj: Value, value: Value)
    requires Wf(st) && Live(st, obj)
    ensures var r := Set(st, obj, Path.KeyArray([]), value);
      r.Ok? <==> obj.Ref?
    ensures var r := Set(st, obj, Path.KeyArray([]), value);
      r.Ok? ==> GetProp(r.value.0, obj, "undefined") == value
  {
    InlineListAgrees([]);
    if obj.Ref? {
      PutThenGet(st, obj.addr, "undefined", value);
    }
  }

  /** Objects off the written path are untouched, nothing allocated before is
      lost, and the heap stays well formed. */
  lemma {:induction false} SetFrame(st: Store, obj: Value, path: Path.PathSpec, value: Value)
    requires Wf(st) && Closed(st) && Live(st, obj)
    requires Set(st, obj, path, value).Ok?
    ensures var keys := Path.ParsePath(path);
      var ks := if |keys| == 0 then ["undefined"] else keys;
      var st2 := Set(st, obj, path, value).value.0;
      && Wf(st2) && st.objs.Keys <= st2.objs.Keys
      && forall x :: x in st.objs && !OnSpine(st, obj, ks, x) ==> st2.objs[x] == st.objs[x]
  {
    var keys := Path.ParsePath(path);
    InlineListAgrees(keys);
    if !Path.HasDangerousKey(keys) {
      var ks := if |keys| == 0 then ["undefined"] else keys;
      SetFromWf(st, obj, ks, value);
      SetFromFrame(st, obj, ks, value);
    }
  }

  /** `set` changes, in `obj` and in every existing container on the path,
      only the property of the path's key there: `set({ a: 1 }, 'b.c.d', 4)`
      keeps `a`. */
  lemma {:induction false} SetKeepsOthers(st: Store, rank: map<Addr, nat>, obj: Value, path: Path.PathSpec, value: Value)
    requires Wf(st) && Closed(st) && Live(st, obj) && Acyclic(st, rank)
    requires Set(st, obj, path, value).Ok?
    ensures var keys := Path.ParsePath(path);
      var ks := if |keys| == 0 then ["undefined"] else keys;
      var st2 := Set(st, obj, path, value).value.0;
      && (obj.Ref? ==> KeepsOthers(st, st2, obj.addr, ks[0]))
      && forall i :: 0 <= i < |ks| && PathGet.Reach(st, obj, ks, i).Ref? && PathGet.Reach(st, obj, ks, i).addr in st.objs ==>
           KeepsOthers(st, st2, PathGet.Reach(st, obj, ks, i).addr, ks[i])
  {
    var keys := Path.ParsePath(path);
    var ks := if |keys| == 0 then ["undefined"] else keys;
    var st2 := Set(st, obj, path, value).value.0;
    InlineListAgrees(keys);
    assert PathGet.Reach(st, obj, ks, 0) == obj;
    if Path.HasDangerousKey(keys) {
      forall x | x in st.objs ensures forall k :: KeepsOthers(st, st2, x, k) {
        forall k { SameKeepsOthers(st, st2, x, k); }
      }
    } else {
      SetFromKeepsOthers(st, rank, obj, ks, value);
    }
  }

  /** The first intermediate: an own property holding an object (null
      included) is kept as the same reference; anything else is replaced by a
      newly allocated `{}`. */
  lemma {:induction false} FirstIntermediate(st: Store, rank: map<Addr, nat>, obj: Value, keys: seq<string>, value: Value)
    requires Wf(st) && Closed(st) && Live(st, obj) && Acyclic(st, rank)
    requires |keys| >= 2 && !Path.HasDangerousKey(keys)
    requires Set(st, obj, Path.KeyArray(keys), value).Ok?
    ensures obj.Ref?
    ensures var o := ObjAt(st, obj.addr);
      var before := GetProp(st, obj, keys[0]);
      var after := GetProp(Set(st, obj, Path.KeyArray(keys), value).value.0, obj, keys[0]);
      if HasOwn(o, keys[0]) && TypeOf(st, before) == TObject then after == before
      else after.Ref? && after.addr !in st.objs
  {
    InlineListAgrees(keys);
    assert Set(st, obj, Path.KeyArray(keys), value).value.0 == SetFrom(st, obj, keys, value).value;
    FirstLink(st, rank, obj, keys, value);
    StepFacts(st, obj, keys[0]);
  }
}

=== FILE: shallow_clone.dfy ===
/** `shallowClone`: one level of copying, preserving array-ness. */
module ShallowClone {
  import opened JsValue

  /** An array becomes a new array of the same elements; any other value whose
      typeof is 'object' becomes a new plain object with the same own
      enumerable properties; everything else is returned unchanged. */
  function ShallowClone(st: Store, v: Value): (r: (Store, Value))
    requires Wf(st) && Live(st, v)
    ensures Wf(r.0) && Extends(st, r.0)
    ensures v.Ref? && ObjAt(st, v.addr).kind.Array? ==>
      r.1.Ref? && Fresh(st, r.0, r.1.addr) && r.0.objs[r.1.addr] == Obj(Array(ObjAt(st, v.addr).kind.elems), NoFields)
    ensures v.Ref? && !ObjAt(st, v.addr).kind.Array? && !ObjAt(st, v.addr).kind.Function? ==>
      && r.1.Ref? && Fresh(st, r.0, r.1.addr)
      && r.0.objs[r.1.addr].kind == Plain(false)
      && r.0.objs[r.1.addr].props.order == OwnKeys(ObjAt(st, v.addr))
      && forall k :: k in OwnKeys(ObjAt(st, v.addr)) ==>
           FieldGet(r.0.objs[r.1.addr].props, k) == OwnValue(ObjAt(st, v.addr), k)
    ensures v.Ref? && ObjAt(st, v.addr).kind.Function? ==> r == (st, v)
    ensures !v.Ref? ==> r == (st, v)
    ensures v.Ref? && !ObjAt(st, v.addr).kind.Function? ==> r.1 != v
  {
    if v.Ref? && ObjAt(st, v.addr).kind.Array? then
      var (st2, a) := Alloc(st, Obj(Array(ObjAt(st, v.addr).kind.elems), NoFields));
      (st2, Ref(a))
    else if !v.Null? && TypeOf(st, v) == TObject then
      SpreadFieldsFacts(st, v);
      var (st2, a) := Alloc(st, NewPlain(SpreadFields(st, v)));
      (st2, Ref(a))
    else (st, v)
  }
}

=== FILE: snake_case.dfy ===
/** `snakeCase(str)`: the words of `splitWords(str)` joined by `_`. */
module StringSnakeCase {
  import opened Chars
  import Strings
  import SplitWords
  import StringKebabCase

  /** The function as written. The result holds no capital, `-` or white
      space, and has no leading, trailing or doubled `_`. */
  function SnakeCase(str: string): (r: string)
    ensures AllChars(r, SnakeChar)
    ensures Strings.Delimited(r, '_')
  {
    var ws := SplitWords.Split(str);
    SplitWords.JoinChars(ws, "_", SnakeChar);
    StringKebabCase.WordsAvoid(ws, '_');
    Strings.JoinDelimited(ws, '_');
    Strings.Join(ws, "_")
  }

  /** A character a snake-cased string may hold. */
  predicate SnakeChar(c: char) {
    !IsUpper(c) && c != '-' && !IsSpace(c)
  }

  /** Splitting the result gives back the words. */
  lemma {:induction false} SnakeCaseKeepsWords(str: string)
    ensures SplitWords.Split(SnakeCase(str)) == SplitWords.Split(str)
  {
    SplitWords.SplitJoin(SplitWords.Split(str), '_');
  }

  /** `snakeCase` is idempotent. */
  lemma {:induction false} SnakeCaseIdempotent(str: string)
    ensures SnakeCase(SnakeCase(str)) == SnakeCase(str)
  {
    SnakeCaseKeepsWords(str);
  }

  /** `snakeCase(s)` is `kebabCase(s)` with every `-` replaced by `_`. */
  lemma {:induction false} SnakeIsKebabReplaced(str: string)
    ensures SnakeCase(str) == Strings.Replace(StringKebabCase.KebabCase(str), '-', '_')
  {
    var ws := SplitWords.Split(str);
    StringKebabCase.WordsAvoid(ws, '-');
    Strings.ReplaceJoin(ws, '-', '_');
  }

  /** Empty and separator-only input gives `''`. */
  lemma {:induction false} SnakeCaseSeparatorsOnly(str: string)
    requires forall i :: 0 <= i < |str| ==> SplitWords.IsSeparator(str[i])
    ensures SnakeCase(str) == ""
  {
    SplitWords.SplitSeparatorsOnly(str);
  }
}

=== FILE: split_words.dfy ===
/**
 * `splitWords(str)`: three left-to-right regular-expression replaces, then
 * `toLowerCase`, `trim`, a split on white-space runs and a filter dropping
 * empty pieces. Each replace is written as the scan the regular-expression
 * engine performs: at each position it tries a match, and on a match it
 * continues after the matched text.
 */
module SplitWords {
  import opened Chars
  import Seqs
  import Strings

  /** A character of the class `[_-\s]`: in that class the `-` between `_`
      and `\s` is a literal dash, since a class escape cannot end a range. */
  predicate IsSeparator(c: char) {
    c == '_' || c == '-' || IsSpace(c)
  }

  /** `s` with its leading separators removed. */
  function DropSeparators(s: string): (r: string)
    ensures |r| <= |s| && r == s[|s| - |r|..]
    ensures |r| > 0 ==> !IsSeparator(r[0])
  {
    if |s| > 0 && IsSeparator(s[0]) then DropSeparators(s[1..]) else s
  }

  /** `.replace(/[_-\s]+/g, ' ')`: each run of separators becomes one space. */
  function CollapseSeparators(s: string): (r: string)
    decreases |s|
  {
    if |s| == 0 then ""
    else if IsSeparator(s[0]) then " " + CollapseSeparators(DropSeparators(s[1..]))
    else [s[0]] + CollapseSeparators(s[1..])
  }

  /** `.replace(/([^A-Z])([A-Z])/g, '$1 $2')`: a space between a character
      that is not a capital and a following capital. A match never overlaps
      the next one, since its second character is a capital. */
  function BreakBeforeCapital(s: string): (r: string)
    ensures |s| > 0 ==> |r| > 0 && r[0] == s[0]
    decreases |s|
  {
    if |s| < 2 then s
    else if !IsUpper(s[0]) && IsUpper(s[1]) then [s[0], ' ', s[1]] + BreakBeforeCapital(s[2..])
    else [s[0]] + BreakBeforeCapital(s[1..])
  }

  /** The length of the run of capitals `s` starts with. */
  function CapitalRun(s: string): (n: nat)
    ensures n <= |s|
    ensures forall i :: 0 <= i < n ==> IsUpper(s[i])
    ensures n < |s| ==> !IsUpper(s[n])
  {
    if |s| > 0 && IsUpper(s[0]) then 1 + CapitalRun(s[1..]) else 0
  }

  /** `.replace(/([A-Z]+)([A-Z][a-z])/g, '$1 $2')`. At a position starting a
      run of `n` capitals, the greedy `[A-Z]+` backs off one capital, so the
      pattern matches exactly when `n >= 2` and a small letter follows the
      run; the space then goes before the run's last capital, and the scan
      continues after the small letter. Elsewhere the scan moves on by one. */
  function BreakAcronym(s: string): (r: string)
    decreases |s|
  {
    if |s| == 0 then ""
    else
      var n := CapitalRun(s);
      if 2 <= n < |s| && IsLower(s[n]) then s[..n - 1] + " " + s[n - 1..n + 1] + BreakAcronym(s[n + 1..])
      else [s[0]] + BreakAcronym(s[1..])
  }

  /** `s.split(/\s+/)`: the pieces between white-space runs; a leading or
      trailing run gives an empty first or last piece, and `''` gives
      `['']`. */
  function SplitSpaces(s: string): (r: seq<string>)
    ensures |r| > 0
    decreases |s|
  {
    if |s| == 0 then [""]
    else if IsSpace(s[0]) then [""] + SplitSpaces(TrimStart(s[1..]))
    else
      var rest := SplitSpaces(s[1..]);
      [[s[0]] + rest[0]] + rest[1..]
  }

  // ---------------------------------------------------------------- passes

  /** After the first pass the only separator left is a lone space: no run
      of two spaces, and a space exactly where a separator run began. */
  lemma {:induction false} CollapseShape(s: string)
    ensures var r := CollapseSeparators(s);
      && (forall i :: 0 <= i < |r| && IsSeparator(r[i]) ==> r[i] == ' ')
      && (forall i :: 0 <= i < |r| - 1 && r[i] == ' ' ==> r[i + 1] != ' ')
      && (|s| > 0 ==> |r| > 0 && (r[0] == ' ' <==> IsSeparator(s[0])))
    decreases |s|
  {
    if |s| > 0 {
      if IsSeparator(s[0]) {
        var t := DropSeparators(s[1..]);
        CollapseShape(t);
      } else {
        CollapseShape(s[1..]);
      }
    }
  }

  /** A property of every character that a space also has survives the
      first pass. */
  lemma {:induction false} CollapseKeeps(s: string, p: char -> bool)
    requires p(' ') && AllChars(s, p)
    ensures AllChars(CollapseSeparators(s), p)
    decreases |s|
  {
    if |s| > 0 {
      if IsSeparator(s[0]) {
        var t := DropSeparators(s[1..]);
        assert forall i :: 0 <= i < |t| ==> t[i] == s[|s| - |t| + i];
        CollapseKeeps(t, p);
      } else {
        CollapseKeeps(s[1..], p);
      }
    }
  }

  /** After the first pass no `_` or `-` is left. */
  lemma {:induction false} NoDashAfterCollapse(s: string)
    ensures AllChars(CollapseSeparators(s), NotDash)
  {
    CollapseShape(s);
  }

  predicate NotDash(c: char) {
    c != '_' && c != '-'
  }

  /** A property of every character that a space also has survives the
      second pass. */
  lemma {:induction false} BreakBeforeCapitalKeeps(s: string, p: char -> bool)
    requires p(' ') && AllChars(s, p)
    ensures AllChars(BreakBeforeCapital(s), p)
    decreases |s|
  {
    if |s| >= 2 {
      BreakBeforeCapitalKeeps(s[1..], p);
      BreakBeforeCapitalKeeps(s[2..], p);
    }
  }

  /** After the second pass every capital but a leading one follows a space
      or another capital. */
  lemma {:induction false} BreakBeforeCapitalShape(s: string)
    ensures CapitalsFollowBreaks(BreakBeforeCapital(s))
    decreases |s|
  {
    if |s| >= 2 {
      var r := BreakBeforeCapital(s);
      if !IsUpper(s[0]) && IsUpper(s[1]) {
        var t := BreakBeforeCapital(s[2..]);
        BreakBeforeCapitalShape(s[2..]);
        assert r == [s[0], ' ', s[1]] + t;
        forall i | 0 < i < |r| && IsUpper(r[i]) ensures r[i - 1] == ' ' || IsUpper(r[i - 1]) {
          if i > 3 {
            assert r[i] == t[i - 3] && r[i - 1] == t[i - 4];
            assert IsUpper(t[i - 3]);
          } else if i == 3 {
            assert r[2] == s[1];
          } else {
            assert r[1] == ' ';
            assert i == 2;
          }
        }
      } else {
        var t := BreakBeforeCapital(s[1..]);
        BreakBeforeCapitalShape(s[1..]);
        assert r == [s[0]] + t;
        forall i | 0 < i < |r| && IsUpper(r[i]) ensures r[i - 1] == ' ' || IsUpper(r[i - 1]) {
          if i > 1 {
            assert r[i] == t[i - 1] && r[i - 1] == t[i - 2];
            assert IsUpper(t[i - 1]);
          } else {
            assert r[1] == t[0] == s[1];
            assert r[0] == s[0];
          }
        }
      }
    }
  }

  /** Every capital but a leading one follows a space or another capital. */
  predicate CapitalsFollowBreaks(r: string) {
    forall i :: 0 < i < |r| && IsUpper(r[i]) ==> r[i - 1] == ' ' || IsUpper(r[i - 1])
  }

  /** A property of every character that a space also has survives the
      third pass. */
  lemma {:induction false} BreakAcronymKeeps(s: string, p: char -> bool)
    requires p(' ') && AllChars(s, p)
    ensures AllChars(BreakAcronym(s), p)
    decreases |s|
  {
    if |s| > 0 {
      var n := CapitalRun(s);
      if 2 <= n < |s| && IsLower(s[n]) {
        BreakAcronymKeeps(s[n + 1..], p);
        AllCharsSlice(s, 0, n - 1, p);
        AllCharsSlice(s, n - 1, n + 1, p);
        AllCharsAppend(s[..n - 1], " ", p);
        AllCharsAppend(s[..n - 1] + " ", s[n - 1..n + 1], p);
        AllCharsAppend(s[..n - 1] + " " + s[n - 1..n + 1], BreakAcronym(s[n + 1..]), p);
      } else {
        BreakAcronymKeeps(s[1..], p);
        AllCharsSlice(s, 0, 1, p);
        AllCharsAppend(s[..1], BreakAcronym(s[1..]), p);
        assert s[..1] == [s[0]];
      }
    }
  }

  /** Lowercasing leaves no capital, and keeps every other property of the
      characters that is blind to case. */
  lemma {:induction false} LowerKeeps(s: string, p: char -> bool)
    requires AllChars(s, p)
    requires forall c :: p(c) ==> p(ToLower(c))
    ensures AllChars(LowerStr(s), p)
    ensures AllChars(LowerStr(s), NotUpper)
  {
  }

  predicate NotUpper(c: char) {
    !IsUpper(c)
  }

  /** The pieces of a split hold no white space, and keep every property of
      the characters of the input. */
  lemma {:induction false} SplitSpacesKeeps(s: string, p: char -> bool)
    requires AllChars(s, p)
    ensures AllPieces(SplitSpaces(s), p) && AllPieces(SplitSpaces(s), NotSpace)
    decreases |s|
  {
    if |s| > 0 {
      if IsSpace(s[0]) {
        var t := TrimStart(s[1..]);
        assert t == s[|s| - |t|..];
        AllCharsSlice(s, |s| - |t|, |s|, p);
        SplitSpacesKeeps(t, p);
        PiecesPrepend("", SplitSpaces(t), p);
        PiecesPrepend("", SplitSpaces(t), NotSpace);
      } else {
        SplitSpacesKeeps(s[1..], p);
        SplitSpacesKeepsStep(s, SplitSpaces(s[1..]), p);
      }
    }
  }

  /** The step of `SplitSpacesKeeps` where `s` starts with a character that
      joins the first piece. */
  lemma {:induction false} SplitSpacesKeepsStep(s: string, rest: seq<string>, p: char -> bool)
    requires |s| > 0 && !IsSpace(s[0]) && AllChars(s, p) && rest == SplitSpaces(s[1..])
    requires AllPieces(rest, p) && AllPieces(rest, NotSpace)
    ensures AllPieces(SplitSpaces(s), p) && AllPieces(SplitSpaces(s), NotSpace)
  {
    var w := [s[0]] + rest[0];
    AllCharsSlice(s, 0, 1, p);
    assert s[..1] == [s[0]];
    AllCharsAppend([s[0]], rest[0], p);
    AllCharsAppend([s[0]], rest[0], NotSpace);
    PiecesPrepend(w, rest[1..], p);
    PiecesPrepend(w, rest[1..], NotSpace);
  }

  /** Every piece satisfies `p` character by character. */
  predicate AllPieces(ws: seq<string>, p: char -> bool) {
    forall i :: 0 <= i < |ws| ==> AllChars(ws[i], p)
  }

  lemma {:induction false} PiecesPrepend(w: string, ws: seq<string>, p: char -> bool)
    requires AllChars(w, p) && AllPieces(ws, p)
    ensures AllPieces([w] + ws, p)
  {
    forall i | 0 <= i < |[w] + ws| ensures AllChars(([w] + ws)[i], p) {
      if i > 0 {
        assert ([w] + ws)[i] == ws[i - 1];
      }
    }
  }

  predicate NotSpace(c: char) {
    !IsSpace(c)
  }

  predicate NonEmpty(w: string) {
    |w| > 0
  }

  /** The function as written. Every word it gives is non-empty and holds no
      `_`, `-`, white space or capital. */
  function Split(str: string): (words: seq<string>)
    ensures AllClean(words)
  {
    var processed := Trim(LowerStr(BreakAcronym(BreakBeforeCapital(CollapseSeparators(str)))));
    ProcessedKeeps(str, processed);
    SplitSpacesKeeps(processed, NotDash);
    SplitSpacesKeeps(processed, NotUpper);
    CleanOfPieces(SplitSpaces(processed), Seqs.Keep(SplitSpaces(processed), NonEmpty));
    Seqs.Keep(SplitSpaces(processed), NonEmpty)
  }

  /** What every word of the output looks like: not empty, and free of
      separators and capitals. */
  predicate CleanWord(w: string) {
    |w| > 0 && forall j :: 0 <= j < |w| ==> !IsSeparator(w[j]) && !IsUpper(w[j])
  }

  predicate AllClean(ws: seq<string>) {
    forall i :: 0 <= i < |ws| ==> CleanWord(ws[i])
  }

  // ---------------------------------------------------------------- words

  /** Before the split no `_`, `-` or capital is left. */
  lemma {:induction false} ProcessedKeeps(str: string, t: string)
    requires t == Trim(LowerStr(BreakAcronym(BreakBeforeCapital(CollapseSeparators(str)))))
    ensures AllChars(t, NotDash) && AllChars(t, NotUpper)
  {
    var c := CollapseSeparators(str);
    NoDashAfterCollapse(str);
    var b1 := BreakBeforeCapital(c);
    BreakBeforeCapitalKeeps(c, NotDash);
    var b := BreakAcronym(b1);
    BreakAcronymKeeps(b1, NotDash);
    var l := LowerStr(b);
    LowerKeeps(b, NotDash);
    TrimKeeps(l, NotDash);
    TrimKeeps(l, NotUpper);
  }

  /** The non-empty pieces of a split of a string without `_`, `-` and
      capitals are clean words. */
  lemma {:induction false} CleanOfPieces(pieces: seq<string>, ws: seq<string>)
    requires AllPieces(pieces, NotDash) && AllPieces(pieces, NotUpper) && AllPieces(pieces, NotSpace)
    requires ws == Seqs.Keep(pieces, NonEmpty)
    ensures AllClean(ws)
  {
    Seqs.KeepPasses(pieces, NonEmpty);
    Seqs.KeepMembers(pieces, NonEmpty);
    forall i | 0 <= i < |ws| ensures CleanWord(ws[i]) {
      assert ws[i] in pieces;
      var k :| 0 <= k < |pieces| && pieces[k] == ws[i];
      assert AllChars(pieces[k], NotDash) && AllChars(pieces[k], NotUpper) && AllChars(pieces[k], NotSpace);
    }
  }

  /** A string of separators only, the empty string included, has no
      words. */
  lemma {:induction false} SplitSeparatorsOnly(str: string)
    requires forall i :: 0 <= i < |str| ==> IsSeparator(str[i])
    ensures Split(str) == []
  {
    var c := CollapseSeparators(str);
    assert c == "" || c == " " by {
      if |str| > 0 {
        var d := DropSeparators(str[1..]);
        assert c == " " + CollapseSeparators(d);
      }
    }
    assert BreakAcronym(BreakBeforeCapital(c)) == c;
    assert LowerStr(c) == c;
    TrimAllSpace(c);
  }

  /** A capital after a word without capitals starts a new word, whatever
      the word ends with: `u + 'V' + rest` splits into `u` and `'v' + rest`. */
  lemma {:induction false} SplitCamelPair(u: string, v: string, s: string)
    requires CleanWord(u) && CleanWord(v) && IsLower(v[0])
    requires s == u + [ToUpper(v[0])] + v[1..]
    ensures Split(s) == [u, v]
  {
    var a := u + " " + [ToUpper(v[0])] + v[1..];
    var l := u + " " + v;
    CamelBreaks(u, v, s, a);
    CamelLowers(u, v, a, l);
    WordsOfPair(l, u, v);
    SplitSteps(s, a, l, [u, v]);
  }

  /** The first three stages of `SplitCamelPair` put one space before the
      capital. */
  lemma {:induction false} CamelBreaks(u: string, v: string, s: string, a: string)
    requires CleanWord(u) && CleanWord(v) && IsLower(v[0])
    requires s == u + [ToUpper(v[0])] + v[1..] && a == u + " " + [ToUpper(v[0])] + v[1..]
    ensures BreakAcronym(BreakBeforeCapital(CollapseSeparators(s))) == a
  {
    CamelPasses(u, ToUpper(v[0]), v[1..]);
  }

  /** Lower-casing in `SplitCamelPair`. */
  lemma {:induction false} CamelLowers(u: string, v: string, a: string, l: string)
    requires CleanWord(u) && CleanWord(v) && IsLower(v[0])
    requires a == u + " " + [ToUpper(v[0])] + v[1..] && l == u + " " + v
    ensures LowerStr(a) == l
  {
    NoCapitalsUntouched(u);
    LowerAroundBreak(u, v, a, l);
  }

  /** The three replaces on `u + cap + rest`: one space before `cap`. */
  lemma {:induction false} CamelPasses(u: string, cap: char, rest: string)
    requires CleanWord(u) && IsUpper(cap)
    requires forall i :: 0 <= i < |rest| ==> !IsSeparator(rest[i]) && !IsUpper(rest[i])
    ensures BreakAcronym(BreakBeforeCapital(CollapseSeparators(u + [cap] + rest))) == u + " " + [cap] + rest
  {
    LetterNotSeparator(cap);
    CollapseAround(u, cap, rest, u + [cap] + rest);
    CamelSecondPass(u, cap, rest);
    CamelThirdPass(u, cap, rest);
  }

  lemma {:induction false} CamelSecondPass(u: string, cap: char, rest: string)
    requires CleanWord(u) && IsUpper(cap)
    requires forall i :: 0 <= i < |rest| ==> !IsUpper(rest[i])
    ensures BreakBeforeCapital(u + [cap] + rest) == u + " " + [cap] + rest
  {
    var s := u + [cap] + rest;
    var k := |u| - 1;
    BreakBeforeCapitalSkip(s, k);
    assert s[..k] == u[..k];
    var t := [u[k], cap] + rest;
    assert s[k..] == t;
    NoCapitalsUntouched(rest);
    assert t[2..] == rest;
    assert BreakBeforeCapital(t) == [u[k], ' ', cap] + rest;
    assert u[..k] + ([u[k], ' ', cap] + rest) == u + " " + [cap] + rest;
  }

  lemma {:induction false} CamelThirdPass(u: string, cap: char, rest: string)
    requires CleanWord(u) && IsUpper(cap)
    requires forall i :: 0 <= i < |rest| ==> !IsUpper(rest[i])
    ensures BreakAcronym(u + " " + [cap] + rest) == u + " " + [cap] + rest
  {
    Assoc3(u, " ", [cap], rest);
    BreakAcronymLoneCapital(cap, rest);
    assert forall i :: 0 <= i < |u + " "| ==> !IsUpper((u + " ")[i]);
    BreakAcronymPrefixOf(u + " ", [cap] + rest, u + " " + [cap] + rest);
  }

  lemma {:induction false} Assoc3(a: string, b: string, c: string, d: string)
    ensures a + b + c + d == (a + b) + (c + d)
  {
  }

  /** `BreakAcronymPrefix` for a string given whole. */
  lemma {:induction false} BreakAcronymPrefixOf(w: string, t: string, b: string)
    requires forall i :: 0 <= i < |w| ==> !IsUpper(w[i])
    requires BreakAcronym(t) == t
    requires b == w + t
    ensures BreakAcronym(b) == b
  {
    BreakAcronymPrefix(w, t);
  }

  /** A lone capital before a part without capitals starts no match. */
  lemma {:induction false} BreakAcronymLoneCapital(cap: char, rest: string)
    requires IsUpper(cap)
    requires forall i :: 0 <= i < |rest| ==> !IsUpper(rest[i])
    ensures BreakAcronym([cap] + rest) == [cap] + rest
  {
    var t := [cap] + rest;
    assert t[1..] == rest;
    CapitalRunOf(t, 1);
    NoCapitalsUntouched(rest);
    BreakAcronymOne(t);
  }

  /** The third pass copies a prefix without capitals. */
  lemma {:induction false} BreakAcronymPrefix(w: string, t: string)
    requires forall i :: 0 <= i < |w| ==> !IsUpper(w[i])
    ensures BreakAcronym(w + t) == w + BreakAcronym(t)
    decreases |w|
  {
    if |w| == 0 {
      assert w + t == t;
    } else {
      BreakAcronymPrefix(w[1..], t);
      BreakAcronymPrefixStep(w, t, w + t, w[1..] + t);
    }
  }

  lemma {:induction false} BreakAcronymPrefixStep(w: string, t: string, s: string, s': string)
    requires |w| > 0 && !IsUpper(w[0])
    requires s == w + t && s' == w[1..] + t
    requires BreakAcronym(s') == w[1..] + BreakAcronym(t)
    ensures BreakAcronym(s) == w + BreakAcronym(t)
  {
    Cons(w[0], w[1..], t);
    assert w == [w[0]] + w[1..];
    BreakAcronymCons(w[0], s', s);
    Cons(w[0], w[1..], BreakAcronym(t));
  }

  lemma {:induction false} Cons(c: char, w: string, t: string)
    ensures [c] + w + t == [c] + (w + t)
  {
  }

  /** The third pass copies a leading character that is not a capital. */
  lemma {:induction false} BreakAcronymCons(c: char, t: string, s: string)
    requires !IsUpper(c) && s == [c] + t
    ensures BreakAcronym(s) == [c] + BreakAcronym(t)
  {
    assert s[1..] == t;
  }

  /** Where no run of two capitals starts, the third pass moves on by one. */
  lemma {:induction false} BreakAcronymOne(t: string)
    requires |t| > 0 && CapitalRun(t) < 2
    ensures BreakAcronym(t) == [t[0]] + BreakAcronym(t[1..])
  {
  }

  /** The last steps on a space-separated pair of clean words. */
  lemma {:induction false} WordsOfPair(l: string, u: string, v: string)
    requires CleanWord(u) && CleanWord(v) && l == u + " " + v
    ensures Seqs.Keep(SplitSpaces(Trim(l)), NonEmpty) == [u, v]
  {
    assert AllClean([u, v]);
    assert l == Strings.Join([u, v], " ");
    Strings.JoinStart([u, v], " ");
    TrimNoop(l);
    SplitSpacesJoin([u, v]);
    Seqs.KeepAll([u, v], NonEmpty);
  }

  /** A run of capitals followed by a capitalised word splits before the
      run's last capital: `'HTML' + 'Parser'` gives `'html'` and
      `'parser'`. */
  lemma {:induction false} SplitAcronymPair(acr: string, v: string, s: string)
    requires |acr| > 0 && forall i :: 0 <= i < |acr| ==> IsUpper(acr[i])
    requires CleanWord(v) && |v| >= 2 && IsLower(v[0]) && IsLower(v[1])
    requires s == acr + [ToUpper(v[0])] + v[1..]
    ensures Split(s) == [LowerStr(acr), v]
  {
    var a := acr + " " + [ToUpper(v[0])] + v[1..];
    var l := LowerStr(acr) + " " + v;
    AcronymBreaks(acr, v, s, a);
    AcronymLowers(acr, v, a, l);
    AcronymWords(acr, v, l);
    SplitSteps(s, a, l, [LowerStr(acr), v]);
  }

  /** The first three stages of `SplitAcronymPair` put one space before the
      capital that starts the word. */
  lemma {:induction false} AcronymBreaks(acr: string, v: string, s: string, a: string)
    requires |acr| > 0 && forall i :: 0 <= i < |acr| ==> IsUpper(acr[i])
    requires CleanWord(v) && |v| >= 2 && IsLower(v[0]) && IsLower(v[1])
    requires s == acr + [ToUpper(v[0])] + v[1..] && a == acr + " " + [ToUpper(v[0])] + v[1..]
    ensures BreakAcronym(BreakBeforeCapital(CollapseSeparators(s))) == a
  {
    AcronymPasses(acr, ToUpper(v[0]), v[1..]);
  }

  /** Lower-casing in `SplitAcronymPair`. */
  lemma {:induction false} AcronymLowers(acr: string, v: string, a: string, l: string)
    requires CleanWord(v) && IsLower(v[0])
    requires a == acr + " " + [ToUpper(v[0])] + v[1..] && l == LowerStr(acr) + " " + v
    ensures LowerStr(a) == l
  {
    LowerAroundBreak(acr, v, a, l);
  }

  /** Trimming and splitting in `SplitAcronymPair`. */
  lemma {:induction false} AcronymWords(acr: string, v: string, l: string)
    requires |acr| > 0 && (forall i :: 0 <= i < |acr| ==> IsUpper(acr[i])) && CleanWord(v)
    requires l == LowerStr(acr) + " " + v
    ensures Seqs.Keep(SplitSpaces(Trim(l)), NonEmpty) == [LowerStr(acr), v]
  {
    LowerCapitalsClean(acr);
    WordsOfPair(l, LowerStr(acr), v);
  }

  /** `splitWords` through its stages. */
  lemma {:induction false} SplitSteps(s: string, a: string, l: string, ws: seq<string>)
    requires BreakAcronym(BreakBeforeCapital(CollapseSeparators(s))) == a
    requires LowerStr(a) == l
    requires Seqs.Keep(SplitSpaces(Trim(l)), NonEmpty) == ws
    ensures Split(s) == ws
  {
  }

  /** The three replaces on a run of capitals, a capital and a part without
      capitals that starts with a small letter: one space before the
      capital. */
  lemma {:induction false} AcronymPasses(acr: string, cap: char, rest: string)
    requires |acr| > 0 && forall i :: 0 <= i < |acr| ==> IsUpper(acr[i])
    requires IsUpper(cap) && |rest| > 0 && IsLower(rest[0])
    requires forall i :: 0 <= i < |rest| ==> !IsSeparator(rest[i]) && !IsUpper(rest[i])
    ensures BreakAcronym(BreakBeforeCapital(CollapseSeparators(acr + [cap] + rest))) == acr + " " + [cap] + rest
  {
    forall i | 0 <= i < |acr| ensures !IsSeparator(acr[i]) {
      LetterNotSeparator(acr[i]);
    }
    LetterNotSeparator(cap);
    CollapseAround(acr, cap, rest, acr + [cap] + rest);
    AcronymSecondPass(acr, cap, rest);
    AcronymThirdPass(acr, cap, rest);
  }

  /** Lowercased capitals make a clean word. */
  lemma {:induction false} LowerCapitalsClean(acr: string)
    requires |acr| > 0 && forall i :: 0 <= i < |acr| ==> IsUpper(acr[i])
    ensures CleanWord(LowerStr(acr))
  {
    var l := LowerStr(acr);
    forall j | 0 <= j < |l| ensures !IsSeparator(l[j]) && !IsUpper(l[j]) {
      LetterNotSeparator(l[j]);
    }
  }

  /** Letters and digits are not separators. */
  lemma {:induction false} LetterNotSeparator(c: char)
    requires IsUpper(c) || IsLower(c) || IsDigit(c)
    ensures !IsSeparator(c)
  {
  }

  /** The first pass leaves `w + cap + rest` alone when none of its parts
      holds a separator. */
  lemma {:induction false} CollapseAround(w: string, cap: char, rest: string, s: string)
    requires forall i :: 0 <= i < |w| ==> !IsSeparator(w[i])
    requires !IsSeparator(cap)
    requires forall i :: 0 <= i < |rest| ==> !IsSeparator(rest[i])
    requires s == w + [cap] + rest
    ensures CollapseSeparators(s) == s
  {
    forall i | 0 <= i < |s| ensures !IsSeparator(s[i]) {
      if i < |w| {
        assert s[i] == w[i];
      } else if i > |w| {
        assert s[i] == rest[i - |w| - 1];
      }
    }
    CollapseNone(s);
  }

  /** Without separators the first pass changes nothing. */
  lemma {:induction false} CollapseNone(s: string)
    requires forall i :: 0 <= i < |s| ==> !IsSeparator(s[i])
    ensures CollapseSeparators(s) == s
  {
    CollapseWord(s, "");
    assert s + "" == s;
  }

  lemma {:induction false} AcronymSecondPass(acr: string, cap: char, rest: string)
    requires forall i :: 0 <= i < |acr| ==> IsUpper(acr[i])
    requires IsUpper(cap) && forall i :: 0 <= i < |rest| ==> !IsUpper(rest[i])
    ensures BreakBeforeCapital(acr + [cap] + rest) == acr + [cap] + rest
  {
    var s := acr + [cap] + rest;
    forall i | 0 <= i < |s| && i + 1 < |s| ensures IsUpper(s[i]) || !IsUpper(s[i + 1]) {
      if i < |acr| {
        assert s[i] == acr[i];
      } else if i == |acr| {
        assert s[i] == cap;
      } else {
        assert s[i + 1] == rest[i - |acr|];
      }
    }
    BreakBeforeCapitalSkip(s, |s|);
    assert s[..|s|] == s && s[|s|..] == "";
  }

  lemma {:induction false} AcronymThirdPass(acr: string, cap: char, rest: string)
    requires |acr| > 0 && forall i :: 0 <= i < |acr| ==> IsUpper(acr[i])
    requires IsUpper(cap) && |rest| > 0 && IsLower(rest[0])
    requires forall i :: 0 <= i < |rest| ==> !IsUpper(rest[i])
    ensures BreakAcronym(acr + [cap] + rest) == acr + " " + [cap] + rest
  {
    var s := acr + [cap] + rest;
    var n := |acr| + 1;
    CapitalRunOf(s, n);
    AcronymSlices(acr, cap, rest, s);
    BreakAcronymMatch(s);
    NoCapitalsUntouched(rest[1..]);
    AcronymJoin(acr, cap, rest);
  }

  lemma {:induction false} AcronymSlices(acr: string, cap: char, rest: string, s: string)
    requires |rest| > 0 && s == acr + [cap] + rest
    ensures var n := |acr| + 1;
      && (forall i :: 0 <= i < n ==> s[i] == if i < |acr| then acr[i] else cap)
      && s[n] == rest[0]
      && s[..n - 1] == acr && s[n - 1..n + 1] == [cap, rest[0]] && s[n + 1..] == rest[1..]
  {
  }

  lemma {:induction false} AcronymJoin(acr: string, cap: char, rest: string)
    requires |rest| > 0
    ensures acr + " " + [cap, rest[0]] + rest[1..] == acr + " " + [cap] + rest
  {
    assert [cap, rest[0]] + rest[1..] == [cap] + rest;
  }

  /** Where a run of at least two capitals is followed by a small letter,
      the third pass breaks before the run's last capital. */
  lemma {:induction false} BreakAcronymMatch(s: string)
    requires |s| > 0 && 2 <= CapitalRun(s) < |s| && IsLower(s[CapitalRun(s)])
    ensures BreakAcronym(s)
      == s[..CapitalRun(s) - 1] + " " + s[CapitalRun(s) - 1..CapitalRun(s) + 1] + BreakAcronym(s[CapitalRun(s) + 1..])
  {
  }

  /** Lowercasing `w + ' ' + cap + rest`, where `cap` is the capital of a
      word's small first letter: the word comes back. */
  lemma {:induction false} LowerAroundBreak(w: string, v: string, s: string, r: string)
    requires |v| > 0 && IsLower(v[0]) && forall i :: 0 <= i < |v| ==> !IsUpper(v[i])
    requires s == w + " " + [ToUpper(v[0])] + v[1..] && r == LowerStr(w) + " " + v
    ensures LowerStr(s) == r
  {
    var l := LowerStr(s);
    var n := |w|;
    forall i | 0 <= i < |s| ensures l[i] == r[i] {
      if i < n {
        assert s[i] == w[i];
      } else if i == n {
        assert s[i] == ' ';
      } else if i == n + 1 {
        assert s[i] == ToUpper(v[0]);
        CaseRoundTrip(v[0]);
      } else {
        assert s[i] == v[i - n - 1];
      }
    }
  }

  /** The capital run of a string whose first `n` characters are capitals
      and whose next one is not. */
  lemma {:induction false} CapitalRunOf(s: string, n: nat)
    requires n <= |s| && (forall i :: 0 <= i < n ==> IsUpper(s[i])) && (n < |s| ==> !IsUpper(s[n]))
    ensures CapitalRun(s) == n
    decreases n
  {
    if n > 0 {
      CapitalRunOf(s[1..], n - 1);
    }
  }

  /** `splitWords('test123Case')` is `['test123', 'case']`: a digit does not
      start a word, a capital after a digit does. (The input is a parameter
      so that the verifier follows the lemmas instead of evaluating the
      literal.) */
  lemma {:induction false} SplitExample(s: string)
    requires s == "test123Case"
    ensures Split(s) == ["test123", "case"]
  {
    var u := s[..7];
    var v := [ToLower(s[7])] + s[8..];
    assert u == "test123" && v == "case";
    SplitCamelPair(u, v, s);
  }

  /** `splitWords('HTMLParser')` is `['html', 'parser']`. */
  lemma {:induction false} AcronymExample(s: string)
    requires s == "HTMLParser"
    ensures Split(s) == ["html", "parser"]
  {
    var acr := s[..4];
    var v := [ToLower(s[4])] + s[5..];
    assert v == "parser";
    assert LowerStr(acr) == "html";
    SplitAcronymPair(acr, v, s);
  }

  /** The second pass copies a prefix in which no character that is not a
      capital is followed by a capital. */
  lemma {:induction false} BreakBeforeCapitalSkip(s: string, k: nat)
    requires k <= |s|
    requires forall i :: 0 <= i < k && i + 1 < |s| ==> IsUpper(s[i]) || !IsUpper(s[i + 1])
    ensures BreakBeforeCapital(s) == s[..k] + BreakBeforeCapital(s[k..])
    decreases k
  {
    if k > 0 {
      if |s| >= 2 {
        BreakBeforeCapitalSkip(s[1..], k - 1);
        assert s[1..][k - 1..] == s[k..];
        assert s[..k] == [s[0]] + s[1..][..k - 1];
      } else {
        assert s[..k] == s && s[k..] == [];
      }
    }
  }

  // ---------------------------------------------------------------- round trip

  /** Separators inside a word-free prefix are kept verbatim. */
  lemma {:induction false} CollapseWord(w: string, t: string)
    requires forall j :: 0 <= j < |w| ==> !IsSeparator(w[j])
    ensures CollapseSeparators(w + t) == w + CollapseSeparators(t)
    decreases |w|
  {
    if |w| > 0 {
      assert (w + t)[1..] == w[1..] + t;
      CollapseWord(w[1..], t);
    } else {
      assert w + t == t;
    }
  }

  /** Collapsing a join of clean words with a single separator gives their
      join with spaces. */
  lemma {:induction false} CollapseJoin(ws: seq<string>, c: char)
    requires AllClean(ws) && IsSeparator(c)
    ensures CollapseSeparators(Strings.Join(ws, [c])) == Strings.Join(ws, " ")
    decreases |ws|
  {
    if |ws| == 1 {
      CollapseWord(ws[0], "");
      assert ws[0] + "" == ws[0];
    } else if |ws| > 1 {
      var t := Strings.Join(ws[1..], [c]);
      CollapseJoin(ws[1..], c);
      Strings.JoinStart(ws[1..], [c]);
      assert ws[0] + [c] + t == ws[0] + ([c] + t);
      CollapseWord(ws[0], [c] + t);
      assert ([c] + t)[1..] == t;
      assert DropSeparators(t) == t;
    }
  }

  /** Every character of a join is a word's character or the separator's. */
  lemma {:induction false} JoinChars(ws: seq<string>, sep: string, p: char -> bool)
    requires forall i, j :: 0 <= i < |ws| && 0 <= j < |ws[i]| ==> p(ws[i][j])
    requires forall j :: 0 <= j < |sep| ==> p(sep[j])
    ensures forall k :: 0 <= k < |Strings.Join(ws, sep)| ==> p(Strings.Join(ws, sep)[k])
    decreases |ws|
  {
    if |ws| > 1 {
      JoinChars(ws[1..], sep, p);
      var t := Strings.Join(ws[1..], sep);
      var r := Strings.Join(ws, sep);
      forall k | 0 <= k < |r| ensures p(r[k]) {
        if k < |ws[0]| {
          assert r[k] == ws[0][k];
        } else if k < |ws[0]| + |sep| {
          assert r[k] == sep[k - |ws[0]|];
        } else {
          assert r[k] == t[k - |ws[0]| - |sep|];
        }
      }
    }
  }

  /** Without capitals the two capital passes change nothing. */
  lemma {:induction false} NoCapitalsUntouched(s: string)
    requires forall k :: 0 <= k < |s| ==> !IsUpper(s[k])
    ensures BreakBeforeCapital(s) == s
    ensures BreakAcronym(s) == s
    ensures LowerStr(s) == s
    decreases |s|
  {
    if |s| > 0 {
      NoCapitalsUntouched(s[1..]);
      assert [s[0]] + s[1..] == s;
    }
  }

  /** A piece without white space splits into itself. */
  lemma {:induction false} SplitSpacesWord(w: string, t: string)
    requires forall j :: 0 <= j < |w| ==> !IsSpace(w[j])
    requires |t| > 0 ==> !IsSpace(t[0])
    ensures SplitSpaces(w) == [w]
    ensures SplitSpaces(w + " " + t) == [w] + SplitSpaces(t)
    decreases |w|
  {
    if |w| == 0 {
      assert w + " " + t == " " + t;
      assert (" " + t)[1..] == t;
    } else {
      SplitSpacesWord(w[1..], t);
      SplitSpacesCons(w[0], w[1..], w, w[1..], []);
      SplitSpacesCons(w[0], w[1..] + " " + t, w + " " + t, w[1..], SplitSpaces(t));
    }
  }

  /** A character that is not white space joins the first piece. */
  lemma {:induction false} SplitSpacesCons(c: char, x: string, s: string, first: string, more: seq<string>)
    requires !IsSpace(c) && SplitSpaces(x) == [first] + more
    requires s == [c] + x
    ensures SplitSpaces(s) == [[c] + first] + more
  {
    assert s[1..] == x;
  }

  /** Splitting a space-join of clean words gives them back. */
  lemma {:induction false} SplitSpacesJoin(ws: seq<string>)
    requires |ws| > 0 && AllClean(ws)
    ensures SplitSpaces(Strings.Join(ws, " ")) == ws
    decreases |ws|
  {
    if |ws| == 1 {
      SplitSpacesWord(ws[0], "");
    } else {
      SplitSpacesJoin(ws[1..]);
      Strings.JoinStart(ws[1..], " ");
      SplitSpacesWord(ws[0], Strings.Join(ws[1..], " "));
    }
  }

  /** Splitting the join of clean words by any one separator gives them
      back. */
  lemma {:induction false} SplitJoin(ws: seq<string>, c: char)
    requires AllClean(ws) && IsSeparator(c)
    ensures Split(Strings.Join(ws, [c])) == ws
  {
    if |ws| == 0 {
      SplitSeparatorsOnly("");
    } else {
      var j := Strings.Join(ws, " ");
      CollapseJoin(ws, c);
      JoinChars(ws, " ", (ch: char) => !IsUpper(ch));
      NoCapitalsUntouched(j);
      Strings.JoinStart(ws, " ");
      TrimNoop(j);
      SplitSpacesJoin(ws);
      Seqs.KeepAll(ws, NonEmpty);
    }
  }

  /** Joining the words with `-` and splitting again gives the same words. */
  lemma {:induction false} SplitRoundTrip(str: string)
    ensures Split(Strings.Join(Split(str), "-")) == Split(str)
  {
    SplitJoin(Split(str), '-');
  }
}

=== FILE: strings.dfy ===
/** `String.prototype.split` on a single character and `Array.prototype.join`. */
module Strings {

  /** Number of occurrences of `c` in `s`. */
  function Count(s: string, c: char): nat {
    if |s| == 0 then 0 else (if s[0] == c then 1 else 0) + Count(s[1..], c)
  }

  /** `ks.join(sep)`. */
  function Join(ks: seq<string>, sep: string): string {
    if |ks| == 0 then "" else if |ks| == 1 then ks[0] else ks[0] + sep + Join(ks[1..], sep)
  }

  /** `s.split(c)`: the pieces between occurrences of `c`, empty ones included. */
  function Split(s: string, c: char): (r: seq<string>)
    ensures |r| == Count(s, c) + 1
    ensures forall i :: 0 <= i < |r| ==> c !in r[i]
    ensures Join(r, [c]) == s
  {
    if |s| == 0 then [""]
    else
      var rest := Split(s[1..], c);
      if s[0] == c then
        assert s == [c] + s[1..];
        [""] + rest
      else
        var r := [[s[0]] + rest[0]] + rest[1..];
        assert s == [s[0]] + s[1..];
        JoinConsHead(s[0], rest, [c], r);
        r
  }

  /** Putting a character in front of the first piece puts it in front of
      the join. */
  lemma {:induction false} JoinConsHead(x: char, rest: seq<string>, sep: string, r: seq<string>)
    requires |rest| > 0 && r == [[x] + rest[0]] + rest[1..]
    ensures Join(r, sep) == [x] + Join(rest, sep)
  {
    if |rest| > 1 {
      assert r[1..] == rest[1..];
      assert [x] + rest[0] + sep + Join(rest[1..], sep) == [x] + (rest[0] + sep + Join(rest[1..], sep));
    }
  }

  lemma {:induction false} SplitOfPiece(w: string, c: char)
    requires c !in w
    ensures Split(w, c) == [w]
  {
    if |w| > 0 {
      SplitOfPiece(w[1..], c);
      assert w == [w[0]] + w[1..];
    }
  }

  lemma {:induction false} SplitAfterPiece(w: string, c: char, t: string)
    requires c !in w
    ensures Split(w + [c] + t, c) == [w] + Split(t, c)
  {
    if |w| == 0 {
      assert w + [c] + t == [c] + t;
      assert ([c] + t)[1..] == t;
    } else {
      assert (w + [c] + t)[1..] == w[1..] + [c] + t;
      SplitAfterPiece(w[1..], c, t);
      assert [w[0]] + w[1..] == w;
    }
  }

  /** Splitting a join restores the pieces, when no piece holds the separator. */
  lemma {:induction false} SplitJoin(ks: seq<string>, c: char)
    requires |ks| >= 1
    requires forall i :: 0 <= i < |ks| ==> c !in ks[i]
    ensures Split(Join(ks, [c]), c) == ks
  {
    if |ks| == 1 {
      SplitOfPiece(ks[0], c);
    } else {
      SplitJoin(ks[1..], c);
      SplitAfterPiece(ks[0], c, Join(ks[1..], [c]));
      assert ks == [ks[0]] + ks[1..];
    }
  }

  /** A join of non-empty words starts with the first word's first
      character and ends with the last word's last character. */
  lemma {:induction false} JoinStart(ws: seq<string>, sep: string)
    requires |ws| > 0 && forall i :: 0 <= i < |ws| ==> |ws[i]| > 0
    ensures |Join(ws, sep)| > 0
    ensures Join(ws, sep)[0] == ws[0][0]
    ensures Join(ws, sep)[|Join(ws, sep)| - 1] == ws[|ws| - 1][|ws[|ws| - 1]| - 1]
    decreases |ws|
  {
    if |ws| > 1 {
      JoinStart(ws[1..], sep);
    }
  }

  /** `s` with every `a` replaced by `b`. */
  function Replace(s: string, a: char, b: char): (r: string)
    ensures |r| == |s|
    ensures forall i :: 0 <= i < |s| ==> r[i] == if s[i] == a then b else s[i]
  {
    if |s| == 0 then "" else [if s[0] == a then b else s[0]] + Replace(s[1..], a, b)
  }

  /** Replacing characters piece by piece. */
  lemma {:induction false} ReplaceAppend(x: string, y: string, a: char, b: char)
    ensures Replace(x + y, a, b) == Replace(x, a, b) + Replace(y, a, b)
  {
    var l, r := Replace(x + y, a, b), Replace(x, a, b) + Replace(y, a, b);
    forall i | 0 <= i < |l| ensures l[i] == r[i] {
      if i < |x| {
        assert (x + y)[i] == x[i];
      } else {
        assert (x + y)[i] == y[i - |x|];
      }
    }
  }

  /** When no piece holds `a`, replacing `a` by `b` in their join with `a`
      gives their join with `b`. */
  lemma {:induction false} ReplaceJoin(ws: seq<string>, a: char, b: char)
    requires forall i :: 0 <= i < |ws| ==> a !in ws[i]
    ensures Replace(Join(ws, [a]), a, b) == Join(ws, [b])
    decreases |ws|
  {
    if |ws| == 1 {
      ReplaceNone(ws[0], a, b);
    } else if |ws| > 1 {
      ReplaceJoin(ws[1..], a, b);
      ReplaceJoinStep(ws[0], Join(ws[1..], [a]), Join(ws[1..], [b]), a, b);
    }
  }

  lemma {:induction false} ReplaceJoinStep(w: string, ja: string, jb: string, a: char, b: char)
    requires a !in w && Replace(ja, a, b) == jb
    ensures Replace(w + [a] + ja, a, b) == w + [b] + jb
  {
    ReplaceNone(w, a, b);
    ReplaceAppend(w + [a], ja, a, b);
    ReplaceAppend(w, [a], a, b);
  }

  lemma {:induction false} ReplaceNone(w: string, a: char, b: char)
    requires a !in w
    ensures Replace(w, a, b) == w
  {
    var r := Replace(w, a, b);
    forall i | 0 <= i < |w| ensures r[i] == w[i] {
      assert w[i] in w;
    }
  }

  /** No leading, trailing or doubled `c`. */
  predicate Delimited(r: string, c: char) {
    && (|r| > 0 ==> r[0] != c && r[|r| - 1] != c)
    && forall i :: 0 <= i < |r| - 1 ==> r[i] != c || r[i + 1] != c
  }

  /** Joining non-empty pieces that do not hold `c` with `c` gives a string
      with no leading, trailing or doubled `c`. */
  lemma {:induction false} JoinDelimited(ws: seq<string>, c: char)
    requires forall i :: 0 <= i < |ws| ==> |ws[i]| > 0 && c !in ws[i]
    ensures Delimited(Join(ws, [c]), c)
    decreases |ws|
  {
    if |ws| == 1 {
      var w := ws[0];
      forall i | 0 <= i < |w| ensures w[i] != c {
        assert w[i] in w;
      }
    } else if |ws| > 1 {
      JoinDelimited(ws[1..], c);
      JoinStart(ws[1..], [c]);
      DelimitedCons(ws[0], c, Join(ws[1..], [c]), Join(ws, [c]));
    }
  }

  lemma {:induction false} DelimitedCons(w: string, c: char, t: string, r: string)
    requires |w| > 0 && c !in w && Delimited(t, c) && |t| > 0 && t[0] != c
    requires r == w + [c] + t
    ensures Delimited(r, c)
  {
    assert w[0] in w;
    forall i | 0 <= i < |r| - 1 ensures r[i] != c || r[i + 1] != c {
      if i < |w| - 1 {
        assert r[i] == w[i] && w[i] in w;
      } else if i == |w| - 1 {
        assert r[i] == w[i] && w[i] in w;
      } else if i == |w| {
        assert r[i + 1] == t[0];
      } else {
        assert r[i] == t[i - |w| - 1] && r[i + 1] == t[i - |w|];
      }
    }
    assert r[|r| - 1] == t[|t| - 1];
  }
}

=== FILE: throttle.dfy ===
/** `throttle(func, wait, options)`: a wrapper that invokes `func` at most
    once per `wait` milliseconds. The closure keeps `lastCallTime` (0 meaning
    "never"), `hasCalledLeading` and the id of at most one pending timer; a
    call may invoke at once (leading edge) or schedule the timer (trailing
    edge), and `cancel` clears all three. The clock is explicit: each call
    and each timer firing carries its `Date.now()`. `A` stands for the
    call's `this` and arguments. */
module FunctionThrottle {
  import opened Wrappers
  import opened JsValue

  /** `{ leading = true, trailing = true } = options`. */
  datatype Options = Options(leading: bool, trailing: bool)

  /** Destructuring with defaults: an option left undefined is true. */
  function ReadOptions(leading: Option<bool>, trailing: Option<bool>): (o: Options)
    ensures o.leading <==> leading != Some(false)
    ensures o.trailing <==> trailing != Some(false)
  {
    Options(if leading.Some? then leading.value else true,
            if trailing.Some? then trailing.value else true)
  }

  /** A pending `setTimeout`: the arguments of the call that scheduled it,
      and when it was scheduled. */
  datatype Timer<A> = Timer(args: A, scheduledAt: int)

  /** One invocation of `func`: when, and with what. */
  datatype Invocation<A> = Invocation(time: int, args: A)

  /** The closure's variables, plus the invocations of `func` so far. */
  datatype State<A> = State(lastCallTime: int, hasCalledLeading: bool, timer: Option<Timer<A>>,
                            invoked: seq<Invocation<A>>)

  /** A throttled function: its options, its (clamped) wait and its state. */
  datatype Throttled<A> = Throttled(options: Options, wait: Number, state: State<A>)

  /** `if (wait < 0) wait = 0`: a negative wait becomes 0; NaN fails the
      comparison and stays NaN. */
  function ClampWait(wait: Number): (w: Number)
    ensures w.NaN? <==> wait.NaN?
    ensures w.Fin? ==> w.x >= 0.0
    ensures wait.Fin? && wait.x >= 0.0 ==> w == wait
  {
    if wait.Fin? && wait.x < 0.0 then Fin(0.0) else wait
  }

  /** A fresh throttled function. */
  function Throttle<A>(options: Options, wait: Number): (t: Throttled<A>)
    ensures t.state == State(0, false, None, [])
    ensures t.options == options && t.wait == ClampWait(wait)
  {
    Throttled(options, ClampWait(wait), State(0, false, None, []))
  }

  /** `a >= b` on numbers: false when either is NaN. */
  predicate AtLeast(a: Number, b: Number) {
    a.Fin? && b.Fin? && a.x >= b.x
  }

  /** `canCallNow`: leading is on and, taking a `lastCallTime` of 0 as a
      full `wait` ago, at least `wait` has passed. */
  predicate CanCallNow<A>(t: Throttled<A>, now: int) {
    var timeSinceLastCall := if t.state.lastCallTime == 0 then t.wait else Fin((now - t.state.lastCallTime) as real);
    t.options.leading && AtLeast(timeSinceLastCall, t.wait)
  }

  /** One call at time `now`: invoke on the leading edge, or else schedule
      the trailing timer when trailing is on, none is pending and no leading
      call has happened. */
  function Call<A>(t: Throttled<A>, now: int, args: A): (r: Throttled<A>)
    ensures r.options == t.options && r.wait == t.wait
    ensures r.state.invoked == t.state.invoked + [Invocation(now, args)] || r.state.invoked == t.state.invoked
    ensures |r.state.invoked| > |t.state.invoked| <==>
      t.options.leading && !t.wait.NaN? &&
      (t.state.lastCallTime == 0 || (now - t.state.lastCallTime) as real >= t.wait.x)
    ensures |r.state.invoked| > |t.state.invoked| ==> r.state.lastCallTime == now && r.state.hasCalledLeading
    ensures |r.state.invoked| == |t.state.invoked| ==>
      r.state.lastCallTime == t.state.lastCallTime && r.state.hasCalledLeading == t.state.hasCalledLeading
    ensures t.state.timer.Some? ==> r.state.timer == t.state.timer
    ensures r.state.timer != t.state.timer ==>
      t.options.trailing && !t.state.hasCalledLeading && r.state.timer == Some(Timer(args, now))
  {
    var s := t.state;
    if CanCallNow(t, now) then
      t.(state := State(now, true, s.timer, s.invoked + [Invocation(now, args)]))
    else if t.options.trailing && s.timer.None? && !s.hasCalledLeading then
      t.(state := s.(timer := Some(Timer(args, now))))
    else t
  }

  /** The pending timer is due at `now`. A NaN delay is taken as 0, as
      `setTimeout` does. */
  predicate Due<A>(t: Throttled<A>, now: int) {
    t.state.timer.Some? &&
    (t.wait.NaN? || (now - t.state.timer.value.scheduledAt) as real >= t.wait.x)
  }

  /** The timer's callback at time `now`: clear the slot, record `now` as
      the last call time and invoke with the arguments of the call that
      scheduled it. Before the timer is due, or with none pending, nothing
      happens. */
  function Fire<A>(t: Throttled<A>, now: int): (r: Throttled<A>)
    ensures r.options == t.options && r.wait == t.wait
    ensures r.state.hasCalledLeading == t.state.hasCalledLeading
    ensures !Due(t, now) ==> r == t
    ensures Due(t, now) ==>
      && r.state.timer.None?
      && r.state.lastCallTime == now
      && r.state.invoked == t.state.invoked + [Invocation(now, t.state.timer.value.args)]
  {
    if Due(t, now) then
      var s := t.state;
      t.(state := State(now, s.hasCalledLeading, None, s.invoked + [Invocation(now, s.timer.value.args)]))
    else t
  }

  /** `cancel()`: drop the pending timer and forget the last call. */
  function Cancel<A>(t: Throttled<A>): (r: Throttled<A>)
    ensures r.state.timer.None? && r.state.lastCallTime == 0 && !r.state.hasCalledLeading
    ensures r.options == t.options && r.wait == t.wait && r.state.invoked == t.state.invoked
  {
    t.(state := State(0, false, None, t.state.invoked))
  }

  /** What can happen to a throttled function. */
  datatype Event<A> = CallAt(now: int, args: A) | FireAt(now: int) | CancelNow

  function Step<A>(t: Throttled<A>, e: Event<A>): Throttled<A> {
    match e
    case CallAt(now, args) => Call(t, now, args)
    case FireAt(now) => Fire(t, now)
    case CancelNow => Cancel(t)
  }

  function Run<A>(t: Throttled<A>, es: seq<Event<A>>): (r: Throttled<A>)
    ensures r.options == t.options && r.wait == t.wait
    decreases |es|
  {
    if |es| == 0 then t else Run(Step(t, es[0]), es[1..])
  }

  // ---------------------------------------------------------------- properties

  /** A negative wait throttles exactly as a wait of 0. */
  lemma {:induction false} NegativeWaitIsZero<A>(options: Options, x: real, es: seq<Event<A>>)
    requires x < 0.0
    ensures Run(Throttle<A>(options, Fin(x)), es) == Run(Throttle<A>(options, Fin(0.0)), es)
  {
    assert Throttle<A>(options, Fin(x)) == Throttle<A>(options, Fin(0.0));
  }

  /** With leading on and a wait that is a number, the first call after
      creation or after `cancel` invokes at once. */
  lemma {:induction false} FirstCallLeads<A>(t: Throttled<A>, now: int, args: A)
    requires t.options.leading && t.wait.Fin?
    ensures Call(Cancel(t), now, args).state.invoked == t.state.invoked + [Invocation(now, args)]
    ensures Call(Throttle<A>(t.options, t.wait), now, args).state.invoked == [Invocation(now, args)]
  {
    var c := Cancel(t);
    assert CanCallNow(c, now);
    var f := Throttle<A>(t.options, t.wait);
    assert CanCallNow(f, now);
  }

  /** Once a leading call has happened, and until `cancel`, no new timer is
      scheduled: the slot only ever holds the timer already pending, or
      nothing, and the flag stays set. */
  lemma {:induction false} LeadingBlocksTrailing<A>(t: Throttled<A>, es: seq<Event<A>>)
    requires t.state.hasCalledLeading
    requires forall i :: 0 <= i < |es| ==> !es[i].CancelNow?
    ensures Run(t, es).state.hasCalledLeading
    ensures Run(t, es).state.timer.None? || Run(t, es).state.timer == t.state.timer
    decreases |es|
  {
    if |es| > 0 {
      var t' := Step(t, es[0]);
      LeadingBlocksTrailing(t', es[1..]);
    }
  }

  /** With leading on and a number as wait, which are the defaults, no
      trailing timer is ever scheduled, `cancel` or not: every call after
      the first leading one finds `hasCalledLeading` set. */
  lemma {:induction false} LeadingNeverSchedules<A>(t: Throttled<A>, es: seq<Event<A>>)
    requires t.options.leading && t.wait.Fin?
    requires t.state.timer.None? && (t.state.lastCallTime == 0 || t.state.hasCalledLeading)
    ensures Run(t, es).state.timer.None?
    decreases |es|
  {
    if |es| > 0 {
      var t' := Step(t, es[0]);
      LeadingNeverSchedules(t', es[1..]);
    }
  }

  /** With leading and trailing both off, `func` is never invoked. */
  lemma {:induction false} BothOffNeverInvokes<A>(t: Throttled<A>, es: seq<Event<A>>)
    requires !t.options.leading && !t.options.trailing && t.state.timer.None?
    ensures Run(t, es).state.invoked == t.state.invoked
    decreases |es|
  {
    if |es| > 0 {
      var t' := Step(t, es[0]);
      BothOffNeverInvokes(t', es[1..]);
    }
  }

  // ---------------------------------------------------------------- at most once per wait

  /** The time an event carries; `cancel` carries none. */
  function TimeOf<A>(e: Event<A>): Option<int> {
    match e
    case CallAt(now, _) => Some(now)
    case FireAt(now) => Some(now)
    case CancelNow => None
  }

  /** The events come at times no earlier than `clock`, in order. */
  predicate Timed<A>(es: seq<Event<A>>, clock: int)
    decreases |es|
  {
    |es| == 0 ||
    (var c := if TimeOf(es[0]).Some? then TimeOf(es[0]).value else clock;
     clock <= c && Timed(es[1..], c))
  }

  /** Consecutive invocations lie at least `x` apart. */
  predicate Spaced<A>(log: seq<Invocation<A>>, x: real) {
    forall i :: 0 < i < |log| ==> (log[i].time - log[i - 1].time) as real >= x
  }

  /** What holds of a throttled function with wait `x` at time `clock`,
      before any `cancel`, when the clock started at 1 or later. */
  predicate SpacedState<A>(t: Throttled<A>, x: real, clock: int) {
    var s := t.state;
    && t.wait == Fin(x) && x >= 0.0
    && s.lastCallTime <= clock
    && (|s.invoked| == 0 ==> s.lastCallTime == 0)
    && (|s.invoked| > 0 ==> s.lastCallTime == s.invoked[|s.invoked| - 1].time && s.lastCallTime >= 1)
    && Spaced(s.invoked, x)
    && (s.timer.Some? ==> s.timer.value.scheduledAt >= s.lastCallTime)
    && (t.options.leading ==> s.timer.None? && (s.lastCallTime == 0 || s.hasCalledLeading))
  }

  /** Appending an invocation at least `x` after the last keeps the log
      spaced. */
  lemma {:induction false} SpacedSnoc<A>(log: seq<Invocation<A>>, x: real, e: Invocation<A>)
    requires Spaced(log, x)
    requires |log| > 0 ==> (e.time - log[|log| - 1].time) as real >= x
    ensures Spaced(log + [e], x)
  {
    var l := log + [e];
    forall i | 0 < i < |l| ensures (l[i].time - l[i - 1].time) as real >= x {
      if i < |log| {
        assert l[i] == log[i] && l[i - 1] == log[i - 1];
      }
    }
  }

  /** One call keeps the state spaced. */
  lemma {:induction false} CallKeepsSpaced<A>(t: Throttled<A>, x: real, clock: int, now: int, args: A)
    requires SpacedState(t, x, clock) && clock <= now && 1 <= now
    ensures SpacedState(Call(t, now, args), x, now)
  {
    var s := t.state;
    if CanCallNow(t, now) {
      SpacedSnoc(s.invoked, x, Invocation(now, args));
    }
  }

  /** A timer firing keeps the state spaced. */
  lemma {:induction false} FireKeepsSpaced<A>(t: Throttled<A>, x: real, clock: int, now: int)
    requires SpacedState(t, x, clock) && clock <= now && 1 <= now
    ensures SpacedState(Fire(t, now), x, now)
  {
    var s := t.state;
    if Due(t, now) {
      SpacedSnoc(s.invoked, x, Invocation(now, s.timer.value.args));
    }
  }

  lemma {:induction false} RunKeepsSpaced<A>(t: Throttled<A>, x: real, clock: int, es: seq<Event<A>>)
    requires SpacedState(t, x, clock) && 1 <= clock && Timed(es, clock)
    requires forall i :: 0 <= i < |es| ==> !es[i].CancelNow?
    ensures Spaced(Run(t, es).state.invoked, x)
    decreases |es|
  {
    if |es| == 0 {
    } else {
      var e := es[0];
      assert !e.CancelNow?;
      if e.CallAt? {
        CallKeepsSpaced(t, x, clock, e.now, e.args);
      } else {
        FireKeepsSpaced(t, x, clock, e.now);
      }
      assert forall i :: 0 <= i < |es[1..]| ==> !es[1..][i].CancelNow? by {
        forall i | 0 <= i < |es[1..]| ensures !es[1..][i].CancelNow? {
          assert es[1..][i] == es[i + 1];
        }
      }
      RunKeepsSpaced(Step(t, e), x, e.now, es[1..]);
    }
  }

  /** At most once per wait: from a fresh throttled function whose wait is
      a number, over calls and timer firings in clock order (times from 1
      on, as `Date.now()` gives) with no `cancel`, any two consecutive
      invocations of `func` are at least the clamped wait apart. */
  lemma {:induction false} AtMostOncePerWait<A>(options: Options, wait: real, es: seq<Event<A>>)
    requires Timed(es, 1)
    requires forall i :: 0 <= i < |es| ==> !es[i].CancelNow?
    ensures Spaced(Run(Throttle<A>(options, Fin(wait)), es).state.invoked, ClampWait(Fin(wait)).x)
  {
    var t := Throttle<A>(options, Fin(wait));
    RunKeepsSpaced(t, ClampWait(Fin(wait)).x, 1, es);
  }

  // ---------------------------------------------------------------- NaN wait

  /** A NaN wait is not clamped, and `timeSinceLastCall >= NaN` is false,
      so no call ever invokes on the leading edge, the first included. */
  lemma {:induction false} NaNWaitNeverLeads<A>(options: Options, now: int, args: A)
    requires options.leading
    ensures Call(Throttle<A>(options, NaN), now, args).state.invoked == []
  {
  }

  /** The wait clamped as `Number(wait) || 0` would, then below 0 to 0:
      NaN also becomes 0. */
  function ClampWaitFixed(wait: Number): (w: Number)
    ensures w.Fin? && w.x >= 0.0
    ensures wait.Fin? && wait.x >= 0.0 ==> w == wait
  {
    if wait.Fin? && wait.x >= 0.0 then wait else Fin(0.0)
  }

  function ThrottleFixed<A>(options: Options, wait: Number): (t: Throttled<A>)
    ensures t.wait.Fin? && t.wait.x >= 0.0
  {
    Throttled(options, ClampWaitFixed(wait), State(0, false, None, []))
  }

  /** With the fixed clamp, whatever the wait, leading on makes the first
      call invoke at once, and calls keep at least the wait apart. */
  lemma {:induction false} FixedFirstCallLeads<A>(options: Options, wait: Number, now: int, args: A, es: seq<Event<A>>)
    requires options.leading
    ensures Call(ThrottleFixed<A>(options, wait), now, args).state.invoked == [Invocation(now, args)]
    ensures Timed(es, 1) && (forall i :: 0 <= i < |es| ==> !es[i].CancelNow?) ==>
      Spaced(Run(ThrottleFixed<A>(options, wait), es).state.invoked, ClampWaitFixed(wait).x)
  {
    var t := ThrottleFixed<A>(options, wait);
    assert CanCallNow(t, now);
    if Timed(es, 1) && (forall i :: 0 <= i < |es| ==> !es[i].CancelNow?) {
      RunKeepsSpaced(t, ClampWaitFixed(wait).x, 1, es);
    }
  }
}

=== FILE: type_checks.dfy ===
/** Value classification shared by clone, merge and equality. */
module TypeChecks {
  import opened JsValue

  /** `isObject`: not null, typeof 'object', and not an array. Null,
      undefined, primitives, functions and arrays are not objects; every other
      object kind is, Dates and class instances included. */
  predicate IsObject(st: Store, v: Value)
    ensures IsObject(st, v) <==> v.Ref? && !ObjAt(st, v.addr).kind.Array? && !ObjAt(st, v.addr).kind.Function?
  {
    !v.Null? && TypeOf(st, v) == TObject && !(v.Ref? && ObjAt(st, v.addr).kind.Array?)
  }

  /** `isPlainObjectCheck`: an object whose prototype is null or
      Object.prototype. Plain objects are objects, and exactly the `{}` /
      null-prototype kind is plain: Dates, Maps, Sets, RegExps, arrays and
      class instances are not. */
  predicate IsPlainObjectCheck(st: Store, v: Value)
    ensures IsPlainObjectCheck(st, v) ==> IsObject(st, v)
    ensures IsPlainObjectCheck(st, v) <==> v.Ref? && ObjAt(st, v.addr).kind.Plain?
  {
    IsObject(st, v) && ObjAt(st, v.addr).kind.Plain?
  }
}

=== FILE: uniq.dfy ===
/** `uniq(array)`: `Array.from(new Set(array))`. A Set ignores an element it
    already holds, so the result keeps the first occurrence of each element,
    in the order of those first occurrences. Elements are compared with
    SameValueZero, which on the model's values is plain equality. */
module ArrayUniq {
  import JsValue
  import Seqs

  /** Adding the elements one by one to an insertion-ordered set. */
  function Uniq<T(==)>(a: seq<T>): (r: seq<T>)
    ensures JsValue.Distinct(r)
    ensures SameElements(r, a)
    ensures |r| <= |a|
    decreases |a|
  {
    if |a| == 0 then []
    else
      var init := a[..|a| - 1];
      var u := Uniq(init);
      var x := a[|a| - 1];
      assert forall i :: 0 <= i < |a| - 1 ==> a[i] == init[i];
      if x in u then u else u + [x]
  }

  /** `uniq` keeps every element and adds none. */
  lemma {:induction false} UniqMembers<T>(a: seq<T>)
    ensures forall x :: x in Uniq(a) <==> x in a
  {
    var u := Uniq(a);
    forall x ensures x in u <==> x in a {
      if x in a {
        var i :| 0 <= i < |a| && a[i] == x;
      }
      if x in u {
        var i :| 0 <= i < |u| && u[i] == x;
      }
    }
  }

  /** The position of the first occurrence of `x`. */
  function FirstIndex<T(==)>(a: seq<T>, x: T): (i: nat)
    requires x in a
    ensures i < |a| && a[i] == x
    ensures forall j :: 0 <= j < i ==> a[j] != x
  {
    if a[0] == x then 0 else 1 + FirstIndex(a[1..], x)
  }

  /** A first occurrence within a prefix is the first occurrence in the whole. */
  lemma {:induction false} FirstIndexPrefix<T>(a: seq<T>, n: nat, x: T)
    requires n <= |a| && x in a[..n]
    ensures x in a && FirstIndex(a, x) == FirstIndex(a[..n], x)
  {
    var i := FirstIndex(a[..n], x);
    assert a[i] == x;
    var k := FirstIndex(a, x);
    assert k <= i;
    assert a[..n][k] == x;
  }

  /** `r` and `a` hold the same elements. */
  predicate SameElements<T(==)>(r: seq<T>, a: seq<T>) {
    (forall i :: 0 <= i < |r| ==> r[i] in a) && (forall i :: 0 <= i < |a| ==> a[i] in r)
  }

  /** The elements of `r` occur in `a`, and `r` lists them in the order of
      their first occurrences there. */
  predicate InFirstOrder<T(==)>(r: seq<T>, a: seq<T>) {
    forall i, j :: 0 <= i < j < |r| ==> r[i] in a && r[j] in a && FirstIndex(a, r[i]) < FirstIndex(a, r[j])
  }

  /** The result lists elements in the order of their first occurrences. */
  lemma {:induction false} UniqOrder<T>(a: seq<T>)
    ensures InFirstOrder(Uniq(a), a)
    decreases |a|
  {
    if |a| > 0 {
      UniqOrder(a[..|a| - 1]);
      UniqStep(a);
      UniqOrderStep(a, a[..|a| - 1], Uniq(a[..|a| - 1]), Uniq(a));
    }
  }

  /** The step of `UniqOrder`: keeping the order when the last element is
      skipped or appended. */
  lemma {:induction false} UniqOrderStep<T>(a: seq<T>, init: seq<T>, u: seq<T>, r: seq<T>)
    requires |a| > 0 && init == a[..|a| - 1] && InFirstOrder(u, init)
    requires forall k :: 0 <= k < |u| ==> u[k] in init
    requires (a[|a| - 1] in init && r == u) || (a[|a| - 1] !in init && r == u + [a[|a| - 1]])
    ensures InFirstOrder(r, a)
  {
    var n := |a| - 1;
    assert |u| <= |r| && forall i :: 0 <= i < |u| ==> r[i] == u[i];
    forall i, j | 0 <= i < j < |r|
      ensures r[i] in a && r[j] in a && FirstIndex(a, r[i]) < FirstIndex(a, r[j])
    {
      if j < |u| {
        OrderAt(u, init, i, j);
        FirstIndexPrefix(a, n, u[i]);
        FirstIndexPrefix(a, n, u[j]);
      } else {
        assert r[i] == u[i] && r[j] == a[n];
        FirstIndexPrefix(a, n, u[i]);
        assert FirstIndex(a, a[n]) == n;
      }
    }
  }

  lemma {:induction false} OrderAt<T>(r: seq<T>, a: seq<T>, i: nat, j: nat)
    requires InFirstOrder(r, a) && i < j < |r|
    ensures r[i] in a && r[j] in a && FirstIndex(a, r[i]) < FirstIndex(a, r[j])
  {
  }

  /** A list without repeats is its own `uniq`. */
  lemma {:induction false} UniqOfDistinct<T>(d: seq<T>)
    requires JsValue.Distinct(d)
    ensures Uniq(d) == d
    decreases |d|
  {
    if |d| > 0 {
      var n := |d| - 1;
      assert JsValue.Distinct(d[..n]);
      UniqOfDistinct(d[..n]);
      assert d[..n] + [d[n]] == d;
    }
  }

  /** `uniq` is idempotent. */
  lemma {:induction false} UniqIdempotent<T>(a: seq<T>)
    ensures Uniq(Uniq(a)) == Uniq(a)
  {
    UniqOfDistinct(Uniq(a));
  }

  /** Only one list has no repeats, the elements of `a`, and the order of
      their first occurrences in `a`: the result is fully determined. */
  lemma {:induction false} UniqUnique<T>(a: seq<T>, r: seq<T>)
    requires JsValue.Distinct(r) && SameElements(r, a) && InFirstOrder(r, a)
    ensures r == Uniq(a)
    decreases |a|
  {
    if |a| == 0 {
      HeadIn(r);
    } else {
      var n := |a| - 1;
      var init := a[..n];
      if a[n] in init {
        RepeatedLast(a, r);
        UniqUnique(init, r);
        UniqStep(a);
        assert Uniq(a) == Uniq(init);
      } else {
        NewLast(a, r);
        var rest := r[..|r| - 1];
        assert JsValue.Distinct(rest);
        UniqUnique(init, rest);
        UniqStep(a);
        assert Uniq(a) == rest + [a[n]];
        SplitLast(r);
        assert r == rest + [a[n]];
      }
    }
  }

  lemma {:induction false} HeadIn<T>(r: seq<T>)
    ensures |r| > 0 ==> r[0] in r
  {
  }

  lemma {:induction false} SplitLast<T>(r: seq<T>)
    requires |r| > 0
    ensures r == r[..|r| - 1] + [r[|r| - 1]]
  {
  }

  /** One more element is added exactly when it did not occur before. */
  lemma {:induction false} UniqStep<T>(a: seq<T>)
    requires |a| > 0
    ensures a[|a| - 1] in a[..|a| - 1] ==> Uniq(a) == Uniq(a[..|a| - 1])
    ensures a[|a| - 1] !in a[..|a| - 1] ==> Uniq(a) == Uniq(a[..|a| - 1]) + [a[|a| - 1]]
  {
    var n := |a| - 1;
    var u := Uniq(a[..n]);
    if a[n] in a[..n] {
      var i :| 0 <= i < n && a[..n][i] == a[n];
      assert a[n] in u;
    }
  }

  /** When the last element of `a` already occurred, `r` also describes the
      prefix. */
  lemma {:induction false} RepeatedLast<T>(a: seq<T>, r: seq<T>)
    requires |a| > 0 && a[|a| - 1] in a[..|a| - 1]
    requires SameElements(r, a) && InFirstOrder(r, a)
    ensures SameElements(r, a[..|a| - 1]) && InFirstOrder(r, a[..|a| - 1])
  {
    var n := |a| - 1;
    var init := a[..n];
    forall x ensures x in r <==> x in init {
      assert x in a <==> x in init || x == a[n];
    }
    forall i, j | 0 <= i < j < |r| ensures r[i] in init && r[j] in init && FirstIndex(init, r[i]) < FirstIndex(init, r[j]) {
      FirstIndexPrefix(a, n, r[i]);
      FirstIndexPrefix(a, n, r[j]);
    }
  }

  /** When the last element of `a` is new, it comes last in `r`, and the rest
      of `r` describes the prefix. */
  lemma {:induction false} NewLast<T>(a: seq<T>, r: seq<T>)
    requires |a| > 0 && a[|a| - 1] !in a[..|a| - 1]
    requires SameElements(r, a) && InFirstOrder(r, a)
    ensures |r| > 0 && r[|r| - 1] == a[|a| - 1]
    ensures SameElements(r[..|r| - 1], a[..|a| - 1]) && InFirstOrder(r[..|r| - 1], a[..|a| - 1])
  {
    var n := |a| - 1;
    var init := a[..n];
    assert a[n] in r;
    var m := |r| - 1;
    var rest := r[..m];
    assert FirstIndex(a, a[n]) == n;
    forall i | 0 <= i < m ensures r[i] != a[n] {
      assert FirstIndex(a, r[i]) < FirstIndex(a, r[m]) < |a|;
    }
    assert r[m] == a[n];
    forall x ensures x in rest <==> x in init {
      assert x in a <==> x in init || x == a[n];
      assert x in r <==> x in rest || x == r[m];
    }
    forall i, j | 0 <= i < j < |rest| ensures rest[i] in init && rest[j] in init && FirstIndex(init, rest[i]) < FirstIndex(init, rest[j]) {
      FirstIndexPrefix(a, n, rest[i]);
      FirstIndexPrefix(a, n, rest[j]);
    }
  }

  /** Removing repeats and filtering commute: the filter keeps or drops every
      occurrence of an element alike. */
  lemma {:induction false} UniqKeep<T>(a: seq<T>, p: T -> bool)
    ensures Uniq(Seqs.Keep(a, p)) == Seqs.Keep(Uniq(a), p)
    decreases |a|, 1
  {
    if |a| > 0 {
      UniqKeepStep(a, p);
    }
  }

  /** The inductive step of `UniqKeep`: one more element at the end. */
  lemma {:induction false} UniqKeepStep<T>(a: seq<T>, p: T -> bool)
    requires |a| > 0
    ensures Uniq(Seqs.Keep(a, p)) == Seqs.Keep(Uniq(a), p)
    decreases |a|, 0
  {
    var n := |a| - 1;
    UniqKeep(a[..n], p);
    var init := a[..n];
    var x := a[n];
    var k := Seqs.Keep(init, p);
    var u := Uniq(init);
    KeepLast(a, p);
    UniqStep(a);
    if !p(x) {
      assert Seqs.Keep(a, p) == k;
      if x !in init {
        Seqs.KeepAppend(u, [x], p);
        assert Seqs.Keep([x], p) == [];
      }
    } else {
      assert Seqs.Keep(a, p) == k + [x];
      Seqs.KeepMembers(init, p);
      assert (k + [x])[..|k|] == k;
      UniqStep(k + [x]);
      if x !in init {
        Seqs.KeepAppend(u, [x], p);
        assert Seqs.Keep([x], p) == [x];
      }
    }
  }

  lemma {:induction false} KeepLast<T>(a: seq<T>, p: T -> bool)
    requires |a| > 0
    ensures Seqs.Keep(a, p) == Seqs.Keep(a[..|a| - 1], p) + (if p(a[|a| - 1]) then [a[|a| - 1]] else [])
  {
    Seqs.KeepSnoc(a, |a| - 1, p);
    assert a[..|a|] == a;
  }

  /** A subsequence of a list in first-occurrence order is in that order too. */
  lemma {:induction false} SubseqOrder<T>(s: seq<T>, t: seq<T>, a: seq<T>)
    requires Seqs.Subseq(s, t) && InFirstOrder(t, a)
    ensures InFirstOrder(s, a)
    decreases |t|
  {
    if |s| > 0 {
      if s[0] == t[0] {
        SubseqOrder(s[1..], t[1..], a);
        Seqs.SubseqMembers(s[1..], t[1..]);
        forall j | 0 < j < |s| ensures s[0] in a && s[j] in a && FirstIndex(a, s[0]) < FirstIndex(a, s[j]) {
          assert s[j] in s[1..];
          var k :| 0 <= k < |t[1..]| && t[1..][k] == s[j];
          assert t[k + 1] == s[j];
        }
      } else {
        SubseqOrder(s, t[1..], a);
      }
    }
  }

  /** `uniq([1, '1'])` keeps both: a number and a string are never the same. */
  lemma {:induction false} NumberAndStringStayApart()
    ensures Uniq([JsValue.NumOf(1), JsValue.Str("1")]) == [JsValue.NumOf(1), JsValue.Str("1")]
  {
    var a := [JsValue.NumOf(1), JsValue.Str("1")];
    assert a[..1] == [JsValue.NumOf(1)];
    assert a[..1][..0] == [];
  }
}

=== FILE: wrappers.dfy ===
/** Failure-carrying results used across the model. */
module Wrappers {

  /** An optional value: a missing key, an absent entry. */
  datatype Option<+T> = None | Some(value: T)

  /** The two exceptions the modelled code can raise. */
  datatype JsError =
    | TypeError(message: string)
    | RangeError(message: string)

  /** A value, or the exception the source would throw instead. */
  datatype Result<+T> = Ok(value: T) | Err(error: JsError)

  /** A check that either passes or throws; carries no value. */
  datatype Outcome = Pass | Fail(error: JsError)
}
